=== FILE: README.md ===
# BIOME core, modelled in Dafny

BIOME is a desktop and web application for tracking image-analysis projects.
A React front end talks to an Express + SQLite backend. In the desktop build a
Tauri shell starts and supervises that backend as a Node.js child process.
This project models the deterministic core of that system as pure Dafny functions
over immutable data and proves what it promises:

- the Tauri shell's backend supervisor: the child-process slot, start, stop,
  window close, the start-up candidate search and the health probes;
- the front end's backend launcher: port choice, backend path, start retries,
  stop and the readiness wait;
- the data logic of the Express routes:
  - the README resource section;
  - upload naming;
  - CSV export;
  - change detection on update, for both the current and the bundled copy;
  - resource validate, search and relink;
  - database path and import;
- the React helpers and services:
  - line diff, status names and project checks;
  - the creation wizard;
  - analytics, dashboard and landing statistics;
  - table and list sorting and filtering;
  - user and group sorting;
  - quick-action tables and group top lists;
  - the diagnostics log;
  - environment detection;
  - backup scheduling;
  - the API client's URL, retry and payload cleaning;
  - the theme;
  - time formatting;
  - the build step that reads the changelog.

Everything that touches the outside world is a parameter of the function that
needs it:
- processes, `curl` probes, file existence, `fetch`, local storage, the clock;
- date parsing and `JSON.parse` outcomes.

Each command or request is one atomic step.

Shared foundations:
- `Js`: JavaScript values, truthiness, `String()`, `parseInt`, rounding.
- `Strings`: trimming, searching, splitting, case.
- `Seqs`: filters, counts, tallies.
- `Sorting`: a stable insertion sort.
- `JsonArray`: `JSON.stringify`/`JSON.parse` of string arrays.

All paths in the table below are relative to the repository root.

## Model

| member | source | states |
|---|---|---|
| Supervisor.ResolveNode | projet-analyse-image-frontend/src-tauri/src/main.rs:932-960 | the runtime is the first existing path of the six fixed candidates, in order, and the literal `node.exe` when none exists |
| Supervisor.ResolveBackendDir | projet-analyse-image-frontend/src-tauri/src/main.rs:869-903 | `resources/backend` when it holds `src/server.js`, else the first of the other three locations that does, else `resources/backend` anyway |
| Supervisor.CheckBackendStatus | projet-analyse-image-frontend/src-tauri/src/main.rs:39-68 | always Ok on port 3001; "running" iff the untrimmed probe output is exactly "200", "unreachable" iff the probe could not run, "not_responding" for any other output |
| Supervisor.RunningImpliesReused | projet-analyse-image-frontend/src-tauri/src/main.rs:978-990 | a backend the status command calls running is also reused by start-up |
| Supervisor.TrailingNewlineDisagreement | projet-analyse-image-frontend/src-tauri/src/main.rs:978-990 | output "200\n" is reused at start-up (trimmed) but reported not responding by the status command (untrimmed) |
| Supervisor.Install | projet-analyse-image-frontend/src-tauri/src/main.rs:774-781 | storing a new child puts a fresh handle in the slot and adds it to the running children, whatever the slot held |
| Supervisor.StartBackendServer | projet-analyse-image-frontend/src-tauri/src/main.rs:724-786 | a missing `src/server.js` gives "Backend server.js not found at: …" with the slot untouched; a spawn failure is an error with the world unchanged; success stores the new child and returns the requested port |
| Supervisor.StopBackendServer | projet-analyse-image-frontend/src-tauri/src/main.rs:788-803 | the slot is always empty afterwards; an empty slot gives Ok and no change; the result is Err only when the kill fails, and only a successful kill ends the child |
| Supervisor.WindowClose | projet-analyse-image-frontend/src-tauri/src/main.rs:812-821 | the slot is always empty afterwards, and a kill error is ignored |
| Supervisor.StartOverRunningChildOrphansIt | projet-analyse-image-frontend/src-tauri/src/main.rs:774-781 | starting while a live child sits in the slot overwrites it, leaving a running child nobody holds |
| Supervisor.StepPreserves | projet-analyse-image-frontend/src-tauri/src/main.rs:724-821 | every command keeps handle numbering fresh; a guarded command keeps "no orphaned child" |
| Supervisor.FailedStopOrphansChild | projet-analyse-image-frontend/src-tauri/src/main.rs:788-803 | a stop whose kill fails has already emptied the slot, so the child still runs unheld |
| Supervisor.GuardedRunHasNoOrphans | projet-analyse-image-frontend/src-tauri/src/main.rs:724-821 | any sequence of guarded start/stop/close commands, with any spawn and kill outcomes, never orphans a child |
| Supervisor.RetryAfterNotReadyOrphansChild | projet-analyse-image-frontend/src/services/backendLauncher.js:296-328 | the launcher's retry after a spawned child failed the readiness poll starts again over the live child: that start is not guarded, and the first child keeps running unheld |
| Supervisor.Setup | projet-analyse-image-frontend/src-tauri/src/main.rs:822-1138 | debug builds skip the backend; release builds stop without `server.js`, reuse a backend whose trimmed probe says "200" and leave the slot empty, and otherwise spawn `node server.js` in the backend folder on port 3001; only a successful spawn stores the child, and a failed one leaves the world unchanged and carries on frontend-only |
| Launcher.FindAvailablePort | projet-analyse-image-frontend/src/services/backendLauncher.js:219-238 | the first port of 3001..3010 reported free, with errors counted as busy, and 3001 when none is free |
| Launcher.PortWithoutPortCommand | projet-analyse-image-frontend/src/services/backendLauncher.js:219-238 | with no `check_port_available` command in the shell every check fails, so the port is always 3001 |
| Launcher.FindBackendPath | projet-analyse-image-frontend/src/services/backendLauncher.js:241-288 | production gives `./resources/backend`; development gives the first existing candidate in order, else `../backend` |
| Launcher.StartFrom | projet-analyse-image-frontend/src/services/backendLauncher.js:290-333 | a started launcher returns true with no start command; otherwise at most 1 + remaining retries commands, success sets started and resets the counter, failure leaves the counter at 3 and throws "Failed to start backend server after 3 attempts: " followed by the last attempt's `error.message` |
| Launcher.FreshStartIsBounded | projet-analyse-image-frontend/src/services/backendLauncher.js:324-331 | a fresh launcher issues at most 1 + maxRetries (4) start commands before throwing |
| Launcher.RejectedStartReportsUndefined | projet-analyse-image-frontend/src/services/backendLauncher.js:327 | when the last start command is rejected by the shell, the final error ends in "undefined", because the shell's error is a bare string without `message` |
| Launcher.RetryCounterNotReset | projet-analyse-image-frontend/src/services/backendLauncher.js:324-331 | after a final failure the counter stays at its maximum, so the next start tries once and throws |
| Launcher.StopServer | projet-analyse-image-frontend/src/services/backendLauncher.js:335-370 | a stopped launcher is left alone; Docker mode clears `isStarted` without the stop command; otherwise the command is issued and `isStarted` stays set only if it failed; it never throws |
| Launcher.WaitForServer | projet-analyse-image-frontend/src/services/backendLauncher.js:372-394 | true iff some poll before the timeout was healthy (the first healthy one ends the wait); false only once the timeout has elapsed with every poll unhealthy |
| ReadmeResources.ResourceLines | backend/src/routes/projects.js:590-606 | one line per resource, in order, each ` - reference/<file>` with ` — <caption>` only when the caption is non-empty |
| ReadmeResources.SectionLines | backend/src/routes/projects.js:588-606 | the block lines are the start marker, then the images' group, then the group of every other resource; a non-empty group is its title, one line per resource in list order, and a blank line, and an empty group adds nothing |
| ReadmeResources.SectionListsEachResource | backend/src/routes/projects.js:586-606 | every resource is listed, and the "Images:" ("Documents:") title appears exactly when some resource is (is not) an image |
| ReadmeResources.Splice | backend/src/routes/projects.js:610-618 | when both markers exist with the end marker after the start marker, the text before the start marker and after the end marker is kept verbatim and only the block is replaced; otherwise the new text is the content with trailing whitespace removed, a line break and the block |
| ReadmeResources.SectionShape | backend/src/routes/projects.js:588-607 | the generated block starts with the start marker and ends with the end marker |
| ReadmeResources.RespliceWithBlock | backend/src/routes/projects.js:610-618 | rewriting a README that already holds a block, once and then again, equals rewriting it once with the second block |
| ReadmeResources.RespliceWithoutMarkers | backend/src/routes/projects.js:610-618 | a README without markers gets the block appended, and a second rewrite replaces exactly that appended block |
| ReadmeResources.StrayEndMarkerAppendsAgain | backend/src/routes/projects.js:610-618 | a README holding only an end marker is never recognised as holding a block, so every rewrite appends another block |
| Uploads.Classify | backend/src/routes/projects.js:478-492 | an upload is an image iff its type is image/jpeg or image/png, a document iff its type is one of the four allowed document types, and skipped otherwise |
| Uploads.Sanitize | backend/src/routes/projects.js:494 | the name keeps its length, each of the nine characters Windows forbids in file names (backslash, slash, colon, asterisk, question mark, double quote, angle brackets, vertical bar) becomes `_`, and no forbidden character remains |
| Uploads.SanitizeIdempotent | backend/src/routes/projects.js:494 | sanitising an already sanitised name changes nothing |
| Uploads.Basename | backend/src/routes/projects.js:494 | the POSIX base name holds no slash |
| Uploads.BasenameOfJoin | backend/src/routes/projects.js:495-505 | the base name of a file joined under a directory is the file's own name |
| Uploads.Extname | backend/src/routes/projects.js:496 | the extension is empty or a suffix of the name starting at its last dot, and empty exactly when there is no dot, the only dot leads the name, or the name is `..` |
| Uploads.StemExtname | backend/src/routes/projects.js:496-497 | the stem (the name with its extension sliced off) followed by the extension gives back the name |
| Uploads.CandidateInjective | backend/src/routes/projects.js:499-503 | different counters give different `name (k)ext` candidates |
| Uploads.UniqueName | backend/src/routes/projects.js:495-505 | the probing loop's name is never taken: the sanitised name itself when free, else `name (k)ext` for the least k ≥ 1 that is free; and it equals `Chosen`, the recursive first-free search used as the reference |
| Uploads.SaveOne | backend/src/routes/projects.js:484-512 | a file is stored iff its type is accepted, with the kind its type gives and its own original name and type, under `Chosen` of its sanitised base name: that name when free in the directory, else the first free `stem (k)ext` |
| Uploads.SaveAll | backend/src/routes/projects.js:483-513 | one row per accepted file, no name already taken or repeated within the request, every kind matching its type, no forbidden character in any stored name; and row i carries the i-th accepted upload's original name and type, stored under the name chosen against the names taken before the request plus those of rows 0..i-1 |
| CsvExport.Escape | backend/src/routes/projects.js:153 | doubling the quotes never shortens a text |
| CsvExport.CellText | backend/src/routes/projects.js:153 | a falsy value is written as the empty text and a string as itself |
| CsvExport.Cells | backend/src/routes/projects.js:145-153 | every row has exactly seven cells, the date first and the changed-fields text last |
| CsvExport.EscapeRead | backend/src/routes/projects.js:153 | an escaped cell body followed by its closing quote reads back as the original text |
| CsvExport.RowRoundTrip | backend/src/routes/projects.js:145-153 | a row of quoted, quote-doubled cells joined by commas reads back as exactly its cells, whatever they contain |
| CsvExport.LineRoundTrip | backend/src/routes/projects.js:145-155 | every exported line ends in a line break and its cells read back as the activity's seven texts |
| CsvExport.Export | backend/src/routes/projects.js:105-157 | the export starts with the header line |
| CsvExport.ExportSnoc | backend/src/routes/projects.js:108-156 | one more activity appends exactly its own line, so the lines follow the query order |
| CsvExport.JournalDetail | backend/src/routes/projects.js:306 | a text of at most 100 characters is kept whole; a longer one keeps its first 100 characters followed by `...` |
| CsvExport.DetailForgetsTail | backend/src/routes/projects.js:306 | two long entries that agree on their first 100 characters get the same activity detail |
| CsvExport.PostJournal | backend/src/routes/projects.js:288-308 | a falsy entry is rejected with 400 "Entry text is required"; a non-empty string is recorded with its shortened detail |
| ProjectUpdates.Allowed | projet-analyse-image-frontend/src-tauri/resources/backend/src/routes/projects.js:469-476 | the bundled copy's allow-list lacks `output_type`, which the current copy's list has |
| ProjectUpdates.StringOrNull | backend/src/routes/projects.js:920-921 | only `null` compares as null; every other value compares by its String form |
| ProjectUpdates.ChangesMember | backend/src/routes/projects.js:898-926 | a change is recorded exactly for each field whose old and new values differ, holding its before and after values |
| ProjectUpdates.ChangesEmpty | backend/src/routes/projects.js:898-926 | no change is recorded exactly when no field differs |
| ProjectUpdates.ChangesOfAppend | backend/src/routes/projects.js:898-926 | the changes of two runs of fields are the changes of the first followed by those of the second |
| ProjectUpdates.SpaceBeforeCapitals | backend/src/routes/projects.js:949-951 | the text never shrinks, and text without capitals is unchanged |
| ProjectUpdates.SpaceBeforeCapital | backend/src/routes/projects.js:949-951 | a single capital letter gains a space in front of it; any other single character is kept as it is |
| ProjectUpdates.SpaceBeforeCapitalsAppend | backend/src/routes/projects.js:949-951 | the replacement works character by character: it distributes over concatenation, so together with SpaceBeforeCapital it puts a space before each capital and leaves every other character in place |
| ProjectUpdates.DetailNames | backend/src/routes/projects.js:947-951 | one detail name per recorded change, in order |
| ProjectUpdates.DetailNameOfColumn | backend/src/routes/projects.js:949-951 | a lower-case snake_case column is named in the details exactly as it is spelt |
| ProjectUpdates.Apply | backend/src/routes/projects.js:928-941 | after the update every written field holds its new value and every other column is unchanged |
| ProjectUpdates.FieldsMember | backend/src/routes/projects.js:897 | a field is written exactly when it is in the body and on the copy's allow-list |
| ProjectUpdates.FieldsKeyed | backend/src/routes/projects.js:897 | the written fields keep the body's distinct keys |
| ProjectUpdates.ChangesIffSomeChange | backend/src/routes/projects.js:945-964 | an activity's change list is empty exactly when no allow-listed field differs from the stored row |
| ProjectUpdates.Put | backend/src/routes/projects.js:868-966 | an unknown id is not found; with no allow-listed field nothing is written; otherwise the allow-listed fields and `last_updated` are written, and an activity is recorded iff some field changed |
| ProjectUpdates.OutputTypeOnlyInCurrent | projet-analyse-image-frontend/src-tauri/resources/backend/src/routes/projects.js:469-476 | an `output_type` update is neither stored nor reported by the bundled copy, while the current copy stores it |
| ProjectUpdates.NumberAsTextIsNoChange | backend/src/routes/projects.js:918-921 | a number rewritten as its decimal text is not a change |
| ProjectUpdates.EmptyPathIsNoChange | backend/src/routes/projects.js:902-908 | clearing an absent project path is not a change: empty, null and undefined all compare as null |
| ProjectUpdates.UnchangedUpdateStampsOnly | backend/src/routes/projects.js:939-963 | an update that changes nothing still stamps `last_updated` but records no activity |
| ProjectUpdates.RecordedChangesExport | backend/src/routes/projects.js:108-140 | the recorded changes render in the CSV export without a parse error, one line per change |
| ProjectUpdates.Minutes | backend/src/routes/projects.js:203 | a number keeps its value; text that does not parse gives 0 |
| ProjectUpdates.MinutesOfText | backend/src/routes/projects.js:203 | text that begins with a printed whole number reads as that number whatever follows it ("90 min" is 90) |
| ProjectUpdates.Columns | backend/src/routes/projects.js:190-213 | one inserted value per column, in column order |
| ProjectUpdates.Create | backend/src/routes/projects.js:166-213 | a falsy name is rejected with 400 before any write; otherwise the inserted columns are the copy's column list; a truthy body value is inserted as it is, a falsy one becomes that column's default, and the minutes column is the body's value read by `parseInt`, or 0 when that fails or gives 0 |
| ProjectUpdates.CreateWritesTheUpdateColumns | projet-analyse-image-frontend/src-tauri/resources/backend/src/routes/projects.js:162-200 | a project is created with exactly the columns an update may write, so the bundled copy never inserts `output_type` |
| ResourcesRoute.CheckAll | backend/src/routes/resources.js:44-47 | each resource is paired with its expected location `project_path/reference/filename`, in order |
| ResourcesRoute.Partition | backend/src/routes/resources.js:41-61 | the missing list is, in order, exactly the checked resources whose expected file does not exist, and the valid list exactly those whose file exists |
| ResourcesRoute.PartitionSplits | backend/src/routes/resources.js:41-61 | the two lists together hold every checked resource exactly once (their sizes add up to the total), none of the missing ones exists and all of the valid ones do |
| ResourcesRoute.Validate | backend/src/routes/resources.js:20-68 | a missing project id gives 400, an unknown project 404, and a project without a path 400, all before any scan; otherwise the report covers all resources |
| ResourcesRoute.ValidateReportsEachOnce | backend/src/routes/resources.js:41-68 | each resource is reported exactly once, in the list its file's existence decides |
| ResourcesRoute.FindFiles | backend/src/routes/resources.js:108-131 | nothing is found beyond depth 3 or in an unreadable directory, and never more files than the tree holds |
| ResourcesRoute.ShallowTreeFullyScanned | backend/src/routes/resources.js:108-131 | a readable tree that fits within the depth limit is scanned completely |
| ResourcesRoute.DeepFileNotFound | backend/src/routes/resources.js:108-109 | a file five directory levels below the search root is never found |
| ResourcesRoute.MatchOne | backend/src/routes/resources.js:135-147 | a resource is matched iff some found file carries its stored or its original name; the match is the first such file, with high confidence iff that file's name is the stored name |
| ResourcesRoute.MatchAll | backend/src/routes/resources.js:135-148 | at most one match per missing resource, each being that resource's own first match |
| ResourcesRoute.MatchAllOne | backend/src/routes/resources.js:135-148 | one missing resource yields its own match if it has one, and nothing otherwise |
| ResourcesRoute.MatchAllAppend | backend/src/routes/resources.js:135-148 | matches come out in the order of the missing resources: matching a concatenation concatenates the matches |
| ResourcesRoute.MatchAllComplete | backend/src/routes/resources.js:135-148 | no missing resource that has a match is dropped |
| ResourcesRoute.Missing | backend/src/routes/resources.js:96-99 | the missing resources are exactly those whose file is not at `<project path>/reference/<filename>` |
| ResourcesRoute.MissingInOrder | backend/src/routes/resources.js:96-99 | the missing list keeps the order of the resource rows: it distributes over concatenation, and one row contributes itself exactly when its file is gone |
| ResourcesRoute.Search | backend/src/routes/resources.js:81-154 | a missing id or path gives 400 and an absent search path 404. With resources but no project path the request fails with a TypeError. Otherwise the answer is the matches of the missing resources against the files found below the search path, an empty list when nothing is missing; never more matches than resources |
| ResourcesRoute.EarlierOriginalNameWins | backend/src/routes/resources.js:137-144 | an earlier file carrying the original name wins over a later one carrying the stored name, with only medium confidence |
| ResourcesRoute.RelinkOne | backend/src/routes/resources.js:188-220 | an unknown resource gives "Resource not found" and an existing target "Target file already exists", changing no file; otherwise a move renames and any other action copies |
| ResourcesRoute.RelinkAll | backend/src/routes/resources.js:188-221 | one result per operation in input order, and a file disappears only when some move took it |
| ResourcesRoute.Relink | backend/src/routes/resources.js:173-228 | a missing id or operations list gives 400 "Invalid request format"; otherwise one result per operation, in order |
| ResourcesRoute.SecondRelinkFails | backend/src/routes/resources.js:202-206 | relinking the same resource a second time finds its own target and fails |
| Database.DatabasePath | backend/src/database/db.js:17-39 | `DATABASE_PATH` wins, then `TAURI_APP_DATA/biamanger/database.sqlite`, then the production per-user folder, then `../../data/database.sqlite` |
| Database.ExplicitPathWins | backend/src/database/db.js:17-21 | a set `DATABASE_PATH` decides the path whatever else is set |
| Database.TauriFolderIgnoresTheRest | backend/src/database/db.js:23-26 | once a Tauri data folder is given, the platform, home folder and build mode no longer matter |
| Database.ProductionFolderByPlatform | backend/src/database/db.js:29-34 | the production folder ends in `AppData/Local/biamanger` on win32 and in `.biamanger` elsewhere |
| Database.Connect | backend/src/database/db.js:40-73 | schema and demo data are initialised exactly when the file did not exist before connecting; an existing file is kept as it was |
| Database.InitialiseOnlyOnce | backend/src/database/db.js:45-65 | a second connection never initialises again |
| Database.VerifyTables | backend/src/database/db.js:76-86 | true iff all five tables exist; otherwise the error names the first missing table in list order |
| Database.FirstMissing | backend/src/database/db.js:78-84 | the first table of the list that is missing is named, and none before it is missing |
| Database.MissingActivityTable | backend/src/database/db.js:76-86 | a database lacking only `project_activities` is reported for that table |
| Database.Import | backend/src/database/db.js:188-245 | the temporary file never remains; a failed or invalid upload is rejected, leaves the old file in place and leaves the database disconnected; a valid one replaces the file and reconnects |
| Database.ImportIsNotReinitialised | backend/src/database/db.js:226-234 | an imported database is used as it is: reconnecting to it does not re-initialise it |
| Database.RejectedImportLeavesDisconnected | backend/src/database/db.js:214-222 | a file that is not SQLite leaves the previous database file untouched but no open connection |
| StatusNames.Legacy | projet-analyse-image-frontend/src/components/ProjectDetails.js:526-534 | only the seven legacy names are mapped, and each maps to one of Preparing, Active, Review, Completed |
| StatusNames.CurrentNamesAreNotLegacy | projet-analyse-image-frontend/src/components/ProjectDetails.js:526-534 | the names the map produces are not themselves legacy names |
| StatusNames.MapStatus | projet-analyse-image-frontend/src/components/ProjectDetails.js:525-536 | a legacy name maps to its current name, a falsy status to 'Preparing', and anything else passes through; the result is never falsy |
| StatusNames.MapStatusIdempotent | projet-analyse-image-frontend/src/components/ProjectDetails.js:525-536 | mapping a status twice gives the same as mapping it once |
| StatusNames.MappedIsCurrent | projet-analyse-image-frontend/src/components/ProjectDetails.js:525-536 | a mapped status is never a legacy name |
| StatusNames.CountedStatus | projet-analyse-image-frontend/src/components/Analytics.js:386-397 | the analytics count keys a falsy status as 'Unknown' and maps every other status like the details view |
| StatusNames.StatusClass | projet-analyse-image-frontend/src/components/ProjectList.js:91-96 | the badge class is `status-badge status-` followed by the mapped status with its spaces turned into dashes |
| StatusNames.LegacyNameSharesBadge | projet-analyse-image-frontend/src/components/ProjectDetails.js:538-543 | a legacy name gets the badge of the name it maps to |
| StatusNames.InProgressSpellingsShareBadge | projet-analyse-image-frontend/src/components/ProjectDetails.js:538-543 | both "In Progress" and "In-Progress" get `status-badge status-Active` |
| StatusNames.LegacyBadge | projet-analyse-image-frontend/src/components/ProjectDetails.js:538-543 | a legacy name whose current name has no space gets the badge prefix followed by that current name, unchanged |
| StatusNames.PlainNameBadge | projet-analyse-image-frontend/src/components/ProjectDetails.js:538-543 | a current (non-legacy) name without spaces gets the badge prefix followed by the name itself |
| ProjectDetails.SplitLines | projet-analyse-image-frontend/src/components/ProjectDetails.js:671-672 | a text splits into at least one line, none holding a line feed |
| ProjectDetails.SplitLinesJoin | projet-analyse-image-frontend/src/components/ProjectDetails.js:671-672 | a text without carriage returns is its lines joined by line feeds |
| ProjectDetails.Classify | projet-analyse-image-frontend/src/components/ProjectDetails.js:678-681 | 'same' iff the lines are equal, 'removed' iff only the left is non-empty, 'added' iff only the right is non-empty, otherwise 'changed' |
| ProjectDetails.CompareLines | projet-analyse-image-frontend/src/components/ProjectDetails.js:678-681 | the loop body's if-chain on one pair of lines gives the entry `Classify` describes, holding both lines |
| ProjectDetails.LineDiff | projet-analyse-image-frontend/src/components/ProjectDetails.js:670-684 | one entry per line position up to the longer text, each side holding its own line or the empty text past its end, classified as above |
| ProjectDetails.ComputeLineDiff | projet-analyse-image-frontend/src/components/ProjectDetails.js:670-684 | the loop builds exactly the line-by-line diff |
| ProjectDetails.SelfDiffIsSame | projet-analyse-image-frontend/src/components/ProjectDetails.js:678 | a text compared with itself yields only 'same' entries |
| ProjectDetails.NoChangeIff | projet-analyse-image-frontend/src/components/ProjectDetails.js:670-684 | the diff shows no change exactly when the texts agree line by line, a missing line counting as empty |
| ProjectDetails.TrailingLineBreakInvisible | projet-analyse-image-frontend/src/components/ProjectDetails.js:670-684 | "x" against "x\n" gives two entries, both 'same': a trailing line break is invisible |
| ProjectDetails.NonBlankString | projet-analyse-image-frontend/src/components/ProjectDetails.js:414 | a string field counts as present exactly when it holds a non-space character |
| ProjectDetails.NonBlankNumber | projet-analyse-image-frontend/src/components/ProjectDetails.js:414-417 | a number field counts as present exactly when it is not zero |
| ProjectDetails.AdequateTextInfo | projet-analyse-image-frontend/src/components/ProjectDetails.js:406-428 | `HasAdequateInfo` (hasAdequateProjectInfo) fails without project data; for text fields it passes exactly when the name has a non-space character and is not 'New Project', and the software, the group name and the user name each have a non-space character |
| ProjectDetails.DescriptionNotRequired | projet-analyse-image-frontend/src/components/ProjectDetails.js:406-428 | changing the description never changes the folder check |
| ProjectDetails.NamesStandInForIds | projet-analyse-image-frontend/src/components/ProjectDetails.js:419-425 | a group name and a user name are enough without their ids |
| ProjectDetails.PlaceholderNamesFail | projet-analyse-image-frontend/src/components/ProjectDetails.js:414 | the name 'New Project' and an all-space name fail the check whatever else is filled in |
| ProjectDetails.TimeBand | projet-analyse-image-frontend/src/components/ProjectDetails.js:213-219 | 48 hours or more is the limit band, 36 or more the high band, 24 or more the middle band, else below; a value that is not a number is below |
| ProjectDetails.TimeBandMonotone | projet-analyse-image-frontend/src/components/ProjectDetails.js:213-219 | more minutes never give a lower band |
| ProjectDetails.TimeSpentColor | projet-analyse-image-frontend/src/components/ProjectDetails.js:213-219 | red exactly at the limit band and green exactly below the lowest threshold |
| ProjectDetails.TimeSpentBarColor | projet-analyse-image-frontend/src/components/ProjectDetails.js:221-227 | the bar uses the same bands as the text, red at the limit and green below |
| ProjectDetails.NoTimeIsGreen | projet-analyse-image-frontend/src/components/ProjectDetails.js:213-219 | a project with no recorded time shows green |
| ProjectDetails.Decrease | projet-analyse-image-frontend/src/components/ProjectDetails.js:2433-2443 | the −15m/−1h buttons never go below 0 and subtract the step when there is room |
| ProjectDetails.Increase | projet-analyse-image-frontend/src/components/ProjectDetails.js:2453-2463 | the +1h/+15m buttons never go above 2880 and add the step when there is room |
| ProjectDetails.ButtonsKeepRange | projet-analyse-image-frontend/src/components/ProjectDetails.js:2428-2470 | from a number in [0, 2880] every button keeps the time in [0, 2880] |
| ProjectDetails.TextTimeConcatenates | projet-analyse-image-frontend/src/components/ProjectDetails.js:2453-2463 | a time held as the text "10" becomes 1015 after +15m, because `+` concatenates |
| ProjectDetails.TrimAll | projet-analyse-image-frontend/src/components/ProjectDetails.js:108 | every piece is trimmed, in order |
| ProjectDetails.Pieces | projet-analyse-image-frontend/src/components/ProjectDetails.js:108 | the comma-separated fallback keeps every non-blank piece, trimmed, holds no empty text, and holds nothing but trimmed pieces of the text |
| ProjectDetails.PiecesInOrder | projet-analyse-image-frontend/src/components/ProjectDetails.js:108 | the fallback is exactly the non-blank comma pieces, each trimmed, in their order in the text |
| ProjectDetails.Selections | projet-analyse-image-frontend/src/components/ProjectDetails.js:101-112 | an array value is the selection itself; a falsy or non-text value gives none; a text that parses as a JSON array gives its items, and other non-empty text its trimmed non-empty comma pieces |
| ProjectDetails.Toggle | projet-analyse-image-frontend/src/components/ProjectDetails.js:116-120 | toggling an absent option appends it; toggling a present option removes all its occurrences and nothing else (the multiset of the result is that of the selection with the option's count set to zero) |
| ProjectDetails.StoredToggleReadsBack | projet-analyse-image-frontend/src/components/ProjectDetails.js:101-123 | a toggled selection stored as a JSON array reads back as itself |
| ProjectDetails.ToggleTwiceRestores | projet-analyse-image-frontend/src/components/ProjectDetails.js:101-123 | toggling a new option on and then off again, through storage, restores the selection |
| Wizard.Squeeze | projet-analyse-image-frontend/src/components/ProjectCreationWizard.js:281-283 | replacing every maximal run of a class by one character never lengthens a text, keeps it non-empty iff it was, and starts with the run's replacement or the first character |
| Wizard.SqueezeChars | projet-analyse-image-frontend/src/components/ProjectCreationWizard.js:281-283 | a squeezed text holds only the replacement character or characters of the input outside the class |
| Wizard.SqueezeNoAdjacent | projet-analyse-image-frontend/src/components/ProjectCreationWizard.js:283 | after collapsing, no two dashes (or underscores) stand side by side |
| Wizard.SqueezeSingleRuns | projet-analyse-image-frontend/src/components/ProjectCreationWizard.js:283 | collapsing a text whose runs are already single changes nothing |
| Wizard.TrimEdges | projet-analyse-image-frontend/src/components/ProjectCreationWizard.js:284 | stripping edge dashes and underscores keeps only input characters, leaves neither at either end, and creates no doubled dash |
| Wizard.Sanitize | projet-analyse-image-frontend/src/components/ProjectCreationWizard.js:277-285 | the sanitised text holds only `[A-Za-z0-9_-]`, no `--` run, and does not start or end with `-` or `_` |
| Wizard.SanitizeKeepsCleanNames | projet-analyse-image-frontend/src/components/ProjectCreationWizard.js:277-285 | a name that is already clean passes through unchanged |
| Wizard.SanitizeIdempotent | projet-analyse-image-frontend/src/components/ProjectCreationWizard.js:277-285 | sanitising twice is sanitising once |
| Wizard.Part | projet-analyse-image-frontend/src/components/ProjectCreationWizard.js:288-295 | each part has 1 to 20 characters: a prefix of the sanitised text, or the placeholder when that text is empty |
| Wizard.NameOf | projet-analyse-image-frontend/src/components/ProjectCreationWizard.js:273-274 | the name of the first entry whose id has the same String form, else the placeholder, and never falsy |
| Wizard.Pad2 | projet-analyse-image-frontend/src/components/ProjectCreationWizard.js:270 | a padded day or month is a run of at least two digits, exactly two below 100, whose decimal value is the number itself |
| Wizard.DatePart | projet-analyse-image-frontend/src/components/ProjectCreationWizard.js:270 | the date part holds only digits and dashes |
| Wizard.DatePartReadBack | projet-analyse-image-frontend/src/components/ProjectCreationWizard.js:270 | split on its dashes, the date part gives exactly three digit runs whose values are the year, the month and the day, month and day of two digits each |
| Wizard.NamedPart | projet-analyse-image-frontend/src/components/ProjectCreationWizard.js:291-295 | a folder part is the sanitised value cut to 20 characters, or its placeholder when the value sanitises to nothing |
| Wizard.Parts | projet-analyse-image-frontend/src/components/ProjectCreationWizard.js:288-295 | exactly three safe parts, in order: the part of the group named by `group_id` (else "Unknown-Group"), the part of the user named by `user_id` (else "Unknown-User"), and the part of the software field (else "Unknown-Software") |
| Wizard.PlaceholderPart | projet-analyse-image-frontend/src/components/ProjectCreationWizard.js:291-295 | a placeholder given as the value comes back as itself |
| Wizard.EmptySelectionsParts | projet-analyse-image-frontend/src/components/ProjectCreationWizard.js:273-295 | with nothing selected the parts are Unknown-Group, Unknown-User and Unknown-Software |
| Wizard.JoinFolder | projet-analyse-image-frontend/src/components/ProjectCreationWizard.js:297 | the folder is the date, an underscore and the parts joined by underscores, with no doubled underscore and only safe characters |
| Wizard.SuggestedFolder | projet-analyse-image-frontend/src/components/ProjectCreationWizard.js:268-298 | the folder name is `date_group_user_software`, contains no `__` and only `[A-Za-z0-9_-]` |
| Wizard.Blank | projet-analyse-image-frontend/src/components/ProjectCreationWizard.js:304-312 | a value is non-blank iff it is a string with a non-space character; `trim` on a truthy non-string throws |
| Wizard.Step1Errors | projet-analyse-image-frontend/src/components/ProjectCreationWizard.js:301-326 | the first step passes iff the name is non-blank and not 'New Project', description and software are non-blank, and group and user are set |
| Wizard.Step2Errors | projet-analyse-image-frontend/src/components/ProjectCreationWizard.js:328-337 | the second step passes iff the project path is non-blank; otherwise only `project_path` is reported |
| Wizard.UntouchedFormFlagsAll | projet-analyse-image-frontend/src/components/ProjectCreationWizard.js:301-326 | a form with the placeholder name, empty texts and no ids reports all five fields, in the order the checks run |
| Wizard.InitialFormFailsStep1 | projet-analyse-image-frontend/src/components/ProjectCreationWizard.js:152-167 | the wizard's initial form fails every check of the first step |
| Wizard.Step1GivesAdequateInfo | projet-analyse-image-frontend/src/components/ProjectCreationWizard.js:301-326 | a form that passes the first step, with ids that are not all spaces, also passes the details panel's folder check |
| Wizard.BlankIdPassesStep1 | projet-analyse-image-frontend/src/components/ProjectCreationWizard.js:318-323 | a white-space group id passes the first step although the details panel rejects it |
| Wizard.BuildPayload | projet-analyse-image-frontend/src/components/ProjectCreationWizard.js:340-356 | the payload has exactly the fifteen keys; truthy values are forwarded and the nullable keys default to null |
| Wizard.PayloadDefaults | projet-analyse-image-frontend/src/components/ProjectCreationWizard.js:340-356 | the time spent is always 0, the status defaults to 'Intake', the start date to today and folder_created to false |
| Wizard.InitialPayload | projet-analyse-image-frontend/src/components/ProjectCreationWizard.js:152-167 | the initial form becomes a draft in status 'Intake' with no software |
| Wizard.SaveDraft | projet-analyse-image-frontend/src/components/ProjectCreationWizard.js:359-375 | the first save creates, later saves update the same draft id; a failed save leaves the draft as it was |
| Wizard.SaveAll | projet-analyse-image-frontend/src/components/ProjectCreationWizard.js:359-375 | one call per save, all of them updates of the same draft once it exists |
| Wizard.CreateAtMostOnce | projet-analyse-image-frontend/src/components/ProjectCreationWizard.js:359-375 | once a create has succeeded, every later save is an update |
| Wizard.LaterCallsUpdate | projet-analyse-image-frontend/src/components/ProjectCreationWizard.js:359-375 | with a draft present, every save is an update |
| Wizard.Step | projet-analyse-image-frontend/src/components/ProjectCreationWizard.js:438-458 | the step stays in 1..3 and moves by at most one. An edit changes only that field. Back goes down one step, except at step 1. Next from a valid step 1 goes to step 2 with the saved row as the draft, but a failed save keeps step 1. Next from a valid step 2 goes to step 3. Next on an invalid step, or at step 3, changes nothing. Moving forward always needs Next and these conditions |
| Wizard.Run | projet-analyse-image-frontend/src/components/ProjectCreationWizard.js:1028-1045 | every sequence of edits, Next and Back presses keeps the step in 1..3 with a draft from step 2 on |
| Wizard.DraftKept | projet-analyse-image-frontend/src/components/ProjectCreationWizard.js:359-375 | once a draft exists no later event loses it |
| Wizard.BackAtStartStays | projet-analyse-image-frontend/src/components/ProjectCreationWizard.js:1028-1035 | Back presses at the first step leave the wizard where it is |
| Analytics.ApplyDateFilter | projet-analyse-image-frontend/src/components/Analytics.js:68-101 | with neither bound set, every project is shown and the view is not marked filtered; otherwise the view is marked filtered and holds exactly the projects created at or after the start and last active at or before the end of the end day, in list order |
| Analytics.DateFilterKeepsOrder | projet-analyse-image-frontend/src/components/Analytics.js:81-97 | filtering a concatenation gives the concatenation of the filtered parts, so the order is kept |
| Analytics.UnreadableEndDateHidesAll | projet-analyse-image-frontend/src/components/Analytics.js:76-96 | an end date that cannot be read hides every project |
| Analytics.UndatedProjectsHidden | projet-analyse-image-frontend/src/components/Analytics.js:81-83 | once a range is set, a project without a creation date is never shown |
| Analytics.NumberTextNotLegacy | projet-analyse-image-frontend/src/components/Analytics.js:386-397 | a text starting with a digit or a minus sign is not a legacy status name |
| Analytics.StatusKeyIsCurrent | projet-analyse-image-frontend/src/components/Analytics.js:386-397 | no status key is a legacy name: legacy names are always mapped first |
| Analytics.StatusKeys | projet-analyse-image-frontend/src/components/Analytics.js:385-398 | one status key per project, in order |
| Analytics.StatusCounts | projet-analyse-image-frontend/src/components/Analytics.js:383-399 | one entry per distinct status key, each count the number of projects with that key, and the counts add up to the number of filtered projects |
| Analytics.CompletionRate | projet-analyse-image-frontend/src/components/Analytics.js:730-733 | the rate is within [0, 100], is 0 for no projects, and is the share of projects whose raw status is 'Finished', rounded half up |
| Analytics.CompletedStatusNotCounted | projet-analyse-image-frontend/src/components/Analytics.js:730-733 | projects stored with the current name 'Completed' do not count as finished, so such a list has rate 0 |
| Analytics.SoftwareKeys | projet-analyse-image-frontend/src/components/Analytics.js:422-425 | each project is keyed by its software, or 'Not specified' |
| Analytics.SoftwareRanking | projet-analyse-image-frontend/src/components/Analytics.js:420-429 | the ranking is a permutation of the software counts, sorted by count, descending, and the counts add up to the number of projects |
| Analytics.TopWithOthers | projet-analyse-image-frontend/src/components/Analytics.js:431-444 | at most the top n entries plus 'Others', 'Others' only when the rest sums above 0, sorted by count within the top, and the total is preserved |
| Analytics.SoftwareChart | projet-analyse-image-frontend/src/components/Analytics.js:420-444 | the chart has the eight most used software names, then 'Others' when needed; its values add up to the number of projects |
| Analytics.OmittedRanksLower | projet-analyse-image-frontend/src/components/Analytics.js:428-437 | an entry left out of the top has a count no larger than any entry shown |
| Analytics.OmittedSoftwareRanksLower | projet-analyse-image-frontend/src/components/Analytics.js:428-437 | a software left out of the chart has no more projects than any software shown |
| Analytics.Bucket | projet-analyse-image-frontend/src/components/Analytics.js:758-763 | a value goes to the first range whose upper limit it does not exceed, or to the open last range |
| Analytics.BucketIff | projet-analyse-image-frontend/src/components/Analytics.js:803-808 | with increasing limits, range b holds exactly the values above limit b−1 and up to limit b |
| Analytics.BucketMonotone | projet-analyse-image-frontend/src/components/Analytics.js:803-808 | a larger value never lands in an earlier range |
| Analytics.TimeBucket | projet-analyse-image-frontend/src/components/Analytics.js:801-808 | there are six time ranges, and a time that is not a number goes to the last |
| Analytics.TimeBins | projet-analyse-image-frontend/src/components/Analytics.js:800-809 | one time range per project, in order |
| Analytics.TimeSpread | projet-analyse-image-frontend/src/components/Analytics.js:792-809 | six counts, each the number of projects in its range, adding up to the number of filtered projects |
| Analytics.TimeBucketIff | projet-analyse-image-frontend/src/components/Analytics.js:803-808 | a number of minutes lands in range b exactly when it lies between the hour limits around b |
| Analytics.UnreadableTimeIsLast | projet-analyse-image-frontend/src/components/Analytics.js:801-808 | a time held as non-numeric text lands in the last range |
| Analytics.Span | projet-analyse-image-frontend/src/components/Analytics.js:745-753 | only a positive span from creation to completion, or to now, counts |
| Analytics.Spanned | projet-analyse-image-frontend/src/components/Analytics.js:744-753 | exactly the projects with a positive span, taken from the list |
| Analytics.Durations | projet-analyse-image-frontend/src/components/Analytics.js:736-756 | one non-negative rounded day count per project with a positive span |
| Analytics.DurationBins | projet-analyse-image-frontend/src/components/Analytics.js:758-763 | one duration range per project with a positive span, in order |
| Analytics.DurationSpread | projet-analyse-image-frontend/src/components/Analytics.js:737-766 | six counts, each the number of durations in its range, adding up to the number of projects with a positive span |
| Analytics.ShortSpanCountsAsZeroDays | projet-analyse-image-frontend/src/components/Analytics.js:753-758 | a span under half a day rounds to 0 days but still counts, in the first range |
| Analytics.Category | projet-analyse-image-frontend/src/components/Analytics.js:878-885 | the category is one of the options or 'other', and it is 'other' whenever no option is equal to, contained in or containing the normalised selection |
| Analytics.CategoryIsFirstRelated | projet-analyse-image-frontend/src/components/Analytics.js:878-885 | an option related to the normalised selection with no related option before it is the category: the search is first match in list order |
| Analytics.FirstRelated | projet-analyse-image-frontend/src/components/Analytics.js:879-883 | the index of the first related option, with none related before it |
| Analytics.RawSelections | projet-analyse-image-frontend/src/components/Analytics.js:861-875 | a falsy value has no selections, a JSON array text gives its items, other text exactly `ProjectDetails.Pieces` of it (its trimmed non-empty comma pieces, as in the details page); a non-string value fails |
| Analytics.SelectionsAgree | projet-analyse-image-frontend/src/components/Analytics.js:861-875 | for a text or a falsy value, the analytics page reads the same selection list as the details page's `getCurrentSelections` |
| Analytics.ParseSelections | projet-analyse-image-frontend/src/components/Analytics.js:860-887 | one result per selection, in order, each a predefined option or 'other' |
| Analytics.StoredOptionsReadBack | projet-analyse-image-frontend/src/components/Analytics.js:860-887 | a stored JSON array of chosen options reads back as those very options |
| Analytics.ExactOptionMapsToItself | projet-analyse-image-frontend/src/components/Analytics.js:878-885 | a lower-case, trimmed option maps to itself when no earlier option is related to it |
| Analytics.BlankSelectionTakesFirstOption | projet-analyse-image-frontend/src/components/Analytics.js:878-885 | a blank selection is contained in every option, so it takes the first option rather than 'other' |
| ProjectStats.CountWhere | projet-analyse-image-frontend/src/components/Dashboard.js:336 | the count of projects passing a test is at most the number of projects, and is 0 exactly when none passes |
| ProjectStats.CountWhereImplies | projet-analyse-image-frontend/src/pages/LandingPage.js:288-289 | counting under a test that implies another never counts more; a group's completed projects are among its projects |
| ProjectStats.CountWhereDisjoint | projet-analyse-image-frontend/src/components/Dashboard.js:335-349 | counts under two tests no project passes together add up to the count under either |
| ProjectStats.DashboardPartition | projet-analyse-image-frontend/src/components/Dashboard.js:335-337 | every project is open on the dashboard, 'Completed' or 'On Hold', and exactly one of these |
| ProjectStats.DashboardActive | projet-analyse-image-frontend/src/components/Dashboard.js:335-337 | the dashboard's project count plus the completed and on-hold projects is the number of projects |
| ProjectStats.DashboardAverage | projet-analyse-image-frontend/src/components/Dashboard.js:339-343 | the average hours per project, in tenths, is the total of the times over every project, timeless ones as 0, divided by the number of projects and rounded half up; 0 for no projects |
| ProjectStats.DashboardAverageBounded | projet-analyse-image-frontend/src/components/Dashboard.js:339-343 | with every time between 0 and m minutes, the average lies between 0 and m minutes, to within rounding |
| ProjectStats.AverageBound | projet-analyse-image-frontend/src/components/Dashboard.js:342 | a rounded average of n values between 0 and m minutes, in tenths of an hour, lies between 0 and m/6 rounded up |
| ProjectStats.TotalMinutesBounded | projet-analyse-image-frontend/src/components/Dashboard.js:341 | the total time of n projects timed between 0 and m minutes lies between 0 and n·m |
| ProjectStats.DashboardCompletion | projet-analyse-image-frontend/src/components/Dashboard.js:345-349 | the completion rate lies in [0, 100], is 0 for no projects, and is the share of 'Completed' projects rounded half up |
| ProjectStats.AllCompleted | projet-analyse-image-frontend/src/components/Dashboard.js:335-349 | when every project is 'Completed' the rate is 100 and the open count 0 |
| ProjectStats.AllCounted | projet-analyse-image-frontend/src/components/Dashboard.js:336 | a test every project passes counts all of them |
| ProjectStats.LandingActive | projet-analyse-image-frontend/src/pages/LandingPage.js:235-237 | the landing page's project count plus the 'Finished' and on-hold projects is the number of projects |
| ProjectStats.LandingPartition | projet-analyse-image-frontend/src/pages/LandingPage.js:235-237 | every project is open on the landing page, 'Finished' or 'On Hold', and exactly one of these |
| ProjectStats.OpenCountsDisagree | projet-analyse-image-frontend/src/pages/LandingPage.js:235-237 | the two pages disagree on what is open: one 'Completed' project is open on the landing page only |
| ProjectStats.LandingAverage | projet-analyse-image-frontend/src/pages/LandingPage.js:240-250 | the landing average counts only projects with a positive time, is 0 when there are none, and otherwise is their total over their number, in tenths of an hour, rounded half up |
| ProjectStats.LandingAveragePositive | projet-analyse-image-frontend/src/pages/LandingPage.js:240-250 | the landing average is never negative |
| ProjectStats.TimedMinutesAtLeast | projet-analyse-image-frontend/src/pages/LandingPage.js:242-247 | the projects with a positive time have at least one minute each |
| ProjectStats.LandingCompletion | projet-analyse-image-frontend/src/pages/LandingPage.js:253-256 | the landing page's completion rate is the dashboard's, in [0, 100] |
| ProjectStats.GroupKeys | projet-analyse-image-frontend/src/pages/LandingPage.js:263 | each project is keyed by its group name, or 'No Group' when it has none |
| ProjectStats.NamedNoGroupMerges | projet-analyse-image-frontend/src/pages/LandingPage.js:263 | a group literally named 'No Group' shares its entry with the projects that have no group |
| ProjectStats.ProjectsByGroup | projet-analyse-image-frontend/src/pages/LandingPage.js:259-279 | one entry per group key that some project carries and no other, no key twice, each count the number of projects with that key, counts adding up to the number of projects |
| ProjectStats.GroupCountIsCount | projet-analyse-image-frontend/src/pages/LandingPage.js:266-269 | a group's entry counts exactly the projects in that group |
| ProjectStats.MinutesByGroup | projet-analyse-image-frontend/src/pages/LandingPage.js:272-275 | the minutes per group key have no key twice and exactly the keys that occur |
| ProjectStats.FindKey | projet-analyse-image-frontend/src/pages/LandingPage.js:272 | the position of a key in the ordered entries, or the end exactly when the key is absent |
| ProjectStats.AddMinutes | projet-analyse-image-frontend/src/pages/LandingPage.js:272-275 | adding minutes to a key adds them to its entry, or appends a new entry at the end when it is absent; no other entry changes |
| ProjectStats.Keys | projet-analyse-image-frontend/src/pages/LandingPage.js:278 | the keys of the entries, in order |
| ProjectStats.MinutesByGroupKeys | projet-analyse-image-frontend/src/pages/LandingPage.js:259-279 | the time entries list their keys in the same order as the project count entries |
| ProjectStats.TallyKeysBump | projet-analyse-image-frontend/src/pages/LandingPage.js:266-269 | counting one more project keeps the key order, appending a new key at the end |
| ProjectStats.MinutesByGroupSums | projet-analyse-image-frontend/src/pages/LandingPage.js:272-275 | each time entry holds the sum of the minutes of the projects with its key |
| ProjectStats.MinutesOfAbsentKey | projet-analyse-image-frontend/src/pages/LandingPage.js:272-275 | a key no project carries has no minutes |
| ProjectStats.AllMinutes | projet-analyse-image-frontend/src/pages/LandingPage.js:275 | one time per project, a missing time as 0 |
| ProjectStats.TimeByGroup | projet-analyse-image-frontend/src/pages/LandingPage.js:281-284 | per group, in the order of the count entries, the group's total minutes in hours, in tenths, rounded half up |
| ProjectStats.CompletionByGroup | projet-analyse-image-frontend/src/pages/LandingPage.js:287-294 | per group, in the order of the count entries, a rate in [0, 100]: the rounded share of the group's projects that are 'Completed' |
| ProjectStats.GroupRate | projet-analyse-image-frontend/src/pages/LandingPage.js:288-293 | the rate of a group with projects is within [0, 100] and is its share of 'Completed' projects, rounded half up |
| TableView.AnyContainsIff | projet-analyse-image-frontend/src/components/ProjectTableView.js:224-226 | the search succeeds exactly when some non-empty text, in lower case, contains the lower-case term |
| TableView.JournalHitMatches | projet-analyse-image-frontend/src/components/ProjectTableView.js:216-226 | a term found in any journal entry finds the project |
| TableView.SearchIgnoresCase | projet-analyse-image-frontend/src/components/ProjectTableView.js:226 | case does not matter: the lower-case spelling of a term finds the same rows as the term |
| TableView.KeepColumns | projet-analyse-image-frontend/src/components/ProjectTableView.js:232-245 | a row is kept, as often as it occurs, exactly when it passes every active column filter (status, software, group, output type), and dropped otherwise |
| TableView.KeepMatches | projet-analyse-image-frontend/src/components/ProjectTableView.js:214-227 | a row is kept, as often as it occurs, exactly when it matches the search term |
| TableView.Visible | projet-analyse-image-frontend/src/components/ProjectTableView.js:206-245 | with dashboard search results, exactly those results passing the column filters; otherwise exactly the projects passing the column filters and, when a term is set, the search |
| TableView.VisibleRowsPass | projet-analyse-image-frontend/src/components/ProjectTableView.js:206-245 | every listed row passes each active filter and comes from the dashboard results, or from the projects when there are none |
| TableView.SearchResultsReplace | projet-analyse-image-frontend/src/components/ProjectTableView.js:210-212 | while dashboard results are present, neither the projects nor the search term change what is listed |
| TableView.KeepColumnsIgnoresSearch | projet-analyse-image-frontend/src/components/ProjectTableView.js:231-245 | the column filters do not depend on the search term |
| TableView.MappedStatus | projet-analyse-image-frontend/src/components/ProjectTableView.js:185-196 | the status the table shows and sorts by is the shared legacy mapping of the status, and is never empty |
| TableView.SortKey | projet-analyse-image-frontend/src/components/ProjectTableView.js:250-295 | time and the three date columns compare as numbers; every other column compares as text |
| TableView.OutputFilterSharesSortKey | projet-analyse-image-frontend/src/components/ProjectTableView.js:243-286 | the Output header sorts by the same `output_type` the output filter reads, so the rows one output filter keeps share a single sort key |
| TableView.OutputTypesSortApart | projet-analyse-image-frontend/src/components/ProjectTableView.js:283-286 | output types that differ other than in letter case get different sort keys |
| TableView.Table | projet-analyse-image-frontend/src/components/ProjectTableView.js:206-311 | the table is a permutation of the visible rows, ordered by the chosen column in the chosen direction |
| TableView.LegacyStatusSortsWithCurrent | projet-analyse-image-frontend/src/components/ProjectTableView.js:262-265 | 'Finished' and 'Completed' sort together, under the mapped name |
| TableView.NoFiltersListsAll | projet-analyse-image-frontend/src/components/ProjectTableView.js:206-311 | without filters, term or dashboard results every project is listed, each exactly once |
| TableView.HandleSort | projet-analyse-image-frontend/src/components/ProjectTableView.js:329-332 | sorting by a header chooses that column and flips the direction; nothing else changes |
| TableView.SwitchingColumnFlips | projet-analyse-image-frontend/src/components/ProjectTableView.js:329-332 | switching to another column also flips the direction rather than starting ascending |
| TableView.SortTwiceRestores | projet-analyse-image-frontend/src/components/ProjectTableView.js:329-332 | clicking the same header twice restores the sort settings |
| TableView.ResetFilters | projet-analyse-image-frontend/src/components/ProjectTableView.js:70-80 | a reset clears the five local filters and leaves the sort settings; when the page's `setTableFilter` hook is installed it also drops the dashboard search results, and otherwise they stay |
| TableView.ResetClearsAllFilters | projet-analyse-image-frontend/src/components/ProjectTableView.js:70-96 | with the hook installed, no filter at all is active after a reset |
| TableView.UnhookedResetKeepsSearchResults | projet-analyse-image-frontend/src/components/ProjectTableView.js:70-96 | without the hook, filters count as active after a reset exactly while dashboard results remain |
| TableView.ResetListsAll | projet-analyse-image-frontend/src/components/ProjectTableView.js:70-80 | with the hook installed, every project is listed again after any reset |
| ProjectList.ColumnKey | projet-analyse-image-frontend/src/components/ProjectList.js:15-16 | a missing, null or undefined column compares as empty text; text and numbers compare as themselves |
| ProjectList.SortedProjects | projet-analyse-image-frontend/src/components/ProjectList.js:12-24 | no projects give an empty list; otherwise a permutation of the projects ordered by the chosen column in the chosen direction |
| ProjectList.MissingColumnSortsFirst | projet-analyse-image-frontend/src/components/ProjectList.js:15-22 | sorted ascending, only numbers and empty columns come before a project without the column |
| ProjectList.HandleSort | projet-analyse-image-frontend/src/components/ProjectList.js:98-105 | the same column flips the direction; another column is chosen ascending |
| ProjectList.SameColumnTwiceRestores | projet-analyse-image-frontend/src/components/ProjectList.js:98-105 | clicking the sorted column twice restores the sort settings |
| ProjectList.SwitchFromInitialIsAscending | projet-analyse-image-frontend/src/components/ProjectList.js:6-7 | from the initial sort (last update, descending) any other column starts ascending |
| UserGroups.ToggleSort | projet-analyse-image-frontend/src/components/UserGroupManager.js:287-299 | the clicked column becomes the sorted one, and it is descending exactly when it was already sorted ascending |
| UserGroups.ToggleCycles | projet-analyse-image-frontend/src/components/UserGroupManager.js:287-299 | clicking the same column alternates: two more clicks return to the same state |
| UserGroups.SortArrow | projet-analyse-image-frontend/src/components/UserGroupManager.js:326-329 | an arrow only on the sorted column, pointing up exactly when ascending |
| UserGroups.GroupOf | projet-analyse-image-frontend/src/components/UserGroupManager.js:303-306 | the first group whose id is the user's group id, or none |
| UserGroups.GroupName | projet-analyse-image-frontend/src/components/UserGroupManager.js:303-306 | a user whose group id matches no group has an empty group name |
| UserGroups.SortedUsers | projet-analyse-image-frontend/src/components/UserGroupManager.js:301-314 | a permutation of the users ordered by the column, the group column by the group's name |
| UserGroups.SortedGroups | projet-analyse-image-frontend/src/components/UserGroupManager.js:316-324 | a permutation of the groups ordered by the column |
| UserGroups.UngroupedUsersFirst | projet-analyse-image-frontend/src/components/UserGroupManager.js:301-314 | sorted by group ascending, users without a known group come before every user with a named group |
| UserGroups.CreateUser | projet-analyse-image-frontend/src/components/UserGroupManager.js:141-153 | an empty name is refused with 'User name is required'; otherwise the payload holds the name as typed, a trimmed e-mail or null when blank, and the group id or null |
| UserGroups.BlankUserNameAccepted | projet-analyse-image-frontend/src/components/UserGroupManager.js:144 | a name of only spaces is not refused |
| UserGroups.BlankEmailIsNull | projet-analyse-image-frontend/src/components/UserGroupManager.js:150 | an e-mail of only spaces is sent as null |
| UserGroups.CreateGroup | projet-analyse-image-frontend/src/components/UserGroupManager.js:120-127 | an empty name is refused with 'Group name is required'; otherwise the name and description are sent as typed |
| GroupAnalytics.Top | projet-analyse-image-frontend/src/components/GroupAnalytics.js:11-13 | the top list has min(n, 5) entries, a sub-multiset of the input (no entry repeated beyond its own copies), in descending order of value, and no entry left out has a larger value than one shown |
| GroupAnalytics.TopOfSortedIsPrefix | projet-analyse-image-frontend/src/components/GroupAnalytics.js:11-13 | a list already in descending order keeps its first five entries as they are |
| GroupAnalytics.BarScale | projet-analyse-image-frontend/src/components/GroupAnalytics.js:32 | the bar scale is at least 1, at least every count, and is 1 or one of the counts |
| GroupAnalytics.BarWidth | projet-analyse-image-frontend/src/components/GroupAnalytics.js:32 | a group's bar is never wider than 100%, and is exactly 100% for the largest group |
| QuickActions.KeysOf | projet-analyse-image-frontend/src/components/QuickActions.js:7-8 | each project is keyed by its field, or the fallback when the field is falsy |
| QuickActions.CountTable | projet-analyse-image-frontend/src/components/QuickActions.js:5-11 | the lines are the key counts, sorted by count descending, adding up to the number of projects |
| QuickActions.EveryKeyListed | projet-analyse-image-frontend/src/components/QuickActions.js:5-11 | every key some project carries has a line holding the number of projects carrying it |
| QuickActions.StatusTable | projet-analyse-image-frontend/src/components/QuickActions.js:5-11 | the status lines add up to the number of projects, largest first |
| QuickActions.SoftwareTable | projet-analyse-image-frontend/src/components/QuickActions.js:14-22 | the software lines add up to the number of projects, largest first |
| QuickActions.MissingStatusIsUnknown | projet-analyse-image-frontend/src/components/QuickActions.js:8 | a project without a status is listed under 'Unknown' |
| QuickActions.FilterClick | projet-analyse-image-frontend/src/components/QuickActions.js:24-28 | a click passes the 'filter' action with the one-field filter, or nothing without a handler |
| ActivityFormat.CapitalizeFrom | projet-analyse-image-frontend/src/components/Dashboard.js:121 | exactly the characters that start a word are upper-cased, given whether a word character precedes; the length is kept |
| ActivityFormat.CapitalizeWords | projet-analyse-image-frontend/src/components/Dashboard.js:121 | exactly the characters that start a word (a word character not after another) are upper-cased; everything else is kept |
| ActivityFormat.Label | projet-analyse-image-frontend/src/components/Dashboard.js:121 | a label has the field's length and no underscore left |
| ActivityFormat.LabelOfSnakeCase | projet-analyse-image-frontend/src/components/Dashboard.js:121 | for a lower-case snake_case name, exactly the first letter of each word is capital, and lower-casing the label gives the name with spaces back |
| ActivityFormat.LabelAt | projet-analyse-image-frontend/src/components/Dashboard.js:121 | one position of the label of a snake_case name: capital exactly at a word start, and equal to the spaced name after lower-casing |
| ActivityFormat.HoursReadBack | projet-analyse-image-frontend/src/components/Dashboard.js:115-116 | a time change of n minutes is shown as hours and minutes that read back as n; 0 shows as '0h' |
| ActivityFormat.Shown | projet-analyse-image-frontend/src/components/Dashboard.js:122-123 | '(none)' is shown exactly for null and undefined values, unless the value is that very text |
| ActivityFormat.DashboardLines | projet-analyse-image-frontend/src/components/Dashboard.js:108-126 | one display line per key of the parsed changes, in key order |
| ActivityFormat.UpdatedLines | projet-analyse-image-frontend/src/components/Dashboard.js:88-89 | one '<Label>: (updated)' line per comma-separated piece, trimmed |
| ActivityFormat.DashboardChanges | projet-analyse-image-frontend/src/components/Dashboard.js:75-136 | no lines for a falsy value; one line per key for an object or parsable text; 'Field changes unavailable' when the text parses to null; one line per comma piece when it does not parse; the text itself for any other value |
| ActivityFormat.SingleFieldFallback | projet-analyse-image-frontend/src/components/Dashboard.js:88-89 | an unparsable field list without commas gives exactly one '(updated)' line |
| ActivityFormat.CsvLines | backend/src/routes/projects.js:119-136 | one export line per key of the parsed changes, in key order |
| ActivityFormat.CsvChangedText | backend/src/routes/projects.js:112-142 | the export cell is empty for no changes or a null parse, and the error text when parsing throws or an entry is null |
| ActivityFormat.CsvAgreesWithDashboard | backend/src/routes/projects.js:119-137 | where both succeed, the export cell is the dashboard's lines joined with '; ' |
| ActivityFormat.NullEntryDiffers | backend/src/routes/projects.js:121-122 | a null entry makes the export cell the error text while the dashboard still shows a line for it |
| TimeFormat.FormatTimeSpent | projet-analyse-image-frontend/src/utils/timeUtils.js:4-9 | 0 shows as '0h', a whole number of hours as '<h>h', and otherwise '<h>h <m>m' with m the minutes past the hour |
| TimeFormat.RemainderShownInRange | projet-analyse-image-frontend/src/utils/timeUtils.js:7-8 | the minutes shown after the hours lie between 1 and 59 |
| TimeFormat.ParseWholeHours | projet-analyse-image-frontend/src/utils/timeUtils.js:8 | '<h>h' reads back as h hours |
| TimeFormat.ParseHoursMinutes | projet-analyse-image-frontend/src/utils/timeUtils.js:8 | '<h>h <m>m' reads back as h hours and m minutes |
| TimeFormat.ParseDigits | projet-analyse-image-frontend/src/utils/timeUtils.js:8 | digit texts for hours and minutes read back as their values |
| TimeFormat.ParseSplit | projet-analyse-image-frontend/src/utils/timeUtils.js:8 | the reader splits '<d>h <e>m' at the 'h' into hours and minutes |
| TimeFormat.MinutesPart | projet-analyse-image-frontend/src/utils/timeUtils.js:8 | what follows the hours, ' <e>m', adds the minutes e |
| TimeFormat.FormatParseRoundTrip | projet-analyse-image-frontend/src/utils/timeUtils.js:4-9 | every non-negative duration reads back exactly from its display |
| Diagnostics.NewLogger | projet-analyse-image-frontend/src/utils/diagnostics.js:15-18 | a new logger starts at level INFO with no entries |
| Diagnostics.LevelKey | projet-analyse-image-frontend/src/utils/diagnostics.js:6-12 | a level has a name exactly when it lies between DEBUG (0) and CRITICAL (4) |
| Diagnostics.LevelValue | projet-analyse-image-frontend/src/utils/diagnostics.js:6-12 | a name stands for a level exactly when it is one of the five level names |
| Diagnostics.LevelKeyRoundTrip | projet-analyse-image-frontend/src/utils/diagnostics.js:6-12 | each of the five levels reads back from its name |
| Diagnostics.LevelName | projet-analyse-image-frontend/src/utils/diagnostics.js:131 | an entry's level name is 'UNKNOWN' exactly for a level without a name, and otherwise names the entry's level |
| Diagnostics.Window | projet-analyse-image-frontend/src/utils/diagnostics.js:18 | the kept window holds at most 1000 entries, and the whole history while it is no longer |
| Diagnostics.Log | projet-analyse-image-frontend/src/utils/diagnostics.js:123-186 | below the logger's level nothing changes and no entry is returned; otherwise the returned entry carries the level, its name, the source and the message and is the newest in the buffer, nothing else in the logger changes, and the buffer stays within 1000 entries |
| Diagnostics.LogKeepsNewest | projet-analyse-image-frontend/src/utils/diagnostics.js:140-145 | a buffer holding the newest 1000 entries of a history still does so after an accepted entry: the oldest is the one dropped |
| Diagnostics.Select | projet-analyse-image-frontend/src/utils/diagnostics.js:252-263 | a query keeps each entry, as often as it occurs, exactly when it selects it |
| Diagnostics.SelectAppend | projet-analyse-image-frontend/src/utils/diagnostics.js:252-263 | selecting from two stretches of log keeps their order |
| Diagnostics.SelectAllLevels | projet-analyse-image-frontend/src/utils/diagnostics.js:252-254 | the lowest level query returns the whole buffer |
| Diagnostics.LogsByLevel | projet-analyse-image-frontend/src/utils/diagnostics.js:252-254 | the entries returned are exactly the buffered entries at or above the level |
| Diagnostics.LogsBySource | projet-analyse-image-frontend/src/utils/diagnostics.js:261-263 | the entries returned are exactly the buffered entries from the source |
| Diagnostics.LogThenSelect | projet-analyse-image-frontend/src/utils/diagnostics.js:123-145 | a rejected call leaves every query's answer as it was; an accepted one adds its entry at the end of the queries that select it |
| Diagnostics.ClearLogs | projet-analyse-image-frontend/src/utils/diagnostics.js:283-286 | a clear empties the buffer and then logs 'Logs cleared' at INFO, so the buffer holds that one entry, or nothing when the level is above INFO |
| Diagnostics.SetLogLevel | projet-analyse-image-frontend/src/utils/diagnostics.js:111-114 | the level changes; the announcement is logged under the new level, so it is kept exactly when the level is at most INFO |
| Diagnostics.RaisedLevelIsSilent | projet-analyse-image-frontend/src/utils/diagnostics.js:111-114 | raising the level to WARN silences its own announcement |
| Environment.Override | projet-analyse-image-frontend/src/utils/environmentDetection.js:65-76 | the desktop overrides (query or stored) win, then the web overrides; otherwise there is no override |
| Environment.Detect | projet-analyse-image-frontend/src/utils/environmentDetection.js:12-121 | a desktop override makes the mode desktop, a web override without one makes it web; without overrides the mode is desktop exactly when a detector fires; without a window only the production user-agent test can; the stored mode 'desktop' and the query forceTauri=true are recorded as such |
| Environment.DetectPrecedence | projet-analyse-image-frontend/src/utils/environmentDetection.js:76-90 | the outcome is the override when there is one, else whether a detector fired |
| Environment.StoredDesktopBeatsForceWeb | projet-analyse-image-frontend/src/utils/environmentDetection.js:72-76 | a stored 'desktop' mode wins even over ?forceWeb=true |
| Environment.DetectCached | projet-analyse-image-frontend/src/utils/environmentDetection.js:14-121 | a cached state is returned as is; otherwise a fresh detection is returned and cached |
| Environment.FirstDetectionSticks | projet-analyse-image-frontend/src/utils/environmentDetection.js:14 | once detection has run, a changed page or build no longer changes the answer |
| Environment.IsTauri | projet-analyse-image-frontend/src/utils/environmentDetection.js:129-132 | desktop is the cached detection's answer, and the cache is updated alike |
| Environment.IsWeb | projet-analyse-image-frontend/src/utils/environmentDetection.js:139-142 | web is always the opposite of desktop under the same cache |
| Environment.Details | projet-analyse-image-frontend/src/utils/environmentDetection.js:154-165 | the details start with the build's environment; in web mode they hold only that and the URL overrides that are set |
| Environment.Description | projet-analyse-image-frontend/src/utils/environmentDetection.js:149-171 | the description starts with the mode line, is only that line unless details are asked for, and then continues with a line break and the detail lines |
| Environment.DescriptionNamesMode | projet-analyse-image-frontend/src/utils/environmentDetection.js:151 | the mode line names DESKTOP exactly in desktop mode and WEB in web mode |
| Environment.TestPageIsWeb | projet-analyse-image-frontend/src/utils/environmentDetection.js:27-90 | an http page without Tauri objects, with screen and window sizes apart and no overrides, is web under a test build, and its description says so |
| Backup.IntervalMs | projet-analyse-image-frontend/src/services/backupService.js:16-23 | an hour for 'hourly', a week for 'weekly', and a day for anything else; always positive |
| Backup.MonthlyIsDaily | projet-analyse-image-frontend/src/pages/Settings.js:208 | the 'monthly' option of the settings screen schedules daily backups |
| Backup.LastBackup | projet-analyse-image-frontend/src/services/backupService.js:39-40 | with no stored date, or an empty one, the last backup counts as time 0 |
| Backup.CheckAndRunAutoBackup | projet-analyse-image-frontend/src/services/backupService.js:31-55 | nothing unless the stored flag is exactly 'true'; nothing while the interval has not elapsed; a backup is recorded exactly when enabled, due and the server succeeds, and then the new stamp is stored; anything else leaves storage as it was |
| Backup.FirstCheckIsDue | projet-analyse-image-frontend/src/services/backupService.js:39-43 | with no backup on record, the first check is due |
| Backup.RunManualBackup | projet-analyse-image-frontend/src/services/backupService.js:62-66 | the server's answer is returned; on success the new stamp is stored, on failure storage is unchanged |
| Backup.LastBackupDate | projet-analyse-image-frontend/src/services/backupService.js:71-73 | the stored date, exactly when there is a non-empty one |
| Backup.SaveBackupSettings | projet-analyse-image-frontend/src/services/backupService.js:81-84 | the flag is stored as 'true' or 'false' and the frequency as given; no other key changes |
| Backup.DisabledNeverRuns | projet-analyse-image-frontend/src/services/backupService.js:34-84 | after saving the settings disabled, every check does nothing |
| Backup.BackupNotRepeatedWithinInterval | projet-analyse-image-frontend/src/services/backupService.js:40-46 | a check within the hour after a recorded backup does nothing, whatever the server would answer |
| Api.ApiUrl | projet-analyse-image-frontend/src/services/api.js:2-21 | the desktop shell always uses port 3001; a production web build uses the stored port, or 3001 when none is stored; otherwise the configured address when set and not empty, else the default |
| Api.DefaultsAgree | projet-analyse-image-frontend/src/services/api.js:2-21 | without a stored port or a configured address every kind of build talks to http://localhost:3001/api |
| Api.ReplaceFirst | projet-analyse-image-frontend/src/services/api.js:64 | a text replacement changes only the first occurrence: the text before it is kept, the replacement follows, then the rest after the occurrence; without an occurrence the text is unchanged |
| Api.NotAt | projet-analyse-image-frontend/src/services/api.js:64 | a pattern does not occur where its first two characters are not found |
| Api.DefaultHealthUrl | projet-analyse-image-frontend/src/services/api.js:62-64 | for the default address the health probe goes to http://localhost:3001/api/health |
| Api.HostNamedApiBreaksHealthUrl | projet-analyse-image-frontend/src/services/api.js:64 | an address whose host begins with 'api' loses the slash before the host instead of its '/api' path |
| Api.Allowed | projet-analyse-image-frontend/src/services/api.js:33 | at least one attempt is made, and exactly the given number when it is positive |
| Api.FetchWithRetry | projet-analyse-image-frontend/src/services/api.js:33-57 | between one and the allowed number of attempts; every attempt before the last threw; the call succeeds exactly when the last attempt was answered, with that answer, whatever its status; a failure comes after all allowed attempts, with the last error |
| Api.FetchFailsOnlyWhenAllThrow | projet-analyse-image-frontend/src/services/api.js:33-57 | a request fails exactly when every allowed attempt threw |
| Api.HandleResponse | projet-analyse-image-frontend/src/services/api.js:24-30 | an error exactly for an answer outside 2xx, starting with the message and ': ' |
| Api.HandleResponseKeepsBody | projet-analyse-image-frontend/src/services/api.js:28 | the server's text is what follows the message and ': ' in the error |
| Api.ServiceCall | projet-analyse-image-frontend/src/services/api.js:115-121 | a service call succeeds exactly when, within three attempts, the first answer is a 2xx one |
| Api.CheckBackendHealth | projet-analyse-image-frontend/src/services/api.js:61-74 | healthy exactly when, within three attempts, the first answer is 2xx and its body reads as JSON; when all three attempts throw, unhealthy with the last error |
| Api.ParseIntOfNum | projet-analyse-image-frontend/src/services/api.js:229 | parseInt reads a number back as itself |
| Api.MinutesOrZero | projet-analyse-image-frontend/src/services/api.js:229 | a number of minutes is sent as itself |
| Api.Defaults | projet-analyse-image-frontend/src/services/api.js:225-235 | the defaults cover the nine columns other than the minutes |
| Api.CreatePayload | projet-analyse-image-frontend/src/services/api.js:224-236 | exactly the ten columns are sent, each the given value when truthy and its default otherwise, with the minutes read by parseInt; anything else is dropped |
| Api.CreateDefaults | projet-analyse-image-frontend/src/services/api.js:226-234 | a project created without name, status or start date gets 'New Project', 'Intake' and today |
| Api.CreateDropsOutputType | projet-analyse-image-frontend/src/services/api.js:225-236 | the output type is not among the columns created |
| Api.UpdatePayload | projet-analyse-image-frontend/src/services/api.js:251-262 | the update sends every key but the eight stripped ones, with values unchanged |
| Api.UpdatePayloadIdempotent | projet-analyse-image-frontend/src/services/api.js:253-262 | cleaning twice is cleaning once |
| Api.UpdateKeepsClean | projet-analyse-image-frontend/src/services/api.js:253-262 | a payload without stripped keys is sent as it is |
| Api.CreatePayloadSurvivesUpdate | projet-analyse-image-frontend/src/services/api.js:224-262 | a create payload passes through the update's cleaning unchanged |
| Theme.ThemeName | projet-analyse-image-frontend/src/contexts/ThemeContext.js:80 | the theme is 'dark' exactly in dark mode and 'light' otherwise |
| Theme.ApplyTheme | projet-analyse-image-frontend/src/contexts/ThemeContext.js:51-66 | dark mode puts 'dark' on both elements and the night class on the body without the day class, light mode the reverse; no other class changes |
| Theme.ApplyThemeLastWins | projet-analyse-image-frontend/src/contexts/ThemeContext.js:51-66 | only the last application of a mode counts |
| Theme.Init | projet-analyse-image-frontend/src/contexts/ThemeContext.js:15-31 | a saved preference decides and storage stays as it is; without one the system's preference is used and saved; the page shows the chosen mode |
| Theme.UnknownSavedThemeIsLight | projet-analyse-image-frontend/src/contexts/ThemeContext.js:22-23 | a saved value other than 'dark' or 'light' shows light and is left in storage, so page and storage disagree |
| Theme.Toggle | projet-analyse-image-frontend/src/contexts/ThemeContext.js:68-74 | a toggle flips the mode, shows it, saves it and records the manual override |
| Theme.SystemChange | projet-analyse-image-frontend/src/contexts/ThemeContext.js:35-42 | a system change is ignored once the override is recorded; otherwise the mode follows it, is shown and is saved |
| Theme.InitConsistent | projet-analyse-image-frontend/src/contexts/ThemeContext.js:15-31 | with a saved value of 'dark', 'light' or nothing, the first choice leaves page, mode and storage in agreement |
| Theme.ToggleConsistent | projet-analyse-image-frontend/src/contexts/ThemeContext.js:68-74 | after a toggle page, mode and storage agree |
| Theme.SystemChangeConsistent | projet-analyse-image-frontend/src/contexts/ThemeContext.js:35-42 | a system change keeps page, mode and storage in agreement |
| Theme.ToggleIgnoresSystem | projet-analyse-image-frontend/src/contexts/ThemeContext.js:36-73 | after a toggle the system setting has no effect |
| Theme.ToggleTwice | projet-analyse-image-frontend/src/contexts/ThemeContext.js:68-74 | toggling twice restores mode, page and saved theme, leaving the override recorded |
| AppMeta.DropCrs | scripts/generate-app-meta.js:21 | every line that was followed by a line feed loses a carriage return at its end; the last piece is kept as is |
| AppMeta.LinesOfJoin | scripts/generate-app-meta.js:21 | lines without line feeds and without a final carriage return are read back from their join by line feeds |
| AppMeta.DropCrsKeeps | scripts/generate-app-meta.js:21 | lines without a final carriage return are not changed by the line split |
| AppMeta.LeadingSpace | scripts/generate-app-meta.js:24 | the leading white space of a text is white space and what remains is the text trimmed at the start |
| AppMeta.BracketName | scripts/generate-app-meta.js:24 | a bracketed heading name is non-empty, holds no ']' and, framed by '## [' and ']', rebuilds the line with the rest |
| AppMeta.Header | scripts/generate-app-meta.js:24 | a heading line has a bracketed name, which the header carries, and a non-empty date |
| AppMeta.Bullet | scripts/generate-app-meta.js:47-48 | a bullet text is already trimmed |
| AppMeta.TrimIdempotent | scripts/generate-app-meta.js:48 | trimming twice is trimming once |
| AppMeta.Bullets | scripts/generate-app-meta.js:44-49 | a section gives no more bullets than it has lines |
| AppMeta.Summary | scripts/generate-app-meta.js:50 | the summary is the first bullets, at most six, and all of them when there are no more than six |
| AppMeta.ParseLines | scripts/generate-app-meta.js:22-51 | the summary holds at most six bullets; version and date are present together; without a version the result is the empty changelog |
| AppMeta.FirstReleasePicked | scripts/generate-app-meta.js:22-51 | the first release heading, with none before it, gives the version, the date and the summary of the bullets that follow it |
| AppMeta.UnreleasedPicked | scripts/generate-app-meta.js:22-51 | without any release heading, the version is 'Unreleased' exactly when an 'Unreleased' heading exists, and it is then dated today |
| AppMeta.ParseChangelog | scripts/generate-app-meta.js:16-21 | a missing changelog gives no version, no date and no summary; otherwise its lines are parsed |
| AppMeta.BulletLines | scripts/generate-app-meta.js:47 | one bullet line per bullet |
| AppMeta.BulletLineAt | scripts/generate-app-meta.js:47 | bullet line i is '- ' and bullet i |
| AppMeta.RenderRelease | scripts/generate-app-meta.js:24-47 | a written release is its heading and one line per bullet |
| AppMeta.HeaderOfRendered | scripts/generate-app-meta.js:24-25 | a written heading reads back as its version and date |
| AppMeta.BracketOfRendered | scripts/generate-app-meta.js:24 | the name of a written heading is the text up to its first ']' |
| AppMeta.BulletOfRendered | scripts/generate-app-meta.js:46-48 | a written bullet line reads back as its text and does not end the section |
| AppMeta.BulletsStep | scripts/generate-app-meta.js:44-49 | a written bullet line adds its text in front of what the following lines give |
| AppMeta.BulletsOfRendered | scripts/generate-app-meta.js:44-49 | the bullet lines of a section, ended by a heading or the end of the file, read back as the bullets |
| AppMeta.ParseRenderedRelease | scripts/generate-app-meta.js:22-51 | a release written at the top of the changelog, followed by older sections or nothing, reads back as its version, its date and its first six bullets |
| AppMeta.ParseFirstRelease | scripts/generate-app-meta.js:23-29 | a changelog that opens with a release heading is read from that heading |
| AppMeta.BuildMeta | scripts/generate-app-meta.js:62-75 | version from the frontend manifest, else the backend's, else 'unknown'; the release date is the changelog's when non-empty, today without one; the source is 'frontend' with a frontend manifest and present exactly when some manifest is |
| AppMeta.ReleaseDateFromChangelog | scripts/generate-app-meta.js:16-75 | a changelog file whose top section is a release gives that release's date as the release date |
| AppMeta.TerminatorFree | scripts/generate-app-meta.js:21 | a text without line terminators holds no line feed and loses no carriage return |
| AppMeta.RenderedLineClean | scripts/generate-app-meta.js:21-24 | every written line of a release is a single line that the split reads back unchanged |
| Js.JsRem | projet-analyse-image-frontend/src/utils/timeUtils.js:7 | the remainder has the sign of the dividend, is smaller than the divisor in size, and is what is left of the dividend after the quotient truncated toward zero (`TruncDiv`) times the divisor |
| Js.TruncDiv | projet-analyse-image-frontend/src/utils/timeUtils.js:7 | the quotient rounded toward zero that JavaScript's `%` is defined by has the sign of the dividend |
| Js.RoundDiv | projet-analyse-image-frontend/src/components/Dashboard.js:348 | Math.round of a quotient: within half of the exact quotient, halves rounded up |
| Js.RoundDivUnique | projet-analyse-image-frontend/src/components/Dashboard.js:348 | the rounded quotient is the only integer within half of the exact quotient |
| Js.Percent | projet-analyse-image-frontend/src/components/Dashboard.js:345-349 | a rounded percentage: 0 without a total, within [0, 100] for a part of the total, and within half a percent of the exact share |
| Js.ParseIntOfIntToString | projet-analyse-image-frontend/src/services/api.js:229 | parseInt reads the decimal text of any integer back, whatever non-digit text follows |
| JsonArray.DecodeEncode | projet-analyse-image-frontend/src/components/ProjectDetails.js:108-122 | a list of texts stored with JSON.stringify reads back with JSON.parse as the same list |
| JsonArray.Combine | projet-analyse-image-frontend/src/components/ProjectDetails.js:106 | a high and a low surrogate code unit form one character outside the Basic Multilingual Plane, from which both units can be read back |
| JsonArray.SurrogatePairRead | projet-analyse-image-frontend/src/components/ProjectDetails.js:106 | a `\u` escape of a high surrogate directly followed by one of a low surrogate is read as the single character they form |
| JsonArray.SurrogatePairDecoded | projet-analyse-image-frontend/src/components/ProjectDetails.js:106 | the stored array `["\ud83d\ude00"]` reads back as the one-element list holding U+1F600 |
| Sorting.Sort | projet-analyse-image-frontend/src/components/ProjectTableView.js:248-310 | a sort returns a permutation of its input, ordered by the key in the chosen direction |
| Sorting.SortStable | projet-analyse-image-frontend/src/components/ProjectTableView.js:248-310 | the sort is stable, as `Array.prototype.sort` is: for every key, the elements carrying it come out in the order they went in |

## Left out

General simplifications:
- JavaScript numbers are integers. `Number()` of signed, decimal or hexadecimal text is read as NaN; `parseInt` reads an optional sign and the leading decimal digits (so "3.5" gives 3), but a `0x` prefix is read as the digit 0, not as hexadecimal. Float rounding (`Math.round`, `toFixed`) is exact rational round-half-up. Boundary effects of binary floating point are not modelled.
- Only scalar JSON values are modelled, plus arrays of texts where a field stores a JSON list. JavaScript's ordering of integer-like object keys is ignored; key order is insertion order.
- Characters are Unicode scalar values. `toLowerCase`/`toUpperCase` change ASCII letters only. `localeCompare` and `<` on texts are code-point order.
- Paths are POSIX texts, and `path.join` is concatenation with "/" without normalisation. Windows separators and drive letters are not modelled.
- Dates, `Date.now()` and date parsing are parameters. Time zones and `toLocaleString` are not modelled.
- Texts of engine and filesystem errors are placeholders carried in the error value.
- SQLite access, Express routing, HTTP, `fetch`, local storage exceptions and file I/O are not modelled. Tables and storage are maps or sequences, and environment outcomes are inputs.
- The byte-size strings built with `{:.1}` and `toFixed` are not modelled, because they use floating point.

Per component:
- Supervisor: the stdout/stderr drain threads and log files (main.rs:1049-1083) are concurrency and I/O. The `Mutex`, `sleep` and the post-spawn `curl` check of setup are not modelled either; each command is one atomic step over the handle slot. `get_debug_info`, folder scaffolding, README generation and `open_in_explorer` are outside this model.
- Launcher: `init` and `checkForDockerBackend` are not modelled. The delay between retries is timing only. `startHealthCheck` is not modelled: every 30 seconds it probes the server and, when the probe fails or throws, marks the server as not started and calls `startServer` again (projet-analyse-image-frontend/src/services/backendLauncher.js:396-415). The Tauri side registers no `check_port_available` command, so the port probe always fails and `findAvailablePort` settles on 3001 (see Launcher.PortWithoutPortCommand).
- Analytics: the monthly series, the efficiency figures and the secondary tables are rendering of the modelled buckets and are not modelled.
- Analytics.RawSelections: a stored text that parses as JSON but is not an array (for example "5") makes the source throw at `.map`. The model reads such a text as comma-separated pieces instead, because JSON parsing is modelled for arrays only.
- JsonArray: decoding accepts the compact form only. A stored array written with white space between its tokens, or holding a `\u` escape of a lone surrogate (one not part of a high-low pair), is not read as JSON and falls back to comma-separated pieces, where `JSON.parse` would accept it. A high surrogate escape directly followed by a low one is decoded as the character they form. The values the pages store are always compact, being written by `JSON.stringify`.
- ProjectDetails.Selections: likewise, a text that parses as JSON but is not an array (the source would return that value as is) is read as comma-separated pieces, because JSON parsing is modelled for arrays of texts only.
- ActivityFormat: `JSON.parse` is an input. A parsed value arrives as the list of its `Object.entries`, so arrays and texts are seen through their entries as in the source; the parser itself is not modelled.
- TableView: projects whose dates do not parse (NaN comparisons) are not modelled. Dates are integers.
- TableView.Table: when dashboard search results are shown without a column filter, the source sorts the dashboard's own results array in place (`filtered` is that array, not a copy), so the dashboard's array is reordered too; the model returns a new sequence and leaves its input unchanged.
- ProjectList: comparisons between a number and a text follow the model's key order, not JavaScript's coercion rules.
- ProjectList.SortedProjects: the source sorts the `projects` prop array in place (`Array.prototype.sort` mutates it), so the parent's array is reordered too; the model returns a new sequence and leaves its input unchanged.
- UserGroups: `localeCompare` on non-text values (numbers, null) is modelled through the text key, not JavaScript coercion.
- Wizard: the `isLoading` guard on submission and all rendering are not modelled.
- Diagnostics: console styling, the start-up messages and global error handlers installed by `initLogger`, `exportLogs`, the generation of `sessionId`, and `getAllLogs` (a copy of the buffer) are not modelled. Values are immutable here, so the copy is the buffer itself.
- Environment: `printEnvironmentInfo`, the on-screen overlay and the debug flag are not modelled; they are display only.
- Backup: console output, the `onBackupCreated` callback and local storage exceptions are not modelled.
- Api: the `AbortController` timeout is modelled as an attempt that throws. The 500 ms wait between attempts is not modelled. Response bodies (JSON, blob) are treated as text. The remaining thin service wrappers share the single call shape of Api.ServiceCall.
- Api.MinutesOrZero: states only the case of a numeric input. Texts go through the integer reading of `parseInt` described above.
- AppMeta: `readJson` of a file holding something other than an object, the directory creation and file write, and the surrounding try/catch are not modelled. The description default is part of the model but has no stated property of its own.
- Theme: registering and removing the media-query listener is not modelled; a system change is an input event.
- User interface: rendering, charts, spreadsheet export, dialogs, toasts and modals are not modelled.

=== FILE: activity_format.dfy ===
/**
 * How a project activity's `changed_fields` is rendered: as display lines by
 * `formatActivity` (projet-analyse-image-frontend/src/components/Dashboard.js)
 * and as one `; `-joined cell by the CSV export of
 * backend/src/routes/projects.js. `JSON.parse` is not modelled; its outcome is
 * an input, reduced to what the rendering reads: the parsed value's own keys
 * in order, with each entry's `from` and `to`.
 */
module ActivityFormat {
  import opened Strings
  import opened Js
  import TimeFormat

  /** One key of the parsed object; `change` is `None` when the entry itself is null or undefined. */
  datatype Entry = Entry(key: string, change: Option<Change>)

  /** An entry's `from` and `to` (`Undefined` when the entry lacks them). */
  datatype Change = Change(from: Value, to: Value)

  /** What `JSON.parse(changed_fields)` did: threw, gave `null`, or gave a value with these keys. */
  datatype Parsed = NotJson | JsonNull | JsonValue(entries: seq<Entry>)

  /**
   * `activity.changed_fields` as the dashboard receives it: a string (with
   * its parse outcome), an object, or another scalar.
   */
  datatype ChangedFields = Text(raw: string, parsed: Parsed) | Object(entries: seq<Entry>) | Scalar(v: Value)

  const Unavailable: string := "Field changes unavailable"
  const CsvParseError: string := "(error parsing changed fields)"
  const Arrow: string := " → "

  // ---------------------------------------------------------------------
  // Labels
  // ---------------------------------------------------------------------

  /** The `\w` class of a regular expression. */
  predicate IsWordChar(c: char)
  {
    'a' <= c <= 'z' || 'A' <= c <= 'Z' || '0' <= c <= '9' || c == '_'
  }

  /** Position `i` of `s` starts a word (`\b\w`). */
  predicate WordStart(s: string, i: int)
    requires 0 <= i < |s|
  {
    IsWordChar(s[i]) && (i == 0 || !IsWordChar(s[i - 1]))
  }

  /** Position `i` of `s` starts a word, `afterWord` telling whether a word character precedes `s`. */
  predicate StartsWordAfter(s: string, i: int, afterWord: bool)
    requires 0 <= i < |s|
  {
    IsWordChar(s[i]) && (if i == 0 then !afterWord else !IsWordChar(s[i - 1]))
  }

  function CapitalizeFrom(s: string, afterWord: bool): (r: string)
    ensures |r| == |s|
    ensures forall i :: 0 <= i < |s| ==> r[i] == if StartsWordAfter(s, i, afterWord) then UpperChar(s[i]) else s[i]
  {
    if s == [] then []
    else
      var rest := CapitalizeFrom(s[1..], IsWordChar(s[0]));
      var r := [if IsWordChar(s[0]) && !afterWord then UpperChar(s[0]) else s[0]] + rest;
      assert forall i :: 1 <= i < |s| ==>
               r[i] == rest[i - 1] && s[1..][i - 1] == s[i]
               && (StartsWordAfter(s[1..], i - 1, IsWordChar(s[0])) <==> StartsWordAfter(s, i, afterWord));
      r
  }

  /** `s.replace(/\b\w/g, c => c.toUpperCase())`. */
  function CapitalizeWords(s: string): (r: string)
    ensures |r| == |s|
    ensures forall i :: 0 <= i < |s| ==> r[i] == if WordStart(s, i) then UpperChar(s[i]) else s[i]
  {
    CapitalizeFrom(s, false)
  }

  /** A field name as a label: underscores become spaces and each word is capitalised. */
  function Label(field: string): (r: string)
    ensures |r| == |field|
    ensures forall i :: 0 <= i < |r| ==> r[i] != '_'
  {
    CapitalizeWords(ReplaceChar(field, '_', ' '))
  }

  predicate IsLowerSnake(field: string)
  {
    forall i :: 0 <= i < |field| ==> 'a' <= field[i] <= 'z' || field[i] == '_'
  }

  /**
   * For a lower-case snake_case field name the label capitalises exactly the
   * first letter of each word, and lower-casing it gives the spaced name back.
   */
  lemma LabelOfSnakeCase(field: string)
    requires IsLowerSnake(field)
    ensures ToLower(Label(field)) == ReplaceChar(field, '_', ' ')
    ensures forall i :: 0 <= i < |field| ==>
              ('A' <= Label(field)[i] <= 'Z' <==> field[i] != '_' && (i == 0 || field[i - 1] == '_'))
  {
    forall i | 0 <= i < |field|
      ensures LowerChar(Label(field)[i]) == ReplaceChar(field, '_', ' ')[i]
      ensures 'A' <= Label(field)[i] <= 'Z' <==> field[i] != '_' && (i == 0 || field[i - 1] == '_')
    {
      LabelAt(field, i);
    }
    assert ToLower(Label(field)) == ReplaceChar(field, '_', ' ');
  }

  lemma LabelAt(field: string, i: nat)
    requires IsLowerSnake(field) && i < |field|
    ensures LowerChar(Label(field)[i]) == ReplaceChar(field, '_', ' ')[i]
    ensures 'A' <= Label(field)[i] <= 'Z' <==> field[i] != '_' && (i == 0 || field[i - 1] == '_')
  {
    var s := ReplaceChar(field, '_', ' ');
    var c := field[i];
    assert s[i] == if c == '_' then ' ' else c;
    var w := WordStart(s, i);
    assert w <==> c != '_' && (i == 0 || field[i - 1] == '_') by {
      if i > 0 {
        assert s[i - 1] == if field[i - 1] == '_' then ' ' else field[i - 1];
      }
    }
    assert Label(field)[i] == if w then UpperChar(s[i]) else s[i];
    SnakeCharLabel(c, w);
  }

  /** One character of a snake_case name in its label: upper case exactly at a word start, lower-cased back to itself. */
  lemma SnakeCharLabel(c: char, w: bool)
    requires 'a' <= c <= 'z' || c == '_'
    requires w ==> c != '_'
    ensures var ch := if c == '_' then ' ' else c;
            var l := if w then UpperChar(ch) else ch;
            LowerChar(l) == ch && ('A' <= l <= 'Z' <==> w)
  {
  }

  // ---------------------------------------------------------------------
  // One changed field
  // ---------------------------------------------------------------------

  /** A time value: `0h` when falsy, else `<floor(v/60)>h <v%60>m`. */
  function Hours(v: Value): string
  {
    if !Truthy(v) then "0h"
    else
      match ToNumber(v)
      case None => "NaNh NaNm"
      case Some(n) => IntToString(n / 60) + "h " + IntToString(JsRem(n, 60)) + "m"
  }

  /** Positive minute counts are shown as hours and minutes that read back exactly. */
  lemma HoursReadBack(n: nat)
    ensures TimeFormat.ParseTimeSpent(Hours(Num(n))) == Some(n)
  {
    if n == 0 {
      TimeFormat.ParseWholeHours(0);
    } else {
      TimeFormat.ParseHoursMinutes(n / 60, n % 60);
    }
  }

  /** A value shown in a change line: `(none)` for null and undefined, else `String(v)`. */
  function Shown(v: Value): (r: string)
    ensures (v == Null || v == Undefined) <==> r == "(none)" && !(v.Str? && v.s == "(none)")
  {
    if v == Null || v == Undefined then "(none)" else ToStr(v)
  }

  /** The line for one changed field. */
  function ChangeLine(key: string, c: Change): string
  {
    if key == "time_spent_minutes" then "Time: " + Hours(c.from) + Arrow + Hours(c.to)
    else Label(key) + ": " + Shown(c.from) + Arrow + Shown(c.to)
  }

  /** The dashboard reads entries with `?.`, so a null entry shows as undefined values. */
  function DashboardLine(e: Entry): string
  {
    ChangeLine(e.key, if e.change.Some? then e.change.value else Change(Undefined, Undefined))
  }

  function DashboardLines(es: seq<Entry>): (r: seq<string>)
    ensures |r| == |es|
    ensures forall i :: 0 <= i < |es| ==> r[i] == DashboardLine(es[i])
  {
    if es == [] then [] else [DashboardLine(es[0])] + DashboardLines(es[1..])
  }

  /** A comma-separated fallback: each trimmed piece as `Label: (updated)`. */
  function UpdatedLines(pieces: seq<string>): (r: seq<string>)
    ensures |r| == |pieces|
    ensures forall i :: 0 <= i < |pieces| ==> r[i] == Label(Trim(pieces[i])) + ": (updated)"
  {
    if pieces == [] then [] else [Label(Trim(pieces[0])) + ": (updated)"] + UpdatedLines(pieces[1..])
  }

  predicate FalsyFields(cf: ChangedFields)
  {
    match cf
    case Text(raw, _) => raw == ""
    case Object(_) => false
    case Scalar(v) => !Truthy(v)
  }

  /** `formatActivity(activity).changedFields`. */
  function DashboardChanges(cf: ChangedFields): (r: seq<string>)
    ensures FalsyFields(cf) ==> r == []
    ensures cf.Object? ==> |r| == |cf.entries|
    ensures cf.Text? && cf.raw != "" && cf.parsed.JsonValue? ==> |r| == |cf.parsed.entries|
    ensures cf.Text? && cf.raw != "" && cf.parsed == JsonNull ==> r == [Unavailable]
    ensures cf.Text? && cf.raw != "" && cf.parsed == NotJson ==> |r| == |Split(cf.raw, ',')|
    ensures cf.Scalar? && Truthy(cf.v) ==> r == [ToStr(cf.v)]
  {
    if FalsyFields(cf) then []
    else
      match cf
      case Text(raw, parsed) =>
        (match parsed
         case NotJson => UpdatedLines(Split(raw, ','))
         case JsonNull => [Unavailable]
         case JsonValue(es) => DashboardLines(es))
      case Object(es) => DashboardLines(es)
      case Scalar(v) => [ToStr(v)]
  }

  /** A field list without commas gives exactly one `(updated)` line. */
  lemma SingleFieldFallback(raw: string)
    requires raw != "" && ',' !in raw
    ensures DashboardChanges(Text(raw, NotJson)) == [Label(Trim(raw)) + ": (updated)"]
  {
    SplitNoSeparator(raw, ',');
  }

  // ---------------------------------------------------------------------
  // The CSV cell
  // ---------------------------------------------------------------------

  predicate AllPresent(es: seq<Entry>)
  {
    forall i :: 0 <= i < |es| ==> es[i].change.Some?
  }

  function CsvLines(es: seq<Entry>): (r: seq<string>)
    requires AllPresent(es)
    ensures |r| == |es|
    ensures forall i :: 0 <= i < |es| ==> r[i] == ChangeLine(es[i].key, es[i].change.value)
  {
    if es == [] then [] else [ChangeLine(es[0].key, es[0].change.value)] + CsvLines(es[1..])
  }

  /**
   * The "Changed Fields" cell of the export: empty when there is nothing or
   * the parse gives null; the error text when the parse throws or an entry is
   * null (reading `.from` of it throws); else the lines joined with `; `.
   */
  function CsvChangedText(raw: string, parsed: Parsed): (r: string)
    ensures raw == "" || parsed == JsonNull ==> r == ""
    ensures raw != "" && parsed == NotJson ==> r == CsvParseError
    ensures raw != "" && parsed.JsonValue? && !AllPresent(parsed.entries) ==> r == CsvParseError
  {
    if raw == "" then ""
    else
      match parsed
      case NotJson => CsvParseError
      case JsonNull => ""
      case JsonValue(es) => if AllPresent(es) then Join(CsvLines(es), "; ") else CsvParseError
  }

  /** Where both succeed, the CSV cell is the dashboard's lines joined with `; `. */
  lemma CsvAgreesWithDashboard(raw: string, es: seq<Entry>)
    requires raw != "" && AllPresent(es)
    ensures CsvChangedText(raw, JsonValue(es)) == Join(DashboardChanges(Text(raw, JsonValue(es))), "; ")
  {
    assert CsvLines(es) == DashboardLines(es);
  }

  /** The two renderings part ways on a null entry: the dashboard still shows a line for it. */
  lemma NullEntryDiffers(raw: string, key: string)
    requires raw != ""
    ensures CsvChangedText(raw, JsonValue([Entry(key, None)])) == CsvParseError
    ensures DashboardChanges(Text(raw, JsonValue([Entry(key, None)]))) ==
            [ChangeLine(key, Change(Undefined, Undefined))]
  {
  }
}

=== FILE: analytics.dfy ===
/**
 * The figures of the analytics page
 * (projet-analyse-image-frontend/src/components/Analytics.js): the date-range
 * filter, the status and software tallies, the completion rate, the
 * project-duration and time-spent histograms, and the normalisation of
 * multi-selection fields onto the predefined categories. Dates are instants
 * in milliseconds; the clock and the local end of day are inputs.
 */
module Analytics {
  import opened Strings
  import opened Js
  import Seqs
  import Sorting
  import StatusNames
  import JsonArray
  import ProjectDetails

  /**
   * A date field of a project: empty (falsy), text that `new Date` cannot
   * read (an Invalid Date, whose time is NaN), or an instant.
   */
  datatype Stamp = Missing | Invalid | At(ms: int)

  /** `new Date(x).getTime()` for a set field; `None` is NaN. */
  function Time(s: Stamp): Option<int>
  {
    if s.At? then Some(s.ms) else None
  }

  /** `a < b` on times: any comparison with NaN is false. */
  predicate Lt(a: Option<int>, b: Option<int>)
  {
    a.Some? && b.Some? && a.value < b.value
  }

  predicate Le(a: Option<int>, b: Option<int>)
  {
    a.Some? && b.Some? && a.value <= b.value
  }

  /** The fields of a project row the analytics read. */
  datatype Project = Project(
    status: Value,
    software: Value,
    minutes: Value,
    created: Stamp,
    updated: Stamp,
    completed: Stamp)

  // ---------------------------------------------------------------------
  // Date range
  // ---------------------------------------------------------------------

  /** The last activity: the update date, else the completion date, else the creation date. */
  function LastActivity(p: Project): Option<int>
  {
    if !p.updated.Missing? then Time(p.updated)
    else if !p.completed.Missing? then Time(p.completed)
    else Time(p.created)
  }

  /** Created at or after `start` and last active at or before `end`. */
  predicate InRange(p: Project, start: Option<int>, end: Option<int>)
  {
    !p.created.Missing? && !Lt(Time(p.created), start) && Le(LastActivity(p), end)
  }

  /** The start bound: the epoch when no start date is set. */
  function StartBound(startDate: Stamp): Option<int>
  {
    if startDate.Missing? then Some(0) else Time(startDate)
  }

  /**
   * The end bound: `dayEnd` is the local 23:59:59.999 of the end date, or of
   * today when none is set; an unreadable end date stays NaN.
   */
  function EndBound(endDate: Stamp, dayEnd: int): Option<int>
  {
    if endDate.Invalid? then None else Some(dayEnd)
  }

  datatype View = View(projects: seq<Project>, isFiltered: bool)

  /** `applyDateFilter()`. */
  function ApplyDateFilter(ps: seq<Project>, startDate: Stamp, endDate: Stamp, dayEnd: int): (r: View)
    ensures startDate.Missing? && endDate.Missing? ==> r == View(ps, false)
    ensures !(startDate.Missing? && endDate.Missing?) ==>
              r.isFiltered
              && forall p :: p in r.projects <==> p in ps && InRange(p, StartBound(startDate), EndBound(endDate, dayEnd))
    ensures |r.projects| <= |ps|
  {
    if startDate.Missing? && endDate.Missing? then View(ps, false)
    else
      var start, end := StartBound(startDate), EndBound(endDate, dayEnd);
      var kept := Seqs.Filter((p: Project) => InRange(p, start, end), ps);
      assert forall p :: p in ps && InRange(p, start, end) ==> p in kept by {
        forall p | p in ps && InRange(p, start, end) ensures p in kept {
          assert p in multiset(ps);
        }
      }
      View(kept, true)
  }

  /** Filtering keeps the order of the list: the filter of a concatenation is the concatenation of the filters. */
  lemma DateFilterKeepsOrder(a: seq<Project>, b: seq<Project>, startDate: Stamp, endDate: Stamp, dayEnd: int)
    ensures ApplyDateFilter(a + b, startDate, endDate, dayEnd).projects
            == ApplyDateFilter(a, startDate, endDate, dayEnd).projects + ApplyDateFilter(b, startDate, endDate, dayEnd).projects
  {
    if !(startDate.Missing? && endDate.Missing?) {
      var start, end := StartBound(startDate), EndBound(endDate, dayEnd);
      Seqs.FilterAppend((p: Project) => InRange(p, start, end), a, b);
    }
  }

  /** An end date `new Date` cannot read hides every project. */
  lemma UnreadableEndDateHidesAll(ps: seq<Project>, startDate: Stamp, dayEnd: int)
    ensures ApplyDateFilter(ps, startDate, Invalid, dayEnd) == View([], true)
  {
    var r := ApplyDateFilter(ps, startDate, Invalid, dayEnd);
    if r.projects != [] {
      assert false;
    }
  }

  /** Once a range is set, a project without a creation date is never shown. */
  lemma UndatedProjectsHidden(ps: seq<Project>, startDate: Stamp, endDate: Stamp, dayEnd: int, p: Project)
    requires !(startDate.Missing? && endDate.Missing?) && p.created.Missing?
    ensures p !in ApplyDateFilter(ps, startDate, endDate, dayEnd).projects
  {
  }

  // ---------------------------------------------------------------------
  // Status tally and completion
  // ---------------------------------------------------------------------

  /** The key a project is counted under: `statusMap[status || 'Unknown'] || status`, as an object key. */
  function StatusKey(status: Value): string
  {
    ToStr(StatusNames.CountedStatus(status))
  }

  /** Texts that start with a digit or a minus sign are not legacy status names. */
  lemma NumberTextNotLegacy(s: string)
    requires s != [] && (IsDigit(s[0]) || s[0] == '-')
    ensures StatusNames.Legacy(s).None?
  {
  }

  /** No key of the status tally is a legacy name: legacy names are always mapped first. */
  lemma StatusKeyIsCurrent(status: Value)
    ensures StatusNames.Legacy(StatusKey(status)).None?
  {
    var m := StatusNames.CountedStatus(status);
    if !Truthy(status) {
      assert StatusKey(status) == "Unknown";
    } else {
      StatusNames.MappedIsCurrent(status);
      if m.Num? {
        NumberTextNotLegacy(IntToString(m.n));
      }
    }
  }

  function StatusKeys(ps: seq<Project>): (keys: seq<string>)
    ensures |keys| == |ps|
    ensures forall i :: 0 <= i < |ps| ==> keys[i] == StatusKey(ps[i].status)
  {
    seq(|ps|, i requires 0 <= i < |ps| => StatusKey(ps[i].status))
  }

  /** `statusCounts`: one entry per status key in first-seen order, counts summing to the number of projects. */
  function StatusCounts(ps: seq<Project>): (t: Seqs.Tally)
    ensures Seqs.DistinctKeys(t)
    ensures Seqs.Total(t) == |ps|
    ensures forall i :: 0 <= i < |t| ==> t[i].1 == multiset(StatusKeys(ps))[t[i].0]
    ensures forall k :: k in Seqs.TallyKeys(t) <==> exists i :: 0 <= i < |ps| && StatusKey(ps[i].status) == k
    ensures forall k :: k in Seqs.TallyKeys(t) ==> StatusNames.Legacy(k).None?
  {
    var keys := StatusKeys(ps);
    var t := Seqs.CountBy(keys);
    forall k | k in Seqs.TallyKeys(t) ensures StatusNames.Legacy(k).None? {
      var i :| 0 <= i < |keys| && keys[i] == k;
      StatusKeyIsCurrent(ps[i].status);
    }
    t
  }

  function IsFinished(p: Project): bool { p.status == Str("Finished") }

  /** `completionRate`: the rounded share of projects whose raw status is 'Finished'. */
  function CompletionRate(ps: seq<Project>): (r: int)
    ensures 0 <= r <= 100
    ensures ps == [] ==> r == 0
    ensures ps != [] ==> 2 * |ps| * r - |ps| <= 200 * Seqs.Count(IsFinished, ps) < 2 * |ps| * r + |ps|
  {
    Percent(Seqs.Count(IsFinished, ps), |ps|)
  }

  /**
   * The rate reads the raw status while the tally maps it: projects stored
   * with the current name 'Completed' count as not finished.
   */
  lemma CompletedStatusNotCounted(ps: seq<Project>)
    requires forall i :: 0 <= i < |ps| ==> ps[i].status == Str("Completed")
    ensures CompletionRate(ps) == 0
  {
    var f := Seqs.Filter(IsFinished, ps);
    forall x ensures multiset(f)[x] == 0 {
      if IsFinished(x) {
        assert x !in ps;
      }
    }
    assert multiset(f) == multiset{};
  }

  // ---------------------------------------------------------------------
  // Software chart
  // ---------------------------------------------------------------------

  const TopSoftware: nat := 8

  /** `project.software || 'Not specified'`, as an object key. */
  function SoftwareKeys(ps: seq<Project>): (keys: seq<string>)
    ensures |keys| == |ps|
    ensures forall i :: 0 <= i < |ps| ==> keys[i] == ToStr(Or(ps[i].software, Str("Not specified")))
  {
    seq(|ps|, i requires 0 <= i < |ps| => ToStr(Or(ps[i].software, Str("Not specified"))))
  }

  function ByCount(e: (string, nat)): Sorting.Key { Sorting.Num(e.1) }

  /** A tally sorted by count, descending, has its counts in non-increasing order. */
  lemma CountsDescending(s: Seqs.Tally)
    requires Sorting.SortedBy(s, ByCount, false)
    ensures forall i, j :: 0 <= i < j < |s| ==> s[i].1 >= s[j].1
  {
    forall i, j | 0 <= i < j < |s| ensures s[i].1 >= s[j].1 {
      assert Sorting.InOrder(false, ByCount(s[i]), ByCount(s[j]));
    }
  }

  /** `Object.entries(softwareCounts).sort((a, b) => b[1] - a[1])`. */
  function SoftwareRanking(ps: seq<Project>): (s: Seqs.Tally)
    ensures multiset(s) == multiset(Seqs.CountBy(SoftwareKeys(ps)))
    ensures Sorting.SortedBy(s, ByCount, false)
    ensures Seqs.Total(s) == |ps|
  {
    var t := Seqs.CountBy(SoftwareKeys(ps));
    var s := Sorting.Sort(t, ByCount, false);
    Seqs.TotalPermutation(s, t);
    s
  }

  /** The labels and values of a chart, in drawing order. */
  datatype Chart = Chart(labels: seq<string>, data: seq<nat>)

  function Min(a: nat, b: nat): nat { if a <= b then a else b }

  /** The first `n` entries of a ranking, then 'Others' with the sum of the rest when that sum is positive. */
  function TopWithOthers(s: Seqs.Tally, n: nat): (c: Chart)
    requires n > 0
    requires Sorting.SortedBy(s, ByCount, false)
    ensures |c.labels| == |c.data| <= n + 1
    ensures Seqs.SumNat(c.data) == Seqs.Total(s)
    ensures forall i, j :: 0 <= i < j < |c.data| && j < n ==> c.data[i] >= c.data[j]
    ensures |c.data| > n ==> c.labels[n] == "Others" && |s| > n
    ensures |c.data| == 0 <==> s == []
  {
    var k := Min(n, |s|);
    var others := Seqs.Total(s[k..]);
    var labels := Seqs.TallyKeys(s[..k]) + (if others > 0 then ["Others"] else []);
    var data := Seqs.TallyCounts(s[..k]) + (if others > 0 then [others] else []);
    ChartShape(s, n, labels, data);
    Chart(labels, data)
  }

  /** The columns of the chart: its size, total and order. */
  lemma ChartShape(s: Seqs.Tally, n: nat, labels: seq<string>, data: seq<nat>)
    requires n > 0
    requires Sorting.SortedBy(s, ByCount, false)
    requires var k := Min(n, |s|);
             var others := Seqs.Total(s[k..]);
             labels == Seqs.TallyKeys(s[..k]) + (if others > 0 then ["Others"] else [])
             && data == Seqs.TallyCounts(s[..k]) + (if others > 0 then [others] else [])
    ensures |labels| == |data| <= n + 1
    ensures Seqs.SumNat(data) == Seqs.Total(s)
    ensures forall i, j :: 0 <= i < j < |data| && j < n ==> data[i] >= data[j]
    ensures |data| > n ==> labels[n] == "Others" && |s| > n
    ensures |data| == 0 <==> s == []
  {
    var k := Min(n, |s|);
    TopSplitTotal(s, k);
    TopDescending(s, n);
    if |data| > n {
      assert labels[n] == "Others";
    }
  }

  /** The counts of the first `k` entries and the positive rest sum to the ranking's total. */
  lemma TopSplitTotal(s: Seqs.Tally, k: nat)
    requires k <= |s|
    ensures var others := Seqs.Total(s[k..]);
            Seqs.SumNat(Seqs.TallyCounts(s[..k]) + (if others > 0 then [others] else [])) == Seqs.Total(s)
  {
    var top, rest := s[..k], s[k..];
    var others := Seqs.Total(rest);
    assert s == top + rest;
    Seqs.TotalAppend(top, rest);
    var tail: seq<nat> := if others > 0 then [others] else [];
    Seqs.SumNatAppend(Seqs.TallyCounts(top), tail);
    assert Seqs.SumNat(tail) == others;
  }

  /** Within the first `n` columns the counts never increase. */
  lemma TopDescending(s: Seqs.Tally, n: nat)
    requires Sorting.SortedBy(s, ByCount, false)
    ensures var k := Min(n, |s|);
            var others := Seqs.Total(s[k..]);
            var data := Seqs.TallyCounts(s[..k]) + (if others > 0 then [others] else []);
            forall i, j :: 0 <= i < j < |data| && j < n ==> data[i] >= data[j]
  {
    var k := Min(n, |s|);
    var others := Seqs.Total(s[k..]);
    var data := Seqs.TallyCounts(s[..k]) + (if others > 0 then [others] else []);
    forall i, j | 0 <= i < j < |data| && j < n ensures data[i] >= data[j] {
      assert Sorting.InOrder(false, ByCount(s[i]), ByCount(s[j]));
    }
  }

  /**
   * The software chart: the eight most used software names by count, then
   * 'Others' with the sum of the rest when that sum is positive.
   */
  function SoftwareChart(ps: seq<Project>): (c: Chart)
    ensures |c.labels| == |c.data| <= TopSoftware + 1
    ensures Seqs.SumNat(c.data) == |ps|
    ensures forall i, j :: 0 <= i < j < |c.data| && j < TopSoftware ==> c.data[i] >= c.data[j]
    ensures |c.data| > TopSoftware ==> c.labels[TopSoftware] == "Others"
    ensures |c.data| == 0 <==> ps == []
  {
    var s := SoftwareRanking(ps);
    assert s == [] <==> ps == [] by {
      if ps != [] { assert Seqs.Total(s) > 0; }
    }
    TopWithOthers(s, TopSoftware)
  }

  /** An entry left out of the top of a ranking has a count no larger than any entry shown. */
  lemma OmittedRanksLower(s: Seqs.Tally, n: nat, e: (string, nat), i: nat)
    requires n > 0 && Sorting.SortedBy(s, ByCount, false)
    requires e in s
    requires i < |TopWithOthers(s, n).data| && i < n
    requires forall j :: 0 <= j < |TopWithOthers(s, n).labels| && j < n ==> TopWithOthers(s, n).labels[j] != e.0
    ensures TopWithOthers(s, n).data[i] >= e.1
  {
    var k := Min(n, |s|);
    var m :| 0 <= m < |s| && s[m] == e;
    var c := TopWithOthers(s, n);
    TopColumns(s, n);
    assert m >= k;
    assert i < k;
    assert Sorting.InOrder(false, ByCount(s[i]), ByCount(s[m]));
  }

  /** The first columns of the chart are the top entries of the ranking, in order. */
  lemma TopColumns(s: Seqs.Tally, n: nat)
    requires n > 0 && Sorting.SortedBy(s, ByCount, false)
    ensures var c := TopWithOthers(s, n);
            forall j :: 0 <= j < Min(n, |s|) ==> c.labels[j] == s[j].0 && c.data[j] == s[j].1
  {
  }

  /** A software name left out of the top of the chart has no more projects than any name shown. */
  lemma OmittedSoftwareRanksLower(ps: seq<Project>, e: (string, nat), i: nat)
    requires e in Seqs.CountBy(SoftwareKeys(ps))
    requires i < |SoftwareChart(ps).data| && i < TopSoftware
    requires forall j :: 0 <= j < |SoftwareChart(ps).labels| && j < TopSoftware ==> SoftwareChart(ps).labels[j] != e.0
    ensures SoftwareChart(ps).data[i] >= e.1
  {
    var s := SoftwareRanking(ps);
    assert e in multiset(s);
    OmittedRanksLower(s, TopSoftware, e, i);
  }

  // ---------------------------------------------------------------------
  // Histograms
  // ---------------------------------------------------------------------

  predicate Increasing(limits: seq<int>)
  {
    forall i, j :: 0 <= i < j < |limits| ==> limits[i] < limits[j]
  }

  /** The first range whose upper limit is at least `x`, or the open last range. */
  function Bucket(limits: seq<int>, x: int): (b: nat)
    ensures b <= |limits|
    ensures b < |limits| ==> x <= limits[b]
    ensures forall j :: 0 <= j < b ==> x > limits[j]
  {
    if limits == [] then 0
    else if x <= limits[0] then 0
    else 1 + Bucket(limits[1..], x)
  }

  /** With increasing limits, range `b` holds exactly the values above limit `b - 1` and up to limit `b`. */
  lemma BucketIff(limits: seq<int>, x: int, b: nat)
    requires Increasing(limits) && b <= |limits|
    ensures Bucket(limits, x) == b <==> (b == 0 || x > limits[b - 1]) && (b == |limits| || x <= limits[b])
  {
    var c := Bucket(limits, x);
  }

  /** A larger value never lands in an earlier range. */
  lemma BucketMonotone(limits: seq<int>, x: int, y: int)
    requires x <= y
    ensures Bucket(limits, x) <= Bucket(limits, y)
  {
  }

  /** The upper limits of the time ranges in minutes: 5, 10, 20, 30 and 40 hours. */
  const TimeLimits: seq<int> := [300, 600, 1200, 1800, 2400]

  /** `time_spent_minutes ? time_spent_minutes / 60 : 0` in minutes; `None` is NaN. */
  function Minutes(v: Value): Option<int>
  {
    if Truthy(v) then ToNumber(v) else Some(0)
  }

  /**
   * The time range of a project: `hours <= 5`, `<= 10`, `<= 20`, `<= 30`,
   * `<= 40`, else the last; `hours <= h` is `minutes <= 60 * h`, and NaN
   * fails every test.
   */
  function TimeBucket(minutes: Value): (b: nat)
    ensures b <= |TimeLimits|
    ensures Minutes(minutes).None? ==> b == |TimeLimits|
  {
    var m := Minutes(minutes);
    if m.None? then |TimeLimits| else Bucket(TimeLimits, m.value)
  }

  function TimeBins(ps: seq<Project>): (bins: seq<nat>)
    ensures |bins| == |ps|
    ensures forall i :: 0 <= i < |ps| ==> bins[i] == TimeBucket(ps[i].minutes)
  {
    seq(|ps|, i requires 0 <= i < |ps| => TimeBucket(ps[i].minutes))
  }

  /** `timeSpentRanges`: six counts, one per range, adding up to the number of projects. */
  function TimeSpread(ps: seq<Project>): (counts: seq<nat>)
    ensures |counts| == |TimeLimits| + 1
    ensures Seqs.SumNat(counts) == |ps|
    ensures forall b :: 0 <= b < |counts| ==> counts[b] == multiset(TimeBins(ps))[b]
  {
    Seqs.Histogram(TimeBins(ps), |TimeLimits| + 1)
  }

  /** A number of minutes lands in range `b` exactly when it lies between the limits around it. */
  lemma TimeBucketIff(n: int, b: nat)
    requires b <= |TimeLimits|
    ensures TimeBucket(Num(n)) == b <==>
              (b == 0 || n > TimeLimits[b - 1]) && (b == |TimeLimits| || n <= TimeLimits[b])
  {
    if n == 0 {
      assert Minutes(Num(n)) == Some(0);
    }
    BucketIff(TimeLimits, n, b);
  }

  /** Time that is not a number, such as a text `parseFloat` would have read, lands in the last range. */
  lemma UnreadableTimeIsLast(s: string)
    requires Truthy(Str(s)) && ToNumber(Str(s)).None?
    ensures TimeBucket(Str(s)) == |TimeLimits|
  {
  }

  // ---------------------------------------------------------------------
  // Durations
  // ---------------------------------------------------------------------

  const DayMs: nat := 86400000

  /** The upper limits of the duration ranges in days. */
  const DayLimits: seq<int> := [7, 14, 30, 90, 180]

  /**
   * The time from creation to completion, or to `now` for a project not
   * completed; only a positive span counts.
   */
  function Span(p: Project, now: int): (r: Option<int>)
    ensures r.Some? ==> r.value > 0
  {
    if p.created.Missing? then None
    else
      var c := Time(p.created);
      var e := if p.completed.Missing? then Some(now) else Time(p.completed);
      if Lt(c, e) then Some(e.value - c.value) else None
  }

  predicate HasSpan(now: int, p: Project) { Span(p, now).Some? }

  function Spanned(ps: seq<Project>, now: int): (r: seq<Project>)
    ensures |r| == Seqs.Count((p: Project) => HasSpan(now, p), ps)
    ensures forall i :: 0 <= i < |r| ==> r[i] in ps && HasSpan(now, r[i])
  {
    Seqs.Filter((p: Project) => HasSpan(now, p), ps)
  }

  /** `projectDurations`: the rounded number of days of each project with a positive span, in list order. */
  function Durations(ps: seq<Project>, now: int): (days: seq<int>)
    ensures |days| == Seqs.Count((p: Project) => HasSpan(now, p), ps)
    ensures forall i :: 0 <= i < |days| ==> days[i] >= 0
  {
    var kept := Spanned(ps, now);
    seq(|kept|, i requires 0 <= i < |kept| => RoundDiv(Span(kept[i], now).value, DayMs))
  }

  function DurationBins(days: seq<int>): (bins: seq<nat>)
    ensures |bins| == |days|
    ensures forall i :: 0 <= i < |days| ==> bins[i] == Bucket(DayLimits, days[i])
  {
    seq(|days|, i requires 0 <= i < |days| => Bucket(DayLimits, days[i]))
  }

  /** `durationRanges`: six counts adding up to the number of projects with a positive span. */
  function DurationSpread(ps: seq<Project>, now: int): (counts: seq<nat>)
    ensures |counts| == |DayLimits| + 1
    ensures Seqs.SumNat(counts) == Seqs.Count((p: Project) => HasSpan(now, p), ps)
    ensures forall b :: 0 <= b < |counts| ==> counts[b] == multiset(DurationBins(Durations(ps, now)))[b]
  {
    Seqs.Histogram(DurationBins(Durations(ps, now)), |DayLimits| + 1)
  }

  /** A span under half a day rounds to 0 days but still counts, in the first range. */
  lemma ShortSpanCountsAsZeroDays(span: int)
    requires 0 < span && 2 * span < DayMs
    ensures RoundDiv(span, DayMs) == 0
    ensures Bucket(DayLimits, RoundDiv(span, DayMs)) == 0
  {
    RoundDivUnique(span, DayMs, 0);
  }

  // ---------------------------------------------------------------------
  // Multi-selection fields
  // ---------------------------------------------------------------------

  const OtherCategory: string := "other"

  /** `selection.toLowerCase().trim()`. */
  function Normalize(selection: string): string { Trim(ToLower(selection)) }

  /** The three ways an option matches a normalised selection: equal, contained, or containing. */
  predicate Related(normalized: string, option: string)
  {
    ToLower(option) == normalized || Contains(normalized, ToLower(option)) || Contains(ToLower(option), normalized)
  }

  /** The first option related to the selection, in list order, or "other". */
  function Category(selection: string, options: seq<string>): (r: string)
    ensures r in options || r == OtherCategory
    ensures (forall i :: 0 <= i < |options| ==> !Related(Normalize(selection), options[i])) ==> r == OtherCategory
  {
    var k := FirstRelated(Normalize(selection), options);
    if k < |options| then options[k] else OtherCategory
  }

  /** An option related to the selection, with none related before it, is the category. */
  lemma CategoryIsFirstRelated(selection: string, options: seq<string>, i: nat)
    requires i < |options| && Related(Normalize(selection), options[i])
    requires forall j :: 0 <= j < i ==> !Related(Normalize(selection), options[j])
    ensures Category(selection, options) == options[i]
  {
    var n := Normalize(selection);
    var k := FirstRelated(n, options);
    assert !(k < i) && !(i < k);
  }

  function FirstRelated(normalized: string, options: seq<string>): (k: nat)
    ensures k <= |options|
    ensures k < |options| ==> Related(normalized, options[k])
    ensures forall j :: 0 <= j < k ==> !Related(normalized, options[j])
  {
    if options == [] then 0
    else if Related(normalized, options[0]) then 0
    else 1 + FirstRelated(normalized, options[1..])
  }

  /**
   * The selections of a field value: none for a falsy value; for a text,
   * the JSON array of texts it holds or else its trimmed, non-empty
   * comma-separated pieces; any other value throws in `toLowerCase`.
   */
  function RawSelections(v: Value): (r: Result<seq<string>, string>)
    ensures !Truthy(v) ==> r == Ok([])
    ensures Truthy(v) && !v.Str? ==> r.Err?
    ensures v.Str? && JsonArray.Decode(v.s).Some? ==> r == Ok(JsonArray.Decode(v.s).value)
    ensures v.Str? && JsonArray.Decode(v.s).None? && v.s != [] ==> r == Ok(ProjectDetails.Pieces(v.s))
    ensures v.Str? && JsonArray.Decode(v.s).None? && v.s != [] ==>
              r.Ok? && forall x :: x in r.value ==> x != []
  {
    if !Truthy(v) then Ok([])
    else if !v.Str? then Err(TypeError)
    else match JsonArray.Decode(v.s)
      case Some(xs) => Ok(xs)
      case None => Ok(ProjectDetails.Pieces(v.s))
  }

  /**
   * The analytics page and the details page read a stored selection alike:
   * a text or a falsy value gives the same list on both.
   */
  lemma SelectionsAgree(v: Value)
    requires !Truthy(v) || v.Str?
    ensures RawSelections(v) == Ok(ProjectDetails.Selections(ProjectDetails.Scalar(v)))
  {
  }

  const TypeError: string := "selection.toLowerCase is not a function"

  /** `parseMultiSelectionField`: one category per selection, in order. */
  function ParseSelections(v: Value, options: seq<string>): (r: Result<seq<string>, string>)
    ensures r.Ok? <==> RawSelections(v).Ok?
    ensures r.Ok? ==> |r.value| == |RawSelections(v).value|
    ensures r.Ok? ==> forall i :: 0 <= i < |r.value| ==>
                        r.value[i] == Category(RawSelections(v).value[i], options)
    ensures r.Ok? ==> forall i :: 0 <= i < |r.value| ==> r.value[i] in options || r.value[i] == OtherCategory
  {
    match RawSelections(v)
    case Err(e) => Err(e)
    case Ok(xs) => Ok(seq(|xs|, i requires 0 <= i < |xs| => Category(xs[i], options)))
  }

  /** A stored JSON array of chosen options is read back as those very options. */
  lemma StoredOptionsReadBack(xs: seq<string>, options: seq<string>)
    requires forall i :: 0 <= i < |xs| ==> xs[i] in options
    requires forall i :: 0 <= i < |options| ==> ToLower(options[i]) == options[i] && Trim(options[i]) == options[i]
    requires forall i, j :: 0 <= i < j < |options| ==> !Related(options[j], options[i])
    ensures ParseSelections(Str(JsonArray.Encode(xs)), options) == Ok(xs)
  {
    JsonArray.DecodeEncode(xs);
    var v := Str(JsonArray.Encode(xs));
    assert Truthy(v) by { assert |v.s| >= 2; }
    assert RawSelections(v) == Ok(xs);
    var r := ParseSelections(v, options);
    forall i | 0 <= i < |xs|
      ensures r.value[i] == xs[i]
    {
      var k :| 0 <= k < |options| && options[k] == xs[i];
      ExactOptionMapsToItself(options, k);
    }
    assert r.value == xs;
  }

  /** A lower-case, trimmed option selected as it is maps to itself when no earlier option is related to it. */
  lemma ExactOptionMapsToItself(options: seq<string>, k: nat)
    requires k < |options|
    requires ToLower(options[k]) == options[k] && Trim(options[k]) == options[k]
    requires forall j :: 0 <= j < k ==> !Related(options[k], options[j])
    ensures Category(options[k], options) == options[k]
  {
    ToLowerIdempotent(options[k]);
    assert Normalize(options[k]) == options[k];
    CategoryIsFirstRelated(options[k], options, k);
  }

  /** A blank entry of a JSON array is related to every option, so it takes the first option, not "other". */
  lemma BlankSelectionTakesFirstOption(options: seq<string>)
    requires options != []
    ensures Category("", options) == options[0]
  {
    assert Normalize("") == "" by {
      assert ToLower("") == "";
    }
    assert IsAt(ToLower(options[0]), "", 0);
    ContainsAt(ToLower(options[0]), "", 0);
  }
}

=== FILE: api.dfy ===
/**
 * The HTTP client of projet-analyse-image-frontend/src/services/api.js: where
 * requests go, how often a request is tried, how a failed answer becomes an
 * error, the health probe, and how project payloads are cleaned before they
 * are sent. The outcome of each network attempt is a parameter.
 */
module Api {
  import opened Strings
  import opened Js

  /** The backend on its default port. */
  const DefaultOrigin: string := "http://localhost:3001"
  const DefaultApiUrl: string := DefaultOrigin + "/api"
  const PortKey: string := "biome_backend_port"

  // ---------------------------------------------------------------------
  // Where requests go
  // ---------------------------------------------------------------------

  /**
   * `getApiUrl`: fixed in the desktop shell; from the stored port (default
   * 3001) in a production web build; otherwise from `REACT_APP_API_URL` when
   * it is set and not empty.
   */
  function ApiUrl(tauriGlobal: bool, nodeEnv: string, storedPort: Option<string>, envUrl: Option<string>): (u: string)
    ensures tauriGlobal ==> u == DefaultApiUrl
    ensures !tauriGlobal && nodeEnv == "production" ==>
              u == "http://localhost:" + (if storedPort.Some? && storedPort.value != "" then storedPort.value else "3001") + "/api"
    ensures !tauriGlobal && nodeEnv != "production" ==>
              u == if envUrl.Some? && envUrl.value != "" then envUrl.value else DefaultApiUrl
  {
    if tauriGlobal then DefaultApiUrl
    else if nodeEnv == "production" then
      var port := if storedPort.Some? && storedPort.value != "" then storedPort.value else "3001";
      "http://localhost:" + port + "/api"
    else if envUrl.Some? && envUrl.value != "" then envUrl.value
    else DefaultApiUrl
  }

  /** Without a stored port or an environment URL, every kind of build talks to port 3001. */
  lemma DefaultsAgree(tauriGlobal: bool, nodeEnv: string)
    ensures ApiUrl(tauriGlobal, nodeEnv, None, None) == DefaultApiUrl
  {
    assert "http://localhost:" + "3001" + "/api" == DefaultApiUrl;
  }

  /** `s.replace(sub, by)` with a text pattern: only the first occurrence is replaced. */
  function ReplaceFirst(s: string, sub: string, rep: string): (r: string)
    ensures IndexOf(s, sub) == -1 ==> r == s
    ensures IndexOf(s, sub) != -1 ==> |r| == |s| - |sub| + |rep|
    ensures IndexOf(s, sub) != -1 ==>
              r[..IndexOf(s, sub)] == s[..IndexOf(s, sub)]
              && r[IndexOf(s, sub)..] == rep + s[IndexOf(s, sub) + |sub|..]
  {
    var i := IndexOf(s, sub);
    if i == -1 then s
    else
      var r := s[..i] + rep + s[i + |sub|..];
      assert r[..i] == s[..i];
      assert r[i..] == rep + s[i + |sub|..];
      r
  }

  /** The health address: the first '/api' of the base address removed, then '/api/health' appended. */
  function HealthUrl(apiUrl: string): string
  {
    ReplaceFirst(apiUrl, "/api", "") + "/api/health"
  }

  /** A text does not occur where its first two characters are not found. */
  lemma NotAt(s: string, sub: string, i: nat)
    requires |sub| >= 2 && i + 1 < |s|
    requires s[i] != sub[0] || s[i + 1] != sub[1]
    ensures !IsAt(s, sub, i)
  {
    if i + |sub| <= |s| {
      assert s[i..i + |sub|][0] == s[i];
      assert s[i..i + |sub|][1] == s[i + 1];
    }
  }

  /** For the default address the health probe goes to the backend's own health route. */
  lemma DefaultHealthUrl()
    ensures HealthUrl(DefaultApiUrl) == DefaultOrigin + "/api/health"
  {
    var u := DefaultApiUrl;
    PartsOfConcat(DefaultOrigin, "/api", []);
    assert u == DefaultOrigin + "/api" + [];
    NoApiInHost();
    IndexOfIs(u, "/api", |DefaultOrigin|);
    var r := ReplaceFirst(u, "/api", "");
    assert r == r[..|DefaultOrigin|] + r[|DefaultOrigin|..];
  }

  /** The default address has no '/api' before its path. */
  lemma NoApiInHost()
    ensures forall i :: 0 <= i < |DefaultOrigin| ==> !IsAt(DefaultApiUrl, "/api", i)
  {
    var u := DefaultApiUrl;
    forall i | 0 <= i < 21 ensures !IsAt(u, "/api", i) {
      assert u[i] != '/' || u[i + 1] != 'a';
      NotAt(u, "/api", i);
    }
  }

  /**
   * A development address whose host begins with 'api' loses the slash in
   * front of the host instead of its '/api' path: 'http://api.example/api'
   * is probed at 'http:/.example/api/api/health'.
   */
  lemma HostNamedApiBreaksHealthUrl(rest: string)
    ensures HealthUrl("http://api" + rest) == "http:/" + rest + "/api/health"
  {
    var u := "http://api" + rest;
    assert u[..10] == "http://api";
    assert IsAt(u, "/api", 6) by {
      assert u[6..10] == u[..10][6..10];
    }
    forall i | 0 <= i < 6 ensures !IsAt(u, "/api", i) {
      assert u[i] == u[..10][i] && u[i + 1] == u[..10][i + 1];
      NotAt(u, "/api", i);
    }
    IndexOfIs(u, "/api", 6);
    var r := ReplaceFirst(u, "/api", "");
    assert r[..6] == "http:/";
    assert r[6..] == rest;
    assert r == r[..6] + r[6..];
  }

  // ---------------------------------------------------------------------
  // Trying a request
  // ---------------------------------------------------------------------

  /** What the server answered: the status was in the 2xx range (`ok`) and the body text. */
  datatype Response = Response(ok: bool, body: string)

  /** One attempt: an answer of any status, or a thrown error (network failure, time-out). */
  datatype Attempt = Answered(response: Response) | Threw(message: string)

  /** The number of attempts `retries` allows: at least one. */
  function Allowed(retries: int): (n: nat)
    ensures n >= 1 && (retries >= 1 ==> n == retries)
  {
    if retries <= 1 then 1 else retries
  }

  /**
   * `fetchWithRetry`: attempt `k` has outcome `attempt(k)`. The first answer,
   * whatever its status, is returned; a thrown error is retried until
   * `retries` attempts were made, and then the last error is thrown. The
   * second component is the number of attempts made.
   */
  function FetchWithRetry(attempt: nat -> Attempt, retries: int, first: nat): (r: (Result<Response, string>, nat))
    ensures 1 <= r.1 <= Allowed(retries)
    ensures forall k :: first <= k < first + r.1 - 1 ==> attempt(k).Threw?
    ensures r.0.Ok? <==> attempt(first + r.1 - 1).Answered?
    ensures r.0.Ok? ==> r.0.value == attempt(first + r.1 - 1).response
    ensures r.0.Err? ==> r.1 == Allowed(retries) && r.0.error == attempt(first + r.1 - 1).message
    decreases retries
  {
    match attempt(first)
    case Answered(resp) => (Ok(resp), 1)
    case Threw(message) =>
      if retries <= 1 then (Err(message), 1)
      else
        var rest := FetchWithRetry(attempt, retries - 1, first + 1);
        (rest.0, rest.1 + 1)
  }

  /** A request fails only when every allowed attempt threw; an answer of any status ends the retrying. */
  lemma FetchFailsOnlyWhenAllThrow(attempt: nat -> Attempt, retries: int)
    ensures FetchWithRetry(attempt, retries, 0).0.Err? <==>
            forall k :: 0 <= k < Allowed(retries) ==> attempt(k).Threw?
  {
    var r := FetchWithRetry(attempt, retries, 0);
    if r.0.Err? {
      FetchErrAllThrew(attempt, retries, r);
    } else {
      assert !attempt(r.1 - 1).Threw?;
    }
  }

  lemma FetchErrAllThrew(attempt: nat -> Attempt, retries: int, r: (Result<Response, string>, nat))
    requires r == FetchWithRetry(attempt, retries, 0) && r.0.Err?
    ensures forall k :: 0 <= k < Allowed(retries) ==> attempt(k).Threw?
  {
    forall k | 0 <= k < Allowed(retries) ensures attempt(k).Threw? {
      if k == r.1 - 1 {
        assert !attempt(k).Answered?;
      }
    }
  }

  /** `handleResponse`: a failed answer throws the message and the body, joined by ': '. */
  function HandleResponse(resp: Response, message: string): (r: Result<(), string>)
    ensures r.Err? <==> !resp.ok
    ensures r.Err? ==> StartsWith(r.error, message + ": ")
  {
    if resp.ok then Ok(()) else
      var e := message + ": " + resp.body;
      assert e[..|message + ": "|] == message + ": ";
      Err(e)
  }

  /** The server's text can be read back from the error, after the message and ': '. */
  lemma HandleResponseKeepsBody(resp: Response, message: string)
    requires !resp.ok
    ensures HandleResponse(resp, message).error[|message| + 2..] == resp.body
  {
  }

  /**
   * One service call (`groupService.getAll` and the like): the request with
   * three attempts, then `handleResponse`, then the body.
   */
  function ServiceCall(attempt: nat -> Attempt, message: string): (r: Result<string, string>)
    ensures r.Ok? <==> exists k :: 0 <= k < 3 && attempt(k).Answered? && attempt(k).response.ok
                                   && forall j :: 0 <= j < k ==> attempt(j).Threw?
  {
    var f := FetchWithRetry(attempt, 3, 0);
    if f.0.Err? then Err(f.0.error)
    else
      var h := HandleResponse(f.0.value, message);
      if h.Err? then Err(h.error) else Ok(f.0.value.body)
  }

  // ---------------------------------------------------------------------
  // Health probe
  // ---------------------------------------------------------------------

  datatype Health = Healthy(data: Value) | Unhealthy(error: string)

  const ServerError: string := "Server responded with error"

  /**
   * `checkBackendHealth`: three attempts at the health address; never
   * throws. A non-2xx answer, a thrown error or an unreadable body becomes
   * `{ok: false, error}`. `parse` reads the body as JSON.
   */
  function CheckBackendHealth(attempt: nat -> Attempt, parse: string -> Result<Value, string>): (h: Health)
    ensures h.Healthy? <==> exists k :: 0 <= k < 3 && attempt(k).Answered? && attempt(k).response.ok
                                        && parse(attempt(k).response.body).Ok?
                                        && forall j :: 0 <= j < k ==> attempt(j).Threw?
    ensures (forall k :: 0 <= k < 3 ==> attempt(k).Threw?) ==> h == Unhealthy(attempt(2).message)
  {
    var f := FetchWithRetry(attempt, 3, 0);
    if f.0.Err? then Unhealthy(f.0.error)
    else if !f.0.value.ok then Unhealthy(ServerError)
    else
      var data := parse(f.0.value.body);
      if data.Err? then Unhealthy(data.error) else Healthy(data.value)
  }

  // ---------------------------------------------------------------------
  // Project payloads
  // ---------------------------------------------------------------------

  /** The ten columns `projectService.create` sends. */
  const CreateKeys: set<string> := {"name", "description", "status", "software", "time_spent_minutes",
                                    "project_path", "folder_created", "readme_last_updated", "start_date", "user_id"}

  /** `parseInt` reads a number back as itself. */
  lemma ParseIntOfNum(n: int)
    ensures ParseIntValue(Num(n)) == Some(n)
  {
    ParseIntOfIntToString(n, "");
    assert IntToString(n) + "" == IntToString(n);
  }

  /** `parseInt(v) || 0`. */
  function MinutesOrZero(v: Value): (m: int)
    ensures v.Num? ==> m == v.n
  {
    ParseIntOfNum(if v.Num? then v.n else 0);
    var p := ParseIntValue(v);
    if p.Some? then p.value else 0
  }

  /** What `create` puts in place of a falsy value, column by column, apart from the minutes. */
  function Defaults(today: string): (d: Object)
    ensures d.Keys == CreateKeys - {"time_spent_minutes"}
  {
    map[
      "name" := Str("New Project"),
      "description" := Str(""),
      "status" := Str("Intake"),
      "software" := Null,
      "project_path" := Null,
      "folder_created" := Bool(false),
      "readme_last_updated" := Null,
      "start_date" := Str(today),
      "user_id" := Null]
  }

  /**
   * `projectService.create`'s payload: the ten columns, each the given value
   * when it is truthy and its default otherwise, and the minutes read with
   * `parseInt`; `today` is the current date as 'YYYY-MM-DD'. Any other key
   * of the input is dropped.
   */
  function CreatePayload(p: Object, today: string): (r: Object)
    ensures r.Keys == CreateKeys
    ensures forall k :: k in Defaults(today) && Truthy(Get(p, k)) ==> r[k] == p[k]
    ensures forall k :: k in Defaults(today) && !Truthy(Get(p, k)) ==> r[k] == Defaults(today)[k]
    ensures r["time_spent_minutes"] == Num(MinutesOrZero(Get(p, "time_spent_minutes")))
  {
    var d := Defaults(today);
    var cleaned := map k | k in d :: Or(Get(p, k), d[k]);
    cleaned["time_spent_minutes" := Num(MinutesOrZero(Get(p, "time_spent_minutes")))]
  }

  /** A project created without a name, status or start date gets 'New Project', 'Intake' and today. */
  lemma CreateDefaults(p: Object, today: string)
    requires "name" !in p && "status" !in p && "start_date" !in p
    ensures var r := CreatePayload(p, today);
            r["name"] == Str("New Project") && r["status"] == Str("Intake") && r["start_date"] == Str(today)
  {
    DefaultValues(today);
    CreateDefaultFor(p, today, "name");
    CreateDefaultFor(p, today, "status");
    CreateDefaultFor(p, today, "start_date");
  }

  lemma DefaultValues(today: string)
    ensures var d := Defaults(today);
            "name" in d && "status" in d && "start_date" in d
            && d["name"] == Str("New Project") && d["status"] == Str("Intake") && d["start_date"] == Str(today)
  {
  }

  /** A column missing from the input takes its default. */
  lemma CreateDefaultFor(p: Object, today: string, k: string)
    requires k in Defaults(today) && k !in p
    ensures CreatePayload(p, today)[k] == Defaults(today)[k]
  {
    assert !Truthy(Get(p, k));
  }

  /** The output type chosen in the wizard is not part of what `create` sends. */
  lemma CreateDropsOutputType(p: Object, today: string)
    ensures "output_type" !in CreatePayload(p, today)
  {
    assert "output_type" !in CreateKeys;
  }

  /** The keys `projectService.update` deletes before sending. */
  const StrippedKeys: set<string> := {"isTemp", "id", "creation_date", "last_updated",
                                      "group_id", "group_name", "user_name", "user_email"}

  /** `projectService.update`'s payload: every other key, with its value unchanged. */
  function UpdatePayload(p: Object): (r: Object)
    ensures r.Keys == p.Keys - StrippedKeys
    ensures forall k :: k in r ==> r[k] == p[k]
  {
    map k | k in p && k !in StrippedKeys :: p[k]
  }

  /** Cleaning twice is cleaning once. */
  lemma UpdatePayloadIdempotent(p: Object)
    ensures UpdatePayload(UpdatePayload(p)) == UpdatePayload(p)
  {
  }

  /** A payload without any of the stripped keys is sent as it is. */
  lemma UpdateKeepsClean(p: Object)
    requires p.Keys !! StrippedKeys
    ensures UpdatePayload(p) == p
  {
    var u := UpdatePayload(p);
    assert u.Keys == p.Keys;
  }

  /** A payload built for `create` passes through `update`'s cleaning unchanged. */
  lemma CreatePayloadSurvivesUpdate(p: Object, today: string)
    ensures UpdatePayload(CreatePayload(p, today)) == CreatePayload(p, today)
  {
    assert CreateKeys !! StrippedKeys;
    UpdateKeepsClean(CreatePayload(p, today));
  }
}

=== FILE: app_meta.dfy ===
/**
 * The build step scripts/generate-app-meta.js: it reads the newest release
 * of CHANGELOG.md (its version, date and first six bullet points) and the
 * package manifests, and assembles the application's metadata. Regular
 * expressions are written out as the matches they accept; `\s` and `trim`
 * use the ECMAScript white-space class. Reading files is a parameter: a
 * missing file is `None`.
 */
module AppMeta {
  import opened Strings
  import opened Js
  import Seqs

  /** The characters `.` does not match and `$` stops at. */
  predicate LineTerminator(c: char)
  {
    c == '\n' || c == '\r' || c == '\U{2028}' || c == '\U{2029}'
  }

  predicate NoTerminator(s: string)
  {
    forall i :: 0 <= i < |s| ==> !LineTerminator(s[i])
  }

  // ---------------------------------------------------------------------
  // Lines
  // ---------------------------------------------------------------------

  /** A line that was followed by `\r\n` loses its `\r`. */
  function DropCr(p: string): string
  {
    if |p| > 0 && p[|p| - 1] == '\r' then p[..|p| - 1] else p
  }

  /** Every piece but the last was followed by a line feed, so may lose a carriage return. */
  function DropCrs(parts: seq<string>): (r: seq<string>)
    ensures |r| == |parts|
    ensures forall i :: 0 <= i < |parts| - 1 ==> r[i] == DropCr(parts[i])
    ensures |parts| > 0 ==> r[|parts| - 1] == parts[|parts| - 1]
    decreases |parts|
  {
    if |parts| <= 1 then parts else [DropCr(parts[0])] + DropCrs(parts[1..])
  }

  /** `content.split(/\r?\n/)`. */
  function Lines(content: string): seq<string>
  {
    DropCrs(Split(content, '\n'))
  }

  /** Lines without a line feed, none ending in a carriage return, are read back from their join. */
  lemma LinesOfJoin(lines: seq<string>)
    requires |lines| >= 1
    requires forall i :: 0 <= i < |lines| ==> '\n' !in lines[i] && DropCr(lines[i]) == lines[i]
    ensures Lines(Join(lines, "\n")) == lines
  {
    forall p | p in lines ensures '\n' !in p {
      var i :| 0 <= i < |lines| && lines[i] == p;
    }
    SplitJoin(lines, '\n');
    DropCrsKeeps(lines);
  }

  lemma DropCrsKeeps(lines: seq<string>)
    requires forall i :: 0 <= i < |lines| ==> DropCr(lines[i]) == lines[i]
    ensures DropCrs(lines) == lines
  {
    var r := DropCrs(lines);
    forall i | 0 <= i < |lines| ensures r[i] == lines[i] {
      if i < |lines| - 1 {
        assert r[i] == DropCr(lines[i]);
      }
    }
    assert r == lines;
  }

  // ---------------------------------------------------------------------
  // The three line patterns
  // ---------------------------------------------------------------------

  /** Number of white-space characters at the front of `s`. */
  function LeadingSpace(s: string): (w: nat)
    ensures w <= |s| && AllSpace(s[..w]) && s[w..] == TrimStart(s)
  {
    |s| - |TrimStart(s)|
  }

  /** The bracketed name of a `## [name]` line: the text up to the first `]`, which must be non-empty. */
  function BracketName(line: string): (r: Option<(string, string)>)
    ensures r.Some? ==> StartsWith(line, "## [") && r.value.0 != [] && ']' !in r.value.0
    ensures r.Some? ==> line == "## [" + r.value.0 + "]" + r.value.1
  {
    if !StartsWith(line, "## [") then None
    else
      var body := line[4..];
      var k := FirstIndexOfChar(body, ']');
      if k == 0 || k == |body| then None
      else
        assert line == line[..4] + body;
        assert body == body[..k] + "]" + body[k + 1..];
        Some((body[..k], body[k + 1..]))
  }

  /**
   * `/^## \[([^\]]+)\]\s*-\s*([^\n]+)$/`: the name and, after a dash, the
   * date, which is the rest of the line without its leading white space
   * (only its last character when the rest is all white space).
   */
  function Header(line: string): (r: Option<(string, string)>)
    ensures r.Some? ==> BracketName(line).Some? && r.value.0 == BracketName(line).value.0 && r.value.1 != []
  {
    var b := BracketName(line);
    if b.None? then None
    else
      var r := TrimStart(b.value.1);
      if r == [] || r[0] != '-' then None
      else
        var t := r[1..];
        if t == [] || '\n' in t then None
        else if TrimStart(t) != [] then Some((b.value.0, TrimStart(t)))
        else Some((b.value.0, t[|t| - 1..]))
  }

  predicate IsRelease(line: string)
  {
    Release(line).Some?
  }

  /** A release heading: a header whose name is not 'unreleased' in any case. */
  function Release(line: string): (r: Option<(string, string)>)
  {
    var h := Header(line);
    if h.Some? && ToLower(h.value.0) != "unreleased" then h else None
  }

  /** `/^## \[([^\]]+)\]/` naming 'unreleased' in any case. */
  predicate UnreleasedHeading(line: string)
  {
    var b := BracketName(line);
    b.Some? && ToLower(b.value.0) == "unreleased"
  }

  /** `/^## \[/`: where a release's section ends. */
  predicate SectionEnd(line: string)
  {
    StartsWith(line, "## [")
  }

  /**
   * `/^\s*-\s+(.+)$/`, trimmed: after a dash and at least one white space,
   * the rest of the line, which must hold no line terminator. A rest of
   * white space only still matches when at least two characters follow the
   * dash, and gives an empty text.
   */
  function Bullet(line: string): (r: Option<string>)
    ensures r.Some? ==> r.value == Trim(r.value)
  {
    var t0 := TrimStart(line);
    if t0 == [] || t0[0] != '-' then None
    else
      var t := t0[1..];
      var w := LeadingSpace(t);
      var c := t[w..];
      if w == 0 then None
      else if c != [] then (if NoTerminator(c) then Some(TrimIdempotent(c); Trim(c)) else None)
      else if w >= 2 && !LineTerminator(t[w - 1]) then Some([])
      else None
  }

  /** Trimming is idempotent. */
  lemma TrimIdempotent(s: string)
    ensures Trim(Trim(s)) == Trim(s)
  {
    var t := Trim(s);
    if t != [] {
      TrimByKeeps(t, IsSpace);
    } else {
      assert AllIn(t, IsSpace);
    }
  }

  // ---------------------------------------------------------------------
  // The changelog
  // ---------------------------------------------------------------------

  /** What `parseChangelog` returns. */
  datatype Changelog = Changelog(version: Option<string>, date: Option<string>, summary: seq<string>)

  const NoChangelog: Changelog := Changelog(None, None, [])

  /** The greatest number of bullet points kept. */
  const SummaryLength: nat := 6

  /** The bullet points from the start of `lines` up to the next section heading. */
  function Bullets(lines: seq<string>): (r: seq<string>)
    ensures |r| <= |lines|
    decreases |lines|
  {
    if lines == [] || SectionEnd(lines[0]) then []
    else
      var b := Bullet(lines[0]);
      (if b.Some? then [b.value] else []) + Bullets(lines[1..])
  }

  /** `bullets.slice(0, 6)`. */
  function Summary(bullets: seq<string>): (r: seq<string>)
    ensures |r| <= SummaryLength && |r| <= |bullets| && r == bullets[..|r|]
    ensures |bullets| <= SummaryLength ==> r == bullets
  {
    if |bullets| <= SummaryLength then bullets else bullets[..SummaryLength]
  }

  /**
   * `parseChangelog` on the lines of the file: the first release heading,
   * else the first 'Unreleased' heading dated `today`, else nothing; then
   * the first six bullet points of that section.
   */
  function ParseLines(lines: seq<string>, today: string): (c: Changelog)
    ensures |c.summary| <= SummaryLength
    ensures c.version.Some? <==> c.date.Some?
    ensures c.version.None? ==> c == NoChangelog
  {
    var i := Seqs.FirstIndexWhere(lines, IsRelease);
    if i < |lines| then
      var h := Release(lines[i]).value;
      Changelog(Some(h.0), Some(h.1), Summary(Bullets(lines[i + 1..])))
    else
      var j := Seqs.FirstIndexWhere(lines, UnreleasedHeading);
      if j < |lines| then Changelog(Some("Unreleased"), Some(today), Summary(Bullets(lines[j + 1..])))
      else NoChangelog
  }

  /** The first release heading gives the version, the date and the first bullets of its section. */
  lemma FirstReleasePicked(lines: seq<string>, today: string, i: nat)
    requires i < |lines| && Release(lines[i]).Some?
    requires forall j :: 0 <= j < i ==> Release(lines[j]).None?
    ensures var c := ParseLines(lines, today);
            c.version == Some(Release(lines[i]).value.0) && c.date == Some(Release(lines[i]).value.1)
            && c.summary == Summary(Bullets(lines[i + 1..]))
  {
    assert forall j :: 0 <= j < i ==> !IsRelease(lines[j]);
    Seqs.FirstIndexWhereIs(lines, IsRelease, i);
  }

  /**
   * Without any release heading, an 'Unreleased' heading gives the version
   * 'Unreleased' dated today, and without one there is no version.
   */
  lemma UnreleasedPicked(lines: seq<string>, today: string)
    requires forall i :: 0 <= i < |lines| ==> Release(lines[i]).None?
    ensures var c := ParseLines(lines, today);
            ((exists i :: 0 <= i < |lines| && UnreleasedHeading(lines[i])) <==> c.version == Some("Unreleased"))
            && (c.version == Some("Unreleased") ==> c.date == Some(today))
  {
    var f := Seqs.FirstIndexWhere(lines, IsRelease);
    assert f == |lines|;
    var u := Seqs.FirstIndexWhere(lines, UnreleasedHeading);
    if u < |lines| {
      assert UnreleasedHeading(lines[u]);
    }
  }

  /** `parseChangelog(path)`: no file, no changelog. */
  function ParseChangelog(file: Option<string>, today: string): (c: Changelog)
    ensures file.None? ==> c == NoChangelog
    ensures file.Some? ==> c == ParseLines(Lines(file.value), today)
  {
    if file.None? then NoChangelog else ParseLines(Lines(file.value), today)
  }

  // ---------------------------------------------------------------------
  // Writing a release and reading it back
  // ---------------------------------------------------------------------

  /** One `- item` line per bullet. */
  function BulletLines(bullets: seq<string>): (lines: seq<string>)
    ensures |lines| == |bullets|
    decreases |bullets|
  {
    if bullets == [] then [] else ["- " + bullets[0]] + BulletLines(bullets[1..])
  }

  lemma {:induction false} BulletLineAt(bullets: seq<string>, i: nat)
    requires i < |bullets|
    ensures BulletLines(bullets)[i] == "- " + bullets[i]
    decreases |bullets|
  {
    if i > 0 {
      BulletLineAt(bullets[1..], i - 1);
    }
  }

  /** A release as the changelog writes it: `## [v] - date`, then its bullet lines. */
  function RenderRelease(version: string, date: string, bullets: seq<string>): (lines: seq<string>)
    ensures |lines| == |bullets| + 1
  {
    ["## [" + version + "] - " + date] + BulletLines(bullets)
  }

  /** A version that can stand between the brackets of a heading. */
  predicate GoodVersion(v: string)
  {
    v != [] && ']' !in v && NoTerminator(v) && ToLower(v) != "unreleased"
  }

  /** A date that reads back as itself. */
  predicate GoodDate(d: string)
  {
    d != [] && !IsSpace(d[0]) && NoTerminator(d)
  }

  /** A bullet text that reads back as itself. */
  predicate GoodBullet(b: string)
  {
    b != [] && Trim(b) == b && NoTerminator(b)
  }

  lemma TrimStartNoSpace(s: string)
    requires s != [] && !IsSpace(s[0])
    ensures TrimStart(s) == s
  {
  }

  lemma TrimStartOneSpace(s: string)
    requires s != [] && !IsSpace(s[0])
    ensures TrimStart([' '] + s) == s
  {
    assert ([' '] + s)[1..] == s;
  }

  /** A written heading reads back as its version and date. */
  lemma HeaderOfRendered(v: string, d: string)
    requires GoodVersion(v) && GoodDate(d)
    ensures Release("## [" + v + "] - " + d) == Some((v, d))
  {
    var rest := " - " + d;
    HeadingSplits(v, d);
    BracketOfRendered(v, rest);
    DateAfterDash(d);
  }

  /** A heading is its bracketed name followed by the dash and the date. */
  lemma HeadingSplits(v: string, d: string)
    ensures "## [" + v + "] - " + d == "## [" + v + "]" + (" - " + d)
  {
    var a := "## [" + v + "] - " + d;
    var b := "## [" + v + "]" + (" - " + d);
    assert |a| == |b|;
    forall i | 0 <= i < |a| ensures a[i] == b[i] {
      if i < 4 + |v| + 1 {
        assert a[i] == ("## [" + v + "]")[i] == b[i];
      } else {
        assert a[i] == (" - " + d)[i - (4 + |v| + 1)] == b[i];
      }
    }
  }

  /** After the name, ' - date' gives the date: the leading space is skipped, then the dash, then one more space. */
  lemma DateAfterDash(d: string)
    requires GoodDate(d)
    ensures var r := TrimStart(" - " + d);
            r != [] && r[0] == '-' && r[1..] != [] && '\n' !in r[1..] && TrimStart(r[1..]) == d
  {
    var dash := "- " + d;
    DashParts(d);
    TrimStartOneSpace(dash);
    TrimStartOneSpace(d);
    assert '\n' !in [' '] + d by {
      assert forall i :: 0 <= i < |d| ==> d[i] != '\n';
      assert forall c :: c in [' '] + d ==> c == ' ' || c in d;
    }
  }

  /** ' - date' is a space before '- date', whose tail is a space before the date. */
  lemma DashParts(d: string)
    ensures " - " + d == [' '] + ("- " + d)
    ensures ("- " + d)[0] == '-' && ("- " + d)[1..] == [' '] + d
  {
    var a, b := " - " + d, [' '] + ("- " + d);
    assert |a| == |b|;
    forall i | 0 <= i < |a| ensures a[i] == b[i] {
      if i >= 3 {
        assert a[i] == d[i - 3] == b[i];
      }
    }
    var t, u := ("- " + d)[1..], [' '] + d;
    assert |t| == |u|;
    forall i | 0 <= i < |t| ensures t[i] == u[i] {
      if i >= 1 {
        assert t[i] == d[i - 1] == u[i];
      }
    }
  }

  /** The name of a written heading is the text up to its first ']'. */
  lemma BracketOfRendered(v: string, rest: string)
    requires v != [] && ']' !in v
    ensures BracketName("## [" + v + "]" + rest) == Some((v, rest))
  {
    var line := "## [" + v + "]" + rest;
    assert line[..4] == "## [";
    var body := line[4..];
    assert body == v + "]" + rest;
    var k := FirstIndexOfChar(body, ']');
    assert body[|v|] == ']';
    forall i | 0 <= i < |v| ensures body[i] != ']' {
      assert body[i] == v[i];
    }
    assert k == |v|;
    assert body[..k] == v;
    assert body[k + 1..] == rest;
  }

  /** The first character of a non-empty trimmed text is not white space. */
  lemma TrimmedStart(b: string)
    requires b != [] && Trim(b) == b
    ensures !IsSpace(b[0])
  {
  }

  /** A written bullet line reads back as its text, and does not end the section. */
  lemma BulletOfRendered(b: string)
    requires GoodBullet(b)
    ensures Bullet("- " + b) == Some(b)
    ensures !SectionEnd("- " + b)
  {
    var line := "- " + b;
    TrimmedStart(b);
    TrimStartNoSpace(line);
    assert line[1..] == [' '] + b;
    TrimStartOneSpace(b);
    assert LeadingSpace(line[1..]) == 1;
    assert line[1..][1..] == b;
    assert line[0] != '#';
  }

  predicate GoodBullets(bullets: seq<string>)
  {
    forall i :: 0 <= i < |bullets| ==> GoodBullet(bullets[i])
  }

  /** A written bullet line adds its text in front of what the following lines give. */
  lemma BulletsStep(b: string, more: seq<string>)
    requires GoodBullet(b)
    ensures Bullets(["- " + b] + more) == [b] + Bullets(more)
  {
    BulletOfRendered(b);
    var lines := ["- " + b] + more;
    assert lines[0] == "- " + b;
    assert lines[1..] == more;
    BulletsCons(lines);
  }

  /** Outside a heading, the first line adds its bullet, if any, in front of the rest. */
  lemma BulletsCons(lines: seq<string>)
    requires lines != [] && !SectionEnd(lines[0])
    ensures Bullets(lines) == (if Bullet(lines[0]).Some? then [Bullet(lines[0]).value] else []) + Bullets(lines[1..])
  {
  }

  lemma BulletLinesCons(bullets: seq<string>, rest: seq<string>)
    requires bullets != []
    ensures BulletLines(bullets) + rest == ["- " + bullets[0]] + (BulletLines(bullets[1..]) + rest)
  {
    var lines := BulletLines(bullets);
    var t := BulletLines(bullets[1..]);
    assert lines == ["- " + bullets[0]] + t;
    var r := ["- " + bullets[0]] + (t + rest);
    forall i | 0 <= i < |lines + rest| ensures (lines + rest)[i] == r[i] {
      if 0 < i < |lines| {
        assert lines[i] == t[i - 1];
      }
    }
  }

  /** The bullet lines of a section, ended by a heading or the end of the file, read back as the bullets. */
  lemma {:induction false} BulletsOfRendered(bullets: seq<string>, rest: seq<string>)
    requires GoodBullets(bullets)
    requires rest == [] || SectionEnd(rest[0])
    ensures Bullets(BulletLines(bullets) + rest) == bullets
    decreases |bullets|
  {
    if bullets == [] {
      assert BulletLines(bullets) + rest == rest;
    } else {
      var tail := bullets[1..];
      GoodBulletsTail(bullets);
      var more := BulletLines(tail) + rest;
      BulletsOfRendered(tail, rest);
      BulletLinesCons(bullets, rest);
      BulletsStep(bullets[0], more);
      ConsTail(bullets);
    }
  }

  lemma GoodBulletsTail(bullets: seq<string>)
    requires bullets != [] && GoodBullets(bullets)
    ensures GoodBullet(bullets[0]) && GoodBullets(bullets[1..])
  {
    var tail := bullets[1..];
    forall i | 0 <= i < |tail| ensures GoodBullet(tail[i]) {
      assert tail[i] == bullets[i + 1];
    }
  }

  lemma ConsTail<T>(s: seq<T>)
    requires s != []
    ensures [s[0]] + s[1..] == s
  {
    var r := [s[0]] + s[1..];
    forall i | 0 <= i < |s| ensures r[i] == s[i] {
      if i > 0 {
        assert r[i] == s[1..][i - 1];
      }
    }
  }

  /**
   * A release written at the top of the changelog (followed by older
   * sections, or by nothing) is read back: its version, its date and its
   * first six bullets.
   */
  lemma ParseRenderedRelease(v: string, d: string, bullets: seq<string>, older: seq<string>, today: string)
    requires GoodVersion(v) && GoodDate(d)
    requires GoodBullets(bullets)
    requires older == [] || SectionEnd(older[0])
    ensures ParseLines(RenderRelease(v, d, bullets) + older, today) == Changelog(Some(v), Some(d), Summary(bullets))
  {
    var lines := RenderRelease(v, d, bullets) + older;
    RenderedSplits(v, d, bullets, older);
    HeaderOfRendered(v, d);
    ParseFirstRelease(lines, today);
    BulletsOfRendered(bullets, older);
  }

  lemma RenderedSplits(v: string, d: string, bullets: seq<string>, older: seq<string>)
    ensures var lines := RenderRelease(v, d, bullets) + older;
            lines != [] && lines[0] == "## [" + v + "] - " + d && lines[1..] == BulletLines(bullets) + older
  {
    var lines := RenderRelease(v, d, bullets) + older;
    assert lines == ["## [" + v + "] - " + d] + (BulletLines(bullets) + older);
  }

  /** A changelog that opens with a release heading is read from that heading. */
  lemma ParseFirstRelease(lines: seq<string>, today: string)
    requires lines != [] && Release(lines[0]).Some?
    ensures ParseLines(lines, today) ==
              Changelog(Some(Release(lines[0]).value.0), Some(Release(lines[0]).value.1), Summary(Bullets(lines[1..])))
  {
  }

  // ---------------------------------------------------------------------
  // The metadata
  // ---------------------------------------------------------------------

  const DefaultDescription: string := "BIOME - Bio Imaging Organization and Management Environment"

  /** `(pkg && pkg[key])`: null without a manifest. */
  function Field(pkg: Option<Object>, key: string): Value
  {
    if pkg.None? then Null else Get(pkg.value, key)
  }

  datatype Meta = Meta(version: Value, description: Value, releaseDate: string, source: Option<string>, changelog: Changelog)

  /**
   * The generated metadata: version and description from the frontend
   * manifest, else the backend's, else a default; the release date from the
   * changelog, else today.
   */
  function BuildMeta(frontend: Option<Object>, backend: Option<Object>, changelogFile: Option<string>, today: string): (m: Meta)
    ensures Truthy(Field(frontend, "version")) ==> m.version == Field(frontend, "version")
    ensures !Truthy(Field(frontend, "version")) && Truthy(Field(backend, "version")) ==> m.version == Field(backend, "version")
    ensures !Truthy(Field(frontend, "version")) && !Truthy(Field(backend, "version")) ==> m.version == Str("unknown")
    ensures m.changelog == ParseChangelog(changelogFile, today)
    ensures m.changelog.date.Some? && m.changelog.date.value != "" ==> m.releaseDate == m.changelog.date.value
    ensures m.changelog.date.None? ==> m.releaseDate == today
    ensures m.source.Some? <==> frontend.Some? || backend.Some?
    ensures frontend.Some? ==> m.source == Some("frontend")
  {
    var cl := ParseChangelog(changelogFile, today);
    Meta(
      Or(Field(frontend, "version"), Or(Field(backend, "version"), Str("unknown"))),
      Or(Field(frontend, "description"), Or(Field(backend, "description"), Str(DefaultDescription))),
      if cl.date.Some? && cl.date.value != "" then cl.date.value else today,
      if frontend.Some? then Some("frontend") else if backend.Some? then Some("backend") else None,
      cl)
  }

  /** A changelog whose top section is a release gives that release's date as the release date. */
  lemma ReleaseDateFromChangelog(frontend: Option<Object>, backend: Option<Object>, v: string, d: string,
                                 bullets: seq<string>, today: string)
    requires GoodVersion(v) && GoodDate(d)
    requires GoodBullets(bullets)
    ensures var file := Join(RenderRelease(v, d, bullets), "\n");
            BuildMeta(frontend, backend, Some(file), today).releaseDate == d
  {
    var lines := RenderRelease(v, d, bullets);
    forall i | 0 <= i < |lines| ensures '\n' !in lines[i] && DropCr(lines[i]) == lines[i] {
      RenderedLineClean(v, d, bullets, i);
    }
    LinesOfJoin(lines);
    ParseRenderedRelease(v, d, bullets, [], today);
    assert lines + [] == lines;
  }

  /** A text without line terminators holds no line feed and loses no carriage return. */
  lemma TerminatorFree(x: string)
    requires NoTerminator(x)
    ensures '\n' !in x && DropCr(x) == x
  {
    if |x| > 0 {
      assert !LineTerminator(x[|x| - 1]);
    }
  }

  lemma NoTerminatorAppend(a: string, b: string)
    requires NoTerminator(a) && NoTerminator(b)
    ensures NoTerminator(a + b)
  {
    forall j | 0 <= j < |a + b| ensures !LineTerminator((a + b)[j]) {
      if j < |a| { assert (a + b)[j] == a[j]; } else { assert (a + b)[j] == b[j - |a|]; }
    }
  }

  /** Every written line of a release is a single line that reads back unchanged. */
  lemma RenderedLineClean(v: string, d: string, bullets: seq<string>, i: int)
    requires GoodVersion(v) && GoodDate(d) && GoodBullets(bullets)
    requires 0 <= i < |RenderRelease(v, d, bullets)|
    ensures var l := RenderRelease(v, d, bullets)[i];
            '\n' !in l && DropCr(l) == l
  {
    var r := RenderRelease(v, d, bullets);
    if i == 0 {
      assert r[0] == "## [" + v + "] - " + d;
      HeadingLineClean(v, d);
    } else {
      assert r[i] == BulletLines(bullets)[i - 1];
      BulletLineAt(bullets, i - 1);
      BulletLineClean(bullets[i - 1]);
    }
  }

  /** The heading line of a release is a single line that reads back unchanged. */
  lemma HeadingLineClean(v: string, d: string)
    requires GoodVersion(v) && GoodDate(d)
    ensures var l := "## [" + v + "] - " + d;
            '\n' !in l && DropCr(l) == l
  {
    var l := "## [" + v + "] - " + d;
    assert NoTerminator("## [");
    assert NoTerminator("] - ");
    NoTerminatorAppend("## [", v);
    NoTerminatorAppend("## [" + v, "] - ");
    NoTerminatorAppend("## [" + v + "] - ", d);
    TerminatorFree(l);
  }

  /** A bullet line is a single line that reads back unchanged. */
  lemma BulletLineClean(b: string)
    requires GoodBullet(b)
    ensures var l := "- " + b;
            '\n' !in l && DropCr(l) == l
  {
    assert NoTerminator("- ");
    NoTerminatorAppend("- ", b);
    TerminatorFree("- " + b);
  }
}

=== FILE: backup.dfy ===
/**
 * Automatic database backups of
 * projet-analyse-image-frontend/src/services/backupService.js. Local storage
 * is a map from keys to texts; the clock, date parsing and the server's
 * backup call are parameters.
 */
module Backup {
  import opened Js

  const LastBackupKey: string := "biome_last_backup_date"
  const AutoBackupKey: string := "biome_auto_backup"
  const FrequencyKey: string := "biome_backup_frequency"

  const HourMs: int := 60 * 60 * 1000
  const DayMs: int := 24 * HourMs
  const WeekMs: int := 7 * DayMs

  type Storage = map<string, string>

  /** `localStorage.getItem(key)`, with `null` as `None`. */
  function Item(s: Storage, key: string): Option<string>
  {
    if key in s then Some(s[key]) else None
  }

  /** `getIntervalMs`: hourly, daily and weekly; anything else is a day. */
  function IntervalMs(frequency: string): (ms: int)
    ensures frequency == "hourly" ==> ms == 3600000
    ensures frequency == "weekly" ==> ms == 604800000
    ensures frequency != "hourly" && frequency != "weekly" ==> ms == 86400000
    ensures ms > 0
  {
    if frequency == "hourly" then HourMs
    else if frequency == "daily" then DayMs
    else if frequency == "weekly" then WeekMs
    else DayMs
  }

  /** The settings screen also offers 'monthly', which schedules daily backups. */
  lemma MonthlyIsDaily()
    ensures IntervalMs("monthly") == IntervalMs("daily")
  {
  }

  /** What one start-up check did. */
  datatype AutoRun = Disabled | NotDue | Created(filename: string) | Failed(error: string)

  /**
   * `new Date(raw).getTime()` of the stored last-backup text: `None` is NaN,
   * for a text no date can be read from.
   */
  type DateParser = string -> Option<int>

  /** The last backup's time: 0 when nothing (or an empty text) is stored. */
  function LastBackup(s: Storage, parse: DateParser): (t: Option<int>)
    ensures LastBackupKey !in s || s[LastBackupKey] == "" ==> t == Some(0)
  {
    var raw := Item(s, LastBackupKey);
    if raw.Some? && raw.value != "" then parse(raw.value) else Some(0)
  }

  /** `now - lastBackup < intervalMs` is false for NaN, so an unreadable date counts as due. */
  predicate Due(s: Storage, parse: DateParser, now: int)
  {
    var frequency := Item(s, FrequencyKey);
    var interval := IntervalMs(if frequency.Some? && frequency.value != "" then frequency.value else "daily");
    var last := LastBackup(s, parse);
    !(last.Some? && now - last.value < interval)
  }

  /**
   * `checkAndRunAutoBackup`: nothing unless the stored flag is exactly
   * 'true' and the interval has elapsed; then the server's backup, and on
   * success the new last-backup stamp. A failed backup is swallowed and
   * changes nothing.
   */
  function CheckAndRunAutoBackup(s: Storage, parse: DateParser, now: int, stamp: string,
                                 backup: Result<string, string>): (r: (AutoRun, Storage))
    ensures Item(s, AutoBackupKey) != Some("true") ==> r == (Disabled, s)
    ensures Item(s, AutoBackupKey) == Some("true") && !Due(s, parse, now) ==> r == (NotDue, s)
    ensures r.0.Created? <==> Item(s, AutoBackupKey) == Some("true") && Due(s, parse, now) && backup.Ok?
    ensures r.0.Created? ==> r.0.filename == backup.value && r.1 == s[LastBackupKey := stamp]
    ensures !r.0.Created? ==> r.1 == s
  {
    if Item(s, AutoBackupKey) != Some("true") then (Disabled, s)
    else if !Due(s, parse, now) then (NotDue, s)
    else if backup.Err? then (Failed(backup.error), s)
    else (Created(backup.value), s[LastBackupKey := stamp])
  }

  /** Enabled for the first time, with no backup on record, the first check makes one. */
  lemma FirstCheckIsDue(s: Storage, parse: DateParser, now: int)
    requires LastBackupKey !in s && now >= WeekMs
    ensures Due(s, parse, now)
  {
  }

  /** `runManualBackup`: the server's answer, and on success a new last-backup stamp; a failure is passed on. */
  function RunManualBackup(s: Storage, stamp: string, backup: Result<Object, string>): (r: (Result<Object, string>, Storage))
    ensures r.0 == backup
    ensures backup.Ok? ==> r.1 == s[LastBackupKey := stamp]
    ensures backup.Err? ==> r.1 == s
  {
    if backup.Ok? then (backup, s[LastBackupKey := stamp]) else (backup, s)
  }

  /** `getLastBackupDate`: the stored text, with an empty text read as none. */
  function LastBackupDate(s: Storage): (r: Option<string>)
    ensures r.Some? <==> LastBackupKey in s && s[LastBackupKey] != ""
    ensures r.Some? ==> r.value == s[LastBackupKey]
  {
    var raw := Item(s, LastBackupKey);
    if raw.Some? && raw.value != "" then raw else None
  }

  /** `saveBackupSettings`: `String(enabled)` and the frequency as given. */
  function SaveBackupSettings(s: Storage, enabled: bool, frequency: string): (r: Storage)
    ensures Item(r, AutoBackupKey) == Some(if enabled then "true" else "false")
    ensures Item(r, FrequencyKey) == Some(frequency)
    ensures forall k :: k != AutoBackupKey && k != FrequencyKey ==> Item(r, k) == Item(s, k)
  {
    s[AutoBackupKey := if enabled then "true" else "false"][FrequencyKey := frequency]
  }

  /** Saving the settings with backups switched off makes every later check do nothing. */
  lemma DisabledNeverRuns(s: Storage, frequency: string, parse: DateParser, now: int, stamp: string,
                          backup: Result<string, string>)
    ensures var saved := SaveBackupSettings(s, false, frequency);
            CheckAndRunAutoBackup(saved, parse, now, stamp, backup) == (Disabled, saved)
  {
  }

  /**
   * A backup just recorded is not repeated within its interval: after a
   * successful check whose stamp reads back as `t`, a check within the
   * hour after `t` (the shortest interval) does nothing.
   */
  lemma BackupNotRepeatedWithinInterval(s: Storage, parse: DateParser, now: int, stamp: string, filename: string, t: int, later: int)
    requires CheckAndRunAutoBackup(s, parse, now, stamp, Ok(filename)).0.Created?
    requires stamp != "" && parse(stamp) == Some(t)
    requires t <= later < t + HourMs
    ensures var s2 := CheckAndRunAutoBackup(s, parse, now, stamp, Ok(filename)).1;
            forall b :: CheckAndRunAutoBackup(s2, parse, later, stamp, b) == (NotDue, s2)
  {
    var s2 := CheckAndRunAutoBackup(s, parse, now, stamp, Ok(filename)).1;
    assert Item(s2, AutoBackupKey) == Some("true");
    assert LastBackup(s2, parse) == Some(t);
    assert !Due(s2, parse, later);
  }
}

=== FILE: csv_export.dfy ===
/**
 * The activity export of backend/src/routes/projects.js (`GET
 * /activities/export`): each activity becomes one CSV line of seven quoted
 * cells; and the activity detail recorded for a journal entry. The database
 * query and the locale date text are inputs.
 */
module CsvExport {
  import opened Strings
  import opened Js
  import ActivityFormat

  const Header: string := "Date,Project,User,Group,Type,Details,Changed Fields\n"

  /** One joined row of `project_activities` as the export reads it. */
  datatype Activity = Activity(
    projectName: Value,
    userName: Value,
    groupName: Value,
    activityType: Value,
    details: Value,
    changedFields: string,
    parsed: ActivityFormat.Parsed)

  // ---------------------------------------------------------------------
  // Quoting
  // ---------------------------------------------------------------------

  /** `s.replace(/"/g, '""')`. */
  function Escape(s: string): (r: string)
    ensures |r| >= |s|
  {
    if s == [] then []
    else (if s[0] == '"' then ['"', '"'] else [s[0]]) + Escape(s[1..])
  }

  /** A cell as written: the text between double quotes, inner quotes doubled. */
  function Quote(s: string): string
  {
    ['"'] + Escape(s) + ['"']
  }

  function QuoteAll(cells: seq<string>): (r: seq<string>)
    ensures |r| == |cells|
    ensures forall i :: 0 <= i < |cells| ==> r[i] == Quote(cells[i])
  {
    if cells == [] then [] else [Quote(cells[0])] + QuoteAll(cells[1..])
  }

  /** The cells quoted and joined with commas. */
  function Row(cells: seq<string>): string
  {
    Join(QuoteAll(cells), ",")
  }

  /** `(field || '').toString()`. */
  function CellText(v: Value): (r: string)
    ensures !Truthy(v) ==> r == ""
    ensures v.Str? ==> r == v.s
  {
    ToStr(Or(v, Str("")))
  }

  /** The seven cells of an activity's line, in header order. */
  function Cells(date: string, a: Activity): (r: seq<string>)
    ensures |r| == 7
    ensures r[0] == date && r[6] == ActivityFormat.CsvChangedText(a.changedFields, a.parsed)
  {
    var fields := [Str(date), Or(a.projectName, Str("")), Or(a.userName, Str("")), Or(a.groupName, Str("")),
                   Or(a.activityType, Str("")), Or(a.details, Str("")),
                   Str(ActivityFormat.CsvChangedText(a.changedFields, a.parsed))];
    [CellText(fields[0]), CellText(fields[1]), CellText(fields[2]), CellText(fields[3]),
     CellText(fields[4]), CellText(fields[5]), CellText(fields[6])]
  }

  /** The line written for one activity; `date` is its `toLocaleString()` text. */
  function Line(date: string, a: Activity): string
  {
    Row(Cells(date, a)) + "\n"
  }

  // ---------------------------------------------------------------------
  // Reading a row back
  // ---------------------------------------------------------------------

  /**
   * Read a quoted cell's body up to its closing quote, a doubled quote
   * standing for one; the rest after the closing quote comes back too.
   */
  function ReadQuoted(t: string): (r: Option<(string, string)>)
    ensures r.Some? ==> |r.value.1| < |t|
  {
    if t == [] then None
    else if t[0] == '"' then
      if |t| >= 2 && t[1] == '"' then
        match ReadQuoted(t[2..])
        case None => None
        case Some(p) => Some((['"'] + p.0, p.1))
      else Some(([], t[1..]))
    else
      match ReadQuoted(t[1..])
      case None => None
      case Some(p) => Some(([t[0]] + p.0, p.1))
  }

  /** Split a row into its cells: quoted cells separated by single commas. */
  function ReadCells(t: string): Option<seq<string>>
    decreases |t|
  {
    if t == [] || t[0] != '"' then None
    else
      match ReadQuoted(t[1..])
      case None => None
      case Some(p) =>
        if p.1 == [] then Some([p.0])
        else if p.1[0] != ',' then None
        else
          match ReadCells(p.1[1..])
          case None => None
          case Some(cs) => Some([p.0] + cs)
  }

  /** An escaped body followed by the closing quote reads back as the original text. */
  lemma {:induction false} EscapeRead(s: string, rest: string)
    requires rest == [] || rest[0] != '"'
    ensures ReadQuoted(Escape(s) + ['"'] + rest) == Some((s, rest))
    decreases |s|
  {
    var t := Escape(s) + ['"'] + rest;
    if s == [] {
      assert t == ['"'] + rest;
      assert t[1..] == rest;
    } else {
      var tail := Escape(s[1..]) + ['"'] + rest;
      EscapeRead(s[1..], rest);
      if s[0] == '"' {
        assert t == ['"', '"'] + tail;
        assert t[2..] == tail;
      } else {
        assert t == [s[0]] + tail;
        assert t[1..] == tail;
      }
      assert [s[0]] + s[1..] == s;
    }
  }

  lemma ReadOneCell(x: string, tail: string)
    requires tail == [] || tail[0] == ','
    ensures ReadCells(Quote(x) + tail) ==
            if tail == [] then Some([x])
            else match ReadCells(tail[1..]) case None => None case Some(rest) => Some([x] + rest)
  {
    var t := Quote(x) + tail;
    assert t == ['"'] + (Escape(x) + ['"'] + tail);
    assert t[1..] == Escape(x) + ['"'] + tail;
    EscapeRead(x, tail);
  }

  /** Every row reads back as exactly its cells, whatever quotes, commas or line breaks they hold. */
  lemma {:induction false} RowRoundTrip(cells: seq<string>)
    requires cells != []
    ensures ReadCells(Row(cells)) == Some(cells)
    decreases |cells|
  {
    if |cells| == 1 {
      ReadOneCell(cells[0], []);
      assert Row(cells) == Quote(cells[0]) + [];
      assert cells == [cells[0]];
    } else {
      var q := QuoteAll(cells);
      assert q[1..] == QuoteAll(cells[1..]);
      var tail := [','] + Row(cells[1..]);
      assert Row(cells) == Quote(cells[0]) + tail;
      ReadOneCell(cells[0], tail);
      assert tail[1..] == Row(cells[1..]);
      RowRoundTrip(cells[1..]);
      assert [cells[0]] + cells[1..] == cells;
    }
  }

  /** Every exported line holds exactly seven cells, which read back as the activity's texts. */
  lemma LineRoundTrip(date: string, a: Activity)
    ensures var line := Line(date, a);
            line[|line| - 1] == '\n'
            && ReadCells(line[..|line| - 1]) == Some(Cells(date, a))
            && |Cells(date, a)| == 7
  {
    var line := Line(date, a);
    assert line[..|line| - 1] == Row(Cells(date, a));
    RowRoundTrip(Cells(date, a));
  }

  /** The export: the header, then one line per activity in the query's order. */
  function Export(dates: seq<string>, acts: seq<Activity>): (r: string)
    requires |dates| == |acts|
    ensures StartsWith(r, Header)
  {
    if acts == [] then Header
    else
      var front := Export(dates[..|acts| - 1], acts[..|acts| - 1]);
      var line := Line(dates[|acts| - 1], acts[|acts| - 1]);
      StartsWithAppend(front, line, Header);
      front + line
  }

  /** Appending an activity appends exactly its line. */
  lemma ExportSnoc(dates: seq<string>, acts: seq<Activity>, d: string, a: Activity)
    requires |dates| == |acts|
    ensures Export(dates + [d], acts + [a]) == Export(dates, acts) + Line(d, a)
  {
    assert (dates + [d])[..|acts|] == dates;
    assert (acts + [a])[..|acts|] == acts;
  }

  // ---------------------------------------------------------------------
  // Journal entries
  // ---------------------------------------------------------------------

  const DetailLimit: nat := 100

  /** `text.substring(0, 100) + (text.length > 100 ? '...' : '')`. */
  function JournalDetail(text: string): (r: string)
    ensures |text| <= DetailLimit ==> r == text
    ensures |text| > DetailLimit <==> |r| == DetailLimit + 3
    ensures |text| > DetailLimit ==> r[DetailLimit..] == "..."
    ensures forall i :: 0 <= i < |text| && i < DetailLimit ==> r[i] == text[i]
  {
    if |text| > DetailLimit then text[..DetailLimit] + "..." else text
  }

  /** Texts that agree on their first hundred characters get the same detail once both are long. */
  lemma DetailForgetsTail(a: string, b: string)
    requires |a| > DetailLimit && |b| > DetailLimit && a[..DetailLimit] == b[..DetailLimit]
    ensures JournalDetail(a) == JournalDetail(b)
  {
  }

  /** What `POST /:id/journal` does with `entry_text`. */
  datatype JournalOutcome =
    | Rejected(status: nat, error: string)
    | Recorded(detail: string)
    | StoredWithoutActivity   // a truthy non-string: the entry is inserted, then `substring` throws (500)

  const EntryRequired: string := "Entry text is required"

  function PostJournal(entry: Value): (r: JournalOutcome)
    ensures r == Rejected(400, EntryRequired) <==> !Truthy(entry)
    ensures r.Recorded? <==> entry.Str? && entry.s != ""
    ensures r.Recorded? ==> r.detail == JournalDetail(entry.s)
  {
    if !Truthy(entry) then Rejected(400, EntryRequired)
    else if entry.Str? then Recorded(JournalDetail(entry.s))
    else StoredWithoutActivity
  }
}

=== FILE: database.dfy ===
/**
 * The database manager of backend/src/database/db.js: where the SQLite file
 * lives, when a fresh file is initialised, the table check, and the order in
 * which an uploaded database replaces the current one. Files are a map from
 * path to contents; SQLite itself, the request stream and the demo data are
 * outcomes passed in.
 */
module Database {
  import opened Strings
  import opened Js

  /** The environment `determineDatabasePath` reads; an unset variable is the empty string. */
  datatype Env = Env(
    databasePath: string,
    tauriAppData: string,
    nodeEnv: string,
    platform: string,
    homeDir: string,
    moduleDir: string)

  const AppFolder: string := "biamanger"
  const FileName: string := "database.sqlite"

  /** The per-user folder used by a production build. */
  function ProductionDir(env: Env): string
  {
    if env.platform == "win32" then PathJoin(PathJoin(PathJoin(env.homeDir, "AppData"), "Local"), AppFolder)
    else PathJoin(env.homeDir, "." + AppFolder)
  }

  /**
   * `DATABASE_PATH`, else `TAURI_APP_DATA/biamanger/database.sqlite`, else in
   * production the per-user folder, else `data/database.sqlite` two levels
   * above the module.
   */
  function DatabasePath(env: Env): (r: string)
    ensures env.databasePath != "" ==> r == env.databasePath
    ensures env.databasePath == "" && env.tauriAppData != "" ==>
              StartsWith(r, env.tauriAppData) && |r| >= |FileName| && r[|r| - |FileName|..] == FileName
    ensures env.databasePath == "" && env.tauriAppData != "" ==>
              r == PathJoin(PathJoin(env.tauriAppData, AppFolder), FileName)
    ensures env.databasePath == "" && env.tauriAppData == "" && env.nodeEnv == "production" ==>
              r == PathJoin(ProductionDir(env), FileName)
    ensures env.databasePath == "" && env.tauriAppData == "" && env.nodeEnv != "production" ==>
              r == PathJoin(env.moduleDir, "../../data/database.sqlite")
  {
    if env.databasePath != "" then env.databasePath
    else if env.tauriAppData != "" then PathJoin(PathJoin(env.tauriAppData, AppFolder), FileName)
    else if env.nodeEnv == "production" then PathJoin(ProductionDir(env), FileName)
    else PathJoin(env.moduleDir, "../../data/database.sqlite")
  }

  /** A set `DATABASE_PATH` wins whatever else is set. */
  lemma ExplicitPathWins(env: Env, other: Env)
    requires env.databasePath != "" && other.databasePath == env.databasePath
    ensures DatabasePath(env) == DatabasePath(other)
  {
  }

  /** Once a Tauri data folder is given, the platform, home folder and build mode no longer matter. */
  lemma TauriFolderIgnoresTheRest(env: Env, nodeEnv: string, platform: string, home: string, moduleDir: string)
    requires env.databasePath == "" && env.tauriAppData != ""
    ensures DatabasePath(env) == DatabasePath(Env("", env.tauriAppData, nodeEnv, platform, home, moduleDir))
  {
  }

  /** The production folder is `AppData/Local/biamanger` on Windows and `~/.biamanger` elsewhere. */
  lemma ProductionFolderByPlatform(env: Env)
    ensures env.platform == "win32" ==> ProductionDir(env)[|ProductionDir(env)| - |AppFolder|..] == AppFolder
    ensures env.platform != "win32" ==> ProductionDir(env)[|ProductionDir(env)| - |AppFolder| - 1..] == "." + AppFolder
  {
  }

  // ---------------------------------------------------------------------
  // Connecting
  // ---------------------------------------------------------------------

  /** The file contents the model tells apart: empty, an initialised schema, or an imported file. */
  datatype Content = Folder | Fresh | Initialised | Uploaded(id: nat)

  type Files = map<string, Content>

  datatype Connected = Connected(files: Files, initialised: bool) | ConnectFailed(files: Files)

  /**
   * `connect()`: create the folder, note whether the file existed, open it
   * (creating it) and initialise schema and demo data only for a new file.
   * `openOk` and `initOk` are the outcomes of opening and of initialising.
   */
  function Connect(dir: string, dbPath: string, files: Files, openOk: bool, initOk: bool): (r: Connected)
    requires dir != dbPath
    ensures r.Connected? ==> (r.initialised <==> dbPath !in files)
    ensures r.Connected? <==> openOk && (dbPath in files || initOk)
    ensures dir in r.files
    ensures dbPath in files ==> dbPath in r.files && r.files[dbPath] == files[dbPath]
  {
    var withDir := if dir in files then files else files[dir := Folder];
    var shouldInitialize := dbPath !in files;
    if !openOk then ConnectFailed(withDir)
    else
      var openedFiles := if shouldInitialize then withDir[dbPath := Fresh] else withDir;
      if !shouldInitialize then Connected(openedFiles, false)
      else if initOk then Connected(openedFiles[dbPath := Initialised], true)
      else ConnectFailed(openedFiles)
  }

  /** Connecting a second time never initialises again: the first connection left the file behind. */
  lemma InitialiseOnlyOnce(dir: string, dbPath: string, files: Files, o1: bool, i1: bool, o2: bool, i2: bool)
    requires dir != dbPath
    requires Connect(dir, dbPath, files, o1, i1).Connected?
    ensures var second := Connect(dir, dbPath, Connect(dir, dbPath, files, o1, i1).files, o2, i2);
            second.Connected? ==> !second.initialised
  {
  }

  // ---------------------------------------------------------------------
  // Verifying
  // ---------------------------------------------------------------------

  const RequiredTables: seq<string> := ["projects", "users", "groups", "journal_entries", "project_activities"]

  const VerifyFailed: string := "Database verification failed - missing table: "

  /** `verifyDatabase()` against the tables present: the first missing one, in list order, is named. */
  function VerifyTables(present: set<string>): (r: Result<bool, string>)
    ensures r.Ok? <==> forall i :: 0 <= i < |RequiredTables| ==> RequiredTables[i] in present
    ensures r.Ok? ==> r.value
    ensures r.Err? ==> exists i :: 0 <= i < |RequiredTables| && RequiredTables[i] !in present
                         && (forall j :: 0 <= j < i ==> RequiredTables[j] in present)
                         && r.error == VerifyFailed + RequiredTables[i]
  {
    FirstMissing(RequiredTables, present)
  }

  function FirstMissing(tables: seq<string>, present: set<string>): (r: Result<bool, string>)
    ensures r.Ok? <==> forall i :: 0 <= i < |tables| ==> tables[i] in present
    ensures r.Ok? ==> r.value
    ensures r.Err? ==> exists i :: 0 <= i < |tables| && tables[i] !in present
                         && (forall j :: 0 <= j < i ==> tables[j] in present)
                         && r.error == VerifyFailed + tables[i]
  {
    if tables == [] then Ok(true)
    else if tables[0] !in present then Err(VerifyFailed + tables[0])
    else
      var r := FirstMissing(tables[1..], present);
      assert forall i :: 1 <= i < |tables| ==> tables[i] == tables[1..][i - 1];
      if r.Err? then
        var i :| 0 <= i < |tables[1..]| && tables[1..][i] !in present
                 && (forall j :: 0 <= j < i ==> tables[1..][j] in present)
                 && r.error == VerifyFailed + tables[1..][i];
        assert tables[i + 1] !in present && forall j :: 0 <= j < i + 1 ==> tables[j] in present;
        r
      else r
  }

  /** A database missing only the activity log is reported for that table alone. */
  lemma MissingActivityTable()
    ensures VerifyTables({"projects", "users", "groups", "journal_entries"}) ==
            Err(VerifyFailed + "project_activities")
  {
    var present := {"projects", "users", "groups", "journal_entries"};
    assert "project_activities" !in present;
    var r := VerifyTables(present);
    assert r.Err?;
    var i :| 0 <= i < |RequiredTables| && RequiredTables[i] !in present
             && (forall j :: 0 <= j < i ==> RequiredTables[j] in present)
             && r.error == VerifyFailed + RequiredTables[i];
    assert i == 4;
  }

  // ---------------------------------------------------------------------
  // Importing
  // ---------------------------------------------------------------------

  /** How an upload went: the stream failed, the file is not SQLite, or it is valid. */
  datatype Upload = StreamFailed | NotSqlite | Valid(id: nat)

  datatype Imported = Imported(files: Files, connected: bool, error: Option<string>)

  const InvalidFile: string := "Invalid SQLite database file"
  const StreamError: string := "stream error"

  function TempPath(dbPath: string): string { dbPath + ".tmp" }

  /**
   * `importDatabase(req)`: the open connection is closed first; the upload is
   * written to `<db>.tmp`; a failed stream or an invalid file deletes the
   * temporary file and rejects; a valid one replaces the database file and
   * reconnects (`openOk`).
   */
  function Import(dir: string, dbPath: string, files: Files, upload: Upload, openOk: bool): (r: Imported)
    requires dir != dbPath && dir != TempPath(dbPath)
    ensures TempPath(dbPath) !in r.files
    ensures !upload.Valid? ==> r.error.Some? && !r.connected
    ensures !upload.Valid? ==> (dbPath in r.files <==> dbPath in files)
                                && (dbPath in files ==> r.files[dbPath] == files[dbPath])
    ensures upload.Valid? ==> dbPath in r.files && r.files[dbPath] == Uploaded(upload.id)
    ensures upload == NotSqlite ==> r.error == Some(InvalidFile)
    ensures r.connected <==> upload.Valid? && openOk
  {
    var tmp := TempPath(dbPath);
    assert tmp != dbPath by { assert |tmp| == |dbPath| + 4; }
    match upload
    case StreamFailed => Imported(files - {tmp}, false, Some(StreamError))
    case NotSqlite => Imported(files - {tmp}, false, Some(InvalidFile))
    case Valid(id) =>
      var replaced := (files - {dbPath} - {tmp})[dbPath := Uploaded(id)];
      var c := Connect(dir, dbPath, replaced, openOk, true);
      assert TempPath(dbPath) !in c.files;
      Imported(c.files, c.Connected?, if c.Connected? then None else Some("connect failed"))
  }

  /** An imported database is used as it is: reconnecting to it never re-initialises. */
  lemma ImportIsNotReinitialised(dir: string, dbPath: string, files: Files, id: nat)
    requires dir != dbPath && dir != TempPath(dbPath)
    ensures var r := Import(dir, dbPath, files, Valid(id), true);
            r.connected && r.files[dbPath] == Uploaded(id)
  {
  }

  /** A rejected upload leaves the previous database file but no open connection. */
  lemma RejectedImportLeavesDisconnected(dir: string, dbPath: string, files: Files, openOk: bool)
    requires dir != dbPath && dir != TempPath(dbPath) && dbPath in files
    ensures var r := Import(dir, dbPath, files, NotSqlite, openOk);
            !r.connected && r.files[dbPath] == files[dbPath] && r.error == Some(InvalidFile)
  {
  }
}

=== FILE: diagnostics.dfy ===
/**
 * The in-memory diagnostic log of
 * projet-analyse-image-frontend/src/utils/diagnostics.js: a level filter in
 * front of a buffer that keeps the newest 1000 entries, and the queries over
 * it. The clock is a parameter; console output is not modelled.
 */
module Diagnostics {
  import opened Js
  import Seqs

  /** `LOG_LEVELS`, in order of their values 0 to 4. */
  const LevelNames: seq<string> := ["DEBUG", "INFO", "WARN", "ERROR", "CRITICAL"]

  const Debug: int := 0
  const Info: int := 1
  const Warn: int := 2
  const Error: int := 3
  const Critical: int := 4

  /** `maxLogs`. */
  const MaxLogs: nat := 1000

  datatype Entry = Entry(
    timestamp: int,
    level: int,
    levelName: string,
    source: string,
    message: string,
    data: Object,
    environment: string,
    sessionId: string)

  datatype Logger = Logger(logLevel: int, logs: seq<Entry>, isTauri: bool, sessionId: string)

  /** A fresh logger, before its start-up messages: level INFO, nothing kept. */
  function NewLogger(sessionId: string, isTauri: bool): (lg: Logger)
    ensures lg.logLevel == Info && lg.logs == []
  {
    Logger(Info, [], isTauri, sessionId)
  }

  /** The `LOG_LEVELS` key whose value is `level`, if any. */
  function LevelKey(level: int): (r: Option<string>)
    ensures r.Some? <==> Debug <= level <= Critical
  {
    if 0 <= level < |LevelNames| then Some(LevelNames[level]) else None
  }

  /** The value a `LOG_LEVELS` key stands for. */
  function LevelValue(name: string): (r: Option<int>)
    ensures r.Some? <==> name in LevelNames
  {
    var i := Seqs.FirstIndexWhere(LevelNames, (k: string) => k == name);
    if i < |LevelNames| then Some(i) else None
  }

  /** Known levels and their names translate into one another. */
  lemma LevelKeyRoundTrip(level: int)
    requires Debug <= level <= Critical
    ensures LevelValue(LevelKey(level).value) == Some(level)
  {
  }

  /** `levelName`: the key, or 'UNKNOWN' for a value no key has. */
  function LevelName(level: int): (r: string)
    ensures r == "UNKNOWN" <==> LevelKey(level).None?
    ensures r != "UNKNOWN" ==> LevelValue(r) == Some(level)
  {
    var k := LevelKey(level);
    if k.Some? then k.value else "UNKNOWN"
  }

  /** The most recent `MaxLogs` entries of a history, in their order. */
  function Window(history: seq<Entry>): (w: seq<Entry>)
    ensures |w| <= MaxLogs
    ensures |history| <= MaxLogs ==> w == history
  {
    if |history| <= MaxLogs then history else history[|history| - MaxLogs..]
  }

  /**
   * `log`: below the logger's level nothing happens and no entry is
   * returned; otherwise the new entry goes to the end of the buffer and,
   * once the buffer holds more than `MaxLogs`, the oldest entry goes.
   */
  function Log(lg: Logger, level: int, source: string, message: string, data: Object, now: int): (r: (Logger, Option<Entry>))
    ensures level < lg.logLevel ==> r == (lg, None)
    ensures level >= lg.logLevel ==>
              && r.1.Some?
              && r.1.value.level == level && r.1.value.source == source && r.1.value.message == message
              && r.1.value.levelName == LevelName(level)
              && r.0.logs != [] && r.0.logs[|r.0.logs| - 1] == r.1.value
              && r.0.(logs := lg.logs) == lg
    ensures |lg.logs| <= MaxLogs ==> |r.0.logs| <= MaxLogs
  {
    if level < lg.logLevel then (lg, None)
    else
      var entry := Entry(now, level, LevelName(level), source, message, data,
                         if lg.isTauri then "DESKTOP" else "WEB", lg.sessionId);
      var pushed := lg.logs + [entry];
      var kept := if |pushed| > MaxLogs then pushed[1..] else pushed;
      (lg.(logs := kept), Some(entry))
  }

  /**
   * A buffer that holds the last entries of a history keeps doing so:
   * after an accepted entry it holds the last `MaxLogs` entries of the
   * history extended by that entry, so the oldest are the ones dropped.
   */
  lemma LogKeepsNewest(lg: Logger, history: seq<Entry>, level: int, source: string, message: string, data: Object, now: int)
    requires lg.logs == Window(history)
    requires level >= lg.logLevel
    ensures var r := Log(lg, level, source, message, data, now);
            r.0.logs == Window(history + [r.1.value])
  {
    var r := Log(lg, level, source, message, data, now);
    var e := r.1.value;
    var h := history + [e];
    if |history| < MaxLogs {
      assert r.0.logs == lg.logs + [e];
    } else {
      assert lg.logs == history[|history| - MaxLogs..];
      assert r.0.logs == (lg.logs + [e])[1..];
      assert h[|h| - MaxLogs..] == (lg.logs + [e])[1..];
    }
  }

  /** The level and source queries. */
  datatype Query = AtLeast(level: int) | From(source: string)

  predicate Selects(q: Query, e: Entry)
  {
    match q
    case AtLeast(l) => e.level >= l
    case From(s) => e.source == s
  }

  /**
   * `getLogsByLevel` and `getLogsBySource`: each entry occurs as often as
   * in the buffer when the query selects it, and not at all otherwise.
   */
  function Select(logs: seq<Entry>, q: Query): (r: seq<Entry>)
    ensures |r| <= |logs|
    ensures forall e :: multiset(r)[e] == if Selects(q, e) then multiset(logs)[e] else 0
    decreases |logs|
  {
    if logs == [] then []
    else
      assert logs == [logs[0]] + logs[1..];
      var rest := Select(logs[1..], q);
      if Selects(q, logs[0]) then [logs[0]] + rest else rest
  }

  /** Selecting from two stretches of log one after the other keeps their order. */
  lemma {:induction false} SelectAppend(a: seq<Entry>, b: seq<Entry>, q: Query)
    ensures Select(a + b, q) == Select(a, q) + Select(b, q)
    decreases |a|
  {
    if a == [] {
      assert a + b == b;
    } else {
      assert (a + b)[1..] == a[1..] + b;
      SelectAppend(a[1..], b, q);
    }
  }

  /** The lowest level query returns the whole buffer. */
  lemma {:induction false} SelectAllLevels(logs: seq<Entry>, level: int)
    requires forall i :: 0 <= i < |logs| ==> logs[i].level >= level
    ensures Select(logs, AtLeast(level)) == logs
    decreases |logs|
  {
    if logs != [] {
      assert forall i :: 0 <= i < |logs[1..]| ==> logs[1..][i].level >= level by {
        forall i | 0 <= i < |logs[1..]| ensures logs[1..][i].level >= level {
          assert logs[1..][i] == logs[i + 1];
        }
      }
      SelectAllLevels(logs[1..], level);
      assert logs == [logs[0]] + logs[1..];
    }
  }

  function LogsByLevel(lg: Logger, level: int): (r: seq<Entry>)
    ensures forall e :: e in r <==> e in lg.logs && e.level >= level
  {
    var r := Select(lg.logs, AtLeast(level));
    assert forall e :: e in r <==> multiset(r)[e] > 0;
    r
  }

  function LogsBySource(lg: Logger, source: string): (r: seq<Entry>)
    ensures forall e :: e in r <==> e in lg.logs && e.source == source
  {
    var r := Select(lg.logs, From(source));
    assert forall e :: e in r <==> multiset(r)[e] > 0;
    r
  }

  /** A rejected call leaves every query's answer as it was; an accepted one adds its entry at the end of the queries that select it. */
  lemma LogThenSelect(lg: Logger, level: int, source: string, message: string, data: Object, now: int, q: Query)
    requires |lg.logs| < MaxLogs
    ensures var r := Log(lg, level, source, message, data, now);
            Select(r.0.logs, q) ==
              if r.1.Some? && Selects(q, r.1.value) then Select(lg.logs, q) + [r.1.value] else Select(lg.logs, q)
  {
    var r := Log(lg, level, source, message, data, now);
    if r.1.Some? {
      assert r.0.logs == lg.logs + [r.1.value];
      SelectAppend(lg.logs, [r.1.value], q);
      assert [r.1.value][1..] == [];
    }
  }

  /** `clearLogs`: empty the buffer, then log 'Logs cleared' at INFO. */
  function ClearLogs(lg: Logger, now: int): (r: Logger)
    ensures |r.logs| <= 1
    ensures r.logs == [] <==> lg.logLevel > Info
    ensures r.logs != [] ==> r.logs[0].level == Info && r.logs[0].message == "Logs cleared"
    ensures r.(logs := lg.logs) == lg
  {
    Log(lg.(logs := []), Info, "DiagnosticLogger", "Logs cleared", map[], now).0
  }

  /** `setLogLevel`: change the level, then announce it at INFO under the new level. */
  function SetLogLevel(lg: Logger, level: int, now: int): (r: Logger)
    ensures r.logLevel == level
    ensures |lg.logs| <= MaxLogs ==> |r.logs| <= MaxLogs
    ensures level > Info ==> r.logs == lg.logs
    ensures level <= Info ==> r.logs != [] && r.logs[|r.logs| - 1].source == "DiagnosticLogger"
  {
    var name := LevelKey(level);
    var message := "Log level set to " + (if name.Some? then name.value else "undefined");
    Log(lg.(logLevel := level), Info, "DiagnosticLogger", message, map[], now).0
  }

  /** Raising the level above INFO silences the announcement itself. */
  lemma RaisedLevelIsSilent(lg: Logger, now: int)
    ensures SetLogLevel(lg, Warn, now).logs == lg.logs
  {
  }
}

=== FILE: environment.dfy ===
/**
 * Desktop-or-web detection of
 * projet-analyse-image-frontend/src/utils/environmentDetection.js. What the
 * page exposes (Tauri globals, the protocol, window and screen sizes, the
 * query string and the stored override) and what the build exposes
 * (`NODE_ENV`, the user agent) are parameters; the module-level cache is
 * passed in and handed back.
 */
module Environment {
  import opened Strings
  import opened Js

  /** What `window` offers the detector, or no window at all. */
  datatype Page =
    | NoWindow
    | Page(
        tauriGlobal: bool,
        tauriIpc: bool,
        tauriMetadata: bool,
        tauriInternals: bool,
        tauriInvokeKey: bool,
        tauriInvoke: bool,
        protocol: string,
        outerWidth: int,
        outerHeight: int,
        availWidth: int,
        availHeight: int,
        query: map<string, string>,
        storedMode: Option<string>)

  /** `process.env.NODE_ENV` and `navigator.userAgent` (`None` without a navigator). */
  datatype Build = Build(nodeEnv: string, userAgent: Option<string>)

  /** `_environmentState`. */
  datatype EnvState = EnvState(
    isTauri: bool,
    hasTauriGlobal: bool,
    isTauriProtocol: bool,
    hasTauriIpc: bool,
    hasTauriMetadata: bool,
    hasDesktopFeatures: bool,
    hasTauriWindowFeatures: bool,
    isProduction: bool,
    isDevelopment: bool,
    forceTauri: bool,
    forceWeb: bool,
    storedForceTauri: bool,
    storedForceWeb: bool,
    storedMode: Option<string>)

  /** The names `/Chrome|Firefox|Safari|Edge|Opera/i` looks for, in lower case. */
  const BrowserNames: seq<string> := ["chrome", "firefox", "safari", "edge", "opera"]

  predicate LooksLikeBrowser(userAgent: string)
  {
    exists i :: 0 <= i < |BrowserNames| && Contains(ToLower(userAgent), BrowserNames[i])
  }

  /** A query parameter equal to the text 'true'. */
  predicate QueryTrue(p: Page, name: string)
    requires p.Page?
  {
    name in p.query && p.query[name] == "true"
  }

  /** The two user overrides, strongest first: desktop wins over web. */
  function Override(s: EnvState): (r: Option<bool>)
    ensures r == Some(true) <==> s.forceTauri || s.storedForceTauri
    ensures r == Some(false) <==> !(s.forceTauri || s.storedForceTauri) && (s.forceWeb || s.storedForceWeb)
  {
    if s.forceTauri || s.storedForceTauri then Some(true)
    else if s.forceWeb || s.storedForceWeb then Some(false)
    else None
  }

  /** Some detector or heuristic points at the desktop shell. */
  predicate Detected(s: EnvState, b: Build)
  {
    s.hasTauriGlobal || s.isTauriProtocol || s.hasTauriIpc || s.hasTauriMetadata
    || s.hasDesktopFeatures || s.hasTauriWindowFeatures
    || (s.isProduction && b.userAgent.Some? && !LooksLikeBrowser(b.userAgent.value))
  }

  /** A full-screen window, or a protocol that is none of the web ones. */
  predicate DesktopFeatures(p: Page)
    requires p.Page?
  {
    (p.outerWidth == p.availWidth && p.outerHeight == p.availHeight)
    || (p.protocol != "" && p.protocol !in ["http:", "https:", "file:"])
  }

  /** Every detector and override of `detectEnvironment`, before the verdict is drawn. */
  function Probe(p: Page, b: Build): (s: EnvState)
    ensures p.NoWindow? ==> !Detected(s, b) || (s.isProduction && b.userAgent.Some? && !LooksLikeBrowser(b.userAgent.value))
    ensures p.NoWindow? ==> Override(s).None?
    ensures p.Page? ==> (s.storedForceTauri <==> p.storedMode == Some("desktop"))
    ensures p.Page? ==> (s.forceTauri <==> QueryTrue(p, "forceTauri"))
  {
    var hasWindow := p.Page?;
    var storedMode := if hasWindow then p.storedMode else None;
    EnvState(
      false,
      hasWindow && p.tauriGlobal,
      hasWindow && p.protocol == "tauri:",
      hasWindow && p.tauriIpc,
      hasWindow && p.tauriMetadata,
      hasWindow && DesktopFeatures(p),
      hasWindow && (p.tauriInternals || p.tauriInvokeKey || p.tauriInvoke),
      b.nodeEnv == "production",
      b.nodeEnv == "development",
      hasWindow && QueryTrue(p, "forceTauri"),
      hasWindow && QueryTrue(p, "forceWeb"),
      storedMode == Some("desktop"),
      storedMode == Some("web"),
      storedMode)
  }

  /** The uncached computation of `detectEnvironment`: an override decides, else any detector. */
  function Detect(p: Page, b: Build): (s: EnvState)
    ensures s.forceTauri || s.storedForceTauri ==> s.isTauri
    ensures !(s.forceTauri || s.storedForceTauri) && (s.forceWeb || s.storedForceWeb) ==> !s.isTauri
    ensures Override(s).None? ==> (s.isTauri <==> Detected(s, b))
    ensures p.NoWindow? ==> !s.isTauri || (s.isProduction && b.userAgent.Some? && !LooksLikeBrowser(b.userAgent.value))
    ensures p.Page? ==> (s.storedForceTauri <==> p.storedMode == Some("desktop"))
    ensures p.Page? ==> (s.forceTauri <==> QueryTrue(p, "forceTauri"))
  {
    var q := Probe(p, b);
    var isTauri := q.forceTauri || q.storedForceTauri || (!q.forceWeb && !q.storedForceWeb && Detected(q, b));
    q.(isTauri := isTauri)
  }

  /** The outcome is the override when there is one, else whether a detector fired. */
  lemma DetectPrecedence(p: Page, b: Build)
    ensures var s := Detect(p, b);
            s.isTauri == if Override(s).Some? then Override(s).value else Detected(s, b)
  {
  }

  /** A stored 'desktop' mode wins over every detector, even over `?forceWeb=true`. */
  lemma StoredDesktopBeatsForceWeb(p: Page, b: Build)
    requires p.Page? && p.storedMode == Some("desktop") && QueryTrue(p, "forceWeb")
    ensures Detect(p, b).isTauri
  {
  }

  /** `detectEnvironment`: the cached state when there is one, else a fresh detection, which is then cached. */
  function DetectCached(cache: Option<EnvState>, p: Page, b: Build): (r: (EnvState, Option<EnvState>))
    ensures r.1 == Some(r.0)
    ensures cache.Some? ==> r.0 == cache.value
    ensures cache.None? ==> r.0 == Detect(p, b)
  {
    if cache.Some? then (cache.value, cache) else var s := Detect(p, b); (s, Some(s))
  }

  /** Once detection has run, a changed page or build no longer changes the answer. */
  lemma FirstDetectionSticks(p1: Page, b1: Build, p2: Page, b2: Build)
    ensures var first := DetectCached(None, p1, b1);
            DetectCached(first.1, p2, b2).0 == first.0
  {
  }

  /** `isTauri` and `isWeb`. */
  function IsTauri(cache: Option<EnvState>, p: Page, b: Build): (r: (bool, Option<EnvState>))
    ensures r.0 == DetectCached(cache, p, b).0.isTauri && r.1 == DetectCached(cache, p, b).1
  {
    var d := DetectCached(cache, p, b);
    (d.0.isTauri, d.1)
  }

  function IsWeb(cache: Option<EnvState>, p: Page, b: Build): (r: (bool, Option<EnvState>))
    ensures r.1 == DetectCached(cache, p, b).1
    ensures r.0 == !IsTauri(cache, p, b).0
  {
    var d := DetectCached(cache, p, b);
    (!d.0.isTauri, d.1)
  }

  /** The first line of the description. */
  function ModeLine(isTauri: bool): string
  {
    "Running in " + (if isTauri then "DESKTOP" else "WEB") + " mode"
  }

  /** The detail lines: the build, the detectors that fired (desktop only), and the URL overrides. */
  function Details(s: EnvState, nodeEnv: string): (d: seq<string>)
    ensures |d| >= 1 && d[0] == "Environment: " + nodeEnv
    ensures !s.isTauri ==> |d| == 1 + (if s.forceTauri then 1 else 0) + (if s.forceWeb then 1 else 0)
  {
    var detectors :=
      if s.isTauri then
        (if s.hasTauriGlobal then ["Detected via Tauri global object"] else [])
        + (if s.isTauriProtocol then ["Detected via Tauri protocol"] else [])
        + (if s.hasTauriIpc then ["Detected via Tauri IPC"] else [])
        + (if s.hasTauriMetadata then ["Detected via Tauri metadata"] else [])
      else [];
    ["Environment: " + nodeEnv] + detectors
    + (if s.forceTauri then ["Mode forced via URL parameter (desktop)"] else [])
    + (if s.forceWeb then ["Mode forced via URL parameter (web)"] else [])
  }

  /** `getEnvironmentDescription`: the mode line, then, when asked for, a line break and the detail lines. */
  function Description(s: EnvState, detailed: bool, nodeEnv: string): (r: string)
    ensures StartsWith(r, ModeLine(s.isTauri))
    ensures !detailed ==> r == ModeLine(s.isTauri)
    ensures detailed ==> r[|ModeLine(s.isTauri)|..] == "\n" + Join(Details(s, nodeEnv), "\n")
  {
    var line := ModeLine(s.isTauri);
    var r := if detailed then line + "\n" + Join(Details(s, nodeEnv), "\n") else line;
    assert r[..|line|] == line;
    r
  }

  /** The mode line names the mode that was detected, and only that one. */
  lemma DescriptionNamesMode(s: EnvState, detailed: bool, nodeEnv: string)
    ensures var r := Description(s, detailed, nodeEnv);
            (s.isTauri ==> IsAt(r, "DESKTOP", 11)) && (!s.isTauri ==> IsAt(r, "WEB", 11))
  {
    var r := Description(s, detailed, nodeEnv);
    var line := ModeLine(s.isTauri);
    assert r[..|line|] == line;
    if s.isTauri {
      assert r[11..18] == line[11..18];
    } else {
      assert r[11..14] == line[11..14];
    }
  }

  /**
   * A test page: a window served over http without Tauri objects, a screen
   * of another size than the window, no overrides, and `NODE_ENV` 'test'.
   * It is detected as web, and its description says so.
   */
  lemma TestPageIsWeb(p: Page, userAgent: Option<string>)
    requires p.Page? && !p.tauriGlobal && !p.tauriIpc && !p.tauriMetadata
    requires !p.tauriInternals && !p.tauriInvokeKey && !p.tauriInvoke
    requires p.protocol == "http:" && p.outerWidth != p.availWidth
    requires p.query == map[] && p.storedMode.None?
    ensures var r := IsWeb(None, p, Build("test", userAgent));
            r.0 && Contains(Description(r.1.value, false, "test"), "WEB")
  {
    var s := Detect(p, Build("test", userAgent));
    DescriptionNamesMode(s, false, "test");
    ContainsAt(Description(s, false, "test"), "WEB", 11);
  }
}

=== FILE: group_analytics.dfy ===
/**
 * The group panel of projet-analyse-image-frontend/src/components/GroupAnalytics.js:
 * the five groups with the most projects, hours or completion, and the
 * width of a project bar. Hours are tenths as the landing page rounds them.
 */
module GroupAnalytics {
  import Sorting

  /** One `{ name, value }` entry of `projectsByGroup`, `timeByGroup` or `completionRateByGroup`. */
  type Entry = (string, int)

  function ByValue(e: Entry): Sorting.Key { Sorting.Num(e.1) }

  const TopCount: nat := 5

  /** `[...entries].sort((a, b) => b.value - a.value).slice(0, 5)`. */
  function Top(entries: seq<Entry>): (r: seq<Entry>)
    ensures |r| == if |entries| < TopCount then |entries| else TopCount
    ensures forall i, j :: 0 <= i < j < |r| ==> r[i].1 >= r[j].1
    ensures forall e :: e in r ==> e in entries
    ensures multiset(r) <= multiset(entries)
    ensures forall e, i :: e in entries && e !in r && 0 <= i < |r| ==> r[i].1 >= e.1
  {
    var s := Sorting.Sort(entries, ByValue, false);
    var k := if |s| < TopCount then |s| else TopCount;
    Descending(s);
    SameMembers(s, entries);
    PrefixLeadsRest(s, k);
    assert s == s[..k] + s[k..];
    s[..k]
  }

  /** A list sorted by descending value. */
  lemma Descending(s: seq<Entry>)
    requires Sorting.SortedBy(s, ByValue, false)
    ensures forall i, j :: 0 <= i < j < |s| ==> s[i].1 >= s[j].1
  {
    forall i, j | 0 <= i < j < |s| ensures s[i].1 >= s[j].1 {
      assert Sorting.InOrder(false, ByValue(s[i]), ByValue(s[j]));
    }
  }

  /** Two permutations of each other hold the same entries. */
  lemma SameMembers(s: seq<Entry>, t: seq<Entry>)
    requires multiset(s) == multiset(t)
    ensures forall e :: e in s <==> e in t
  {
    forall e ensures e in s <==> e in t {
      assert e in s <==> e in multiset(s);
    }
  }

  /** In a descending list, the first `k` entries are worth at least any entry left out of them. */
  lemma PrefixLeadsRest(s: seq<Entry>, k: nat)
    requires k <= |s|
    requires forall i, j :: 0 <= i < j < |s| ==> s[i].1 >= s[j].1
    ensures forall e, i :: e in s && e !in s[..k] && 0 <= i < k ==> s[..k][i].1 >= e.1
  {
    forall e, i | e in s && e !in s[..k] && 0 <= i < k ensures s[..k][i].1 >= e.1 {
      var m :| 0 <= m < |s| && s[m] == e;
      assert m >= k;
    }
  }

  /** A list already in descending order keeps its first five entries as they are. */
  lemma TopOfSortedIsPrefix(entries: seq<Entry>)
    requires forall i, j :: 0 <= i < j < |entries| ==> entries[i].1 >= entries[j].1
    ensures Top(entries) == entries[..if |entries| < TopCount then |entries| else TopCount]
  {
    assert Sorting.SortedBy(entries, ByValue, false);
    Sorting.SortSorted(entries, ByValue, false);
  }

  /** `Math.max(...counts, 1)`. */
  function BarScale(counts: seq<nat>): (m: nat)
    ensures m >= 1
    ensures forall i :: 0 <= i < |counts| ==> counts[i] <= m
    ensures m == 1 || exists i :: 0 <= i < |counts| && counts[i] == m
  {
    if counts == [] then 1
    else
      var rest := BarScale(counts[1..]);
      assert forall i :: 1 <= i < |counts| ==> counts[i] == counts[1..][i - 1];
      if counts[0] > rest then counts[0] else rest
  }

  /**
   * The width of a group's project bar in percent, as a fraction
   * `(100 * count, scale)`: never above 100%, and 100% for the largest group.
   */
  function BarWidth(count: nat, counts: seq<nat>): (w: (nat, nat))
    requires count in counts
    ensures w.1 > 0 && w.0 <= 100 * w.1
    ensures w.0 == 100 * w.1 <==> count == BarScale(counts)
  {
    (100 * count, BarScale(counts))
  }
}

=== FILE: js.dfy ===
/**
 * The slice of JavaScript value semantics the application's data logic uses:
 * a dynamically typed value, truthiness (what `if (x)`, `x || d` and `!!x`
 * test), `String(x)` and `parseInt(x, 10)`. Numbers are integers here.
 */
module Js {
  import opened Strings

  datatype Option<T> = None | Some(value: T)

  datatype Result<T, E> = Ok(value: T) | Err(error: E)

  /** A JSON-compatible scalar as it arrives from a request body or a database row. */
  datatype Value = Null | Undefined | Bool(b: bool) | Num(n: int) | Str(s: string)

  /** A plain object: its own keys and their values. */
  type Object = map<string, Value>

  /** `o[k]`: `undefined` for a missing key. */
  function Get(o: Object, k: string): Value
  {
    if k in o then o[k] else Undefined
  }

  /** JavaScript truthiness: `null`, `undefined`, `false`, `0` and `""` are falsy. */
  predicate Truthy(v: Value)
  {
    match v
    case Null => false
    case Undefined => false
    case Bool(b) => b
    case Num(n) => n != 0
    case Str(s) => s != ""
  }

  /** `a || b`. */
  function Or(a: Value, b: Value): (r: Value)
    ensures Truthy(a) ==> r == a
    ensures !Truthy(a) ==> r == b
  {
    if Truthy(a) then a else b
  }

  /** `v ?? d`: only `null` and `undefined` are replaced. */
  function Coalesce(v: Value, d: Value): (r: Value)
    ensures (v == Null || v == Undefined) ==> r == d
    ensures v != Null && v != Undefined ==> r == v
  {
    if v == Null || v == Undefined then d else v
  }

  /** `String(v)`. */
  function ToStr(v: Value): (r: string)
    ensures v.Str? ==> r == v.s
    ensures v.Num? ==> r == IntToString(v.n)
  {
    match v
    case Null => "null"
    case Undefined => "undefined"
    case Bool(b) => if b then "true" else "false"
    case Num(n) => IntToString(n)
    case Str(s) => s
  }

  /**
   * `Number(v)`, `None` standing for `NaN`. A string converts when, trimmed,
   * it is empty (0) or a plain run of decimal digits.
   */
  function ToNumber(v: Value): (r: Option<int>)
    ensures v.Num? ==> r == Some(v.n)
    ensures v.Str? && AllDigits(v.s) && v.s != [] ==> r == Some(DigitsValue(v.s))
  {
    match v
    case Null => Some(0)
    case Undefined => None
    case Bool(b) => Some(if b then 1 else 0)
    case Num(n) => Some(n)
    case Str(s) =>
      var t := Trim(s);
      assert AllDigits(s) && s != [] ==> t == s by {
        if AllDigits(s) && s != [] {
          TrimDigits(s);
        }
      }
      if t == [] then Some(0)
      else if AllDigits(t) then Some(DigitsValue(t))
      else None
  }

  /** `a % b` for a positive divisor: the remainder takes the sign of `a`. */
  function JsRem(a: int, b: int): (r: int)
    requires b > 0
    ensures -b < r < b
    ensures a >= 0 ==> r >= 0
    ensures a < 0 ==> r <= 0
    ensures a == b * TruncDiv(a, b) + r
  {
    if a >= 0 then a % b else -((-a) % b)
  }

  /** `Math.trunc(a / b)` for a positive divisor: the quotient rounded toward zero. */
  function TruncDiv(a: int, b: int): (q: int)
    requires b > 0
    ensures a >= 0 ==> q >= 0
    ensures a <= 0 ==> q <= 0
  {
    if a >= 0 then a / b else -((-a) / b)
  }

  /** `r` is `a / b` rounded to the nearest integer, a half rounded up. */
  predicate RoundsTo(r: int, a: int, b: int)
  {
    2 * b * r - b <= 2 * a < 2 * b * r + b
  }

  /** `Math.round(a / b)` for a positive divisor: the nearest integer, a half rounded up. */
  function RoundDiv(a: int, b: int): (r: int)
    requires b > 0
    ensures 2 * b * r - b <= 2 * a < 2 * b * r + b
  {
    var q := (2 * a + b) / (2 * b);
    assert 2 * b * q <= 2 * a + b < 2 * b * q + 2 * b;
    q
  }

  /** Rounding a non-negative quotient gives a non-negative integer. */
  lemma RoundDivNonNegative(a: int, b: int)
    requires a >= 0 && b > 0
    ensures RoundDiv(a, b) >= 0
  {
  }

  /** Only one integer lies within a half of `a / b`. */
  lemma RoundDivUnique(a: int, b: int, r: int)
    requires b > 0
    requires 2 * b * r - b <= 2 * a < 2 * b * r + b
    ensures RoundDiv(a, b) == r
  {
    var q := RoundDiv(a, b);
    assert b * (q - r) < b && b * (r - q) < b;
    BelowOneFactor(b, q - r);
    BelowOneFactor(b, r - q);
  }

  /** `b * x < b` with a positive `b` leaves `x` at most 0. */
  lemma BelowOneFactor(b: int, x: int)
    requires b > 0 && b * x < b
    ensures x <= 0
  {
    if x >= 1 {
      assert false;
    }
  }

  /** A rounded share of a whole lies between 0 and 100. */
  lemma PercentRange(part: nat, total: nat)
    requires 0 < total
    ensures part <= total ==> 0 <= RoundDiv(100 * part, total) <= 100
  {
    var r := RoundDiv(100 * part, total);
    if part <= total {
      assert total * (r - 100) < total by {
        assert 2 * total * r - total <= 200 * total;
      }
      BelowOneFactor(total, r - 100);
      assert total * (-r) < total;
      BelowOneFactor(total, -r);
    }
  }

  /** `total > 0 ? Math.round((part / total) * 100) : 0`. */
  function Percent(part: nat, total: nat): (r: int)
    ensures total == 0 ==> r == 0
    ensures part <= total ==> 0 <= r <= 100
    ensures total > 0 ==> 2 * total * r - total <= 200 * part < 2 * total * r + total
  {
    if total == 0 then 0
    else
      PercentRange(part, total);
      RoundDiv(100 * part, total)
  }

  /** Number of decimal digits at the front of `s`. */
  function LeadingDigits(s: string): (k: nat)
    ensures k <= |s| && AllDigits(s[..k])
    ensures k < |s| ==> !IsDigit(s[k])
  {
    if s != [] && IsDigit(s[0]) then
      var k := 1 + LeadingDigits(s[1..]);
      assert s[..k] == [s[0]] + s[1..][..k - 1];
      k
    else 0
  }

  /** The digits-only part of `parseInt`: an unsigned decimal run, or none. */
  function ParseUnsigned(t: string): (r: Option<int>)
    ensures r.None? <==> (t == [] || !IsDigit(t[0]))
    ensures r.Some? ==> r.value >= 0
  {
    var k := LeadingDigits(t);
    if k == 0 then None else Some(DigitsValue(t[..k]))
  }

  /**
   * `parseInt(s, 10)`: leading white space skipped, an optional sign, then the
   * longest run of decimal digits; `None` stands for `NaN`.
   */
  function ParseInt(s: string): Option<int>
  {
    var t := TrimStart(s);
    if t != [] && (t[0] == '-' || t[0] == '+') then
      var u := ParseUnsigned(t[1..]);
      if u.None? then None else if t[0] == '-' then Some(-u.value) else u
    else
      ParseUnsigned(t)
  }

  /** `parseInt(v, 10)` for any value: the value is converted with `String` first. */
  function ParseIntValue(v: Value): Option<int>
  {
    ParseInt(ToStr(v))
  }

  lemma {:induction false} LeadingDigitsOfDigits(d: string, rest: string)
    requires AllDigits(d)
    requires rest == [] || !IsDigit(rest[0])
    ensures LeadingDigits(d + rest) == |d|
    decreases |d|
  {
    if d != [] {
      assert (d + rest)[1..] == d[1..] + rest;
      LeadingDigitsOfDigits(d[1..], rest);
    } else {
      assert d + rest == rest;
    }
  }

  lemma ParseUnsignedOfDigits(d: string, rest: string)
    requires d != [] && AllDigits(d)
    requires rest == [] || !IsDigit(rest[0])
    ensures ParseUnsigned(d + rest) == Some(DigitsValue(d))
  {
    LeadingDigitsOfDigits(d, rest);
    assert (d + rest)[..|d|] == d;
  }

  lemma TrimStartNoLeadingSpace(s: string)
    requires s != [] && !IsSpace(s[0])
    ensures TrimStart(s) == s
  {
  }

  lemma ParseIntOfDigits(d: string, rest: string)
    requires d != [] && AllDigits(d)
    requires rest == [] || !IsDigit(rest[0])
    ensures ParseInt(d + rest) == Some(DigitsValue(d))
  {
    ParseUnsignedOfDigits(d, rest);
    var s := d + rest;
    assert s[0] == d[0];
    TrimStartNoLeadingSpace(s);
    assert s[0] != '-' && s[0] != '+';
  }

  lemma ParseIntOfNegDigits(d: string, rest: string)
    requires d != [] && AllDigits(d)
    requires rest == [] || !IsDigit(rest[0])
    ensures ParseInt(['-'] + (d + rest)) == Some(-(DigitsValue(d) as int))
  {
    ParseUnsignedOfDigits(d, rest);
    var m := ['-'] + (d + rest);
    TrimStartNoLeadingSpace(m);
    DropHead('-', d + rest);
  }

  lemma DropHead<T>(x: T, s: seq<T>)
    ensures ([x] + s)[1..] == s
  {
  }

  lemma ParseIntOfNegative(i: int, rest: string)
    requires i < 0
    requires rest == [] || !IsDigit(rest[0])
    ensures ParseInt(IntToString(i) + rest) == Some(i)
  {
    var n: nat := -i;
    var digits := NatToString(n);
    assert IntToString(i) + rest == ['-'] + (digits + rest) by { NegativeText(i, rest); }
    assert DigitsValue(digits) == n by { NatToStringRoundTrip(n); }
    assert ParseInt(['-'] + (digits + rest)) == Some(-(DigitsValue(digits) as int)) by {
      ParseIntOfNegDigits(digits, rest);
    }
  }

  /** A negative number prints as a minus sign before the digits of its magnitude. */
  lemma NegativeText(i: int, rest: string)
    requires i < 0
    ensures IntToString(i) + rest == ['-'] + (NatToString(-i) + rest)
  {
    var d := NatToString(-i);
    assert IntToString(i) == ['-'] + d;
    assert (['-'] + d) + rest == ['-'] + (d + rest);
  }

  /**
   * `parseInt` reads back what `String` prints for an integer, and stops at
   * the first character that is not a digit (so "90 min" reads as 90).
   */
  lemma ParseIntOfIntToString(i: int, rest: string)
    requires rest == [] || !IsDigit(rest[0])
    ensures ParseInt(IntToString(i) + rest) == Some(i)
  {
    if i < 0 {
      ParseIntOfNegative(i, rest);
    } else {
      var digits := NatToString(i);
      NatToStringRoundTrip(i);
      ParseIntOfDigits(digits, rest);
    }
  }
}

=== FILE: json_array.dfy ===
/**
 * `JSON.stringify` and `JSON.parse` restricted to what the multi-select
 * fields store: an array of strings such as `["Brightfield","Fluorescence"]`.
 * Encoding follows section 24.5.2.2 of ECMA-262 (QuoteJSONString). Decoding
 * accepts the compact form only (no white space between tokens) and the
 * escapes of section 7 of RFC 8259, a pair of surrogate escapes included,
 * except that a `\u` escape naming a lone surrogate is rejected, where
 * `JSON.parse` would accept it.
 */
module JsonArray {
  import opened Js
  import Seqs

  const Hex: string := "0123456789abcdef"

  function HexDigit(d: nat): char
    requires d < 16
  {
    Hex[d]
  }

  /** Value of a hexadecimal digit (either case), or -1. */
  function HexValue(c: char): int
  {
    if '0' <= c <= '9' then c as int - '0' as int
    else if 'a' <= c <= 'f' then c as int - 'a' as int + 10
    else if 'A' <= c <= 'F' then c as int - 'A' as int + 10
    else -1
  }

  /** One character as `JSON.stringify` writes it inside a string literal. */
  function EscapeChar(c: char): string
  {
    if c == '"' then ['\\', '"']
    else if c == '\\' then ['\\', '\\']
    else if c == '\U{0008}' then ['\\', 'b']
    else if c == '\U{000C}' then ['\\', 'f']
    else if c == '\n' then ['\\', 'n']
    else if c == '\r' then ['\\', 'r']
    else if c == '\t' then ['\\', 't']
    else if c < ' ' then ['\\', 'u', '0', '0', HexDigit(c as int / 16), HexDigit(c as int % 16)]
    else [c]
  }

  function EscapeString(s: string): string
  {
    if s == [] then [] else EscapeChar(s[0]) + EscapeString(s[1..])
  }

  function Quote(s: string): string
  {
    ['"'] + EscapeString(s) + ['"']
  }

  function Items(xs: seq<string>): string
  {
    if xs == [] then []
    else if |xs| == 1 then Quote(xs[0])
    else Quote(xs[0]) + [','] + Items(xs[1..])
  }

  /** `JSON.stringify(xs)` for an array of strings. */
  function Encode(xs: seq<string>): string
  {
    ['['] + Items(xs) + [']']
  }

  /** The character a one-letter escape stands for. */
  function SimpleEscape(e: char): Option<char>
  {
    if e == '"' then Some('"')
    else if e == '\\' then Some('\\')
    else if e == '/' then Some('/')
    else if e == 'b' then Some('\U{0008}')
    else if e == 'f' then Some('\U{000C}')
    else if e == 'n' then Some('\n')
    else if e == 'r' then Some('\r')
    else if e == 't' then Some('\t')
    else None
  }

  /** The code unit written by four hexadecimal digits, or -1. */
  function Hex4(t: string): int
    requires |t| >= 4
  {
    var a, b, c, d := HexValue(t[0]), HexValue(t[1]), HexValue(t[2]), HexValue(t[3]);
    if a < 0 || b < 0 || c < 0 || d < 0 then -1 else ((a * 16 + b) * 16 + c) * 16 + d
  }

  /** The character a high and a low surrogate code unit stand for together (section 3.8 of Unicode). */
  function Combine(hi: int, lo: int): (c: char)
    requires 0xD800 <= hi < 0xDC00 && 0xDC00 <= lo < 0xE000
    ensures 0x10000 <= c as int <= 0x10FFFF
    ensures (c as int - 0x10000) / 0x400 == hi - 0xD800 && (c as int - 0x10000) % 0x400 == lo - 0xDC00
  {
    (0x10000 + (hi - 0xD800) * 0x400 + (lo - 0xDC00)) as char
  }

  /**
   * Read the body of a string literal whose opening quote is already consumed:
   * the decoded text and what follows the closing quote. A `\u` escape of a
   * high surrogate directly followed by one of a low surrogate stands for one
   * character; a lone surrogate escape has no Unicode scalar value and is
   * rejected.
   */
  function ReadString(t: string): (r: Option<(string, string)>)
    ensures r.Some? ==> |r.value.1| < |t|
    decreases |t|
  {
    if t == [] then None
    else if t[0] == '"' then Some(([], t[1..]))
    else if t[0] == '\\' then
      if |t| < 2 then None
      else if t[1] == 'u' then
        if |t| < 6 then None
        else
          var v := Hex4(t[2..6]);
          if v < 0 then None
          else if 0xD800 <= v < 0xDC00 then
            if |t| < 12 || t[6] != '\\' || t[7] != 'u' then None
            else
              var w := Hex4(t[8..12]);
              if !(0xDC00 <= w < 0xE000) then None
              else
                match ReadString(t[12..])
                case None => None
                case Some(p) => Some(([Combine(v, w)] + p.0, p.1))
          else if 0xDC00 <= v < 0xE000 then None
          else
            match ReadString(t[6..])
            case None => None
            case Some(p) => Some(([v as char] + p.0, p.1))
      else
        match SimpleEscape(t[1])
        case None => None
        case Some(c) =>
          match ReadString(t[2..])
          case None => None
          case Some(p) => Some(([c] + p.0, p.1))
    else if t[0] < ' ' then None
    else
      match ReadString(t[1..])
      case None => None
      case Some(p) => Some(([t[0]] + p.0, p.1))
  }

  /** Items after `[`: quoted strings separated by `,`, then `]` at the very end. */
  function ReadItems(t: string): Option<seq<string>>
    decreases |t|
  {
    if t == [] || t[0] != '"' then None
    else
      match ReadString(t[1..])
      case None => None
      case Some(p) =>
        if p.1 == [']'] then Some([p.0])
        else if p.1 != [] && p.1[0] == ',' then
          match ReadItems(p.1[1..])
          case None => None
          case Some(rest) => Some([p.0] + rest)
        else None
  }

  /** A high surrogate escape directly followed by a low one reads as the character they form. */
  lemma SurrogatePairRead(hi: string, lo: string, rest: string)
    requires |hi| == 4 && |lo| == 4
    requires 0xD800 <= Hex4(hi) < 0xDC00 && 0xDC00 <= Hex4(lo) < 0xE000
    ensures ReadString("\\u" + hi + "\\u" + lo + rest) ==
            match ReadString(rest) case None => None case Some(p) => Some(([Combine(Hex4(hi), Hex4(lo))] + p.0, p.1))
  {
    var t := "\\u" + hi + "\\u" + lo + rest;
    assert t[0] == '\\' && t[1] == 'u' && t[2..6] == hi;
    assert t[6] == '\\' && t[7] == 'u' && t[8..12] == lo;
    assert t[12..] == rest;
  }

  /** The body of the stored form of U+1F600: two `\u` escapes and the closing quote. */
  lemma SurrogatePairBody()
    ensures ReadString("\\ud83d\\ude00\"]") == Some((['\U{1F600}'], "]"))
  {
    assert "\\ud83d\\ude00\"]" == "\\u" + "d83d" + "\\u" + "de00" + "\"]";
    assert Hex4("d83d") == 0xD83D && Hex4("de00") == 0xDE00;
    SurrogatePairRead("d83d", "de00", "\"]");
    assert ReadString("\"]") == Some(([], "]"));
    assert [Combine(0xD83D, 0xDE00)] + [] == ['\U{1F600}'];
  }

  /** A character outside the Basic Multilingual Plane, stored as a pair of `\u` escapes, reads back. */
  lemma SurrogatePairDecoded()
    ensures Decode("[\"\\ud83d\\ude00\"]") == Some(["\U{1F600}"])
  {
    var t := "[\"\\ud83d\\ude00\"]";
    SurrogatePairBody();
    assert t[1..][1..] == "\\ud83d\\ude00\"]";
    assert t[1..] != [']'] && t[1..][0] == '"';
  }

  /** `JSON.parse(t)` when it yields an array of strings; `None` otherwise. */
  function Decode(t: string): Option<seq<string>>
  {
    if |t| >= 2 && t[0] == '[' then
      if t[1..] == [']'] then Some([]) else ReadItems(t[1..])
    else None
  }

  lemma EscapeCharRead(c: char, rest: string)
    ensures ReadString(EscapeChar(c) + rest) ==
            match ReadString(rest) case None => None case Some(p) => Some(([c] + p.0, p.1))
  {
    if c == '"' || c == '\\' || c == '\U{0008}' || c == '\U{000C}' || c == '\n' || c == '\r' || c == '\t' {
      ShortEscapeRead(c, rest);
    } else if c < ' ' {
      UnicodeEscapeRead(c, rest);
    } else {
      PlainCharRead(c, rest);
    }
  }

  /** A character written as a backslash and a letter is read back. */
  lemma ShortEscapeRead(c: char, rest: string)
    requires c == '"' || c == '\\' || c == '\U{0008}' || c == '\U{000C}' || c == '\n' || c == '\r' || c == '\t'
    ensures ReadString(EscapeChar(c) + rest) ==
            match ReadString(rest) case None => None case Some(p) => Some(([c] + p.0, p.1))
  {
    var t := EscapeChar(c) + rest;
    assert t[0] == '\\' && t[1] != 'u' && SimpleEscape(t[1]) == Some(c);
    assert t[2..] == rest;
  }

  /** A control character written as a `\u00XX` escape is read back. */
  lemma UnicodeEscapeRead(c: char, rest: string)
    requires c < ' ' && c != '\U{0008}' && c != '\U{000C}' && c != '\n' && c != '\r' && c != '\t'
    ensures ReadString(EscapeChar(c) + rest) ==
            match ReadString(rest) case None => None case Some(p) => Some(([c] + p.0, p.1))
  {
    var t := EscapeChar(c) + rest;
    assert t[0] == '\\' && t[1] == 'u';
    assert t[2..6] == ['0', '0', HexDigit(c as int / 16), HexDigit(c as int % 16)];
    assert Hex4(t[2..6]) == c as int;
    assert t[6..] == rest;
  }

  /** A character written as itself is read back. */
  lemma PlainCharRead(c: char, rest: string)
    requires c >= ' ' && c != '"' && c != '\\'
    ensures ReadString(EscapeChar(c) + rest) ==
            match ReadString(rest) case None => None case Some(p) => Some(([c] + p.0, p.1))
  {
    var t := EscapeChar(c) + rest;
    assert t[0] == c && t[1..] == rest;
  }

  /** Reading an escaped body gives back the original text. */
  lemma {:induction false} EscapeStringRead(s: string, rest: string)
    ensures ReadString(EscapeString(s) + ['"'] + rest) == Some((s, rest))
    decreases |s|
  {
    if s == [] {
      assert EscapeString(s) + ['"'] + rest == ['"'] + rest;
      assert (['"'] + rest)[1..] == rest;
    } else {
      var tail := EscapeString(s[1..]) + ['"'] + rest;
      assert EscapeString(s) + ['"'] + rest == EscapeChar(s[0]) + tail;
      EscapeCharRead(s[0], tail);
      EscapeStringRead(s[1..], rest);
      assert [s[0]] + s[1..] == s;
    }
  }

  lemma ReadOneItem(x: string, tail: string)
    ensures ReadItems(Quote(x) + tail) ==
            if tail == [']'] then Some([x])
            else if tail != [] && tail[0] == ',' then
              match ReadItems(tail[1..]) case None => None case Some(rest) => Some([x] + rest)
            else None
  {
    var q := EscapeString(x);
    var t := Quote(x) + tail;
    assert t == ['"'] + (q + ['"'] + tail);
    assert t[1..] == q + ['"'] + tail;
    EscapeStringRead(x, tail);
  }

  lemma {:induction false} ItemsRead(xs: seq<string>)
    requires xs != []
    ensures ReadItems(Items(xs) + [']']) == Some(xs)
    decreases |xs|
  {
    if |xs| == 1 {
      ReadOneItem(xs[0], [']']);
      assert xs == [xs[0]];
    } else {
      var tail := [','] + (Items(xs[1..]) + [']']);
      Seqs.AppendAssoc(Quote(xs[0]) + [','], Items(xs[1..]), [']']);
      Seqs.AppendAssoc(Quote(xs[0]), [','], Items(xs[1..]) + [']']);
      ReadOneItem(xs[0], tail);
      assert tail[1..] == Items(xs[1..]) + [']'];
      ItemsRead(xs[1..]);
      assert [xs[0]] + xs[1..] == xs;
    }
  }

  /** What `JSON.stringify` writes, `JSON.parse` reads back. */
  lemma DecodeEncode(xs: seq<string>)
    ensures Decode(Encode(xs)) == Some(xs)
  {
    var t := Encode(xs);
    if xs == [] {
      assert t == ['[', ']'];
    } else {
      assert t[1..] == Items(xs) + [']'];
      ItemsRead(xs);
      assert t[1..] != [']'] by {
        assert Items(xs)[0] == '"';
      }
    }
  }
}

=== FILE: launcher.dfy ===
/**
 * The front end's backend launcher
 * (projet-analyse-image-frontend/src/services/backendLauncher.js): port
 * selection, backend-directory discovery, start with bounded retries, stop,
 * and the readiness poll.
 *
 * Tauri `invoke` results, health checks and clock readings are parameters;
 * the retry delay and the health-check interval timer are not modelled.
 */
module Launcher {
  import opened Js
  import opened Seqs

  const DefaultPort: int := 3001
  const MaxPortAttempts: nat := 10
  const MaxRetries: nat := 3
  const ProductionBackendPath: string := "./resources/backend"
  const DevBackendPaths: seq<string> := ["../backend", "D:/DEV/BIOME/backend", "./backend", "../../backend"]

  datatype Launcher = Launcher(isStarted: bool, startupAttempts: nat, usingDockerBackend: bool)

  /** The freshly constructed launcher. */
  const Initial: Launcher := Launcher(false, 0, false)

  // ---------------------------------------------------------------------
  // Port selection
  // ---------------------------------------------------------------------

  /** What `invoke('check_port_available', {port})` gave. */
  datatype PortCheck = Free | Busy | CheckError

  /**
   * `findAvailablePort`: the first port of 3001..3010 reported free; errors
   * count as busy; 3001 when none is free.
   */
  method FindAvailablePort(check: int -> PortCheck) returns (port: int)
    ensures DefaultPort <= port < DefaultPort + MaxPortAttempts
    ensures check(port) == Free ==> forall q :: DefaultPort <= q < port ==> check(q) != Free
    ensures check(port) != Free ==>
              port == DefaultPort && forall q :: DefaultPort <= q < DefaultPort + MaxPortAttempts ==> check(q) != Free
  {
    var attempt := 0;
    while attempt < MaxPortAttempts
      invariant 0 <= attempt <= MaxPortAttempts
      invariant forall q :: DefaultPort <= q < DefaultPort + attempt ==> check(q) != Free
    {
      var testPort := DefaultPort + attempt;
      if check(testPort) == Free {
        return testPort;
      }
      attempt := attempt + 1;
    }
    return DefaultPort;
  }

  /**
   * The desktop shell registers no `check_port_available` command, so every
   * check is rejected and the launcher always settles on port 3001.
   */
  method PortWithoutPortCommand() returns (port: int)
    ensures port == DefaultPort
  {
    port := FindAvailablePort(_ => CheckError);
  }

  // ---------------------------------------------------------------------
  // Backend directory
  // ---------------------------------------------------------------------

  /** Candidates under the directory `get_app_dir` reported (`None` when the call failed). */
  function AppRelativeCandidates(appDir: Option<string>): seq<string>
  {
    if appDir.Some? && appDir.value != "" then
      [appDir.value + "/backend", appDir.value + "/../backend", appDir.value + "/../../backend"]
    else []
  }

  /**
   * `findBackendPath`: fixed in production; in development the first existing
   * directory among the app-relative candidates (when the app directory is
   * known and non-empty) and then the development list, else `../backend`.
   * `dirExists` is what `check_dir_exists` resolves to, a rejection read as false.
   */
  function FindBackendPath(production: bool, appDir: Option<string>, dirExists: string -> bool): (r: string)
    ensures production ==> r == ProductionBackendPath
    ensures !production ==>
              var c := AppRelativeCandidates(appDir) + DevBackendPaths;
              (exists i :: 0 <= i < |c| && r == c[i] && dirExists(c[i])
                           && forall j :: 0 <= j < i ==> !dirExists(c[j]))
              || (r == DevBackendPaths[0] && forall i :: 0 <= i < |c| ==> !dirExists(c[i]))
  {
    if production then ProductionBackendPath
    else
      match FirstWhere(AppRelativeCandidates(appDir) + DevBackendPaths, dirExists)
      case Some(p) => p
      case None => DevBackendPaths[0]
  }

  // ---------------------------------------------------------------------
  // Start with retries
  // ---------------------------------------------------------------------

  /**
   * How one start attempt went: the start command rejected with the shell's
   * error text, or the readiness poll's verdict.
   */
  datatype Attempt = InvokeFailed(reason: string) | NotReady | Ready

  /**
   * `error.message` of the caught error. The shell's command returns its
   * error as a bare string, so a rejected start command is caught as a string
   * whose `message` is undefined and prints as "undefined"; only the thrown
   * timeout is an `Error` with a message.
   */
  function AttemptMessage(a: Attempt): (r: string)
    ensures a.InvokeFailed? ==> r == "undefined"
    ensures a.NotReady? ==> r == "Server failed to start within timeout period"
  {
    match a
    case InvokeFailed(_) => "undefined"
    case NotReady => "Server failed to start within timeout period"
    case Ready => ""
  }

  /**
   * `startServer`, from attempt number `k` on: `attempt(i)` is the outcome of
   * the i-th start command. Returns the launcher, the result, and how many
   * start commands were issued in total.
   */
  function StartFrom(l: Launcher, attempt: nat -> Attempt, k: nat): (r: (Launcher, Result<bool, string>, nat))
    requires l.startupAttempts <= MaxRetries
    ensures r.2 >= k && r.0.startupAttempts <= MaxRetries && r.0.usingDockerBackend == l.usingDockerBackend
    ensures l.isStarted ==> r == (l, Ok(true), k)
    ensures !l.isStarted ==> k + 1 <= r.2 <= k + 1 + MaxRetries - l.startupAttempts
    ensures !l.isStarted ==> forall i :: k <= i < r.2 - 1 ==> attempt(i) != Ready
    ensures !l.isStarted && r.1.Ok? ==> r.1 == Ok(true) && r.0 == l.(isStarted := true, startupAttempts := 0)
                                        && r.2 >= 1 && attempt(r.2 - 1) == Ready
    ensures !l.isStarted && r.1.Err? ==> r.0 == l.(startupAttempts := MaxRetries)
                                         && r.2 == k + 1 + MaxRetries - l.startupAttempts
                                         && r.2 >= 1 && attempt(r.2 - 1) != Ready
                                         && r.1.error == "Failed to start backend server after 3 attempts: "
                                                         + AttemptMessage(attempt(r.2 - 1))
    decreases MaxRetries - l.startupAttempts
  {
    var next: nat := k + 1;
    if l.isStarted then (l, Ok(true), k)
    else if attempt(k) == Ready then (l.(isStarted := true, startupAttempts := 0), Ok(true), next)
    else if l.startupAttempts < MaxRetries then
      StartFrom(l.(startupAttempts := l.startupAttempts + 1), attempt, next)
    else
      (l, Err("Failed to start backend server after 3 attempts: " + AttemptMessage(attempt(k))), next)
  }

  function StartServer(l: Launcher, attempt: nat -> Attempt): (Launcher, Result<bool, string>, nat)
    requires l.startupAttempts <= MaxRetries
  {
    StartFrom(l, attempt, 0)
  }

  /** A fresh launcher issues at most 1 + 3 start commands before giving up. */
  lemma FreshStartIsBounded(attempt: nat -> Attempt)
    ensures StartServer(Initial, attempt).2 <= 1 + MaxRetries
    ensures StartServer(Initial, attempt).1.Err? ==>
              StartServer(Initial, attempt).2 == 4 && forall i :: 0 <= i < 4 ==> attempt(i) != Ready
  {
  }

  /**
   * When the last start command is rejected by the shell, the final error
   * ends in "undefined": the rejection carries no `message`.
   */
  lemma RejectedStartReportsUndefined(attempt: nat -> Attempt)
    requires StartServer(Initial, attempt).1.Err? && attempt(3).InvokeFailed?
    ensures StartServer(Initial, attempt).1 == Err("Failed to start backend server after 3 attempts: undefined")
  {
    FreshStartIsBounded(attempt);
    var r := StartFrom(Initial, attempt, 0);
    assert r.2 == 4 && r.1.error == "Failed to start backend server after 3 attempts: " + AttemptMessage(attempt(3));
    assert "Failed to start backend server after 3 attempts: " + "undefined"
        == "Failed to start backend server after 3 attempts: undefined";
  }

  /**
   * The retry counter is left at its maximum after a final failure, so a later
   * `startServer` on the same launcher tries exactly once before throwing.
   */
  lemma RetryCounterNotReset(attempt: nat -> Attempt, again: nat -> Attempt)
    requires StartServer(Initial, attempt).1.Err?
    requires again(0) != Ready
    ensures var l := StartServer(Initial, attempt).0;
            StartServer(l, again).1.Err? && StartServer(l, again).2 == 1
  {
  }

  // ---------------------------------------------------------------------
  // Stop
  // ---------------------------------------------------------------------

  /**
   * `stopServer`: `stopInvoke` is the outcome of `invoke('stop_backend_server')`.
   * Returns the launcher and whether the stop command was issued; it never throws.
   */
  function StopServer(l: Launcher, stopInvoke: Result<(), string>): (r: (Launcher, bool))
    ensures !l.isStarted ==> r == (l, false)
    ensures l.isStarted && l.usingDockerBackend ==> r == (l.(isStarted := false), false)
    ensures l.isStarted && !l.usingDockerBackend ==> r.1
    ensures r.0.isStarted <==> l.isStarted && !l.usingDockerBackend && stopInvoke.Err?
    ensures r.0.startupAttempts == l.startupAttempts && r.0.usingDockerBackend == l.usingDockerBackend
  {
    if !l.isStarted then (l, false)
    else if l.usingDockerBackend then (l.(isStarted := false), false)
    else
      match stopInvoke
      case Ok(_) => (l.(isStarted := false), true)
      case Err(_) => (l, true)
  }

  // ---------------------------------------------------------------------
  // Readiness poll
  // ---------------------------------------------------------------------

  const PollInterval: nat := 500

  /**
   * `waitForServer(timeout)`: poll the health check until it answers ok or
   * the time since `start` reaches the timeout. `now(i)` is the clock read
   * before poll i and `healthy(i)` that poll's verdict; successive readings
   * are at least one poll interval apart.
   */
  method WaitForServer(start: int, timeout: int, now: nat -> int, healthy: nat -> bool)
    returns (ready: bool, polls: nat)
    requires now(0) >= start
    requires forall i: nat :: now(i + 1) >= now(i) + PollInterval
    ensures forall i :: 0 <= i < polls ==> now(i) - start < timeout
    ensures ready ==> polls >= 1 && healthy(polls - 1) && forall i :: 0 <= i < polls - 1 ==> !healthy(i)
    ensures !ready ==> now(polls) - start >= timeout && forall i :: 0 <= i < polls ==> !healthy(i)
  {
    polls := 0;
    while now(polls) - start < timeout
      invariant forall i :: 0 <= i < polls ==> now(i) - start < timeout && !healthy(i)
      invariant now(polls) >= now(0) + PollInterval * polls
      decreases timeout - (now(polls) - start)
    {
      if healthy(polls) {
        return true, polls + 1;
      }
      polls := polls + 1;
    }
    return false, polls;
  }
}

=== FILE: project_details.dfy ===
/**
 * The pure helpers of the project details panel
 * (projet-analyse-image-frontend/src/components/ProjectDetails.js): the
 * README line diff, the "enough information for a folder" check, the
 * time-spent colour bands, the fine-tune time buttons and the multi-select
 * toggle that stores its selections as a JSON array.
 */
module ProjectDetails {
  import opened Strings
  import opened Js
  import Seqs
  import JsonArray

  // ---------------------------------------------------------------------
  // Line diff
  // ---------------------------------------------------------------------

  function DropCr(p: string): (r: string)
    ensures forall c :: c in r ==> c in p
  {
    if p != [] && p[|p| - 1] == '\r' then p[..|p| - 1] else p
  }

  /**
   * `s.split(/\r?\n/)`: the pieces between line feeds, a carriage return
   * directly before a line feed belonging to the separator.
   */
  function SplitLines(s: string): (r: seq<string>)
    ensures |r| == |Split(s, '\n')| >= 1
    ensures forall i :: 0 <= i < |r| ==> '\n' !in r[i]
  {
    var ps := Split(s, '\n');
    seq(|ps|, i requires 0 <= i < |ps| => if i < |ps| - 1 then DropCr(ps[i]) else ps[i])
  }

  /** A text without carriage returns is its lines joined by line feeds. */
  lemma SplitLinesJoin(s: string)
    requires '\r' !in s
    ensures Join(SplitLines(s), "\n") == s
  {
    var ps := Split(s, '\n');
    forall i | 0 <= i < |ps| ensures DropCr(ps[i]) == ps[i] {
      if ps[i] != [] {
        PartInJoin(ps, "\n", i, |ps[i]| - 1);
      }
    }
    assert SplitLines(s) == ps;
  }

  datatype Kind = Same | Removed | Added | Changed

  datatype DiffEntry = DiffEntry(kind: Kind, left: string, right: string)

  /** How two aligned lines compare. */
  function Classify(left: string, right: string): (k: Kind)
    ensures k == Same <==> left == right
    ensures k == Removed <==> left != "" && right == ""
    ensures k == Added <==> left == "" && right != ""
    ensures k == Changed <==> left != right && left != "" && right != ""
  {
    if left == right then Same
    else if left != "" && right == "" then Removed
    else if left == "" && right != "" then Added
    else Changed
  }

  /** `a[i] ?? ''`. */
  function LineAt(a: seq<string>, i: nat): string
  {
    if i < |a| then a[i] else ""
  }

  function Max(x: int, y: int): int { if x >= y then x else y }

  /** One entry per line position up to the longer text; the shorter side reads as empty lines. */
  function LineDiff(before: string, after: string): (r: seq<DiffEntry>)
    ensures |r| == Max(|SplitLines(before)|, |SplitLines(after)|)
    ensures forall i :: 0 <= i < |SplitLines(before)| ==> r[i].left == SplitLines(before)[i]
    ensures forall i :: 0 <= i < |SplitLines(after)| ==> r[i].right == SplitLines(after)[i]
    ensures forall i :: |SplitLines(before)| <= i < |r| ==> r[i].left == ""
    ensures forall i :: |SplitLines(after)| <= i < |r| ==> r[i].right == ""
    ensures forall i :: 0 <= i < |r| ==> r[i].kind == Classify(r[i].left, r[i].right)
  {
    var a := SplitLines(before);
    var b := SplitLines(after);
    seq(Max(|a|, |b|), i requires 0 <= i => DiffEntry(Classify(LineAt(a, i), LineAt(b, i)), LineAt(a, i), LineAt(b, i)))
  }

  /** The entry at one position compares the two lines found there. */
  lemma LineDiffAt(before: string, after: string, i: nat)
    requires i < Max(|SplitLines(before)|, |SplitLines(after)|)
    ensures var a, b := SplitLines(before), SplitLines(after);
            LineDiff(before, after)[i] == DiffEntry(Classify(LineAt(a, i), LineAt(b, i)), LineAt(a, i), LineAt(b, i))
  {
  }

  /** `computeLineDiff(before || '', after || '')` with its loop. */
  method ComputeLineDiff(before: string, after: string) returns (diffs: seq<DiffEntry>)
    ensures diffs == LineDiff(before, after)
  {
    var a := SplitLines(before);
    var b := SplitLines(after);
    var max := if |a| >= |b| then |a| else |b|;
    diffs := [];
    var i := 0;
    while i < max
      invariant 0 <= i <= max
      invariant |diffs| == i
      invariant forall j :: 0 <= j < i ==> diffs[j] == LineDiff(before, after)[j]
    {
      var left := if i < |a| then a[i] else "";
      var right := if i < |b| then b[i] else "";
      var entry := CompareLines(left, right);
      LineDiffAt(before, after, i);
      diffs := diffs + [entry];
      i := i + 1;
    }
  }

  /** The loop body's comparison of one pair of lines. */
  method CompareLines(left: string, right: string) returns (entry: DiffEntry)
    ensures entry == DiffEntry(Classify(left, right), left, right)
  {
    if left == right {
      entry := DiffEntry(Same, left, right);
    } else if left != "" && right == "" {
      entry := DiffEntry(Removed, left, "");
    } else if left == "" && right != "" {
      entry := DiffEntry(Added, "", right);
    } else {
      entry := DiffEntry(Changed, left, right);
    }
  }

  /** A text compared with itself shows no change. */
  lemma SelfDiffIsSame(text: string)
    ensures forall i :: 0 <= i < |LineDiff(text, text)| ==> LineDiff(text, text)[i].kind == Same
  {
  }

  /** The diff shows no change exactly when the texts agree line by line, missing lines counting as empty. */
  lemma NoChangeIff(before: string, after: string)
    ensures (forall i :: 0 <= i < |LineDiff(before, after)| ==> LineDiff(before, after)[i].kind == Same)
            <==> (forall i: nat :: LineAt(SplitLines(before), i) == LineAt(SplitLines(after), i))
  {
    var r := LineDiff(before, after);
    var a := SplitLines(before);
    var b := SplitLines(after);
    if forall i :: 0 <= i < |r| ==> r[i].kind == Same {
      forall i: nat ensures LineAt(a, i) == LineAt(b, i) {
        if i < |r| {
          assert r[i].left == LineAt(a, i) && r[i].right == LineAt(b, i);
        }
      }
    }
    if forall i: nat :: LineAt(a, i) == LineAt(b, i) {
      forall i | 0 <= i < |r| ensures r[i].kind == Same {
        assert r[i].left == LineAt(a, i) && r[i].right == LineAt(b, i);
      }
    }
  }

  /** A trailing line break is invisible in the diff: it only adds an empty line against nothing. */
  lemma TrailingLineBreakInvisible()
    ensures |LineDiff("x", "x\n")| == 2
    ensures forall i :: 0 <= i < 2 ==> LineDiff("x", "x\n")[i].kind == Same
  {
    SplitNoSeparator("x", '\n');
    assert SplitLines("x") == ["x"];
    assert Join(["x", ""], "\n") == "x\n";
    SplitJoin(["x", ""], '\n');
    assert SplitLines("x\n") == ["x", ""];
  }

  // ---------------------------------------------------------------------
  // Enough information for a project folder
  // ---------------------------------------------------------------------

  /** The fields of a project or of its editing copy that the folder check reads. */
  datatype Info = Info(
    name: Value,
    description: Value,
    software: Value,
    groupId: Value,
    groupName: Value,
    userId: Value,
    userName: Value)

  /** `v && String(v).trim() !== ''`. */
  predicate NonBlank(v: Value)
  {
    Truthy(v) && !IsBlank(ToStr(v))
  }

  const PlaceholderName: Value := Str("New Project")

  /** `hasAdequateProjectInfo()`; `None` when there is no project data at all. */
  predicate HasAdequateInfo(data: Option<Info>)
  {
    match data
    case None => false
    case Some(d) =>
      NonBlank(d.name) && d.name != PlaceholderName
      && NonBlank(d.software)
      && (NonBlank(d.groupId) || NonBlank(d.groupName))
      && (NonBlank(d.userId) || NonBlank(d.userName))
  }

  /** A string is non-blank exactly when it holds a character that is not white space. */
  lemma NonBlankString(s: string)
    ensures NonBlank(Str(s)) <==> exists i :: 0 <= i < |s| && !IsSpace(s[i])
  {
  }

  /** A number is non-blank exactly when it is not zero. */
  lemma NonBlankNumber(n: int)
    ensures NonBlank(Num(n)) <==> n != 0
  {
    if n != 0 {
      assert IntToString(n) != [];
      NumberTextHasDigit(n);
    }
  }

  lemma NumberTextHasDigit(n: int)
    ensures exists i :: 0 <= i < |IntToString(n)| && !IsSpace(IntToString(n)[i])
  {
    var t := IntToString(n);
    var k := |t| - 1;
    NatToStringDigits(if n < 0 then -n else n);
    assert t[k] == NatToString(if n < 0 then -n else n)[|NatToString(if n < 0 then -n else n)| - 1];
  }

  lemma NatToStringDigits(n: nat)
    ensures NatToString(n) != [] && AllDigits(NatToString(n))
  {
    NatToStringRoundTrip(n);
  }

  /**
   * For a project whose fields are all texts: no data fails, and data passes
   * exactly when the name holds a non-space character and is not the
   * placeholder, and so do the software, the group name and the user name
   * (the ids being absent).
   */
  lemma AdequateTextInfo(name: string, description: Value, software: string, group: string, user: string)
    ensures !HasAdequateInfo(None)
    ensures HasAdequateInfo(Some(Info(Str(name), description, Str(software), Null, Str(group), Null, Str(user))))
            <==> (exists i :: 0 <= i < |name| && !IsSpace(name[i])) && name != "New Project"
                 && (exists i :: 0 <= i < |software| && !IsSpace(software[i]))
                 && (exists i :: 0 <= i < |group| && !IsSpace(group[i]))
                 && (exists i :: 0 <= i < |user| && !IsSpace(user[i]))
  {
    NonBlankString(name);
    NonBlankString(software);
    NonBlankString(group);
    NonBlankString(user);
  }

  /** The description plays no part in the check. */
  lemma DescriptionNotRequired(d: Info, description: Value)
    ensures HasAdequateInfo(Some(d)) <==> HasAdequateInfo(Some(d.(description := description)))
  {
  }

  /** Either the id or the name identifies the group and the user. */
  lemma NamesStandInForIds(d: Info)
    requires NonBlank(d.name) && d.name != PlaceholderName && NonBlank(d.software)
    requires NonBlank(d.groupName) && NonBlank(d.userName)
    ensures HasAdequateInfo(Some(d.(groupId := Null, userId := Null)))
  {
  }

  /** The placeholder name and an all-space name both fail, whatever else is filled in. */
  lemma PlaceholderNamesFail(d: Info)
    ensures !HasAdequateInfo(Some(d.(name := PlaceholderName)))
    ensures !HasAdequateInfo(Some(d.(name := Str("  "))))
  {
    assert AllIn("  ", IsSpace);
  }

  // ---------------------------------------------------------------------
  // Time spent
  // ---------------------------------------------------------------------

  const MaxHours: nat := 48
  const MaxMinutes: nat := MaxHours * 60

  /** The colour band of the time spent, from the limit downwards. */
  datatype Band = AtLimit | ThreeQuarters | Half | Below

  function Rank(b: Band): nat
  {
    match b
    case Below => 0
    case Half => 1
    case ThreeQuarters => 2
    case AtLimit => 3
  }

  /**
   * The band of `minutes / 60` hours against 48, 36 and 24 hours. A value
   * that is not a number (`NaN`) fails every comparison.
   */
  function TimeBand(minutes: Value): (b: Band)
    ensures ToNumber(minutes).None? ==> b == Below
    ensures ToNumber(minutes).Some? ==>
              var m := ToNumber(minutes).value;
              (b == AtLimit <==> m >= 2880)
              && (b == ThreeQuarters <==> 2160 <= m < 2880)
              && (b == Half <==> 1440 <= m < 2160)
              && (b == Below <==> m < 1440)
  {
    match ToNumber(minutes)
    case None => Below
    case Some(m) =>
      var hours := m as real / 60.0;
      if hours >= MaxHours as real then AtLimit
      else if hours >= MaxHours as real * 0.75 then ThreeQuarters
      else if hours >= MaxHours as real * 0.5 then Half
      else Below
  }

  /** More minutes never give a lower band. */
  lemma TimeBandMonotone(m1: int, m2: int)
    requires m1 <= m2
    ensures Rank(TimeBand(Num(m1))) <= Rank(TimeBand(Num(m2)))
  {
  }

  /** `getTimeSpentColor`. */
  function TimeSpentColor(minutes: Value): (r: string)
    ensures TimeBand(minutes) == AtLimit <==> r == "text-red-600 dark:text-red-400 font-semibold"
    ensures TimeBand(minutes) == Below <==> r == "text-green-600 dark:text-bioluminescent-400"
  {
    match TimeBand(minutes)
    case AtLimit => "text-red-600 dark:text-red-400 font-semibold"
    case ThreeQuarters => "text-orange-500 dark:text-orange-300"
    case Half => "text-yellow-500 dark:text-yellow-300"
    case Below => "text-green-600 dark:text-bioluminescent-400"
  }

  /** `getTimeSpentBarColor`: the same bands as the text. */
  function TimeSpentBarColor(minutes: Value): (r: string)
    ensures TimeBand(minutes) == AtLimit <==> r == "bg-red-500 dark:bg-red-400"
    ensures TimeBand(minutes) == Below <==> r == "bg-green-500 dark:bg-bioluminescent-500"
  {
    match TimeBand(minutes)
    case AtLimit => "bg-red-500 dark:bg-red-400"
    case ThreeQuarters => "bg-orange-400 dark:bg-orange-300"
    case Half => "bg-yellow-400 dark:bg-yellow-300"
    case Below => "bg-green-500 dark:bg-bioluminescent-500"
  }

  /** A project with no recorded time shows green. */
  lemma NoTimeIsGreen()
    ensures TimeSpentColor(Null) == "text-green-600 dark:text-bioluminescent-400"
    ensures TimeSpentColor(Undefined) == "text-green-600 dark:text-bioluminescent-400"
  {
  }

  /** `Math.max(0, (v || 0) - step)`; `None` is `NaN`. */
  function Decrease(v: Value, step: nat): (r: Option<int>)
    ensures r.Some? ==> r.value >= 0
    ensures v.Num? && v.n >= 0 ==> r.Some? && r.value <= v.n && (v.n >= step ==> r.value == v.n - step)
  {
    match ToNumber(Or(v, Num(0)))
    case None => None
    case Some(n) => Some(if n - step >= 0 then n - step else 0)
  }

  /**
   * `Math.min(2880, (v || 0) + step)`. A string is concatenated with the
   * step's digits before `Math.min` turns the result into a number.
   */
  function Increase(v: Value, step: nat): (r: Option<int>)
    ensures r.Some? ==> r.value <= MaxMinutes
    ensures v.Num? && v.n <= MaxMinutes ==> r.Some? && r.value >= v.n && (v.n + step <= MaxMinutes ==> r.value == v.n + step)
  {
    var x := Or(v, Num(0));
    var sum := if x.Str? then ToNumber(Str(x.s + NatToString(step)))
               else match ToNumber(x) case None => None case Some(n) => Some(n + step);
    match sum
    case None => None
    case Some(n) => Some(if n <= MaxMinutes then n else MaxMinutes)
  }

  /** From a number in [0, 2880], every button keeps the time in [0, 2880]. */
  lemma ButtonsKeepRange(n: int)
    requires 0 <= n <= MaxMinutes
    ensures forall step: nat :: Decrease(Num(n), step).Some? && 0 <= Decrease(Num(n), step).value <= MaxMinutes
    ensures forall step: nat :: Increase(Num(n), step).Some? && 0 <= Increase(Num(n), step).value <= MaxMinutes
  {
  }

  /** A time held as text is extended digit-wise by the increase buttons. */
  lemma TextTimeConcatenates()
    ensures Increase(Str("10"), 15) == Some(1015)
    ensures Decrease(Str("10"), 15) == Some(0)
  {
    TextNumbers();
    assert Or(Str("10"), Num(0)) == Str("10");
  }

  /** The text '10' reads as 10, and followed by the digits of 15 as 1015. */
  lemma TextNumbers()
    ensures ToNumber(Str("10")) == Some(10)
    ensures ToNumber(Str("10" + NatToString(15))) == Some(1015)
  {
    PrintedNumbers();
    NatToStringRoundTrip(10);
    NatToStringRoundTrip(1015);
    assert "10" + NatToString(15) == NatToString(1015);
  }

  lemma PrintedNumbers()
    ensures NatToString(10) == "10" && NatToString(15) == "15"
    ensures NatToString(1015) == "1015"
  {
    assert NatToString(1) == "1";
    assert NatToString(101) == "101";
  }

  // ---------------------------------------------------------------------
  // Multi-select fields
  // ---------------------------------------------------------------------

  /** A multi-select value: an array, or a scalar (usually the stored JSON text). */
  datatype Field = List(items: seq<string>) | Scalar(v: Value)

  function TrimAll(ps: seq<string>): (r: seq<string>)
    ensures |r| == |ps|
    ensures forall i :: 0 <= i < |ps| ==> r[i] == Trim(ps[i])
  {
    if ps == [] then [] else [Trim(ps[0])] + TrimAll(ps[1..])
  }

  predicate NonEmpty(s: string) { s != [] }

  /** `value.split(',').map(s => s.trim()).filter(s => s)`. */
  function Pieces(s: string): (r: seq<string>)
    ensures forall p :: p in r ==> p != []
    ensures forall i :: 0 <= i < |Split(s, ',')| && !IsBlank(Split(s, ',')[i]) ==> Trim(Split(s, ',')[i]) in r
    ensures forall p :: p in r ==> exists i :: 0 <= i < |Split(s, ',')| && p == Trim(Split(s, ',')[i])
  {
    var ts := TrimAll(Split(s, ','));
    var r := Seqs.Filter(NonEmpty, ts);
    forall i | 0 <= i < |ts| && NonEmpty(ts[i]) ensures ts[i] in r {
      Seqs.FilterKeeps(NonEmpty, ts, i);
    }
    forall p | p in r ensures exists i :: 0 <= i < |ts| && p == ts[i] {
      assert p in ts;
    }
    r
  }

  /** The trimmed pieces that are not blank, in order: a reference reading of `Pieces`. */
  function NonBlankTrimmed(ps: seq<string>): seq<string>
  {
    if ps == [] then []
    else (if IsBlank(ps[0]) then [] else [Trim(ps[0])]) + NonBlankTrimmed(ps[1..])
  }

  /** The comma fallback is exactly the non-blank pieces, each trimmed, in their order. */
  lemma PiecesInOrder(s: string)
    ensures Pieces(s) == NonBlankTrimmed(Split(s, ','))
  {
    FilterTrimmed(Split(s, ','));
  }

  lemma {:induction false} FilterTrimmed(ps: seq<string>)
    ensures Seqs.Filter(NonEmpty, TrimAll(ps)) == NonBlankTrimmed(ps)
    decreases |ps|
  {
    if ps != [] {
      var t := TrimAll(ps);
      assert t[1..] == TrimAll(ps[1..]);
      FilterTrimmed(ps[1..]);
    }
  }

  /** `getCurrentSelections()`. */
  function Selections(f: Field): (r: seq<string>)
    ensures f.List? ==> r == f.items
    ensures f.Scalar? && !(Truthy(f.v) && f.v.Str?) ==> r == []
    ensures f.Scalar? && f.v.Str? && JsonArray.Decode(f.v.s).Some? ==> r == JsonArray.Decode(f.v.s).value
    ensures f.Scalar? && f.v.Str? && f.v.s != [] && JsonArray.Decode(f.v.s).None? ==> r == Pieces(f.v.s)
  {
    match f
    case List(xs) => xs
    case Scalar(v) =>
      if !Truthy(v) || !v.Str? then []
      else match JsonArray.Decode(v.s)
        case Some(xs) => xs
        case None => Pieces(v.s)
  }

  /** What `onChange` stores: `JSON.stringify(selections)`. */
  function Stored(xs: seq<string>): Field
  {
    Scalar(Str(JsonArray.Encode(xs)))
  }

  /** `handleToggleOption`: drop every copy of a chosen option, or append a new one. */
  function Toggle(current: seq<string>, option: string): (r: seq<string>)
    ensures option in current ==> option !in r && forall x :: x in r <==> x in current && x != option
    ensures option in current ==> multiset(r) == multiset(current)[option := 0]
    ensures option !in current ==> |r| == |current| + 1 && r[..|current|] == current && r[|current|] == option
  {
    if option in current then
      var r := Seqs.Filter((s: string) => s != option, current);
      assert forall x :: x in current && x != option ==> x in r by {
        forall x | x in current && x != option ensures x in r {
          assert multiset(current)[x] > 0;
        }
      }
      assert multiset(r) == multiset(current)[option := 0] by {
        forall x ensures multiset(r)[x] == multiset(current)[option := 0][x] {
        }
      }
      r
    else current + [option]
  }

  /** A toggled selection, once stored, reads back as itself. */
  lemma StoredToggleReadsBack(current: seq<string>, option: string)
    ensures Selections(Stored(Toggle(current, option))) == Toggle(current, option)
  {
    var xs := Toggle(current, option);
    JsonArray.DecodeEncode(xs);
    assert JsonArray.Encode(xs) != [] by { EncodeStartsWithBracket(xs); }
  }

  lemma EncodeStartsWithBracket(xs: seq<string>)
    ensures |JsonArray.Encode(xs)| >= 2 && JsonArray.Encode(xs)[0] == '['
  {
  }

  /** Toggling a new option on and off again, through storage, restores the selection. */
  lemma ToggleTwiceRestores(f: Field, option: string)
    requires option !in Selections(f)
    ensures Selections(Stored(Toggle(Selections(Stored(Toggle(Selections(f), option))), option))) == Selections(f)
  {
    var cur := Selections(f);
    var once := Toggle(cur, option);
    StoredToggleReadsBack(cur, option);
    assert once == cur + [option];
    var notOption := (s: string) => s != option;
    Seqs.FilterAppend(notOption, cur, [option]);
    Seqs.FilterKeepsAll(notOption, cur);
    assert Seqs.Filter(notOption, [option]) == [];
    var twice := Toggle(once, option);
    assert twice == cur;
    StoredToggleReadsBack(once, option);
  }
}

=== FILE: project_list.dfy ===
/**
 * The sidebar list of projet-analyse-image-frontend/src/components/ProjectList.js:
 * its comparator, which reads one column of each project and treats null and
 * undefined as the empty string, and its sort header.
 */
module ProjectList {
  import opened Js
  import Sorting

  /** The sort settings; the list opens sorted by `last_updated`, newest first. */
  datatype SortState = SortState(field: string, asc: bool)

  const InitialSort: SortState := SortState("last_updated", false)

  /**
   * `a[field] ?? ''` as the comparator's `<` and `>` see it: numbers by
   * value (`true` and `false` as 1 and 0), everything else as text.
   */
  function ColumnKey(row: Object, field: string): (k: Sorting.Key)
    ensures (field !in row || row[field].Null? || row[field].Undefined?) ==> k == Sorting.Text("")
    ensures field in row && row[field].Str? ==> k == Sorting.Text(row[field].s)
    ensures field in row && row[field].Num? ==> k == Sorting.Num(row[field].n)
  {
    match Get(row, field)
    case Null => Sorting.Text("")
    case Undefined => Sorting.Text("")
    case Bool(b) => Sorting.Num(if b then 1 else 0)
    case Num(n) => Sorting.Num(n)
    case Str(s) => Sorting.Text(s)
  }

  /** `(projects || []).sort(comparator)`: a permutation ordered by the column in the chosen direction. */
  function SortedProjects(projects: Option<seq<Object>>, s: SortState): (r: seq<Object>)
    ensures projects.None? ==> r == []
    ensures projects.Some? ==> multiset(r) == multiset(projects.value)
    ensures forall i, j :: 0 <= i < j < |r| ==>
              Sorting.InOrder(s.asc, ColumnKey(r[i], s.field), ColumnKey(r[j], s.field))
  {
    var rows := if projects.Some? then projects.value else [];
    Sorting.Sort(rows, (row: Object) => ColumnKey(row, s.field), s.asc)
  }

  /**
   * A project without the column sorts like one whose column is empty
   * text: ascending, only numbers and other empty columns come before it.
   */
  lemma MissingColumnSortsFirst(projects: seq<Object>, field: string, i: nat)
    requires i < |SortedProjects(Some(projects), SortState(field, true))|
    requires field !in SortedProjects(Some(projects), SortState(field, true))[i]
    ensures forall j :: 0 <= j < i ==>
              var k := ColumnKey(SortedProjects(Some(projects), SortState(field, true))[j], field);
              k.Num? || k == Sorting.Text("")
  {
    var r := SortedProjects(Some(projects), SortState(field, true));
    forall j | 0 <= j < i
      ensures ColumnKey(r[j], field).Num? || ColumnKey(r[j], field) == Sorting.Text("")
    {
      assert Sorting.InOrder(true, ColumnKey(r[j], field), Sorting.Text(""));
    }
  }

  /** `handleSort`: the same column flips the direction; another column is chosen ascending. */
  function HandleSort(s: SortState, field: string): (r: SortState)
    ensures r.field == field
    ensures s.field == field ==> r.asc == !s.asc
    ensures s.field != field ==> r.asc
  {
    if s.field == field then s.(asc := !s.asc) else SortState(field, true)
  }

  /** Two clicks on the current column restore the original direction. */
  lemma SameColumnTwiceRestores(s: SortState)
    ensures HandleSort(HandleSort(s, s.field), s.field) == s
  {
  }

  /** Switching columns from the opening state gives an ascending sort, not a flipped one. */
  lemma SwitchFromInitialIsAscending(field: string)
    requires field != InitialSort.field
    ensures HandleSort(InitialSort, field) == SortState(field, true)
  {
  }
}

=== FILE: project_stats.dfy ===
/**
 * The summary figures the home screen shows: the derived statistics of the
 * dashboard (projet-analyse-image-frontend/src/components/Dashboard.js) and
 * `calculateAnalytics` of the landing page
 * (projet-analyse-image-frontend/src/pages/LandingPage.js). Averages are
 * kept in tenths of an hour, the unit `Math.round(x * 10) / 10` rounds to.
 */
module ProjectStats {
  import opened Js
  import Seqs

  /** The fields the figures read; `group` is `group_name`, empty when null. */
  datatype Project = Project(status: Value, minutes: Option<int>, group: string)

  /** `time_spent_minutes || 0`. */
  function MinutesOrZero(p: Project): int
  {
    if p.minutes.Some? then p.minutes.value else 0
  }

  /** The tests the figures count projects by. */
  datatype Test =
    | OpenOnDashboard   // status neither 'Completed' nor 'On Hold'
    | OpenOnLanding     // status neither 'Finished' nor 'On Hold'
    | IsCompleted       // status 'Completed'
    | IsFinished        // status 'Finished'
    | IsOnHold          // status 'On Hold'
    | HasTime           // `time_spent_minutes && time_spent_minutes > 0`
    | InGroup(key: string)
    | CompletedIn(key: string)

  predicate Holds(t: Test, p: Project)
  {
    match t
    case OpenOnDashboard => p.status != Str("Completed") && p.status != Str("On Hold")
    case OpenOnLanding => p.status != Str("Finished") && p.status != Str("On Hold")
    case IsCompleted => p.status == Str("Completed")
    case IsFinished => p.status == Str("Finished")
    case IsOnHold => p.status == Str("On Hold")
    case HasTime => p.minutes.Some? && p.minutes.value > 0
    case InGroup(k) => GroupKey(p) == k
    case CompletedIn(k) => GroupKey(p) == k && p.status == Str("Completed")
  }

  /** `projects.filter(test).length`. */
  function CountWhere(ps: seq<Project>, t: Test): (n: nat)
    ensures n <= |ps|
    ensures n == 0 <==> forall i :: 0 <= i < |ps| ==> !Holds(t, ps[i])
  {
    if ps == [] then 0
    else
      var rest := CountWhere(ps[1..], t);
      assert forall i :: 1 <= i < |ps| ==> ps[i] == ps[1..][i - 1];
      (if Holds(t, ps[0]) then 1 else 0) + rest
  }

  /** The sum of `time_spent_minutes || 0` over the projects passing a test. */
  function MinutesWhere(ps: seq<Project>, t: Test): int
  {
    if ps == [] then 0
    else (if Holds(t, ps[0]) then MinutesOrZero(ps[0]) else 0) + MinutesWhere(ps[1..], t)
  }

  /** The sum of `time_spent_minutes || 0` over all projects. */
  function TotalMinutes(ps: seq<Project>): int
  {
    if ps == [] then 0 else MinutesOrZero(ps[0]) + TotalMinutes(ps[1..])
  }

  /** Counting under a test that implies another never counts more. */
  lemma {:induction false} CountWhereImplies(ps: seq<Project>, t: Test, u: Test)
    requires forall p :: Holds(t, p) ==> Holds(u, p)
    ensures CountWhere(ps, t) <= CountWhere(ps, u)
  {
    if ps != [] {
      CountWhereImplies(ps[1..], t, u);
    }
  }

  /** Counts under two tests no project passes together add up to the count under either. */
  lemma {:induction false} CountWhereDisjoint(ps: seq<Project>, t: Test, u: Test, either: Test)
    requires forall p :: !(Holds(t, p) && Holds(u, p))
    requires forall p :: Holds(either, p) <==> Holds(t, p) || Holds(u, p)
    ensures CountWhere(ps, t) + CountWhere(ps, u) == CountWhere(ps, either)
  {
    if ps != [] {
      CountWhereDisjoint(ps[1..], t, u, either);
    }
  }

  /** Every project is open on the dashboard, completed, or on hold, and exactly one of these. */
  lemma {:induction false} DashboardPartition(ps: seq<Project>)
    ensures CountWhere(ps, OpenOnDashboard) + CountWhere(ps, IsCompleted) + CountWhere(ps, IsOnHold) == |ps|
  {
    if ps != [] {
      DashboardPartition(ps[1..]);
    }
  }

  // ---------------------------------------------------------------------
  // Dashboard
  // ---------------------------------------------------------------------

  /** `totalProjects` of the dashboard: the projects neither completed nor on hold. */
  function DashboardActive(ps: seq<Project>): (n: nat)
    ensures n + CountWhere(ps, IsCompleted) + CountWhere(ps, IsOnHold) == |ps|
  {
    DashboardPartition(ps);
    CountWhere(ps, OpenOnDashboard)
  }

  /**
   * `averageTimePerProject` in tenths of an hour: the total of
   * `time_spent_minutes || 0` over every project, divided by the number of
   * projects and rounded half up; 0 for no projects.
   */
  function DashboardAverage(ps: seq<Project>): (tenths: int)
    ensures ps == [] ==> tenths == 0
    ensures ps != [] ==> 2 * (60 * |ps|) * tenths - 60 * |ps| <= 20 * TotalMinutes(ps) < 2 * (60 * |ps|) * tenths + 60 * |ps|
  {
    if ps == [] then 0 else RoundDiv(10 * TotalMinutes(ps), 60 * |ps|)
  }

  /** With every time between 0 and `m` minutes, the average lies between 0 and `m` minutes, to within rounding. */
  lemma DashboardAverageBounded(ps: seq<Project>, m: int)
    requires m >= 0 && forall i :: 0 <= i < |ps| ==> 0 <= MinutesOrZero(ps[i]) <= m
    ensures 0 <= DashboardAverage(ps)
    ensures 6 * DashboardAverage(ps) <= m + 3
  {
    if ps != [] {
      TotalMinutesBounded(ps, m);
      AverageBound(|ps|, TotalMinutes(ps), DashboardAverage(ps), m);
    }
  }

  /** A rounded average of `n` values between 0 and `m` minutes, in tenths of an hour. */
  lemma AverageBound(n: int, total: int, r: int, m: int)
    requires n > 0 && 0 <= total <= n * m
    requires 2 * (60 * n) * r - 60 * n <= 20 * total < 2 * (60 * n) * r + 60 * n
    ensures 0 <= r && 6 * r <= m + 3
  {
    var nr := n * r;
    assert 2 * (60 * n) * r == 120 * nr;
    assert n * (-r) == -nr;
    BelowOneFactor(n, -r);
    var nm := n * m;
    assert n * (6 * r - m - 3) == 6 * nr - nm - 3 * n;
    BelowOneFactor(n, 6 * r - m - 3);
  }

  lemma {:induction false} TotalMinutesBounded(ps: seq<Project>, m: int)
    requires forall i :: 0 <= i < |ps| ==> 0 <= MinutesOrZero(ps[i]) <= m
    ensures 0 <= TotalMinutes(ps) <= |ps| * m
  {
    if ps != [] {
      assert forall i :: 0 <= i < |ps[1..]| ==> ps[1..][i] == ps[i + 1];
      TotalMinutesBounded(ps[1..], m);
      assert |ps| * m == m + (|ps| - 1) * m;
    }
  }

  /** `completionRate` of the dashboard: the rounded share of 'Completed' projects, in percent. */
  function DashboardCompletion(ps: seq<Project>): (rate: int)
    ensures 0 <= rate <= 100
    ensures ps == [] ==> rate == 0
    ensures ps != [] ==> 2 * |ps| * rate - |ps| <= 200 * CountWhere(ps, IsCompleted) < 2 * |ps| * rate + |ps|
  {
    Percent(CountWhere(ps, IsCompleted), |ps|)
  }

  /** When every project is completed the rate is 100, and the active count is 0. */
  lemma AllCompleted(ps: seq<Project>)
    requires ps != [] && forall i :: 0 <= i < |ps| ==> ps[i].status == Str("Completed")
    ensures DashboardCompletion(ps) == 100
    ensures DashboardActive(ps) == 0
  {
    AllCounted(ps, IsCompleted);
    RoundDivUnique(100 * |ps|, |ps|, 100);
  }

  lemma {:induction false} AllCounted(ps: seq<Project>, t: Test)
    requires forall i :: 0 <= i < |ps| ==> Holds(t, ps[i])
    ensures CountWhere(ps, t) == |ps|
  {
    if ps != [] {
      assert forall i :: 0 <= i < |ps[1..]| ==> ps[1..][i] == ps[i + 1];
      AllCounted(ps[1..], t);
    }
  }

  // ---------------------------------------------------------------------
  // Landing page
  // ---------------------------------------------------------------------

  /** `totalProjects` of the landing page: the projects neither 'Finished' nor on hold. */
  function LandingActive(ps: seq<Project>): (n: nat)
    ensures n + CountWhere(ps, IsFinished) + CountWhere(ps, IsOnHold) == |ps|
  {
    LandingPartition(ps);
    CountWhere(ps, OpenOnLanding)
  }

  lemma {:induction false} LandingPartition(ps: seq<Project>)
    ensures CountWhere(ps, OpenOnLanding) + CountWhere(ps, IsFinished) + CountWhere(ps, IsOnHold) == |ps|
  {
    if ps != [] {
      LandingPartition(ps[1..]);
    }
  }

  /**
   * The two pages disagree on what is open: the dashboard leaves out
   * 'Completed' and the landing page 'Finished', so one completed project
   * counts as open on the landing page only.
   */
  lemma OpenCountsDisagree()
    ensures var ps := [Project(Str("Completed"), None, "")];
            DashboardActive(ps) == 0 && LandingActive(ps) == 1
  {
    var ps := [Project(Str("Completed"), None, "")];
    assert ps[1..] == [];
  }

  /**
   * `averageTimePerProject` of the landing page in tenths of an hour: only
   * projects with a positive time count, and it is 0 when there are none.
   */
  function LandingAverage(ps: seq<Project>): (tenths: int)
    ensures CountWhere(ps, HasTime) == 0 ==> tenths == 0
    ensures var n := CountWhere(ps, HasTime);
            n > 0 ==> 2 * (60 * n) * tenths - 60 * n <= 20 * MinutesWhere(ps, HasTime) < 2 * (60 * n) * tenths + 60 * n
  {
    var n := CountWhere(ps, HasTime);
    if n == 0 then 0 else RoundDiv(10 * MinutesWhere(ps, HasTime), 60 * n)
  }

  /** The landing average is never negative: the times it adds up are all positive. */
  lemma LandingAveragePositive(ps: seq<Project>)
    ensures LandingAverage(ps) >= 0
  {
    var n := CountWhere(ps, HasTime);
    if n > 0 {
      TimedMinutesAtLeast(ps);
      RoundDivNonNegative(10 * MinutesWhere(ps, HasTime), 60 * n);
    }
  }

  lemma {:induction false} TimedMinutesAtLeast(ps: seq<Project>)
    ensures MinutesWhere(ps, HasTime) >= CountWhere(ps, HasTime)
  {
    if ps != [] {
      TimedMinutesAtLeast(ps[1..]);
    }
  }

  /** `completionRate` of the landing page: the same share of 'Completed' projects. */
  function LandingCompletion(ps: seq<Project>): (rate: int)
    ensures rate == DashboardCompletion(ps)
    ensures 0 <= rate <= 100
  {
    if |ps| > 0 then RoundDiv(100 * CountWhere(ps, IsCompleted), |ps|) else 0
  }

  // ---------------------------------------------------------------------
  // By group
  // ---------------------------------------------------------------------

  const NoGroup: string := "No Group"

  /** `p.group_name || 'No Group'`. */
  function GroupKey(p: Project): string
  {
    if p.group == "" then NoGroup else p.group
  }

  function GroupKeys(ps: seq<Project>): (keys: seq<string>)
    ensures |keys| == |ps|
    ensures forall i :: 0 <= i < |ps| ==> keys[i] == GroupKey(ps[i])
  {
    if ps == [] then [] else [GroupKey(ps[0])] + GroupKeys(ps[1..])
  }

  /** A group literally named 'No Group' shares its entry with the projects that have no group. */
  lemma NamedNoGroupMerges(status: Value, minutes: Option<int>)
    ensures GroupKey(Project(status, minutes, NoGroup)) == GroupKey(Project(status, minutes, ""))
  {
  }

  /**
   * `projectsByGroup`: one entry per group key, in order of first appearance
   * (the insertion order of the `Map`), with the number of its projects.
   */
  function ProjectsByGroup(ps: seq<Project>): (t: Seqs.Tally)
    ensures Seqs.DistinctKeys(t)
    ensures Seqs.Total(t) == |ps|
    ensures forall k :: k in Seqs.TallyKeys(t) <==> exists i :: 0 <= i < |ps| && GroupKey(ps[i]) == k
    ensures forall i :: 0 <= i < |t| ==> t[i].1 == multiset(GroupKeys(ps))[t[i].0]
  {
    var keys := GroupKeys(ps);
    var t := Seqs.CountBy(keys);
    assert forall k :: k in keys <==> exists i :: 0 <= i < |ps| && GroupKey(ps[i]) == k;
    t
  }

  /** A group's project count is the number of projects whose key it is. */
  lemma {:induction false} GroupCountIsCount(ps: seq<Project>, k: string)
    ensures multiset(GroupKeys(ps))[k] == CountWhere(ps, InGroup(k))
  {
    if ps != [] {
      GroupCountIsCount(ps[1..], k);
      var a := [GroupKey(ps[0])];
      var b := GroupKeys(ps[1..]);
      assert multiset(a + b) == multiset(a) + multiset(b);
    }
  }

  /** No key occurs twice. */
  predicate Distinct(t: seq<(string, int)>)
  {
    forall i, j :: 0 <= i < j < |t| ==> t[i].0 != t[j].0
  }

  /** The minutes per group key, in order of first appearance: `timeByGroupMap` before rounding. */
  function MinutesByGroup(keys: seq<string>, minutes: seq<int>): (t: seq<(string, int)>)
    requires |keys| == |minutes|
    ensures Distinct(t)
    ensures forall x :: x in keys <==> x in Keys(t)
    decreases |keys|
  {
    if keys == [] then []
    else
      var n := |keys| - 1;
      var t := MinutesByGroup(keys[..n], minutes[..n]);
      assert keys == keys[..n] + [keys[n]];
      AddMinutes(t, keys[n], minutes[n])
  }

  /** Position of key `k`, or `|t|` when it is absent. */
  function FindKey(t: seq<(string, int)>, k: string): (i: nat)
    ensures i <= |t|
    ensures i < |t| ==> t[i].0 == k
    ensures i == |t| <==> k !in Keys(t)
  {
    if t == [] then 0
    else if t[0].0 == k then 0
    else
      assert Keys(t) == [t[0].0] + Keys(t[1..]);
      1 + FindKey(t[1..], k)
  }

  /** `map.set(k, (map.get(k) ?? 0) + m)` on an ordered list of distinct entries. */
  function AddMinutes(t: seq<(string, int)>, k: string, m: int): (r: seq<(string, int)>)
    requires Distinct(t)
    ensures Distinct(r)
    ensures Keys(r) == if k in Keys(t) then Keys(t) else Keys(t) + [k]
    ensures forall i :: 0 <= i < |t| ==> r[i].1 == t[i].1 + (if t[i].0 == k then m else 0)
    ensures k !in Keys(t) ==> r[|t|] == (k, m)
  {
    var i := FindKey(t, k);
    if i < |t| then
      var r := t[i := (k, t[i].1 + m)];
      assert Keys(r) == Keys(t);
      r
    else
      var r := t + [(k, m)];
      assert Keys(r) == Keys(t) + [k];
      r
  }

  function Keys(t: seq<(string, int)>): (r: seq<string>)
    ensures |r| == |t|
    ensures forall i :: 0 <= i < |t| ==> r[i] == t[i].0
  {
    seq(|t|, i requires 0 <= i < |t| => t[i].0)
  }

  /** Minutes of the entries with key `k`: the reference `timeByGroup` should agree with. */
  function MinutesOfKey(keys: seq<string>, minutes: seq<int>, k: string): int
    requires |keys| == |minutes|
    decreases |keys|
  {
    if keys == [] then 0
    else
      var n := |keys| - 1;
      MinutesOfKey(keys[..n], minutes[..n], k) + (if keys[n] == k then minutes[n] else 0)
  }

  /** The minutes tally lists its keys in the same order as the project count tally. */
  lemma {:induction false} MinutesByGroupKeys(keys: seq<string>, minutes: seq<int>)
    requires |keys| == |minutes|
    ensures Keys(MinutesByGroup(keys, minutes)) == Seqs.TallyKeys(Seqs.CountBy(keys))
    decreases |keys|
  {
    if keys != [] {
      var n := |keys| - 1;
      MinutesByGroupKeys(keys[..n], minutes[..n]);
      var c := Seqs.CountBy(keys[..n]);
      assert Seqs.CountBy(keys) == Seqs.Bump(c, keys[n]);
      TallyKeysBump(c, keys[n]);
    }
  }

  lemma TallyKeysBump(c: Seqs.Tally, k: string)
    requires Seqs.DistinctKeys(c)
    ensures Seqs.TallyKeys(Seqs.Bump(c, k)) ==
            if k in Seqs.TallyKeys(c) then Seqs.TallyKeys(c) else Seqs.TallyKeys(c) + [k]
  {
    var r := Seqs.TallyKeys(Seqs.Bump(c, k));
    var e := if k in Seqs.TallyKeys(c) then Seqs.TallyKeys(c) else Seqs.TallyKeys(c) + [k];
    assert |r| == |e|;
    forall i | 0 <= i < |e| ensures r[i] == e[i] {
    }
  }

  /** Each entry of the minutes tally holds the sum of the minutes of its key. */
  lemma {:induction false} MinutesByGroupSums(keys: seq<string>, minutes: seq<int>)
    requires |keys| == |minutes|
    ensures forall i :: 0 <= i < |MinutesByGroup(keys, minutes)| ==>
              MinutesByGroup(keys, minutes)[i].1 == MinutesOfKey(keys, minutes, MinutesByGroup(keys, minutes)[i].0)
    decreases |keys|
  {
    if keys != [] {
      var n := |keys| - 1;
      var t := MinutesByGroup(keys[..n], minutes[..n]);
      MinutesByGroupSums(keys[..n], minutes[..n]);
      assert keys == keys[..n] + [keys[n]];
      assert MinutesByGroup(keys, minutes) == AddMinutes(t, keys[n], minutes[n]);
      AddMinutesSums(keys, minutes, t);
    }
  }

  /** One more key and its minutes: every entry of the updated tally still holds its key's sum. */
  lemma AddMinutesSums(keys: seq<string>, minutes: seq<int>, t: seq<(string, int)>)
    requires |keys| == |minutes| > 0
    requires var n := |keys| - 1;
             Distinct(t) && (forall x :: x in keys[..n] <==> x in Keys(t))
             && forall j :: 0 <= j < |t| ==> t[j].1 == MinutesOfKey(keys[..n], minutes[..n], t[j].0)
    ensures var r := AddMinutes(t, keys[|keys| - 1], minutes[|keys| - 1]);
            forall i :: 0 <= i < |r| ==> r[i].1 == MinutesOfKey(keys, minutes, r[i].0)
  {
    var n := |keys| - 1;
    var k, m := keys[n], minutes[n];
    var r := AddMinutes(t, k, m);
    forall i | 0 <= i < |r|
      ensures r[i].1 == MinutesOfKey(keys, minutes, r[i].0)
    {
      var x := r[i].0;
      assert MinutesOfKey(keys, minutes, x) == MinutesOfKey(keys[..n], minutes[..n], x) + (if k == x then m else 0);
      if i < |t| {
        assert Keys(r)[i] == Keys(t)[i];
      } else {
        assert k !in Keys(t);
        assert r[i] == (k, m);
        MinutesOfAbsentKey(keys[..n], minutes[..n], k);
      }
    }
  }

  /** A key that never occurs has no minutes. */
  lemma {:induction false} MinutesOfAbsentKey(keys: seq<string>, minutes: seq<int>, k: string)
    requires |keys| == |minutes| && k !in keys
    ensures MinutesOfKey(keys, minutes, k) == 0
    decreases |keys|
  {
    if keys != [] {
      var n := |keys| - 1;
      assert k !in keys[..n] by {
        assert forall x :: x in keys[..n] ==> x in keys;
      }
      MinutesOfAbsentKey(keys[..n], minutes[..n], k);
    }
  }

  function AllMinutes(ps: seq<Project>): (m: seq<int>)
    ensures |m| == |ps|
    ensures forall i :: 0 <= i < |ps| ==> m[i] == MinutesOrZero(ps[i])
  {
    seq(|ps|, i requires 0 <= i < |ps| => MinutesOrZero(ps[i]))
  }

  /** `timeByGroup`: per group key, in the order of `projectsByGroup`, the hours in tenths. */
  function TimeByGroup(ps: seq<Project>): (t: seq<(string, int)>)
    ensures Keys(t) == Seqs.TallyKeys(ProjectsByGroup(ps))
    ensures forall i :: 0 <= i < |t| ==> RoundsTo(t[i].1, 10 * MinutesOfKey(GroupKeys(ps), AllMinutes(ps), t[i].0), 60)
  {
    var keys := GroupKeys(ps);
    var m := MinutesByGroup(keys, AllMinutes(ps));
    MinutesByGroupKeys(keys, AllMinutes(ps));
    MinutesByGroupSums(keys, AllMinutes(ps));
    var t := TenthsRows(m);
    SameKeys(t, m);
    t
  }

  /** Each row's minutes as hours in tenths, rounded half up, under the same key. */
  function TenthsRows(m: seq<(string, int)>): (t: seq<(string, int)>)
    ensures |t| == |m|
    ensures forall i :: 0 <= i < |t| ==> t[i].0 == m[i].0 && RoundsTo(t[i].1, 10 * m[i].1, 60)
  {
    seq(|m|, i requires 0 <= i < |m| => (m[i].0, RoundDiv(10 * m[i].1, 60)))
  }

  /** Two lists with the same key at every position have the same keys. */
  lemma SameKeys(t: seq<(string, int)>, m: seq<(string, int)>)
    requires |t| == |m| && forall i :: 0 <= i < |t| ==> t[i].0 == m[i].0
    ensures Keys(t) == Keys(m)
  {
    assert forall i :: 0 <= i < |t| ==> Keys(t)[i] == Keys(m)[i];
  }

  /** `completionRateByGroup`: per group key, the rounded share of its projects that are 'Completed'. */
  function CompletionByGroup(ps: seq<Project>): (t: seq<(string, int)>)
    ensures Keys(t) == Seqs.TallyKeys(ProjectsByGroup(ps))
    ensures forall i :: 0 <= i < |t| ==> 0 <= t[i].1 <= 100
    ensures forall i :: 0 <= i < |t| ==>
              CountWhere(ps, InGroup(t[i].0)) > 0
              && RoundsTo(t[i].1, 100 * CountWhere(ps, CompletedIn(t[i].0)), CountWhere(ps, InGroup(t[i].0)))
  {
    var keys := Seqs.TallyKeys(ProjectsByGroup(ps));
    GroupKeysPresent(ps, keys);
    var t := RateRows(ps, keys);
    KeysOfTable(t, keys);
    t
  }

  /** One row per key: the key and its group's rate. */
  function RateRows(ps: seq<Project>, keys: seq<string>): (t: seq<(string, int)>)
    requires forall i :: 0 <= i < |keys| ==> CountWhere(ps, InGroup(keys[i])) > 0
    ensures |t| == |keys|
    ensures forall i :: 0 <= i < |t| ==> t[i].0 == keys[i]
    ensures forall i :: 0 <= i < |t| ==> 0 <= t[i].1 <= 100
    ensures forall i :: 0 <= i < |t| ==>
              CountWhere(ps, InGroup(t[i].0)) > 0
              && RoundsTo(t[i].1, 100 * CountWhere(ps, CompletedIn(t[i].0)), CountWhere(ps, InGroup(t[i].0)))
  {
    seq(|keys|, i requires 0 <= i < |keys| => (keys[i], GroupRate(ps, keys[i])))
  }

  /** Every key of `projectsByGroup` belongs to at least one project. */
  lemma GroupKeysPresent(ps: seq<Project>, keys: seq<string>)
    requires keys == Seqs.TallyKeys(ProjectsByGroup(ps))
    ensures forall i :: 0 <= i < |keys| ==> CountWhere(ps, InGroup(keys[i])) > 0
  {
    forall i | 0 <= i < |keys| ensures CountWhere(ps, InGroup(keys[i])) > 0 {
      assert keys[i] in keys;
      var j :| 0 <= j < |ps| && GroupKey(ps[j]) == keys[i];
      assert Holds(InGroup(keys[i]), ps[j]);
    }
  }

  /** A table built key by key from `keys` has exactly those keys. */
  lemma KeysOfTable(t: seq<(string, int)>, keys: seq<string>)
    requires |t| == |keys| && forall i :: 0 <= i < |t| ==> t[i].0 == keys[i]
    ensures Keys(t) == keys
  {
    assert forall i :: 0 <= i < |t| ==> Keys(t)[i] == keys[i];
  }

  /** The rate of one group key that some project carries. */
  function GroupRate(ps: seq<Project>, k: string): (rate: int)
    requires CountWhere(ps, InGroup(k)) > 0
    ensures 0 <= rate <= 100
    ensures RoundsTo(rate, 100 * CountWhere(ps, CompletedIn(k)), CountWhere(ps, InGroup(k)))
  {
    CountWhereImplies(ps, CompletedIn(k), InGroup(k));
    Percent(CountWhere(ps, CompletedIn(k)), CountWhere(ps, InGroup(k)))
  }
}

=== FILE: project_updates.dfy ===
/**
 * Creating and updating a project row in backend/src/routes/projects.js
 * (`POST /` and `PUT /:id`), in the current copy and in the older copy bundled
 * under projet-analyse-image-frontend/src-tauri/resources/backend, which
 * differ only in the `output_type` column. A row is a map from column names
 * to values; a request body lists its keys in order.
 */
module ProjectUpdates {
  import opened Strings
  import opened Js
  import opened Seqs
  import ActivityFormat

  type Row = map<string, Value>

  /** A JSON request body: its keys in `Object.keys` order, with their values. */
  type Body = seq<(string, Value)>


  datatype Copy = Current | Bundled

  const BundledAllowed: seq<string> := [
    "name", "description", "status", "software", "time_spent_minutes",
    "project_path", "folder_created", "readme_last_updated",
    "start_date", "user_id", "image_types", "sample_type",
    "objective_magnification", "analysis_goal"]

  const CurrentAllowed: seq<string> := BundledAllowed + ["output_type"]

  /** The columns a copy lets a request write, in its own order. */
  function Allowed(c: Copy): (r: seq<string>)
    ensures "output_type" in r <==> c == Current
  {
    assert CurrentAllowed[14] == "output_type";
    if c == Current then CurrentAllowed else BundledAllowed
  }

  function KeysOf(b: Body): (r: seq<string>)
    ensures |r| == |b|
    ensures forall i :: 0 <= i < |b| ==> r[i] == b[i].0
  {
    if b == [] then [] else [b[0].0] + KeysOf(b[1..])
  }

  // ---------------------------------------------------------------------
  // Change detection
  // ---------------------------------------------------------------------

  /** `v !== null ? String(v) : null`. */
  function StringOrNull(v: Value): (r: Option<string>)
    ensures r.None? <==> v == Null
    ensures v != Null ==> r == Some(ToStr(v))
  {
    if v == Null then None else Some(ToStr(v))
  }

  /**
   * Whether an update of `field` from `before` to `after` is a change:
   * `project_path` compares `x || null` strictly, every other column its
   * `String` form (or `null`).
   */
  predicate Differs(field: string, before: Value, after: Value)
  {
    if field == "project_path" then Or(before, Null) != Or(after, Null)
    else StringOrNull(before) != StringOrNull(after)
  }

  /** The `{from, to}` recorded for a changed field. */
  function Recorded(field: string, before: Value, after: Value): ActivityFormat.Change
  {
    if field == "project_path" then ActivityFormat.Change(Or(before, Null), Or(after, Null))
    else ActivityFormat.Change(before, after)
  }

  predicate Changed(row: Row, p: (string, Value))
  {
    Differs(p.0, Get(row, p.0), p.1)
  }

  function EntryFor(row: Row, p: (string, Value)): ActivityFormat.Entry
  {
    ActivityFormat.Entry(p.0, Some(Recorded(p.0, Get(row, p.0), p.1)))
  }

  /** The `changedFields` object: one entry per field that differs, in the body's order. */
  function Changes(row: Row, fields: Body): (es: seq<ActivityFormat.Entry>)
    ensures |es| <= |fields|
    ensures ActivityFormat.AllPresent(es)
  {
    if fields == [] then []
    else
      var rest := Changes(row, fields[1..]);
      if Changed(row, fields[0]) then [EntryFor(row, fields[0])] + rest else rest
  }

  /** No entry is recorded exactly when no field differs. */
  lemma {:induction false} ChangesEmpty(row: Row, fields: Body)
    ensures Changes(row, fields) == [] <==> forall i :: 0 <= i < |fields| ==> !Changed(row, fields[i])
    decreases |fields|
  {
    if fields != [] {
      ChangesEmpty(row, fields[1..]);
      assert forall i :: 1 <= i < |fields| ==> fields[i] == fields[1..][i - 1];
    }
  }

  /** The entries recorded are exactly those of the fields that differ. */
  lemma {:induction false} ChangesMember(row: Row, fields: Body, e: ActivityFormat.Entry)
    ensures e in Changes(row, fields) <==> exists p :: p in fields && Changed(row, p) && e == EntryFor(row, p)
    decreases |fields|
  {
    if fields != [] {
      ChangesMember(row, fields[1..], e);
      assert fields == [fields[0]] + fields[1..];
      var rest := Changes(row, fields[1..]);
      if e in Changes(row, fields) && e !in rest {
        assert e == EntryFor(row, fields[0]) && Changed(row, fields[0]);
      }
    }
  }

  /** The changed entries come out in the order of their fields. */
  lemma {:induction false} ChangesOfAppend(row: Row, a: Body, b: Body)
    ensures Changes(row, a + b) == Changes(row, a) + Changes(row, b)
    decreases |a|
  {
    if a == [] {
      assert a + b == b;
    } else {
      assert (a + b)[1..] == a[1..] + b;
      ChangesOfAppend(row, a[1..], b);
    }
  }

  /** `field.replace(/([A-Z])/g, ' $1')`. */
  function SpaceBeforeCapitals(s: string): (r: string)
    ensures |r| >= |s|
    ensures (forall i :: 0 <= i < |s| ==> !('A' <= s[i] <= 'Z')) ==> r == s
  {
    if s == [] then []
    else (if 'A' <= s[0] <= 'Z' then [' ', s[0]] else [s[0]]) + SpaceBeforeCapitals(s[1..])
  }

  /** A capital letter gets a space in front of it; any other character stays as it is. */
  lemma SpaceBeforeCapital(c: char)
    ensures SpaceBeforeCapitals([c]) == if 'A' <= c <= 'Z' then [' ', c] else [c]
  {
    assert [c][1..] == [];
  }

  /** The replacement works character by character, so it distributes over concatenation. */
  lemma {:induction false} SpaceBeforeCapitalsAppend(a: string, b: string)
    ensures SpaceBeforeCapitals(a + b) == SpaceBeforeCapitals(a) + SpaceBeforeCapitals(b)
    decreases |a|
  {
    if a == [] {
      assert a + b == b;
    } else {
      assert (a + b)[1..] == a[1..] + b;
      assert (a + b)[0] == a[0];
      SpaceBeforeCapitalsAppend(a[1..], b);
    }
  }

  /** A changed field as named in the activity details. */
  function DetailName(field: string): string
  {
    ToLower(SpaceBeforeCapitals(field))
  }

  function DetailNames(es: seq<ActivityFormat.Entry>): (r: seq<string>)
    ensures |r| == |es|
    ensures forall i :: 0 <= i < |es| ==> r[i] == DetailName(es[i].key)
  {
    if es == [] then [] else [DetailName(es[0].key)] + DetailNames(es[1..])
  }

  /** `'Project updated: '` followed by the changed fields, comma-separated. */
  function Details(es: seq<ActivityFormat.Entry>): string
  {
    "Project updated: " + Join(DetailNames(es), ", ")
  }

  predicate LowerSnake(s: string)
  {
    forall i :: 0 <= i < |s| ==> 'a' <= s[i] <= 'z' || s[i] == '_'
  }

  /** A lower-case snake_case column is named in the details exactly as it is spelt. */
  lemma DetailNameOfColumn(field: string)
    requires LowerSnake(field)
    ensures DetailName(field) == field
  {
    assert SpaceBeforeCapitals(field) == field;
  }

  // ---------------------------------------------------------------------
  // Writing the row
  // ---------------------------------------------------------------------

  /** A request body's keys are distinct, as an object's keys are. */
  predicate Keyed(b: Body)
  {
    forall i, j :: 0 <= i < j < |b| ==> b[i].0 != b[j].0
  }

  /** The row after the update statement: each field written in turn. */
  function Apply(row: Row, fields: Body): (r: Row)
    requires Keyed(fields)
    ensures forall k :: k !in KeysOf(fields) ==> Get(r, k) == Get(row, k)
    ensures forall i :: 0 <= i < |fields| ==> Get(r, fields[i].0) == fields[i].1
    decreases |fields|
  {
    if fields == [] then row
    else
      var tail := fields[1..];
      var r := Apply(row[fields[0].0 := fields[0].1], tail);
      assert forall i :: 1 <= i < |fields| ==> fields[i] == tail[i - 1];
      r
  }

  /** An activity written by an update: its details and its changed fields. */
  datatype Activity = Activity(details: string, changes: seq<ActivityFormat.Entry>)

  datatype PutResult = NotFound | Done(row: Row, activity: Option<Activity>)

  const NotFoundError: string := "Project not found"

  predicate AllowedField(c: Copy, p: (string, Value))
  {
    p.0 in Allowed(c)
  }

  /** The body's allow-listed fields, in body order. */
  function Fields(c: Copy, body: Body): (r: Body)
    ensures |r| <= |body|
  {
    if body == [] then []
    else
      var rest := Fields(c, body[1..]);
      if AllowedField(c, body[0]) then [body[0]] + rest else rest
  }

  /** A field is kept exactly when it is in the body and allow-listed. */
  lemma {:induction false} FieldsMember(c: Copy, body: Body, p: (string, Value))
    ensures p in Fields(c, body) <==> p in body && AllowedField(c, p)
    decreases |body|
  {
    if body != [] {
      FieldsMember(c, body[1..], p);
      assert body == [body[0]] + body[1..];
    }
  }

  /** A field put in front of distinct keys that do not include its own keeps them distinct. */
  lemma ConsKeyed(p: (string, Value), rest: Body)
    requires Keyed(rest)
    requires forall q :: q in rest ==> q.0 != p.0
    ensures Keyed([p] + rest)
  {
    var r := [p] + rest;
    forall i, j | 0 <= i < j < |r| ensures r[i].0 != r[j].0 {
      assert r[j] == rest[j - 1] && r[j] in rest;
      if i > 0 {
        assert r[i] == rest[i - 1];
      }
    }
  }

  /** Filtering keeps the keys of a body distinct. */
  lemma {:induction false} FieldsKeyed(c: Copy, body: Body)
    requires Keyed(body)
    ensures Keyed(Fields(c, body))
    decreases |body|
  {
    if body != [] {
      var tail := body[1..];
      assert Keyed(tail) by {
        assert forall i :: 0 <= i < |tail| ==> tail[i] == body[i + 1];
      }
      FieldsKeyed(c, tail);
      if AllowedField(c, body[0]) {
        forall q | q in Fields(c, tail) ensures q.0 != body[0].0 {
          FieldsMember(c, tail, q);
          var m :| 0 <= m < |tail| && tail[m] == q;
          assert body[m + 1] == q;
        }
        ConsKeyed(body[0], Fields(c, tail));
      }
    }
  }

  /** Some allow-listed field of the body differs from the stored row. */
  predicate SomeChange(c: Copy, row: Row, body: Body)
  {
    exists i :: 0 <= i < |body| && AllowedField(c, body[i]) && Changed(row, body[i])
  }

  /** The changes of the allow-listed fields are empty exactly when no allow-listed field differs. */
  lemma ChangesIffSomeChange(c: Copy, row: Row, body: Body)
    ensures Changes(row, Fields(c, body)) != [] <==> SomeChange(c, row, body)
  {
    var fields := Fields(c, body);
    ChangesEmpty(row, fields);
    if Changes(row, fields) != [] {
      var i :| 0 <= i < |fields| && Changed(row, fields[i]);
      FieldsMember(c, body, fields[i]);
      var k :| 0 <= k < |body| && body[k] == fields[i];
    }
    if SomeChange(c, row, body) {
      var i :| 0 <= i < |body| && AllowedField(c, body[i]) && Changed(row, body[i]);
      FieldsMember(c, body, body[i]);
      var k :| 0 <= k < |fields| && fields[k] == body[i];
    }
  }

  /** Every allow-listed field of the body is written with its value. */
  lemma AppliedFields(c: Copy, row: Row, body: Body)
    requires Keyed(body)
    ensures Keyed(Fields(c, body))
    ensures forall i :: 0 <= i < |body| && AllowedField(c, body[i]) ==>
              Get(Apply(row, Fields(c, body)), body[i].0) == body[i].1
  {
    var fields := Fields(c, body);
    FieldsKeyed(c, body);
    forall i | 0 <= i < |body| && AllowedField(c, body[i])
      ensures Get(Apply(row, fields), body[i].0) == body[i].1
    {
      FieldsMember(c, body, body[i]);
      var k :| 0 <= k < |fields| && fields[k] == body[i];
    }
  }

  /** A body without allow-listed fields: nothing to write. */
  lemma NoFields(c: Copy, body: Body)
    requires Fields(c, body) == []
    ensures forall i :: 0 <= i < |body| ==> !AllowedField(c, body[i])
  {
    forall i | 0 <= i < |body| ensures !AllowedField(c, body[i]) {
      FieldsMember(c, body, body[i]);
    }
  }

  /**
   * `PUT /:id` against the stored row (`None` when no project has that id):
   * the allow-listed fields are written along with `last_updated := now`, and
   * an activity is recorded only when some field changed. A body with no
   * allow-listed field writes nothing at all.
   */
  function Put(c: Copy, original: Option<Row>, body: Body, now: Value): (r: PutResult)
    requires Keyed(body)
    ensures original.None? <==> r == NotFound
    ensures r.Done? && Fields(c, body) == [] ==> r == Done(original.value, None)
    ensures r.Done? ==> forall k :: k != "last_updated" && k !in KeysOf(Fields(c, body)) ==>
              Get(r.row, k) == Get(original.value, k)
    ensures r.Done? ==> forall i :: 0 <= i < |body| && AllowedField(c, body[i]) && body[i].0 != "last_updated" ==>
              Get(r.row, body[i].0) == body[i].1
    ensures r.Done? ==> (r.activity.Some? <==> SomeChange(c, original.value, body))
    ensures r.Done? && Fields(c, body) != [] ==> Get(r.row, "last_updated") == now
    ensures r.Done? && r.activity.Some? ==>
              r.activity.value.changes == Changes(original.value, Fields(c, body))
              && r.activity.value.details == Details(r.activity.value.changes)
  {
    match original
    case None => NotFound
    case Some(row) =>
      var fields := Fields(c, body);
      ChangesIffSomeChange(c, row, body);
      AppliedFields(c, row, body);
      if fields == [] then
        NoFields(c, body);
        Done(row, None)
      else
        var changes := Changes(row, fields);
        Done(Apply(row, fields)["last_updated" := now], if changes == [] then None else Some(Activity(Details(changes), changes)))
  }

  /** A change of `output_type` is recorded by the current copy and ignored entirely by the bundled one. */
  lemma OutputTypeOnlyInCurrent(row: Row, v: Value, now: Value)
    requires Differs("output_type", Get(row, "output_type"), v)
    ensures Put(Bundled, Some(row), [("output_type", v)], now) == Done(row, None)
    ensures var r := Put(Current, Some(row), [("output_type", v)], now);
            r.Done? && r.activity.Some?
            && r.activity.value.changes == [ActivityFormat.Entry("output_type", Some(ActivityFormat.Change(Get(row, "output_type"), v)))]
            && Get(r.row, "output_type") == v
  {
    var b: Body := [("output_type", v)];
    assert b[1..] == [];
    assert AllowedField(Current, b[0]) && !AllowedField(Bundled, b[0]);
    assert Fields(Current, b) == b;
    assert Fields(Bundled, b) == [];
    assert Changes(row, b) == [EntryFor(row, b[0])];
    assert Get(Apply(row, b), "output_type") == v;
  }

  /** A number and its decimal text are the same value, so rewriting one as the other is no change. */
  lemma NumberAsTextIsNoChange(field: string, n: int)
    requires field != "project_path"
    ensures !Differs(field, Num(n), Str(IntToString(n)))
  {
  }

  /** Clearing an absent path is no change: empty, null and undefined all compare as null. */
  lemma EmptyPathIsNoChange(before: Value, after: Value)
    requires !Truthy(before) && !Truthy(after)
    ensures !Differs("project_path", before, after)
  {
  }

  /** An update that changes nothing still stamps `last_updated` but records no activity. */
  lemma UnchangedUpdateStampsOnly(c: Copy, row: Row, body: Body, now: Value)
    requires Keyed(body) && Fields(c, body) != []
    requires forall i :: 0 <= i < |body| ==> !Changed(row, body[i])
    ensures var r := Put(c, Some(row), body, now);
            r.Done? && r.activity.None? && Get(r.row, "last_updated") == now
  {
  }

  /** The recorded changes render in the export without a parse error, one line per change. */
  lemma RecordedChangesExport(raw: string, row: Row, fields: Body)
    requires raw != ""
    ensures var es := Changes(row, fields);
            ActivityFormat.CsvChangedText(raw, ActivityFormat.JsonValue(es)) ==
            Join(ActivityFormat.DashboardChanges(ActivityFormat.Object(es)), "; ")
  {
    var es := Changes(row, fields);
    ActivityFormat.CsvAgreesWithDashboard(raw, es);
  }

  // ---------------------------------------------------------------------
  // Creating a project
  // ---------------------------------------------------------------------

  const NameRequired: string := "Project name is required"

  /** The value a column gets when the body's own value is falsy. */
  function Default(field: string, today: string): Value
  {
    if field == "description" then Str("")
    else if field == "status" then Str("Intake")
    else if field == "folder_created" then Num(0)
    else if field == "start_date" then Str(today)
    else Null
  }

  /** `parseInt(v) || 0`: a number keeps its value, unreadable text gives 0. */
  function Minutes(v: Value): (r: int)
    ensures v.Num? ==> r == v.n
    ensures ParseIntValue(v).Some? ==> r == ParseIntValue(v).value
    ensures ParseIntValue(v).None? ==> r == 0
  {
    if v.Num? then
      assert ToStr(v) == IntToString(v.n) + [];
      ParseIntOfIntToString(v.n, []);
      v.n
    else
      match ParseIntValue(v) case Some(n) => n case None => 0
  }

  /** Text that starts with a printed whole number is read as that number, whatever follows it ("90 min" is 90). */
  lemma MinutesOfText(n: int, t: string)
    requires t == [] || !IsDigit(t[0])
    ensures Minutes(Str(IntToString(n) + t)) == n
  {
    ParseIntOfIntToString(n, t);
  }

  function ColumnValue(field: string, body: Row, today: string): Value
  {
    if field == "name" then Get(body, "name")
    else if field == "time_spent_minutes" then Num(Minutes(Get(body, field)))
    else Or(Get(body, field), Default(field, today))
  }

  function Columns(fields: seq<string>, body: Row, today: string): (r: Body)
    ensures |r| == |fields|
    ensures forall i :: 0 <= i < |fields| ==> r[i] == (fields[i], ColumnValue(fields[i], body, today))
  {
    if fields == [] then [] else [(fields[0], ColumnValue(fields[0], body, today))] + Columns(fields[1..], body, today)
  }

  /**
   * `POST /`: rejected with 400 when the name is falsy, else the inserted
   * values in column order (`creation_date` and `last_updated` come from the
   * database clock and are not listed). `today` is the ISO date of the moment.
   */
  function Create(c: Copy, body: Row, today: string): (r: Result<Body, (nat, string)>)
    ensures r.Err? <==> !Truthy(Get(body, "name"))
    ensures r.Err? ==> r.error == (400, NameRequired)
    ensures r.Ok? ==> KeysOf(r.value) == Allowed(c)
    ensures r.Ok? ==> forall i :: 0 <= i < |r.value| ==>
              (Truthy(Get(body, r.value[i].0)) && r.value[i].0 != "time_spent_minutes" ==>
                 r.value[i].1 == Get(body, r.value[i].0))
    ensures r.Ok? ==> forall i :: 0 <= i < |r.value| ==>
              (!Truthy(Get(body, r.value[i].0)) && r.value[i].0 != "time_spent_minutes" ==>
                 r.value[i].1 == Default(r.value[i].0, today))
    ensures r.Ok? ==> forall i :: 0 <= i < |r.value| ==>
              (r.value[i].0 == "time_spent_minutes" ==> r.value[i].1 == Num(Minutes(Get(body, "time_spent_minutes"))))
  {
    if !Truthy(Get(body, "name")) then Err((400, NameRequired))
    else
      var cols := Columns(Allowed(c), body, today);
      assert KeysOf(cols) == Allowed(c);
      Ok(cols)
  }

  /** Every column a project is created with is one an update may write, and the other way round. */
  lemma CreateWritesTheUpdateColumns(c: Copy, body: Row, today: string)
    requires Truthy(Get(body, "name"))
    ensures var r := Create(c, body, today);
            r.Ok? && |r.value| == (if c == Current then 15 else 14)
            && Fields(c, r.value) == r.value
  {
    var cols := Create(c, body, today).value;
    FilterAll(c, cols);
  }

  lemma {:induction false} FilterAll(c: Copy, b: Body)
    requires forall i :: 0 <= i < |b| ==> b[i].0 in Allowed(c)
    ensures Fields(c, b) == b
    decreases |b|
  {
    if b != [] {
      assert forall i :: 0 <= i < |b[1..]| ==> b[1..][i].0 in Allowed(c) by {
        forall i | 0 <= i < |b[1..]| ensures b[1..][i].0 in Allowed(c) {
          assert b[1..][i] == b[i + 1];
        }
      }
      FilterAll(c, b[1..]);
      assert b == [b[0]] + b[1..];
    }
  }
}

=== FILE: quick_actions.dfy ===
/**
 * The quick filter panel of projet-analyse-image-frontend/src/components/QuickActions.js:
 * how many projects have each status and each software, most frequent
 * first, and the filter a click on a line asks for.
 */
module QuickActions {
  import opened Js
  import Seqs
  import Sorting
  import Analytics

  /** `project[field] || fallback` as an object key. */
  function KeyOf(p: Object, field: string, fallback: string): string
  {
    ToStr(Or(Get(p, field), Str(fallback)))
  }

  function KeysOf(ps: seq<Object>, field: string, fallback: string): (keys: seq<string>)
    ensures |keys| == |ps|
    ensures forall i :: 0 <= i < |ps| ==> keys[i] == KeyOf(ps[i], field, fallback)
  {
    seq(|ps|, i requires 0 <= i < |ps| => KeyOf(ps[i], field, fallback))
  }

  /**
   * `Object.entries(counts).sort((a, b) => b[1] - a[1])`: one line per key,
   * with the number of projects carrying it, most frequent first.
   */
  function CountTable(ps: seq<Object>, field: string, fallback: string): (t: Seqs.Tally)
    ensures multiset(t) == multiset(Seqs.CountBy(KeysOf(ps, field, fallback)))
    ensures Seqs.Total(t) == |ps|
    ensures forall i, j :: 0 <= i < j < |t| ==> t[i].1 >= t[j].1
  {
    var c := Seqs.CountBy(KeysOf(ps, field, fallback));
    var t := Sorting.Sort(c, Analytics.ByCount, false);
    Seqs.TotalPermutation(t, c);
    Analytics.CountsDescending(t);
    t
  }

  /** Every key some project carries has a line, holding the number of projects that carry it. */
  lemma EveryKeyListed(ps: seq<Object>, field: string, fallback: string, k: string)
    requires k in KeysOf(ps, field, fallback)
    ensures (k, multiset(KeysOf(ps, field, fallback))[k]) in CountTable(ps, field, fallback)
  {
    var keys := KeysOf(ps, field, fallback);
    var c := Seqs.CountBy(keys);
    assert k in Seqs.TallyKeys(c);
    var j :| 0 <= j < |c| && Seqs.TallyKeys(c)[j] == k;
    assert c[j] == (k, multiset(keys)[k]);
    assert c[j] in multiset(CountTable(ps, field, fallback));
  }

  /** The status table: a missing status counts as 'Unknown'. */
  function StatusTable(ps: seq<Object>): (t: Seqs.Tally)
    ensures Seqs.Total(t) == |ps|
    ensures forall i, j :: 0 <= i < j < |t| ==> t[i].1 >= t[j].1
  {
    CountTable(ps, "status", "Unknown")
  }

  /** The software table: a missing software counts as 'Not specified'. */
  function SoftwareTable(ps: seq<Object>): (t: Seqs.Tally)
    ensures Seqs.Total(t) == |ps|
    ensures forall i, j :: 0 <= i < j < |t| ==> t[i].1 >= t[j].1
  {
    CountTable(ps, "software", "Not specified")
  }

  /** A project without a status is listed under 'Unknown'. */
  lemma MissingStatusIsUnknown(ps: seq<Object>, i: nat)
    requires i < |ps| && !Truthy(Get(ps[i], "status"))
    ensures exists n :: ("Unknown", n) in StatusTable(ps)
  {
    assert KeysOf(ps, "status", "Unknown")[i] == "Unknown";
    EveryKeyListed(ps, "status", "Unknown", "Unknown");
  }

  /** `handleFilterClick`: the action and filter passed on, or nothing without a handler. */
  function FilterClick(hasHandler: bool, field: string, value: string): (r: Option<(string, Object)>)
    ensures r.Some? <==> hasHandler
    ensures r.Some? ==> r.value.0 == "filter" && r.value.1 == map[field := Str(value)]
  {
    if hasHandler then Some(("filter", map[field := Str(value)])) else None
  }
}

=== FILE: readme_resources.dfy ===
/**
 * The README resources block written by `POST /:id/readme/resources`
 * (backend/src/routes/projects.js): the block text built from a project's
 * resources, and how it is spliced into the README between the two markers.
 * Reading and writing the README file and the database query are left out;
 * the resources arrive as a list, newest first.
 */
module ReadmeResources {
  import opened Strings
  import opened Seqs

  const StartMarker: string := "=== RESOURCES (auto-generated) ==="
  const EndMarker: string := "=== END RESOURCES ==="

  /** A row of `project_resources`: `kind` is `'image'` or anything else, `caption` empty when absent. */
  datatype Resource = Resource(filename: string, kind: string, caption: string)

  /** ` - reference/<file>` with ` — <caption>` when there is one. */
  function ResourceLine(r: Resource): string
  {
    " - reference/" + r.filename + (if r.caption != "" then " — " + r.caption else "")
  }

  function ResourceLines(rs: seq<Resource>): (ls: seq<string>)
    ensures |ls| == |rs|
    ensures forall i :: 0 <= i < |rs| ==> ls[i] == ResourceLine(rs[i])
  {
    if rs == [] then [] else [ResourceLine(rs[0])] + ResourceLines(rs[1..])
  }

  predicate IsImage(r: Resource) { r.kind == "image" }

  /** Every resource that is not an image is listed as a document. */
  predicate IsDocument(r: Resource) { !IsImage(r) }

  /** A titled group of lines followed by a blank line; nothing for an empty group. */
  function Group(title: string, rs: seq<Resource>): (ls: seq<string>)
    ensures rs == [] ==> ls == []
    ensures rs != [] ==> |ls| == |rs| + 2 && ls[0] == title && ls[|ls| - 1] == ""
                         && forall i :: 0 <= i < |rs| ==> ls[i + 1] == ResourceLine(rs[i])
  {
    if rs == [] then [] else [title] + ResourceLines(rs) + [""]
  }

  /**
   * The lines of the block before trimming: the start marker, the images'
   * group, then the group of everything else, each resource in list order.
   */
  function SectionLines(rs: seq<Resource>): (ls: seq<string>)
    ensures |ls| >= 1 && ls[0] == StartMarker
    ensures ls == [StartMarker] + Group("Images:", Filter(IsImage, rs)) + Group("Documents:", Filter(IsDocument, rs))
  {
    [StartMarker]
    + Group("Images:", Filter(IsImage, rs))
    + Group("Documents:", Filter(IsDocument, rs))
  }

  /** A resource's line starts with a space, so it never reads as a title, the marker or a blank line. */
  lemma ResourceLineIndented(r: Resource)
    ensures |ResourceLine(r)| > 0 && ResourceLine(r)[0] == ' '
  {
  }

  /** A group's lines are its title, the blank line and its resources' lines. */
  lemma GroupMember(title: string, rs: seq<Resource>, l: string)
    requires l in Group(title, rs)
    ensures rs != [] && (l == title || l == "" || exists r :: r in rs && l == ResourceLine(r))
  {
    var g := Group(title, rs);
    var k :| 0 <= k < |g| && g[k] == l;
    if 0 < k < |g| - 1 {
      assert l == ResourceLine(rs[k - 1]);
    }
  }

  /** A resource kept by a filter has its line in the filtered group. */
  lemma GroupLists(title: string, f: Resource -> bool, rs: seq<Resource>, r: Resource)
    requires r in rs && f(r)
    ensures ResourceLine(r) in Group(title, Filter(f, rs)) && title in Group(title, Filter(f, rs))
  {
    var fs := Filter(f, rs);
    assert multiset(rs)[r] > 0;
    assert r in fs by { assert multiset(fs)[r] > 0; }
    var k :| 0 <= k < |fs| && fs[k] == r;
    assert Group(title, fs)[k + 1] == ResourceLine(r);
    assert Group(title, fs)[0] == title;
  }

  /** Title lines are neither the start marker, the blank line nor a resource line. */
  lemma TitleNotOtherLine(title: string, l: string)
    requires title == "Images:" || title == "Documents:"
    requires l == StartMarker || l == "" || (|l| > 0 && l[0] == ' ')
    ensures l != title
  {
    if l == StartMarker {
      assert l[0] == '=' && title[0] != '=';
    }
  }

  /**
   * Every resource is listed, and a group's title appears exactly when some
   * resource belongs to it: "Images:" for images, "Documents:" for the rest.
   */
  lemma SectionListsEachResource(rs: seq<Resource>)
    ensures forall r :: r in rs ==> ResourceLine(r) in SectionLines(rs)
    ensures "Images:" in SectionLines(rs) <==> exists r :: r in rs && IsImage(r)
    ensures "Documents:" in SectionLines(rs) <==> exists r :: r in rs && IsDocument(r)
  {
    var imgs, docs := Group("Images:", Filter(IsImage, rs)), Group("Documents:", Filter(IsDocument, rs));
    var ls := SectionLines(rs);
    assert ls == [StartMarker] + imgs + docs;
    forall r | r in rs ensures ResourceLine(r) in ls {
      if IsImage(r) {
        GroupLists("Images:", IsImage, rs, r);
      } else {
        GroupLists("Documents:", IsDocument, rs, r);
      }
    }
    forall r | r in rs && IsImage(r) ensures "Images:" in ls {
      GroupLists("Images:", IsImage, rs, r);
    }
    forall r | r in rs && IsDocument(r) ensures "Documents:" in ls {
      GroupLists("Documents:", IsDocument, rs, r);
    }
    if "Images:" in ls {
      assert "Images:" != StartMarker;
      TitleNotInOtherGroup("Images:", "Documents:", Filter(IsDocument, rs));
      assert "Images:" in imgs;
      TitleOfGroup("Images:", Filter(IsImage, rs));
      assert Filter(IsImage, rs)[0] in Filter(IsImage, rs);
    }
    if "Documents:" in ls {
      assert "Documents:" != StartMarker;
      TitleNotInOtherGroup("Documents:", "Images:", Filter(IsImage, rs));
      assert "Documents:" in docs;
      TitleOfGroup("Documents:", Filter(IsDocument, rs));
      assert Filter(IsDocument, rs)[0] in Filter(IsDocument, rs);
    }
  }

  /** A group's lines are its title, the blank line and indented resource lines. */
  lemma GroupLines(title: string, rs: seq<Resource>)
    ensures forall l :: l in Group(title, rs) ==> l == title || l == "" || (|l| > 0 && l[0] == ' ')
  {
    var g := Group(title, rs);
    forall k | 0 <= k < |g| ensures g[k] == title || g[k] == "" || (|g[k]| > 0 && g[k][0] == ' ') {
      if 0 < k < |g| - 1 {
        ResourceLineIndented(rs[k - 1]);
      }
    }
  }

  /** A title is not a line of the other title's group. */
  lemma TitleNotInOtherGroup(title: string, other: string, rs: seq<Resource>)
    requires (title == "Images:" && other == "Documents:") || (title == "Documents:" && other == "Images:")
    ensures title !in Group(other, rs)
  {
    GroupLines(other, rs);
  }

  /** A title that is a line of its group means the group has a resource. */
  lemma TitleOfGroup(title: string, rs: seq<Resource>)
    requires title in Group(title, rs)
    ensures rs != [] && rs[0] in rs
  {
    GroupMember(title, rs, title);
  }

  /** The block: the joined lines trimmed, then the end marker on its own line. */
  function Section(rs: seq<Resource>): string
  {
    Trim(Join(SectionLines(rs), "\n")) + "\n" + EndMarker
  }

  /** The README already holds a block: both markers, the end one after the start one. */
  predicate HasBlock(content: string)
  {
    var i, j := IndexOf(content, StartMarker), IndexOf(content, EndMarker);
    i != -1 && j != -1 && j > i
  }

  /**
   * Replace the existing block (from the first start marker through the first
   * end marker), or append the block after the trimmed content.
   */
  function Splice(content: string, section: string): (r: string)
    ensures HasBlock(content) ==>
              var i, j := IndexOf(content, StartMarker), IndexOf(content, EndMarker);
              IsAt(r, section, i) && r[..i] == content[..i]
              && r[i + |section|..] == content[j + |EndMarker|..]
    ensures !HasBlock(content) ==>
              StartsWith(r, TrimEnd(content)) && AllSpace(content[|TrimEnd(content)|..])
              && r[|TrimEnd(content)|..] == "\n" + section
  {
    if HasBlock(content) then
      var i, j := IndexOf(content, StartMarker), IndexOf(content, EndMarker);
      PartsOfConcat(content[..i], section, content[j + |EndMarker|..]);
      content[..i] + section + content[j + |EndMarker|..]
    else
      PartsOfConcat(TrimEnd(content), "\n", section);
      TrimEnd(content) + "\n" + section
  }

  /** A block as the route writes it: start marker first, end marker last and nowhere before. */
  predicate WellFormed(section: string)
  {
    StartsWith(section, StartMarker)
    && |section| >= |StartMarker| + 1 + |EndMarker|
    && section[|section| - |EndMarker|..] == EndMarker
    && forall p :: 0 <= p < |section| - |EndMarker| ==> !IsAt(section, EndMarker, p)
  }

  /** The generated block opens with the start marker and closes with the end marker. */
  lemma SectionShape(rs: seq<Resource>)
    ensures StartsWith(Section(rs), StartMarker)
    ensures Section(rs)[|Section(rs)| - |EndMarker|..] == EndMarker
  {
    JoinStartsWithFirst(SectionLines(rs), "\n");
    BlockShape(Join(SectionLines(rs), "\n"));
  }

  lemma BlockShape(body: string)
    requires StartsWith(body, StartMarker)
    ensures StartsWith(Trim(body) + "\n" + EndMarker, StartMarker)
  {
    var t := TrimEndBy(body, IsSpace);
    TrimEndKeepsPrefix(body, StartMarker, IsSpace);
    assert t[0] == StartMarker[0] == '=';
    TrimStartKeeps(t, IsSpace);
    var s := Trim(body) + "\n" + EndMarker;
    assert s[..|StartMarker|] == t[..|StartMarker|];
  }

  /** Trimming the end cannot cut into a prefix that ends with a kept character. */
  lemma TrimEndKeepsPrefix(s: string, p: string, ws: char -> bool)
    requires StartsWith(s, p) && p != [] && !ws(p[|p| - 1])
    ensures StartsWith(TrimEndBy(s, ws), p)
  {
    var t := TrimEndBy(s, ws);
    assert t[..|p|] == s[..|p|];
  }

  /** Neither marker spans a line break. */
  lemma MarkersHaveNoNewline()
    ensures forall k :: 0 <= k < |StartMarker| ==> StartMarker[k] != '\n'
    ensures forall k :: 0 <= k < |EndMarker| ==> EndMarker[k] != '\n'
  {
  }

  /**
   * Where a well-formed block sits at offset `m` of `t`, after a prefix `t[..m]`
   * that has no end marker starting in it, the first end marker of `t` is the
   * block's own.
   */
  lemma FirstEndInBlock(t: string, m: nat, section: string)
    requires WellFormed(section)
    requires m + |section| <= |t| && t[m..m + |section|] == section
    requires forall p :: 0 <= p < m ==> !IsAt(t, EndMarker, p)
    ensures IndexOf(t, EndMarker) == m + |section| - |EndMarker|
  {
    var q := m + |section| - |EndMarker|;
    forall p | m <= p < q ensures !IsAt(t, EndMarker, p) {
      assert t[p..p + |EndMarker|] == section[p - m..p - m + |EndMarker|];
      assert !IsAt(section, EndMarker, p - m);
    }
    assert t[q..q + |EndMarker|] == section[|section| - |EndMarker|..];
    IndexOfIs(t, EndMarker, q);
  }

  /** Rewriting a README that already has a block replaces only that block again. */
  lemma {:induction false} RespliceWithBlock(content: string, s1: string, s2: string)
    requires HasBlock(content)
    requires WellFormed(s1)
    ensures Splice(Splice(content, s1), s2) == Splice(content, s2)
  {
    var i, j := IndexOf(content, StartMarker), IndexOf(content, EndMarker);
    var after := content[j + |EndMarker|..];
    var c1 := Splice(content, s1);
    assert c1[..i] == content[..i] && c1[i + |s1|..] == after;
    SplicedBlockFound(content, s1);
    assert Splice(c1, s2) == c1[..i] + s2 + c1[i + |s1|..] by {
      var q := i + |s1| - |EndMarker|;
      assert q + |EndMarker| == i + |s1|;
    }
    assert Splice(content, s2) == content[..i] + s2 + after;
  }

  /** After a block replaced the old one, the markers found first are the new block's own. */
  lemma SplicedBlockFound(content: string, s1: string)
    requires HasBlock(content)
    requires WellFormed(s1)
    ensures var i := IndexOf(content, StartMarker);
            var c1 := Splice(content, s1);
            IndexOf(c1, StartMarker) == i && IndexOf(c1, EndMarker) == i + |s1| - |EndMarker| && HasBlock(c1)
  {
    var i := IndexOf(content, StartMarker);
    var c1 := Splice(content, s1);
    var n := i + |StartMarker|;
    SplicedPrefix(content, s1);
    NoneBeforeAgree(c1, content, n, StartMarker, i);
    NoneBeforeAgree(c1, content, n, EndMarker, i);
    assert IndexOf(c1, StartMarker) == i by {
      assert c1[i..n] == StartMarker;
      IndexOfIs(c1, StartMarker, i);
    }
    FirstEndInBlock(c1, i, s1);
  }

  /** Replacing a block keeps the text up to and including the start marker. */
  lemma SplicedPrefix(content: string, s1: string)
    requires HasBlock(content)
    requires WellFormed(s1)
    ensures var n := IndexOf(content, StartMarker) + |StartMarker|;
            var c1 := Splice(content, s1);
            n <= |c1| && c1[..n] == content[..n]
  {
    var i, j := IndexOf(content, StartMarker), IndexOf(content, EndMarker);
    var after := content[j + |EndMarker|..];
    assert Splice(content, s1) == content[..i] + s1 + after;
    SplicePrefix(content, s1, after, i);
  }

  /** A block that opens with the start marker, put where the old one started, keeps the text through that marker. */
  lemma SplicePrefix(content: string, s1: string, after: string, i: nat)
    requires IsAt(content, StartMarker, i) && StartsWith(s1, StartMarker)
    ensures var n := i + |StartMarker|;
            n <= |content[..i] + s1 + after| && (content[..i] + s1 + after)[..n] == content[..n]
  {
    var c1 := content[..i] + s1 + after;
    var n := i + |StartMarker|;
    forall k | 0 <= k < n ensures c1[..n][k] == content[..n][k] {
      if k >= i {
        assert c1[k] == s1[k - i] == StartMarker[k - i] == content[k];
      }
    }
  }

  /** After a block was appended to a README without markers, the markers found first are the new block's own. */
  lemma AppendedBlockFound(content: string, s1: string)
    requires !Contains(content, StartMarker) && !Contains(content, EndMarker)
    requires WellFormed(s1)
    ensures var m := |TrimEnd(content)| + 1;
            var c1 := Splice(content, s1);
            c1 == TrimEnd(content) + "\n" + s1
            && IndexOf(c1, StartMarker) == m && IndexOf(c1, EndMarker) == m + |s1| - |EndMarker| && HasBlock(c1)
  {
    var t := TrimEnd(content);
    var m := |t| + 1;
    var c1 := t + "\n" + s1;
    assert c1 == Splice(content, s1);
    MarkersHaveNoNewline();
    PartsOfConcat(t, "\n", s1);
    assert c1[..|t|] == content[..|t|];
    forall p | 0 <= p < m ensures !IsAt(c1, StartMarker, p) && !IsAt(c1, EndMarker, p) {
      NoMarkerBeforeBreak(content, c1, |t|, StartMarker, p);
      NoMarkerBeforeBreak(content, c1, |t|, EndMarker, p);
    }
    PartsOfConcat(t + "\n", s1, []);
    assert c1 == t + "\n" + s1 + [];
    assert c1[m..m + |StartMarker|] == s1[..|StartMarker|];
    IndexOfIs(c1, StartMarker, m);
    FirstEndInBlock(c1, m, s1);
  }

  /**
   * In `c1`, whose first `k` characters are those of `content` and whose
   * character `k` is a line break, a marker without line breaks that starts
   * at or before `k` would already occur in `content`.
   */
  lemma NoMarkerBeforeBreak(content: string, c1: string, k: nat, marker: string, p: int)
    requires k <= |content| && k < |c1| && c1[..k] == content[..k] && c1[k] == '\n'
    requires forall x :: 0 <= x < |marker| ==> marker[x] != '\n'
    requires !Contains(content, marker)
    requires 0 <= p <= k
    ensures !IsAt(c1, marker, p)
  {
    if p + |marker| <= k {
      IsAtPrefixAgree(c1, content, k, marker, p);
    }
  }

  /**
   * A README holding only a leftover end marker is never recognised as having
   * a block: every rewrite appends another block instead of replacing one.
   */
  lemma StrayEndMarkerAppendsAgain(s1: string, s2: string)
    requires WellFormed(s1)
    ensures Splice(EndMarker, s1) == EndMarker + "\n" + s1
    ensures Splice(Splice(EndMarker, s1), s2) == EndMarker + "\n" + s1 + "\n" + s2
  {
    assert IndexOf(EndMarker, StartMarker) == -1;
    TrimEndKeeps(EndMarker, IsSpace);
    var c1 := EndMarker + "\n" + s1;
    assert c1[..|EndMarker|] == EndMarker;
    IndexOfIs(c1, EndMarker, 0);
    assert !HasBlock(c1);
    assert c1[|c1| - 1] == s1[|s1| - 1] == EndMarker[|EndMarker| - 1];
    TrimEndKeeps(c1, IsSpace);
  }

  /** A README without markers gets the block appended, and a second rewrite replaces exactly that block. */
  lemma RespliceWithoutMarkers(content: string, s1: string, s2: string)
    requires !Contains(content, StartMarker) && !Contains(content, EndMarker)
    requires WellFormed(s1)
    ensures Splice(content, s1) == TrimEnd(content) + "\n" + s1
    ensures Splice(Splice(content, s1), s2) == TrimEnd(content) + "\n" + s2
  {
    AppendedBlockFound(content, s1);
    var t := TrimEnd(content);
    var c1 := Splice(content, s1);
    var m := |t| + 1;
    PartsOfConcat(t + "\n", s1, []);
    assert c1 == t + "\n" + s1 + [];
    assert c1[..m] == t + "\n";
    assert Splice(c1, s2) == c1[..m] + s2 + c1[|c1|..];
    assert c1[|c1|..] == [];
  }
}

=== FILE: resources_route.dfy ===
/**
 * The resource-maintenance routes of backend/src/routes/resources.js:
 * `/validate` sorts a project's resources into missing and present ones,
 * `/search` looks for the missing ones under a directory tree, and `/relink`
 * copies or moves found files into the project's `reference` folder. The file
 * system is a set of existing paths plus, for the search, the directory tree
 * below the search root; the database rows are inputs.
 */
module ResourcesRoute {
  import opened Strings
  import opened Js
  import opened Seqs

  /** A row of `project_resources`. */
  datatype Resource = Resource(id: Value, filename: string, originalName: Option<string>)

  /** What the `projects` lookup found: no row, a row whose `project_path` is null, or a path. */
  datatype Project = NoProject | NoPath | Path(path: string)

  /** An error reply: HTTP status and message. */
  datatype Failure = Failure(status: nat, message: string)

  /** The 500 reply when the route reads a property of a missing row or joins a null path (engine wording). */
  const TypeErrorReply: Failure := Failure(500, "TypeError")

  /** `path.join(projectPath, 'reference', filename)`. */
  function ExpectedPath(projectPath: string, filename: string): string
  {
    PathJoin(PathJoin(projectPath, "reference"), filename)
  }

  // ---------------------------------------------------------------------
  // Validate
  // ---------------------------------------------------------------------

  /** A resource with the location it is expected at. */
  datatype Checked = Checked(resource: Resource, expectedPath: string)

  datatype Validation = Validation(
    projectPath: string,
    totalResources: nat,
    missingCount: nat,
    missingResources: seq<Checked>,
    validResources: seq<Checked>)

  function CheckAll(projectPath: string, rs: seq<Resource>): (r: seq<Checked>)
    ensures |r| == |rs|
    ensures forall i :: 0 <= i < |rs| ==> r[i] == Checked(rs[i], ExpectedPath(projectPath, rs[i].filename))
  {
    if rs == [] then [] else [Checked(rs[0], ExpectedPath(projectPath, rs[0].filename))] + CheckAll(projectPath, rs[1..])
  }

  /**
   * The loop of `/validate`: each resource goes to the missing list when its
   * expected path does not exist, else to the valid list, keeping the order.
   */
  function Partition(projectPath: string, rs: seq<Resource>, existing: set<string>)
    : (r: (seq<Checked>, seq<Checked>))
    ensures r.0 == Filter(MissingIn(existing), CheckAll(projectPath, rs))
    ensures r.1 == Filter(PresentIn(existing), CheckAll(projectPath, rs))
    decreases |rs|
  {
    if rs == [] then ([], [])
    else
      var c := Checked(rs[0], ExpectedPath(projectPath, rs[0].filename));
      var all := CheckAll(projectPath, rs);
      assert all == [c] + CheckAll(projectPath, rs[1..]);
      assert all[1..] == CheckAll(projectPath, rs[1..]);
      var rest := Partition(projectPath, rs[1..], existing);
      if c.expectedPath !in existing then ([c] + rest.0, rest.1) else (rest.0, [c] + rest.1)
  }

  /** The test of the missing list: the expected file does not exist. */
  function MissingIn(existing: set<string>): Checked -> bool
  {
    (c: Checked) => c.expectedPath !in existing
  }

  /** The test of the valid list: the expected file exists. */
  function PresentIn(existing: set<string>): Checked -> bool
  {
    (c: Checked) => c.expectedPath in existing
  }

  /** The two lists of `/validate` split the checked resources between them, each by its file's existence. */
  lemma PartitionSplits(projectPath: string, rs: seq<Resource>, existing: set<string>)
    ensures var r := Partition(projectPath, rs, existing);
            |r.0| + |r.1| == |rs|
            && multiset(r.0) + multiset(r.1) == multiset(CheckAll(projectPath, rs))
            && (forall c :: c in r.0 ==> c.expectedPath !in existing)
            && (forall c :: c in r.1 ==> c.expectedPath in existing)
  {
    var r := Partition(projectPath, rs, existing);
    var all := CheckAll(projectPath, rs);
    Seqs.FilterComplement(MissingIn(existing), PresentIn(existing), all);
    assert |multiset(r.0) + multiset(r.1)| == |r.0| + |r.1|;
    forall c | c in r.0 ensures c.expectedPath !in existing {
      assert MissingIn(existing)(c);
    }
    forall c | c in r.1 ensures c.expectedPath in existing {
      assert PresentIn(existing)(c);
    }
  }

  /** `POST /validate`. */
  function Validate(projectId: Value, project: Project, resources: seq<Resource>, existing: set<string>)
    : (r: Result<Validation, Failure>)
    ensures !Truthy(projectId) ==> r == Err(Failure(400, "Project ID is required"))
    ensures Truthy(projectId) && project == NoProject ==> r == Err(Failure(404, "Project not found"))
    ensures Truthy(projectId) && (project == NoPath || project == Path("")) ==>
              r == Err(Failure(400, "Project has no path defined"))
    ensures r.Ok? <==> Truthy(projectId) && project.Path? && project.path != ""
    ensures r.Ok? ==> r.value.totalResources == |resources|
                      && r.value.missingCount == |r.value.missingResources|
                      && r.value.missingCount + |r.value.validResources| == r.value.totalResources
  {
    if !Truthy(projectId) then Err(Failure(400, "Project ID is required"))
    else if project == NoProject then Err(Failure(404, "Project not found"))
    else if project == NoPath || project.path == "" then Err(Failure(400, "Project has no path defined"))
    else
      var parts := Partition(project.path, resources, existing);
      PartitionSplits(project.path, resources, existing);
      Ok(Validation(project.path, |resources|, |parts.0|, parts.0, parts.1))
  }

  /** Every resource is reported exactly once, in the list its file's existence decides. */
  lemma ValidateReportsEachOnce(projectPath: string, resources: seq<Resource>, existing: set<string>, i: nat)
    requires i < |resources|
    ensures var c := Checked(resources[i], ExpectedPath(projectPath, resources[i].filename));
            var parts := Partition(projectPath, resources, existing);
            (c in parts.0 <==> c.expectedPath !in existing) && (c in parts.1 <==> c.expectedPath in existing)
  {
    var c := Checked(resources[i], ExpectedPath(projectPath, resources[i].filename));
    var parts := Partition(projectPath, resources, existing);
    var all := CheckAll(projectPath, resources);
    PartitionSplits(projectPath, resources, existing);
    assert all[i] == c;
    assert c in multiset(all);
    assert c in multiset(parts.0) + multiset(parts.1);
  }

  // ---------------------------------------------------------------------
  // Search
  // ---------------------------------------------------------------------

  /**
   * A directory entry below the search root. A directory carries its own
   * listing, `readable` false when listing it throws; entries that are
   * neither files nor directories are skipped by the scan.
   */
  datatype Node = File(name: string) | Dir(name: string, readable: bool, entries: seq<Node>) | Special(name: string)

  /** A file the scan found. */
  datatype Found = Found(name: string, path: string)

  const MaxDepth: nat := 3

  /** `findFiles(dir, depth)`: files in the listing of `dir`, directories scanned depth-first. */
  function FindFiles(dir: string, readable: bool, entries: seq<Node>, depth: nat): (r: seq<Found>)
    ensures depth > MaxDepth || !readable ==> r == []
    ensures |r| <= FileCount(entries)
    decreases entries, 1
  {
    if depth > MaxDepth || !readable then [] else Scan(dir, entries, depth)
  }

  function Scan(dir: string, entries: seq<Node>, depth: nat): (r: seq<Found>)
    ensures |r| <= FileCount(entries)
    decreases entries, 0
  {
    if entries == [] then []
    else
      var e := entries[0];
      var here :=
        match e
        case File(n) => [Found(n, PathJoin(dir, n))]
        case Dir(n, ok, sub) => FindFiles(PathJoin(dir, n), ok, sub, depth + 1)
        case Special(_) => [];
      here + Scan(dir, entries[1..], depth)
  }

  /** Number of files anywhere in a listing. */
  function FileCount(entries: seq<Node>): nat
    decreases entries
  {
    if entries == [] then 0
    else
      (match entries[0]
       case File(_) => 1
       case Dir(_, _, sub) => FileCount(sub)
       case Special(_) => 0)
      + FileCount(entries[1..])
  }

  /** Number of directory levels in a listing: 1 for plain files, more for nested directories. */
  function Height(entries: seq<Node>): nat
    decreases entries
  {
    if entries == [] then 0
    else
      var h := match entries[0] case Dir(_, _, sub) => 1 + Height(sub) case _ => 1;
      var t := Height(entries[1..]);
      if h >= t then h else t
  }

  /** Every directory in the listing, at any level, can be listed. */
  predicate AllReadable(entries: seq<Node>)
    decreases entries
  {
    entries == []
    || ((entries[0].Dir? ==> entries[0].readable && AllReadable(entries[0].entries)) && AllReadable(entries[1..]))
  }

  /** A readable tree no deeper than the depth limit allows is scanned completely. */
  lemma {:induction false} ShallowTreeFullyScanned(dir: string, entries: seq<Node>, depth: nat)
    requires AllReadable(entries)
    requires depth + Height(entries) <= MaxDepth + 1
    ensures |Scan(dir, entries, depth)| == FileCount(entries)
    decreases entries
  {
    if entries != [] {
      var e := entries[0];
      var tail := entries[1..];
      assert Height(tail) <= Height(entries);
      ShallowTreeFullyScanned(dir, tail, depth);
      if e.Dir? {
        var sub := e.entries;
        assert 1 + Height(sub) <= Height(entries);
        if sub != [] {
          ShallowTreeFullyScanned(PathJoin(dir, e.name), sub, depth + 1);
        }
      }
    }
  }

  /** A file five levels below the root is never found: the scan stops at depth three. */
  lemma DeepFileNotFound(root: string, a: string, b: string, c: string, d: string, f: string)
    ensures FindFiles(root, true, [Dir(a, true, [Dir(b, true, [Dir(c, true, [Dir(d, true, [File(f)])])])])], 0) == []
  {
    var t4 := [File(f)];
    var t3 := [Dir(d, true, t4)];
    var t2 := [Dir(c, true, t3)];
    var t1 := [Dir(b, true, t2)];
    var t0 := [Dir(a, true, t1)];
    var pa := PathJoin(root, a);
    var pb := PathJoin(pa, b);
    var pc := PathJoin(pb, c);
    var pd := PathJoin(pc, d);
    assert FindFiles(pd, true, t4, 4) == [];
    assert Scan(pc, t3, 3) == [];
    assert FindFiles(pc, true, t3, 3) == [];
    assert Scan(pb, t2, 2) == [];
    assert FindFiles(pb, true, t2, 2) == [];
    assert Scan(pa, t1, 1) == [];
    assert FindFiles(pa, true, t1, 1) == [];
    assert Scan(root, t0, 0) == [];
  }

  datatype Confidence = High | Medium

  datatype Match = Match(resourceId: Value, resourceName: string, foundPath: string, confidence: Confidence)

  /** The test of `foundFiles.find`: the stored name or the original upload name. */
  predicate NameMatches(r: Resource, f: Found)
  {
    f.name == r.filename || (r.originalName.Some? && f.name == r.originalName.value)
  }

  /** The match for one missing resource: the first found file with either of its names. */
  function MatchOne(r: Resource, found: seq<Found>): (m: Option<Match>)
    ensures m.None? <==> forall i :: 0 <= i < |found| ==> !NameMatches(r, found[i])
    ensures m.Some? ==> exists i :: 0 <= i < |found| && NameMatches(r, found[i])
                          && (forall j :: 0 <= j < i ==> !NameMatches(r, found[j]))
                          && m.value == Match(r.id, r.filename, found[i].path,
                                              if found[i].name == r.filename then High else Medium)
  {
    match FirstWhere(found, f => NameMatches(r, f))
    case None => None
    case Some(f) => Some(Match(r.id, r.filename, f.path, if f.name == r.filename then High else Medium))
  }

  function MatchAll(missing: seq<Resource>, found: seq<Found>): (ms: seq<Match>)
    ensures |ms| <= |missing|
    ensures forall k :: 0 <= k < |ms| ==> exists i :: 0 <= i < |missing| && MatchOne(missing[i], found) == Some(ms[k])
  {
    if missing == [] then []
    else
      var rest := MatchAll(missing[1..], found);
      assert forall i :: 0 <= i < |missing[1..]| ==> missing[1..][i] == missing[i + 1];
      match MatchOne(missing[0], found)
      case None => rest
      case Some(m) => [m] + rest
  }

  /** A single missing resource yields its match when it has one, and nothing otherwise. */
  lemma MatchAllOne(x: Resource, found: seq<Found>)
    ensures MatchOne(x, found).None? ==> MatchAll([x], found) == []
    ensures MatchOne(x, found).Some? ==> MatchAll([x], found) == [MatchOne(x, found).value]
  {
    assert [x][1..] == [];
  }

  /** The matches come out in the order of the missing resources: matching distributes over concatenation. */
  lemma {:induction false} MatchAllAppend(a: seq<Resource>, b: seq<Resource>, found: seq<Found>)
    ensures MatchAll(a + b, found) == MatchAll(a, found) + MatchAll(b, found)
    decreases |a|
  {
    if a == [] {
      assert a + b == b;
    } else {
      assert (a + b)[0] == a[0];
      assert (a + b)[1..] == a[1..] + b;
      MatchAllAppend(a[1..], b, found);
    }
  }

  /** No missing resource that can be matched is dropped. */
  lemma {:induction false} MatchAllComplete(missing: seq<Resource>, found: seq<Found>, i: nat)
    requires i < |missing| && MatchOne(missing[i], found).Some?
    ensures MatchOne(missing[i], found).value in MatchAll(missing, found)
    decreases |missing|
  {
    var rest := MatchAll(missing[1..], found);
    if i > 0 {
      var x := MatchOne(missing[i], found).value;
      assert missing[1..][i - 1] == missing[i];
      MatchAllComplete(missing[1..], found, i - 1);
      assert x in rest;
      match MatchOne(missing[0], found)
      case None =>
        assert MatchAll(missing, found) == rest;
      case Some(m) =>
        assert MatchAll(missing, found) == [m] + rest;
    } else {
      assert MatchAll(missing, found) == [MatchOne(missing[0], found).value] + rest;
    }
  }

  /** The resources whose file is not in the project's reference folder, in order. */
  function Missing(projectPath: string, existing: set<string>, resources: seq<Resource>): (r: seq<Resource>)
    ensures forall x :: x in r <==> x in resources && ExpectedPath(projectPath, x.filename) !in existing
  {
    var f := Gone(projectPath, existing);
    var r := Filter(f, resources);
    assert forall x :: x in resources && f(x) ==> x in r by {
      forall x | x in resources && f(x) ensures x in r {
        assert multiset(resources)[x] > 0;
        assert multiset(r)[x] > 0;
      }
    }
    r
  }

  /** The test of the missing list of `/search`: the resource's file is not in the reference folder. */
  function Gone(projectPath: string, existing: set<string>): Resource -> bool
  {
    (x: Resource) => ExpectedPath(projectPath, x.filename) !in existing
  }

  /**
   * The missing list keeps the order of the resource rows: the list for two
   * runs of rows is the list for the first followed by the list for the
   * second, and a single row contributes itself exactly when its file is gone.
   */
  lemma MissingInOrder(projectPath: string, existing: set<string>, a: seq<Resource>, b: seq<Resource>)
    ensures Missing(projectPath, existing, a + b) == Missing(projectPath, existing, a) + Missing(projectPath, existing, b)
    ensures forall x :: Missing(projectPath, existing, [x])
                          == if ExpectedPath(projectPath, x.filename) !in existing then [x] else []
  {
    Seqs.FilterAppend(Gone(projectPath, existing), a, b);
    forall x ensures Missing(projectPath, existing, [x])
                       == if ExpectedPath(projectPath, x.filename) !in existing then [x] else [] {
      assert [x][1..] == [];
    }
  }

  /**
   * `POST /search` given whether the search path exists and the tree below
   * it. A project without a row or a path fails only once there are
   * resources to check.
   */
  function Search(projectId: Value, searchPath: string, project: Project, resources: seq<Resource>,
                  existing: set<string>, rootReadable: bool, tree: seq<Node>): (r: Result<seq<Match>, Failure>)
    ensures !Truthy(projectId) || searchPath == "" ==>
              r == Err(Failure(400, "Project ID and search path are required"))
    ensures Truthy(projectId) && searchPath != "" && searchPath !in existing ==>
              r == Err(Failure(404, "Search path does not exist"))
    ensures Truthy(projectId) && searchPath != "" && searchPath in existing && resources == [] ==> r == Ok([])
    ensures r.Ok? ==> |r.value| <= |resources|
    ensures Truthy(projectId) && searchPath != "" && searchPath in existing && resources != [] ==>
              (!project.Path? ==> r == Err(TypeErrorReply))
              && (project.Path? ==>
                    r == Ok(MatchAll(Missing(project.path, existing, resources), FindFiles(searchPath, rootReadable, tree, 0))))
    ensures (Truthy(projectId) && searchPath != "" && searchPath in existing && project.Path?
             && Missing(project.path, existing, resources) == []) ==> r == Ok([])
  {
    if !Truthy(projectId) || searchPath == "" then Err(Failure(400, "Project ID and search path are required"))
    else if searchPath !in existing then Err(Failure(404, "Search path does not exist"))
    else if resources == [] then Ok([])
    else if !project.Path? then Err(TypeErrorReply)
    else
      var missing := Missing(project.path, existing, resources);
      if missing == [] then Ok([])
      else Ok(MatchAll(missing, FindFiles(searchPath, rootReadable, tree, 0)))
  }

  /**
   * The first file named either way wins even when a later one carries the
   * stored name exactly: the match is then only of medium confidence.
   */
  lemma EarlierOriginalNameWins(id: Value, stored: string, original: string, p1: string, p2: string)
    requires stored != original
    ensures MatchOne(Resource(id, stored, Some(original)), [Found(original, p1), Found(stored, p2)])
            == Some(Match(id, stored, p1, Medium))
  {
  }

  // ---------------------------------------------------------------------
  // Relink
  // ---------------------------------------------------------------------

  datatype Op = Op(resourceId: Value, foundPath: string, action: Value)

  datatype OpResult = OpResult(resourceId: Value, success: bool, error: Option<string>)

  const ResourceNotFound: string := "Resource not found"
  const TargetExists: string := "Target file already exists"
  /** The message of the `ENOENT` error a copy or rename of a missing source throws (engine wording). */
  const SourceMissing: string := "ENOENT"

  /** One operation against the files present: its result and the files afterwards. */
  function RelinkOne(referenceDir: string, rows: map<Value, Resource>, files: set<string>, op: Op)
    : (r: (OpResult, set<string>))
    ensures r.0.resourceId == op.resourceId
    ensures op.resourceId !in rows ==> r == (OpResult(op.resourceId, false, Some(ResourceNotFound)), files)
    ensures op.resourceId in rows && PathJoin(referenceDir, rows[op.resourceId].filename) in files ==>
              r == (OpResult(op.resourceId, false, Some(TargetExists)), files)
    ensures !r.0.success ==> r.1 == files
    ensures r.0.success <==>
              op.resourceId in rows && PathJoin(referenceDir, rows[op.resourceId].filename) !in files
              && op.foundPath in files
    ensures r.0.success ==> var target := PathJoin(referenceDir, rows[op.resourceId].filename);
              r.1 == (if op.action == Str("move") then files - {op.foundPath} else files) + {target}
  {
    if op.resourceId !in rows then (OpResult(op.resourceId, false, Some(ResourceNotFound)), files)
    else
      var target := PathJoin(referenceDir, rows[op.resourceId].filename);
      if target in files then (OpResult(op.resourceId, false, Some(TargetExists)), files)
      else if op.foundPath !in files then (OpResult(op.resourceId, false, Some(SourceMissing)), files)
      else if op.action == Str("move") then (OpResult(op.resourceId, true, None), files - {op.foundPath} + {target})
      else (OpResult(op.resourceId, true, None), files + {target})
  }

  /** The operations in order, each seeing the files the earlier ones left. */
  function RelinkAll(referenceDir: string, rows: map<Value, Resource>, files: set<string>, ops: seq<Op>)
    : (r: (seq<OpResult>, set<string>))
    ensures |r.0| == |ops|
    ensures forall i :: 0 <= i < |ops| ==> r.0[i].resourceId == ops[i].resourceId
    ensures forall x :: x in files && x !in r.1 ==>
              exists i :: 0 <= i < |ops| && ops[i].action == Str("move") && ops[i].foundPath == x
    decreases |ops|
  {
    if ops == [] then ([], files)
    else
      var one := RelinkOne(referenceDir, rows, files, ops[0]);
      var rest := RelinkAll(referenceDir, rows, one.1, ops[1..]);
      assert forall i :: 1 <= i < |ops| ==> ops[i] == ops[1..][i - 1];
      assert forall x :: x in files && x !in rest.1 ==>
               exists i :: 0 <= i < |ops| && ops[i].action == Str("move") && ops[i].foundPath == x by {
        forall x | x in files && x !in rest.1
          ensures exists i :: 0 <= i < |ops| && ops[i].action == Str("move") && ops[i].foundPath == x
        {
          if x in one.1 {
            var i :| 0 <= i < |ops[1..]| && ops[1..][i].action == Str("move") && ops[1..][i].foundPath == x;
            assert ops[i + 1] == ops[1..][i];
          } else {
            assert ops[0].action == Str("move") && ops[0].foundPath == x;
          }
        }
      }
      ([one.0] + rest.0, rest.1)
  }

  /**
   * `POST /relink`: the reference folder is created when absent, then every
   * operation yields one result, failures confined to their own operation.
   */
  function Relink(projectId: Value, operations: Option<seq<Op>>, project: Project,
                  rows: map<Value, Resource>, files: set<string>): (r: Result<(seq<OpResult>, set<string>), Failure>)
    ensures !Truthy(projectId) || operations.None? ==> r == Err(Failure(400, "Invalid request format"))
    ensures r.Ok? ==> |r.value.0| == |operations.value|
    ensures r.Ok? ==> forall i :: 0 <= i < |operations.value| ==> r.value.0[i].resourceId == operations.value[i].resourceId
    ensures r.Ok? <==> Truthy(projectId) && operations.Some? && project.Path?
  {
    if !Truthy(projectId) || operations.None? then Err(Failure(400, "Invalid request format"))
    else if !project.Path? then Err(TypeErrorReply)
    else
      var referenceDir := PathJoin(project.path, "reference");
      Ok(RelinkAll(referenceDir, rows, files + {referenceDir}, operations.value))
  }

  /** Relinking one resource twice: the second operation finds its own target and fails. */
  lemma SecondRelinkFails(referenceDir: string, rows: map<Value, Resource>, files: set<string>, op: Op, op2: Op)
    requires op.resourceId in rows && op2.resourceId == op.resourceId
    requires RelinkOne(referenceDir, rows, files, op).0.success
    ensures var after := RelinkOne(referenceDir, rows, files, op).1;
            RelinkOne(referenceDir, rows, after, op2).0 == OpResult(op.resourceId, false, Some(TargetExists))
  {
  }
}

=== FILE: seqs.dfy ===
/**
 * Collection idioms shared by the views: `Array.prototype.filter`, counting
 * occurrences into an insertion-ordered tally (the `acc[key] = (acc[key] || 0) + 1`
 * reduce), and fixed-bucket histograms.
 */
module Seqs {
  import opened Js

  /** Index of the first element of `cands` satisfying `ok`, or `|cands|`. */
  function FirstIndexWhere<T>(cands: seq<T>, ok: T -> bool): (i: nat)
    ensures i <= |cands|
    ensures i < |cands| ==> ok(cands[i])
    ensures forall j :: 0 <= j < i ==> !ok(cands[j])
  {
    if cands == [] then 0
    else if ok(cands[0]) then 0
    else 1 + FirstIndexWhere(cands[1..], ok)
  }

  /** A position that satisfies `ok`, with none before it, is the one found. */
  lemma {:induction false} FirstIndexWhereIs<T>(cands: seq<T>, ok: T -> bool, i: nat)
    requires i < |cands| && ok(cands[i])
    requires forall j :: 0 <= j < i ==> !ok(cands[j])
    ensures FirstIndexWhere(cands, ok) == i
  {
    if i > 0 {
      assert !ok(cands[0]);
      FirstIndexWhereIs(cands[1..], ok, i - 1);
    }
  }

  /** Concatenation is associative. */
  lemma AppendAssoc<T>(a: seq<T>, b: seq<T>, c: seq<T>)
    ensures (a + b) + c == a + (b + c)
  {
    var l := (a + b) + c;
    var r := a + (b + c);
    forall i | 0 <= i < |l| ensures l[i] == r[i] {
      if i < |a| {
        assert l[i] == a[i] == r[i];
      } else if i < |a| + |b| {
        assert l[i] == b[i - |a|] == r[i];
      } else {
        assert l[i] == c[i - |a| - |b|] == r[i];
      }
    }
  }

  /** A non-empty sequence is its head in front of its tail. */
  lemma ConsTail<T>(s: seq<T>)
    requires s != []
    ensures [s[0]] + s[1..] == s
  {
    var r := [s[0]] + s[1..];
    forall i | 0 <= i < |s| ensures r[i] == s[i] {
      if i > 0 {
        assert r[i] == s[1..][i - 1];
      }
    }
  }

  /** The tail of a concatenation with a non-empty front. */
  lemma TailOfAppend<T>(a: seq<T>, b: seq<T>)
    requires a != []
    ensures (a + b)[0] == a[0] && (a + b)[1..] == a[1..] + b
  {
    var l := (a + b)[1..];
    var r := a[1..] + b;
    forall i | 0 <= i < |l| ensures l[i] == r[i] {
      if i + 1 < |a| {
        assert l[i] == a[i + 1] == r[i];
      } else {
        assert l[i] == b[i + 1 - |a|] == r[i];
      }
    }
  }

  /** First element of `cands` satisfying `ok`, in list order. */
  function FirstWhere<T>(cands: seq<T>, ok: T -> bool): (r: Option<T>)
    ensures r.Some? ==> exists i :: 0 <= i < |cands| && cands[i] == r.value && ok(r.value)
                                    && forall j :: 0 <= j < i ==> !ok(cands[j])
    ensures r.None? <==> forall i :: 0 <= i < |cands| ==> !ok(cands[i])
  {
    var i := FirstIndexWhere(cands, ok);
    if i < |cands| then Some(cands[i]) else None
  }


  /** `s.filter(f)`: the elements satisfying `f`, in their original order. */
  function Filter<T(!new)>(f: T -> bool, s: seq<T>): (r: seq<T>)
    ensures |r| <= |s|
    ensures forall x :: x in r ==> x in s && f(x)
    ensures forall x :: multiset(r)[x] == if f(x) then multiset(s)[x] else 0
  {
    if s == [] then []
    else
      var rest := Filter(f, s[1..]);
      assert s == [s[0]] + s[1..];
      if f(s[0]) then [s[0]] + rest else rest
  }

  /** An element the filter accepts survives it. */
  lemma FilterKeeps<T(!new)>(f: T -> bool, s: seq<T>, i: nat)
    requires i < |s| && f(s[i])
    ensures s[i] in Filter(f, s)
  {
    assert s[i] in multiset(s);
  }

  /** Filtering distributes over concatenation, so it keeps relative order. */
  lemma {:induction false} FilterAppend<T(!new)>(f: T -> bool, a: seq<T>, b: seq<T>)
    ensures Filter(f, a + b) == Filter(f, a) + Filter(f, b)
    decreases |a|
  {
    if a == [] {
      assert a + b == b;
    } else {
      assert (a + b)[1..] == a[1..] + b;
      FilterAppend(f, a[1..], b);
    }
  }

  /** A filter every element passes returns its input. */
  lemma {:induction false} FilterKeepsAll<T(!new)>(f: T -> bool, s: seq<T>)
    requires forall i :: 0 <= i < |s| ==> f(s[i])
    ensures Filter(f, s) == s
    decreases |s|
  {
    if s != [] {
      assert forall i :: 0 <= i < |s[1..]| ==> f(s[1..][i]) by {
        forall i | 0 <= i < |s[1..]| ensures f(s[1..][i]) {
          assert s[1..][i] == s[i + 1];
        }
      }
      FilterKeepsAll(f, s[1..]);
      assert s == [s[0]] + s[1..];
    }
  }

  /** A filter and the filter by the opposite test share out the elements between them. */
  lemma FilterComplement<T(!new)>(f: T -> bool, g: T -> bool, s: seq<T>)
    requires forall x :: g(x) == !f(x)
    ensures multiset(Filter(f, s)) + multiset(Filter(g, s)) == multiset(s)
  {
    forall x ensures (multiset(Filter(f, s)) + multiset(Filter(g, s)))[x] == multiset(s)[x] {
      assert g(x) == !f(x);
    }
  }

  /** Number of elements satisfying `f`. */
  function Count<T(!new)>(f: T -> bool, s: seq<T>): nat
  {
    |Filter(f, s)|
  }

  /** Every element is counted by exactly one of a predicate and its negation. */
  lemma {:induction false} CountSplit<T(!new)>(f: T -> bool, s: seq<T>)
    ensures Count(f, s) + Count(x => !f(x), s) == |s|
  {
    if s != [] {
      CountSplit(f, s[1..]);
    }
  }

  function SumNat(xs: seq<nat>): nat
  {
    if xs == [] then 0 else xs[0] + SumNat(xs[1..])
  }

  lemma {:induction false} SumNatAppend(a: seq<nat>, b: seq<nat>)
    ensures SumNat(a + b) == SumNat(a) + SumNat(b)
    decreases |a|
  {
    if a == [] {
      assert a + b == b;
    } else {
      assert (a + b)[1..] == a[1..] + b;
      SumNatAppend(a[1..], b);
    }
  }

  // ---------------------------------------------------------------------
  // Insertion-ordered tallies
  // ---------------------------------------------------------------------

  /** An object used as a counter: keys in insertion order with their counts. */
  type Tally = seq<(string, nat)>

  function TallyKeys(t: Tally): seq<string>
    ensures |TallyKeys(t)| == |t|
    ensures forall i :: 0 <= i < |t| ==> TallyKeys(t)[i] == t[i].0
  {
    if t == [] then [] else [t[0].0] + TallyKeys(t[1..])
  }

  function TallyCounts(t: Tally): seq<nat>
    ensures |TallyCounts(t)| == |t|
    ensures forall i :: 0 <= i < |t| ==> TallyCounts(t)[i] == t[i].1
  {
    if t == [] then [] else [t[0].1] + TallyCounts(t[1..])
  }

  predicate DistinctKeys(t: Tally)
  {
    forall i, j :: 0 <= i < j < |t| ==> t[i].0 != t[j].0
  }

  /** Position of key `k` in a tally that holds it. */
  function KeyIndex(t: Tally, k: string): (i: nat)
    requires k in TallyKeys(t)
    ensures i < |t| && t[i].0 == k
  {
    if t[0].0 == k then 0 else 1 + KeyIndex(t[1..], k)
  }

  /** `acc[k] = (acc[k] || 0) + 1`: bump an existing key in place or append it. */
  function Bump(t: Tally, k: string): (r: Tally)
    requires DistinctKeys(t)
    ensures DistinctKeys(r)
    ensures |r| == if k in TallyKeys(t) then |t| else |t| + 1
    ensures forall i :: 0 <= i < |t| ==> r[i].0 == t[i].0
    ensures |r| > |t| ==> r[|t|].0 == k
    ensures forall i :: 0 <= i < |r| ==> r[i].1 == (if i < |t| then t[i].1 else 0) + (if r[i].0 == k then 1 else 0)
    ensures SumNat(TallyCounts(r)) == SumNat(TallyCounts(t)) + 1
  {
    if k in TallyKeys(t) then
      var i := KeyIndex(t, k);
      BumpAtSum(t, i);
      t[i := (k, t[i].1 + 1)]
    else
      AppendSum(t, k);
      t + [(k, 1)]
  }

  lemma BumpAtSum(t: Tally, i: nat)
    requires i < |t|
    ensures SumNat(TallyCounts(t[i := (t[i].0, t[i].1 + 1)])) == SumNat(TallyCounts(t)) + 1
  {
    var a := TallyCounts(t[i := (t[i].0, t[i].1 + 1)]);
    var b := TallyCounts(t)[i := TallyCounts(t)[i] + 1];
    forall j | 0 <= j < |a| ensures a[j] == b[j] {
    }
    assert a == b;
    SumNatUpdate(TallyCounts(t), i);
  }

  lemma AppendSum(t: Tally, k: string)
    ensures SumNat(TallyCounts(t + [(k, 1)])) == SumNat(TallyCounts(t)) + 1
  {
    assert TallyCounts(t + [(k, 1)]) == TallyCounts(t) + [1];
    SumNatAppend(TallyCounts(t), [1]);
  }

  /** The total of a tally is its own count total: a total over entries. */
  function Total(t: Tally): nat
  {
    SumNat(TallyCounts(t))
  }

  lemma TotalAppend(a: Tally, b: Tally)
    ensures Total(a + b) == Total(a) + Total(b)
  {
    assert TallyCounts(a + b) == TallyCounts(a) + TallyCounts(b);
    SumNatAppend(TallyCounts(a), TallyCounts(b));
  }

  /** Taking the first entry of `a` and a matching entry of `b` out of two permutations leaves permutations. */
  lemma RemoveMatching<T>(a: seq<T>, b: seq<T>, k: nat)
    requires multiset(a) == multiset(b) && a != [] && k < |b| && b[k] == a[0]
    ensures multiset(a[1..]) == multiset(b[..k] + b[k + 1..])
  {
    var x := a[0];
    var rest := b[..k] + b[k + 1..];
    assert b == b[..k] + [x] + b[k + 1..];
    assert a == [x] + a[1..];
    assert multiset(b) == multiset(b[..k] + [x]) + multiset(b[k + 1..]);
    assert multiset(b[..k] + [x]) == multiset(b[..k]) + multiset{x};
    assert multiset(rest) == multiset(b[..k]) + multiset(b[k + 1..]);
    assert multiset(a) == multiset([x]) + multiset(a[1..]);
    assert multiset([x]) == multiset{x};
    forall y ensures multiset(a[1..])[y] == multiset(rest)[y] {
      assert (multiset{x} + multiset(a[1..]))[y] == (multiset{x} + multiset(rest))[y];
    }
  }

  /** Taking entry `k` out of a tally lowers its total by that entry's count. */
  lemma TotalRemove(b: Tally, k: nat)
    requires k < |b|
    ensures Total(b) == b[k].1 + Total(b[..k] + b[k + 1..])
  {
    assert b == b[..k] + [b[k]] + b[k + 1..];
    TotalAppend(b[..k] + [b[k]], b[k + 1..]);
    TotalAppend(b[..k], [b[k]]);
    TotalAppend(b[..k], b[k + 1..]);
    assert TallyCounts([b[k]]) == [b[k].1];
    assert SumNat([b[k].1]) == b[k].1 + SumNat([]);
  }

  /** Reordering the entries of a tally keeps its total. */
  lemma {:induction false} TotalPermutation(a: Tally, b: Tally)
    requires multiset(a) == multiset(b)
    ensures Total(a) == Total(b)
    decreases |a|
  {
    if a == [] {
      assert |b| == |multiset(b)| == 0;
    } else {
      var x := a[0];
      assert x in multiset(b);
      var k :| 0 <= k < |b| && b[k] == x;
      var rest := b[..k] + b[k + 1..];
      RemoveMatching(a, b, k);
      TotalPermutation(a[1..], rest);
      TotalRemove(b, k);
      TotalAppend([x], a[1..]);
      assert a == [x] + a[1..];
    }
  }

  /**
   * The tally of a list of keys, in first-occurrence order:
   * `keys.reduce((acc, k) => { acc[k] = (acc[k] || 0) + 1; return acc }, {})`.
   */
  function CountBy(keys: seq<string>): (t: Tally)
    ensures DistinctKeys(t)
    ensures SumNat(TallyCounts(t)) == |keys|
    ensures forall k :: k in TallyKeys(t) <==> k in keys
    ensures forall i :: 0 <= i < |t| ==> t[i].1 == multiset(keys)[t[i].0]
    decreases |keys|
  {
    if keys == [] then []
    else
      var init := keys[..|keys| - 1];
      var last := keys[|keys| - 1];
      assert keys == init + [last];
      var t0 := CountBy(init);
      BumpCounts(t0, init, last);
      Bump(t0, last)
  }

  /** Counting one more key keeps a tally of `keys` a tally of `keys + [k]`. */
  lemma BumpCounts(t: Tally, keys: seq<string>, k: string)
    requires DistinctKeys(t)
    requires SumNat(TallyCounts(t)) == |keys|
    requires forall x :: x in TallyKeys(t) <==> x in keys
    requires forall i :: 0 <= i < |t| ==> t[i].1 == multiset(keys)[t[i].0]
    ensures var r := Bump(t, k);
            SumNat(TallyCounts(r)) == |keys + [k]|
            && (forall x :: x in TallyKeys(r) <==> x in keys + [k])
            && forall i :: 0 <= i < |r| ==> r[i].1 == multiset(keys + [k])[r[i].0]
  {
    BumpKeys(t, k);
    BumpMultiset(t, keys, k);
  }

  /** The keys of a bumped tally: the old ones and `k`. */
  lemma BumpKeys(t: Tally, k: string)
    requires DistinctKeys(t)
    ensures forall x :: x in TallyKeys(Bump(t, k)) <==> x in TallyKeys(t) || x == k
  {
    var r := Bump(t, k);
    forall x | x in TallyKeys(r) ensures x in TallyKeys(t) || x == k {
      var i :| 0 <= i < |r| && TallyKeys(r)[i] == x;
      if i < |t| {
        assert TallyKeys(t)[i] == x;
      }
    }
    forall x | x in TallyKeys(t) ensures x in TallyKeys(r) {
      var i :| 0 <= i < |t| && TallyKeys(t)[i] == x;
      assert TallyKeys(r)[i] == x;
    }
    if k !in TallyKeys(t) {
      assert TallyKeys(r)[|t|] == k;
    }
  }

  /** Each count of a bumped tally is the multiplicity of its key among the keys and `k`. */
  lemma BumpMultiset(t: Tally, keys: seq<string>, k: string)
    requires DistinctKeys(t)
    requires forall x :: x in TallyKeys(t) <==> x in keys
    requires forall i :: 0 <= i < |t| ==> t[i].1 == multiset(keys)[t[i].0]
    ensures var r := Bump(t, k);
            forall i :: 0 <= i < |r| ==> r[i].1 == multiset(keys + [k])[r[i].0]
  {
    var r := Bump(t, k);
    assert multiset(keys + [k]) == multiset(keys) + multiset{k};
    forall i | 0 <= i < |r| ensures r[i].1 == multiset(keys + [k])[r[i].0] {
      if i >= |t| {
        assert k !in TallyKeys(t);
      }
    }
  }

  // ---------------------------------------------------------------------
  // Histograms
  // ---------------------------------------------------------------------

  /** Count how many entries fall in each of the buckets `0 .. k-1`. */
  function Histogram(bins: seq<nat>, k: nat): (counts: seq<nat>)
    requires forall i :: 0 <= i < |bins| ==> bins[i] < k
    ensures |counts| == k
    ensures forall b :: 0 <= b < k ==> counts[b] == multiset(bins)[b]
    ensures SumNat(counts) == |bins|
    decreases |bins|
  {
    if bins == [] then
      var z := seq(k, _ => 0);
      ZeroSum(k);
      z
    else
      var init := bins[..|bins| - 1];
      var last := bins[|bins| - 1];
      assert bins == init + [last];
      var c := Histogram(init, k);
      var c' := c[last := c[last] + 1];
      SumNatUpdate(c, last);
      c'
  }

  lemma {:induction false} ZeroSum(k: nat)
    ensures SumNat(seq(k, _ => 0)) == 0
  {
    if k > 0 {
      assert seq(k, _ => 0)[1..] == seq(k - 1, _ => 0);
      ZeroSum(k - 1);
    }
  }

  lemma {:induction false} SumNatUpdate(c: seq<nat>, b: nat)
    requires b < |c|
    ensures SumNat(c[b := c[b] + 1]) == SumNat(c) + 1
    decreases |c|
  {
    if b > 0 {
      assert c[b := c[b] + 1][1..] == c[1..][b - 1 := c[b] + 1];
      SumNatUpdate(c[1..], b - 1);
    }
  }
}

=== FILE: sorting.dfy ===
/**
 * Sorting as the list views use it: `Array.prototype.sort` with a comparator
 * that orders rows by one extracted key, ascending or descending. Keys are
 * numbers (minutes, counts, timestamps) or strings compared code point by code
 * point. The sort is an insertion sort that places each element before every
 * later element it ties with, so, like the ECMAScript sort, it is stable.
 */
module Sorting {

  datatype Key = Num(n: int) | Text(s: string)

  /** Lexicographic order on strings, by code point. */
  predicate LexLe(a: string, b: string)
    decreases |a|
  {
    a == [] || (b != [] && (a[0] < b[0] || (a[0] == b[0] && LexLe(a[1..], b[1..]))))
  }

  lemma {:induction false} LexLeTotal(a: string, b: string)
    ensures LexLe(a, b) || LexLe(b, a)
    decreases |a|
  {
    if a != [] && b != [] && a[0] == b[0] {
      LexLeTotal(a[1..], b[1..]);
    }
  }

  lemma {:induction false} LexLeRefl(a: string)
    ensures LexLe(a, a)
    decreases |a|
  {
    if a != [] {
      LexLeRefl(a[1..]);
    }
  }

  lemma {:induction false} LexLeTrans(a: string, b: string, c: string)
    requires LexLe(a, b) && LexLe(b, c)
    ensures LexLe(a, c)
    decreases |a|
  {
    if a != [] && b != [] && c != [] && a[0] == b[0] && b[0] == c[0] {
      LexLeTrans(a[1..], b[1..], c[1..]);
    }
  }

  /** Numbers before strings; within a kind, the natural order. */
  predicate KeyLe(a: Key, b: Key)
  {
    match (a, b)
    case (Num(x), Num(y)) => x <= y
    case (Text(x), Text(y)) => LexLe(x, y)
    case (Num(_), Text(_)) => true
    case (Text(_), Num(_)) => false
  }

  /** `a` may come before `b` in a list sorted in the given direction. */
  predicate InOrder(asc: bool, a: Key, b: Key)
  {
    if asc then KeyLe(a, b) else KeyLe(b, a)
  }

  lemma InOrderTotal(asc: bool, a: Key, b: Key)
    ensures InOrder(asc, a, b) || InOrder(asc, b, a)
  {
    if a.Text? && b.Text? { LexLeTotal(a.s, b.s); }
  }

  lemma InOrderRefl(asc: bool, a: Key)
    ensures InOrder(asc, a, a)
  {
    if a.Text? { LexLeRefl(a.s); }
  }

  lemma InOrderTrans(asc: bool, a: Key, b: Key, c: Key)
    requires InOrder(asc, a, b) && InOrder(asc, b, c)
    ensures InOrder(asc, a, c)
  {
    if a.Text? && b.Text? && c.Text? {
      if asc { LexLeTrans(a.s, b.s, c.s); } else { LexLeTrans(c.s, b.s, a.s); }
    }
  }

  predicate SortedBy<T>(s: seq<T>, key: T -> Key, asc: bool)
  {
    forall i, j :: 0 <= i < j < |s| ==> InOrder(asc, key(s[i]), key(s[j]))
  }

  /** Place `x` before the first element it may precede. */
  function Insert<T>(x: T, s: seq<T>, key: T -> Key, asc: bool): (r: seq<T>)
    requires SortedBy(s, key, asc)
    ensures |r| == |s| + 1
    ensures SortedBy(r, key, asc)
    ensures multiset(r) == multiset(s) + multiset{x}
    ensures forall y :: y in r ==> y in s || y == x
    decreases |s|
  {
    if s == [] then [x]
    else if InOrder(asc, key(x), key(s[0])) then
      LeadsSorted(x, s, key, asc);
      ConsSorted(x, s, key, asc);
      [x] + s
    else
      InOrderTotal(asc, key(x), key(s[0]));
      var rest := Insert(x, s[1..], key, asc);
      assert s == [s[0]] + s[1..];
      HeadLeads(s[0], s[1..], x, rest, key, asc);
      ConsSorted(s[0], rest, key, asc);
      [s[0]] + rest
  }

  /** A sorted list stays sorted behind a head that may precede all of it. */
  lemma ConsSorted<T>(h: T, s: seq<T>, key: T -> Key, asc: bool)
    requires SortedBy(s, key, asc)
    requires forall j :: 0 <= j < |s| ==> InOrder(asc, key(h), key(s[j]))
    ensures SortedBy([h] + s, key, asc)
  {
    var r := [h] + s;
    forall i, j | 0 <= i < j < |r| ensures InOrder(asc, key(r[i]), key(r[j])) {
      assert r[j] == s[j - 1];
      if i > 0 { assert r[i] == s[i - 1]; }
    }
  }

  /** What may precede the head of a sorted list may precede all of it. */
  lemma LeadsSorted<T>(x: T, s: seq<T>, key: T -> Key, asc: bool)
    requires SortedBy(s, key, asc) && s != [] && InOrder(asc, key(x), key(s[0]))
    ensures forall j :: 0 <= j < |s| ==> InOrder(asc, key(x), key(s[j]))
  {
    forall j | 0 <= j < |s| ensures InOrder(asc, key(x), key(s[j])) {
      if j > 0 { InOrderTrans(asc, key(x), key(s[0]), key(s[j])); }
    }
  }

  /** A head that may precede every element of a list and `x` may precede anything drawn from them. */
  lemma HeadLeads<T>(h: T, s: seq<T>, x: T, rest: seq<T>, key: T -> Key, asc: bool)
    requires forall j :: 0 <= j < |s| ==> InOrder(asc, key(h), key(s[j]))
    requires InOrder(asc, key(h), key(x))
    requires forall y :: y in rest ==> y in s || y == x
    ensures forall j :: 0 <= j < |rest| ==> InOrder(asc, key(h), key(rest[j]))
  {
    forall j | 0 <= j < |rest| ensures InOrder(asc, key(h), key(rest[j])) {
      assert rest[j] in rest;
      if rest[j] != x {
        var m :| 0 <= m < |s| && s[m] == rest[j];
      }
    }
  }

  /** `s.sort((a, b) => compare(key(a), key(b)))`: a sorted permutation. */
  function Sort<T>(s: seq<T>, key: T -> Key, asc: bool): (r: seq<T>)
    ensures |r| == |s|
    ensures SortedBy(r, key, asc)
    ensures multiset(r) == multiset(s)
    decreases |s|
  {
    if s == [] then []
    else
      assert s == [s[0]] + s[1..];
      Insert(s[0], Sort(s[1..], key, asc), key, asc)
  }

  /** Sorting is idempotent: an already sorted list is left as it is. */
  lemma {:induction false} SortSorted<T>(s: seq<T>, key: T -> Key, asc: bool)
    requires SortedBy(s, key, asc)
    ensures Sort(s, key, asc) == s
    decreases |s|
  {
    if s != [] {
      assert SortedBy(s[1..], key, asc);
      SortSorted(s[1..], key, asc);
      assert |s| == 1 || InOrder(asc, key(s[0]), key(s[1..][0]));
    }
  }

  /** The elements whose key is `k`, in order. */
  function Ties<T>(s: seq<T>, key: T -> Key, k: Key): seq<T>
  {
    if s == [] then [] else (if key(s[0]) == k then [s[0]] else []) + Ties(s[1..], key, k)
  }

  lemma {:induction false} TiesAppend<T>(a: seq<T>, b: seq<T>, key: T -> Key, k: Key)
    ensures Ties(a + b, key, k) == Ties(a, key, k) + Ties(b, key, k)
    decreases |a|
  {
    if a == [] {
      assert a + b == b;
    } else {
      assert (a + b)[0] == a[0] && (a + b)[1..] == a[1..] + b;
      TiesAppend(a[1..], b, key, k);
    }
  }

  /** Where `Insert` puts `x`, computed without the sortedness it relies on. */
  function Place<T>(x: T, s: seq<T>, key: T -> Key, asc: bool): seq<T>
  {
    if s == [] || InOrder(asc, key(x), key(s[0])) then [x] + s
    else [s[0]] + Place(x, s[1..], key, asc)
  }

  lemma {:induction false} InsertIsPlace<T>(x: T, s: seq<T>, key: T -> Key, asc: bool)
    requires SortedBy(s, key, asc)
    ensures Insert(x, s, key, asc) == Place(x, s, key, asc)
    decreases |s|
  {
    if s != [] && !InOrder(asc, key(x), key(s[0])) {
      assert SortedBy(s[1..], key, asc);
      InsertIsPlace(x, s[1..], key, asc);
    }
  }

  /** Placing `x` puts it in front of the elements of its own key: it leads its ties. */
  lemma {:induction false} PlaceKeepsTies<T>(x: T, t: seq<T>, key: T -> Key, asc: bool, k: Key)
    ensures Ties(Place(x, t, key, asc), key, k) == Ties([x], key, k) + Ties(t, key, k)
    decreases |t|
  {
    if t == [] || InOrder(asc, key(x), key(t[0])) {
      TiesAppend([x], t, key, k);
    } else {
      InOrderRefl(asc, key(x));
      PlaceKeepsTies(x, t[1..], key, asc, k);
      var rest := Place(x, t[1..], key, asc);
      assert [t[0]] + t[1..] == t;
      assert [x][1..] == [] && [t[0]][1..] == [];
      TiesAppend([t[0]], rest, key, k);
      TiesAppend([t[0]], t[1..], key, k);
    }
  }

  /**
   * The sort is stable: the elements of any one key come out in the order
   * they went in.
   */
  lemma {:induction false} SortStable<T>(s: seq<T>, key: T -> Key, asc: bool, k: Key)
    ensures Ties(Sort(s, key, asc), key, k) == Ties(s, key, k)
    decreases |s|
  {
    if s != [] {
      SortStable(s[1..], key, asc, k);
      InsertIsPlace(s[0], Sort(s[1..], key, asc), key, asc);
      PlaceKeepsTies(s[0], Sort(s[1..], key, asc), key, asc, k);
      assert [s[0]] + s[1..] == s;
      TiesAppend([s[0]], s[1..], key, k);
    }
  }
}

=== FILE: status_names.dfy ===
/**
 * The legacy status names and their display names, as repeated in
 * ProjectDetails.js, ProjectList.js, ProjectTableView.js and Analytics.js
 * (projet-analyse-image-frontend/src/components): `mapStatusName` and the
 * status badge class built from it.
 */
module StatusNames {
  import opened Strings
  import opened Js

  /** `statusMap[s]` for the seven legacy names. */
  function Legacy(s: string): (r: Option<string>)
    ensures r.Some? ==> r.value in {"Preparing", "Active", "Review", "Completed"}
  {
    if s == "Intake" || s == "Pending" || s == "Planning" then Some("Preparing")
    else if s == "In Progress" || s == "In-Progress" then Some("Active")
    else if s == "Waiting" then Some("Review")
    else if s == "Finished" then Some("Completed")
    else None
  }

  /** The names the map produces are not legacy names themselves. */
  lemma CurrentNamesAreNotLegacy(s: string)
    requires s in {"Preparing", "Active", "Review", "Completed"}
    ensures Legacy(s).None?
  {
  }

  /** `statusMap[status] || status || 'Preparing'`. */
  function MapStatus(status: Value): (r: Value)
    ensures status.Str? && Legacy(status.s).Some? ==> r == Str(Legacy(status.s).value)
    ensures !Truthy(status) ==> r == Str("Preparing")
    ensures Truthy(status) && !(status.Str? && Legacy(status.s).Some?) ==> r == status
    ensures Truthy(r)
  {
    if status.Str? && Legacy(status.s).Some? then Str(Legacy(status.s).value)
    else Or(status, Str("Preparing"))
  }

  /** Mapping a status a second time changes nothing. */
  lemma MapStatusIdempotent(status: Value)
    ensures MapStatus(MapStatus(status)) == MapStatus(status)
  {
    var m := MapStatus(status);
    if status.Str? && Legacy(status.s).Some? {
      CurrentNamesAreNotLegacy(m.s);
    }
  }

  /** A mapped status is never a legacy name. */
  lemma MappedIsCurrent(status: Value)
    ensures var m := MapStatus(status); m.Str? ==> Legacy(m.s).None?
  {
    var m := MapStatus(status);
    if status.Str? && Legacy(status.s).Some? {
      CurrentNamesAreNotLegacy(m.s);
    }
  }

  /** `statusMap[status] || status` as the analytics count uses it, after `status || 'Unknown'`. */
  function CountedStatus(status: Value): (r: Value)
    ensures !Truthy(status) ==> r == Str("Unknown")
    ensures Truthy(status) ==> r == MapStatus(status)
  {
    var s := Or(status, Str("Unknown"));
    if s.Str? && Legacy(s.s).Some? then Str(Legacy(s.s).value) else s
  }

  const BadgePrefix: string := "status-badge status-"

  /**
   * `getStatusColor` / `getStatusClass`: the badge class of the mapped status
   * with its spaces turned into dashes; `None` where the mapped status is not
   * a string (calling `split` on it throws).
   */
  function StatusClass(status: Value): (r: Option<string>)
    ensures r.Some? <==> MapStatus(status).Str?
    ensures r.Some? ==> r.value == BadgePrefix + ReplaceChar(MapStatus(status).s, ' ', '-')
  {
    var m := MapStatus(status);
    if m.Str? then
      SplitJoinReplaces(m.s, ' ', '-');
      Some(BadgePrefix + Join(Split(m.s, ' '), "-"))
    else None
  }

  /** A legacy name gets the badge of the name it maps to. */
  lemma LegacyNameSharesBadge(s: string)
    requires Legacy(s).Some?
    ensures StatusClass(Str(s)) == StatusClass(Str(Legacy(s).value))
  {
    CurrentNamesAreNotLegacy(Legacy(s).value);
    assert MapStatus(Str(s)) == MapStatus(Str(Legacy(s).value));
  }

  /** Both legacy spellings of "in progress" get the badge `status-Active`. */
  lemma InProgressSpellingsShareBadge(s: string)
    requires s == "In Progress" || s == "In-Progress"
    ensures StatusClass(Str(s)) == Some(BadgePrefix + "Active")
  {
    assert Legacy(s) == Some("Active");
    LegacyBadge(s);
  }

  /** A legacy name whose current name has no space gets the badge of that current name, verbatim. */
  lemma LegacyBadge(s: string)
    requires Legacy(s).Some?
    requires forall i :: 0 <= i < |Legacy(s).value| ==> Legacy(s).value[i] != ' '
    ensures StatusClass(Str(s)) == Some(BadgePrefix + Legacy(s).value)
  {
    ReplaceAbsent(Legacy(s).value, ' ', '-');
  }

  /** A name that is not legacy and has no space is its own badge suffix. */
  lemma PlainNameBadge(a: string)
    requires a != [] && Legacy(a).None?
    requires forall i :: 0 <= i < |a| ==> a[i] != ' '
    ensures StatusClass(Str(a)) == Some(BadgePrefix + a)
  {
    assert MapStatus(Str(a)) == Str(a);
    ReplaceAbsent(a, ' ', '-');
  }

}

=== FILE: strings.dfy ===
/**
 * The JavaScript string operations the application relies on, over Dafny
 * strings (sequences of Unicode scalar values): decimal printing and parsing
 * of integers, the ECMAScript white-space set and trimming, ASCII case
 * mapping, substring search, single-character split and join.
 */
module Strings {

  // ---------------------------------------------------------------------
  // Decimal digits
  // ---------------------------------------------------------------------

  predicate IsDigit(c: char) { '0' <= c <= '9' }

  predicate AllDigits(s: string) { forall i :: 0 <= i < |s| ==> IsDigit(s[i]) }

  function DigitChar(d: nat): (c: char)
    requires d < 10
    ensures IsDigit(c) && c as int - '0' as int == d
  {
    ('0' as int + d) as char
  }

  /** Decimal rendering of a natural number, as `String(n)` prints it. */
  function NatToString(n: nat): (r: string)
    ensures |r| >= 1 && AllDigits(r)
    ensures |r| > 1 ==> r[0] != '0'
    decreases n
  {
    if n < 10 then [DigitChar(n)] else NatToString(n / 10) + [DigitChar(n % 10)]
  }

  /** `String(i)` for an integer: a leading minus for negative values. */
  function IntToString(i: int): (r: string)
    ensures |r| >= 1
    ensures i >= 0 ==> AllDigits(r)
    ensures i < 0 ==> r[0] == '-' && AllDigits(r[1..])
  {
    if i < 0 then "-" + NatToString(-i) else NatToString(i)
  }

  /** The value of a run of decimal digits (most significant first). */
  function DigitsValue(s: string): nat
    requires AllDigits(s)
  {
    if s == [] then 0 else DigitsValue(s[..|s| - 1]) * 10 + (s[|s| - 1] as int - '0' as int)
  }

  /** Reading back what `NatToString` prints gives the number again. */
  lemma {:induction false} NatToStringRoundTrip(n: nat)
    ensures DigitsValue(NatToString(n)) == n
    decreases n
  {
    if n >= 10 {
      NatToStringRoundTrip(n / 10);
      var s := NatToString(n);
      assert s[..|s| - 1] == NatToString(n / 10);
    }
  }

  /** Distinct numbers print differently: the basis of "name (k).ext" uniqueness. */
  lemma NatToStringInjective(a: nat, b: nat)
    ensures NatToString(a) == NatToString(b) ==> a == b
  {
    NatToStringRoundTrip(a);
    NatToStringRoundTrip(b);
  }

  // ---------------------------------------------------------------------
  // White space and trimming
  // ---------------------------------------------------------------------

  /** ECMAScript WhiteSpace and LineTerminator code points (the `\s` class and `trim`). */
  predicate IsSpace(c: char)
  {
    c == '\t' || c == '\n' || c == '\U{000B}' || c == '\U{000C}' || c == '\r' || c == ' '
    || c == '\U{00A0}' || c == '\U{1680}' || ('\U{2000}' <= c <= '\U{200A}')
    || c == '\U{2028}' || c == '\U{2029}' || c == '\U{202F}' || c == '\U{205F}'
    || c == '\U{3000}' || c == '\U{FEFF}'
  }

  /** Every character of `s` satisfies `ws`. */
  predicate AllIn(s: string, ws: char -> bool) { forall i :: 0 <= i < |s| ==> ws(s[i]) }

  predicate AllSpace(s: string) { AllIn(s, IsSpace) }

  /** Drop leading characters in the class `ws`: the longest suffix not starting with one. */
  function TrimStartBy(s: string, ws: char -> bool): (r: string)
    ensures |r| <= |s| && r == s[|s| - |r|..]
    ensures AllIn(s[..|s| - |r|], ws)
    ensures |r| > 0 ==> !ws(r[0])
  {
    if |s| > 0 && ws(s[0]) then TrimStartBy(s[1..], ws) else s
  }

  /** Drop trailing characters in the class `ws`: the longest prefix not ending with one. */
  function TrimEndBy(s: string, ws: char -> bool): (r: string)
    ensures |r| <= |s| && r == s[..|r|]
    ensures AllIn(s[|r|..], ws)
    ensures |r| > 0 ==> !ws(r[|r| - 1])
  {
    if |s| > 0 && ws(s[|s| - 1]) then TrimEndBy(s[..|s| - 1], ws) else s
  }

  /** Nothing is dropped from a text that starts with a kept character. */
  lemma TrimStartKeeps(s: string, ws: char -> bool)
    requires s != [] && !ws(s[0])
    ensures TrimStartBy(s, ws) == s
  {
  }

  /** Nothing is dropped from a text that ends with a kept character. */
  lemma TrimEndKeeps(s: string, ws: char -> bool)
    requires s != [] && !ws(s[|s| - 1])
    ensures TrimEndBy(s, ws) == s
  {
  }

  lemma {:induction false} TrimEndAll(s: string, ws: char -> bool)
    requires AllIn(s, ws)
    ensures TrimEndBy(s, ws) == []
    decreases |s|
  {
    if |s| > 0 { TrimEndAll(s[..|s| - 1], ws); }
  }

  /** Both ends stripped of characters in the class `ws`. */
  function TrimBy(s: string, ws: char -> bool): (r: string)
    ensures |r| <= |s|
    ensures |r| > 0 ==> !ws(r[0]) && !ws(r[|r| - 1])
    ensures r == [] <==> AllIn(s, ws)
  {
    var t := TrimEndBy(s, ws);
    var u := TrimStartBy(t, ws);
    assert AllIn(s, ws) ==> u == [] by { if AllIn(s, ws) { TrimEndAll(s, ws); } }
    assert u == [] ==> AllIn(s, ws) by {
      if u == [] {
        forall i | 0 <= i < |s| ensures ws(s[i]) {
          if i < |t| { assert s[i] == t[..|t|][i]; }
        }
      }
    }
    u
  }

  /** `trimStart()`. */
  function TrimStart(s: string): string { TrimStartBy(s, IsSpace) }

  /** `trimEnd()`. */
  function TrimEnd(s: string): string { TrimEndBy(s, IsSpace) }

  /** Trimming a text that starts and ends with kept characters leaves it as it is. */
  lemma TrimByKeeps(s: string, ws: char -> bool)
    requires s != [] && !ws(s[0]) && !ws(s[|s| - 1])
    ensures TrimBy(s, ws) == s
  {
    TrimEndKeeps(s, ws);
    TrimStartKeeps(s, ws);
  }

  /** `trim()`. */
  function Trim(s: string): string { TrimBy(s, IsSpace) }

  /** A run of digits has no white space to trim. */
  lemma TrimDigits(s: string)
    requires s != [] && AllDigits(s)
    ensures Trim(s) == s
  {
    assert IsDigit(s[0]) && IsDigit(s[|s| - 1]);
    TrimByKeeps(s, IsSpace);
  }

  /** `!s.trim()`: empty or made of white space only. */
  predicate IsBlank(s: string) { Trim(s) == [] }

  // ---------------------------------------------------------------------
  // Case mapping (ASCII letters)
  // ---------------------------------------------------------------------

  function LowerChar(c: char): char { if 'A' <= c <= 'Z' then (c as int + 32) as char else c }

  function UpperChar(c: char): char { if 'a' <= c <= 'z' then (c as int - 32) as char else c }

  /** `toLowerCase()` on ASCII letters; every other character is kept. */
  function ToLower(s: string): (r: string)
    ensures |r| == |s|
    ensures forall i :: 0 <= i < |s| ==> r[i] == LowerChar(s[i])
  {
    if s == [] then [] else [LowerChar(s[0])] + ToLower(s[1..])
  }

  lemma ToLowerIdempotent(s: string)
    ensures ToLower(ToLower(s)) == ToLower(s)
  {
  }

  // ---------------------------------------------------------------------
  // Substring search
  // ---------------------------------------------------------------------

  /** `sub` occurs in `s` starting at index `i`. */
  predicate IsAt(s: string, sub: string, i: int)
  {
    0 <= i && i + |sub| <= |s| && s[i..i + |sub|] == sub
  }

  /** `s.indexOf(sub, from)`: the least occurrence at or after `from`, or -1. */
  function IndexOfFrom(s: string, sub: string, from: nat): (r: int)
    ensures r == -1 || (from <= r && IsAt(s, sub, r))
    ensures r == -1 ==> forall i :: from <= i <= |s| ==> !IsAt(s, sub, i)
    ensures r != -1 ==> forall i :: from <= i < r ==> !IsAt(s, sub, i)
    decreases |s| - from
  {
    if from + |sub| > |s| then -1
    else if s[from..from + |sub|] == sub then from
    else IndexOfFrom(s, sub, from + 1)
  }

  /** `s.indexOf(sub)`. */
  function IndexOf(s: string, sub: string): (r: int)
    ensures r == -1 || IsAt(s, sub, r)
    ensures r == -1 <==> forall i :: 0 <= i <= |s| ==> !IsAt(s, sub, i)
    ensures r != -1 ==> forall i :: 0 <= i < r ==> !IsAt(s, sub, i)
  {
    IndexOfFrom(s, sub, 0)
  }

  /** An occurrence with none before it is the one `indexOf` finds. */
  lemma IndexOfIs(s: string, sub: string, k: int)
    requires IsAt(s, sub, k)
    requires forall i :: 0 <= i < k ==> !IsAt(s, sub, i)
    ensures IndexOf(s, sub) == k
  {
  }

  /** Strings that agree on a prefix agree on every occurrence inside it. */
  lemma IsAtPrefixAgree(a: string, b: string, n: nat, sub: string, p: int)
    requires n <= |a| && n <= |b| && a[..n] == b[..n]
    requires 0 <= p && p + |sub| <= n
    ensures IsAt(a, sub, p) <==> IsAt(b, sub, p)
  {
    assert a[p..p + |sub|] == a[..n][p..p + |sub|];
    assert b[p..p + |sub|] == b[..n][p..p + |sub|];
  }

  /** A text that agrees with `b` up to `n` has no occurrence of `sub` before `k` where `b` has none. */
  lemma NoneBeforeAgree(a: string, b: string, n: nat, sub: string, k: nat)
    requires n <= |a| && n <= |b| && a[..n] == b[..n]
    requires k + |sub| <= n + 1
    requires forall p :: 0 <= p < k ==> !IsAt(b, sub, p)
    ensures forall p :: 0 <= p < k ==> !IsAt(a, sub, p)
  {
    forall p | 0 <= p < k ensures !IsAt(a, sub, p) {
      IsAtPrefixAgree(a, b, n, sub, p);
    }
  }

  /** `s.includes(sub)`. */
  predicate Contains(s: string, sub: string) { IndexOf(s, sub) != -1 }

  lemma ContainsAt(s: string, sub: string, i: int)
    requires IsAt(s, sub, i)
    ensures Contains(s, sub)
  {
  }

  // ---------------------------------------------------------------------
  // Split and join
  // ---------------------------------------------------------------------

  /** `parts.join(sep)`. */
  function Join(parts: seq<string>, sep: string): string
  {
    if |parts| == 0 then []
    else if |parts| == 1 then parts[0]
    else parts[0] + sep + Join(parts[1..], sep)
  }

  /** A join starts with the first part. */
  lemma JoinStartsWithFirst(parts: seq<string>, sep: string)
    requires |parts| >= 1
    ensures StartsWith(Join(parts, sep), parts[0])
  {
    if |parts| > 1 {
      StartsWithAppend(parts[0], sep, parts[0]);
      StartsWithAppend(parts[0] + sep, Join(parts[1..], sep), parts[0]);
    }
  }

  /** Every character of a part survives in the joined text. */
  lemma {:induction false} PartInJoin(parts: seq<string>, sep: string, i: nat, k: nat)
    requires i < |parts| && k < |parts[i]|
    ensures parts[i][k] in Join(parts, sep)
    decreases |parts|
  {
    var j := Join(parts, sep);
    if |parts| == 1 {
      assert j == parts[0];
    } else if i == 0 {
      assert j == parts[0] + (sep + Join(parts[1..], sep));
      assert j[k] == parts[0][k];
    } else {
      var rest := Join(parts[1..], sep);
      assert parts[1..][i - 1] == parts[i];
      PartInJoin(parts[1..], sep, i - 1, k);
      var m :| 0 <= m < |rest| && rest[m] == parts[i][k];
      assert j == (parts[0] + sep) + rest;
      assert j[|parts[0] + sep| + m] == rest[m];
    }
  }

  /** Index of the first `c` in `s`, or `|s|` when there is none. */
  function FirstIndexOfChar(s: string, c: char): (k: nat)
    ensures k <= |s|
    ensures k < |s| ==> s[k] == c
    ensures forall i :: 0 <= i < k ==> s[i] != c
  {
    if s == [] then 0 else if s[0] == c then 0 else 1 + FirstIndexOfChar(s[1..], c)
  }

  /**
   * `s.split(sep)` for a one-character separator: never empty, no piece holds
   * the separator, and joining the pieces with it gives `s` back.
   */
  function Split(s: string, sep: char): (parts: seq<string>)
    ensures |parts| >= 1
    ensures forall p :: p in parts ==> sep !in p
    ensures Join(parts, [sep]) == s
    decreases |s|
  {
    var k := FirstIndexOfChar(s, sep);
    if k == |s| then [s]
    else
      var rest := Split(s[k + 1..], sep);
      assert s == s[..k] + [sep] + s[k + 1..];
      [s[..k]] + rest
  }

  /** Splitting a separator-free string gives it back whole. */
  lemma SplitNoSeparator(s: string, sep: char)
    requires sep !in s
    ensures Split(s, sep) == [s]
  {
    assert forall i :: 0 <= i < |s| ==> s[i] != sep;
  }

  /** Splitting is the inverse of joining separator-free pieces. */
  lemma {:induction false} SplitJoin(parts: seq<string>, sep: char)
    requires |parts| >= 1
    requires forall p :: p in parts ==> sep !in p
    ensures Split(Join(parts, [sep]), sep) == parts
    decreases |parts|
  {
    if |parts| == 1 {
      SplitNoSeparator(parts[0], sep);
    } else {
      var s := Join(parts, [sep]);
      assert sep !in parts[0];
      JoinFirstSeparator(parts[0], sep, Join(parts[1..], [sep]));
      assert s == parts[0] + [sep] + Join(parts[1..], [sep]);
      SplitJoin(parts[1..], sep);
    }
  }

  /** The first separator of `a + [sep] + b`, with `a` free of it, ends `a`. */
  lemma JoinFirstSeparator(a: string, sep: char, b: string)
    requires sep !in a
    ensures var s := a + [sep] + b;
            FirstIndexOfChar(s, sep) == |a| && s[..|a|] == a && s[|a| + 1..] == b
  {
    var s := a + [sep] + b;
    forall i | 0 <= i < |a| ensures s[i] != sep {
      assert s[i] == a[i] && a[i] in a;
    }
    assert s[|a|] == sep;
  }

  /** Replace every occurrence of one character by another (`split(a).join(b)` for chars). */
  function ReplaceChar(s: string, from: char, to: char): (r: string)
    ensures |r| == |s|
    ensures forall i :: 0 <= i < |s| ==> r[i] == (if s[i] == from then to else s[i])
  {
    if s == [] then [] else [if s[0] == from then to else s[0]] + ReplaceChar(s[1..], from, to)
  }

  /** Replacing a character that does not occur changes nothing. */
  lemma ReplaceAbsent(s: string, c: char, d: char)
    requires forall i :: 0 <= i < |s| ==> s[i] != c
    ensures ReplaceChar(s, c, d) == s
  {
  }

  /** `s.split(c).join(d)` for single characters replaces each `c` by `d`. */
  lemma {:induction false} SplitJoinReplaces(s: string, c: char, d: char)
    ensures Join(Split(s, c), [d]) == ReplaceChar(s, c, d)
    decreases |s|
  {
    var k := FirstIndexOfChar(s, c);
    if k == |s| {
      assert Split(s, c) == [s];
      assert ReplaceChar(s, c, d) == s;
    } else {
      var tail := s[k + 1..];
      var rest := Split(tail, c);
      assert Split(s, c) == [s[..k]] + rest;
      JoinCons(s[..k], rest, [d]);
      SplitJoinReplaces(tail, c, d);
      ReplaceAround(s, k, c, d);
    }
  }

  lemma JoinCons(x: string, rest: seq<string>, sep: string)
    requires |rest| >= 1
    ensures Join([x] + rest, sep) == x + sep + Join(rest, sep)
  {
    assert ([x] + rest)[1..] == rest;
  }

  lemma ReplaceAround(s: string, k: nat, c: char, d: char)
    requires k < |s| && s[k] == c && forall i :: 0 <= i < k ==> s[i] != c
    ensures ReplaceChar(s, c, d) == s[..k] + [d] + ReplaceChar(s[k + 1..], c, d)
  {
    var r := ReplaceChar(s, c, d);
    var t := s[..k] + [d] + ReplaceChar(s[k + 1..], c, d);
    assert |r| == |t|;
    forall i | 0 <= i < |r| ensures r[i] == t[i] {
      if i > k {
        assert s[k + 1..][i - k - 1] == s[i];
      }
    }
  }

  /** Does `s` start with `p`. */
  predicate StartsWith(s: string, p: string) { |p| <= |s| && s[..|p|] == p }

  /** The pieces of `a + m + b` sit where they were put. */
  lemma PartsOfConcat(a: string, m: string, b: string)
    ensures (a + m + b)[..|a|] == a
    ensures IsAt(a + m + b, m, |a|)
    ensures (a + m + b)[|a|..] == m + b
    ensures (a + m + b)[|a| + |m|..] == b
  {
    var s := a + m + b;
    assert |s| == |a| + |m| + |b|;
    forall k | 0 <= k < |a| ensures s[..|a|][k] == a[k] {
    }
    forall k | 0 <= k < |m| ensures s[|a|..|a| + |m|][k] == m[k] {
    }
    forall k | 0 <= k < |m| + |b| ensures s[|a|..][k] == (m + b)[k] {
    }
    forall k | 0 <= k < |b| ensures s[|a| + |m|..][k] == b[k] {
    }
  }

  /** Appending to a text keeps its prefixes. */
  lemma StartsWithAppend(s: string, t: string, p: string)
    requires StartsWith(s, p)
    ensures StartsWith(s + t, p)
  {
    assert (s + t)[..|p|] == s[..|p|];
  }

  /**
   * Joining a relative component onto a path with `/` (Rust's `PathBuf::join`
   * and Node's `path.join` alike, without normalisation).
   */
  function PathJoin(base: string, part: string): (r: string)
    ensures StartsWith(r, base)
    ensures |r| >= |base| + |part|
    ensures r[|r| - |part|..] == part
  {
    if base == [] || base[|base| - 1] == '/' then base + part else base + ['/'] + part
  }
}

=== FILE: supervisor.dfy ===
/**
 * The desktop shell's supervision of the Node.js backend
 * (projet-analyse-image-frontend/src-tauri/src/main.rs): the shared
 * `Option<Child>` slot, the health probe, the start / stop commands, the
 * window-close handler and the production start-up sequence.
 *
 * Processes, `curl` and the file system are not run: the outcome of each
 * spawn, kill and probe, and the set of existing paths, are parameters. Each
 * command is one atomic step on a `World`; `running` is the set of children
 * still alive, which lets the model say when a child becomes unreachable.
 */
module Supervisor {
  import opened Js
  import opened Strings
  import opened Seqs

  type U16 = x: int | 0 <= x < 0x1_0000

  datatype Handle = Handle(id: nat)

  datatype World = World(slot: Option<Handle>, running: set<Handle>, nextId: nat)

  /** Every child handed out so far has an id below `nextId`. */
  predicate Fresh(w: World)
  {
    (forall h :: h in w.running ==> h.id < w.nextId)
    && (w.slot.Some? ==> w.slot.value.id < w.nextId)
  }

  /** No live child has been lost: the only one still running is the one in the slot. */
  predicate NoOrphans(w: World)
  {
    forall h :: h in w.running ==> w.slot == Some(h)
  }

  const BackendPort: U16 := 3001
  const Endpoint: string := "http://localhost:3001"

  // ---------------------------------------------------------------------
  // Paths
  // ---------------------------------------------------------------------

  function ServerScript(backendDir: string): string
  {
    PathJoin(PathJoin(backendDir, "src"), "server.js")
  }

  /** A candidate backend directory is usable when it and its `src/server.js` exist. */
  predicate HasServer(dir: string, existing: set<string>)
  {
    dir in existing && ServerScript(dir) in existing
  }

  /** `Path::parent`, or `None` for the empty path and the root. */
  function Parent(p: string): Option<string>
  {
    if p == [] || p == "/" then None
    else LastSlashPrefix(p, |p|)
  }

  function LastSlashPrefix(p: string, k: nat): Option<string>
    requires k <= |p|
    decreases k
  {
    if k == 0 then Some([])
    else if p[k - 1] == '/' then Some(if k == 1 then "/" else p[..k - 1])
    else LastSlashPrefix(p, k - 1)
  }

  const NodeTriple: string := "node-x86_64-pc-windows-msvc.exe"

  /** The six places a bundled Node.js runtime is looked for, in order. */
  function NodeCandidates(exeDir: string, appDir: string): seq<string>
  {
    [ PathJoin(exeDir, NodeTriple),
      PathJoin(exeDir, "node.exe"),
      PathJoin(PathJoin(exeDir, "bin"), NodeTriple),
      PathJoin(PathJoin(exeDir, "bin"), "node.exe"),
      PathJoin(appDir, NodeTriple),
      PathJoin(appDir, "node.exe") ]
  }

  /** The runtime path: the first existing candidate, else the system `node.exe`. */
  function ResolveNode(exeDir: string, appDir: string, existing: set<string>): (r: string)
    ensures var c := NodeCandidates(exeDir, appDir);
            (exists i :: 0 <= i < 6 && c[i] in existing && r == c[i]
                         && forall j :: 0 <= j < i ==> c[j] !in existing)
            || (r == "node.exe" && forall i :: 0 <= i < 6 ==> c[i] !in existing)
  {
    var c := NodeCandidates(exeDir, appDir);
    match FirstWhere(c, p => p in existing)
    case Some(p) => p
    case None => "node.exe"
  }

  function ResourcesBackend(exeDir: string): string
  {
    PathJoin(PathJoin(exeDir, "resources"), "backend")
  }

  /** Where the backend is looked for when it is not under `resources`. */
  function OtherBackendDirs(exeDir: string, appDir: string): seq<string>
  {
    var appParent := match Parent(appDir) case Some(p) => p case None => appDir;
    [PathJoin(exeDir, "backend"), PathJoin(appDir, "backend"), PathJoin(appParent, "backend")]
  }

  /**
   * The backend directory: `resources/backend` when it holds the server, else
   * the first other location that does, else `resources/backend` anyway.
   */
  function ResolveBackendDir(exeDir: string, appDir: string, existing: set<string>): (r: string)
    ensures HasServer(ResourcesBackend(exeDir), existing) ==> r == ResourcesBackend(exeDir)
    ensures !HasServer(ResourcesBackend(exeDir), existing) ==>
              var o := OtherBackendDirs(exeDir, appDir);
              (exists i :: 0 <= i < 3 && r == o[i] && HasServer(o[i], existing)
                           && forall j :: 0 <= j < i ==> !HasServer(o[j], existing))
              || (r == ResourcesBackend(exeDir) && forall i :: 0 <= i < 3 ==> !HasServer(o[i], existing))
  {
    var res := ResourcesBackend(exeDir);
    if HasServer(res, existing) then res
    else
      match FirstWhere(OtherBackendDirs(exeDir, appDir), d => HasServer(d, existing))
      case Some(d) => d
      case None => res
  }

  // ---------------------------------------------------------------------
  // Health probe
  // ---------------------------------------------------------------------

  /** What running `curl -w %{http_code}` yields: its stdout, or a failure to run it. */
  datatype Probe = Output(stdout: string) | CommandFailed

  datatype StatusReport = StatusReport(status: string, port: int, endpoint: string, timestamp: string)

  /** `check_backend_status`: the untrimmed probe output is compared with "200". */
  function CheckBackendStatus(probe: Probe, timestamp: string): (r: Result<StatusReport, string>)
    ensures r.Ok?
    ensures r.value.port == 3001 && r.value.endpoint == Endpoint && r.value.timestamp == timestamp
    ensures r.value.status == "running" <==> probe == Output("200")
    ensures r.value.status == "unreachable" <==> probe == CommandFailed
    ensures r.value.status == "not_responding" <==> (probe.Output? && probe.stdout != "200")
  {
    var status := match probe
      case Output(out) => if out == "200" then "running" else "not_responding"
      case CommandFailed => "unreachable";
    Ok(StatusReport(status, 3001, Endpoint, timestamp))
  }

  /** Rust's `char::is_whitespace` (the Unicode White_Space property). */
  predicate IsRustSpace(c: char)
  {
    ('\t' <= c <= '\r') || c == ' ' || c == '\U{0085}' || c == '\U{00A0}' || c == '\U{1680}'
    || ('\U{2000}' <= c <= '\U{200A}') || c == '\U{2028}' || c == '\U{2029}'
    || c == '\U{202F}' || c == '\U{205F}' || c == '\U{3000}'
  }

  /** `str::trim`. */
  function RustTrim(s: string): string
  {
    TrimBy(s, IsRustSpace)
  }

  /** The start-up reuse test: the trimmed probe output is "200". */
  predicate AlreadyRunning(probe: Probe)
  {
    probe.Output? && RustTrim(probe.stdout) == "200"
  }

  /** A backend the status command calls running is also reused at start-up. */
  lemma RunningImpliesReused(probe: Probe, timestamp: string)
    requires CheckBackendStatus(probe, timestamp).value.status == "running"
    ensures AlreadyRunning(probe)
  {
    var out := "200";
    assert probe.stdout == out;
    assert !IsRustSpace(out[0]) && !IsRustSpace(out[2]);
    TrimByKeeps(out, IsRustSpace);
  }

  /**
   * The two probes disagree on output with a trailing newline: start-up reuses
   * the backend while the status command reports it as not responding.
   */
  lemma TrailingNewlineDisagreement()
    ensures AlreadyRunning(Output("200\n"))
    ensures CheckBackendStatus(Output("200\n"), "").value.status == "not_responding"
  {
    var s := "200\n";
    assert IsRustSpace(s[3]);
    assert s[..3] == "200";
    assert RustTrim(s[..3]) == "200";
  }

  // ---------------------------------------------------------------------
  // Commands
  // ---------------------------------------------------------------------

  /** The process the shell asks the OS to start. */
  datatype SpawnRequest = SpawnRequest(program: string, script: string, cwd: string, env: map<string, string>)

  datatype SpawnOutcome = Spawned | SpawnFailed(reason: string)

  datatype KillOutcome = Killed | KillFailed(reason: string)

  /** A new child is installed in the slot; whatever was there is overwritten. */
  function Install(w: World): (w': World)
    ensures w'.slot == Some(Handle(w.nextId)) && w'.nextId == w.nextId + 1
    ensures w'.running == w.running + {Handle(w.nextId)}
  {
    World(Some(Handle(w.nextId)), w.running + {Handle(w.nextId)}, w.nextId + 1)
  }

  /**
   * `start_backend_server(port, backend_path)`. `windows` selects the program
   * name; `existing` is the set of paths present on disk.
   */
  function StartBackendServer(w: World, port: U16, backendPath: string, windows: bool,
                              existing: set<string>, spawn: SpawnOutcome)
    : (r: (World, Result<U16, string>, Option<SpawnRequest>))
    ensures ServerScript(backendPath) !in existing ==>
              r == (w, Err("Backend server.js not found at: " + ServerScript(backendPath)), None)
    ensures ServerScript(backendPath) in existing ==>
              r.2.Some? && r.2.value.script == ServerScript(backendPath) && r.2.value.cwd == backendPath
              && r.2.value.program == (if windows then "node.exe" else "node")
              && r.2.value.env == map["PORT" := IntToString(port), "TAURI_APP_DATA" := backendPath]
    ensures ServerScript(backendPath) in existing && spawn == Spawned ==>
              r.1 == Ok(port) && r.0 == Install(w)
    ensures spawn.SpawnFailed? ==> r.0 == w && r.1.Err?
    ensures r.1.Ok? <==> ServerScript(backendPath) in existing && spawn == Spawned
  {
    var script := ServerScript(backendPath);
    if script !in existing then
      (w, Err("Backend server.js not found at: " + script), None)
    else
      var req := SpawnRequest(if windows then "node.exe" else "node", script, backendPath,
                              map["PORT" := IntToString(port), "TAURI_APP_DATA" := backendPath]);
      match spawn
      case Spawned => (Install(w), Ok(port), Some(req))
      case SpawnFailed(e) => (w, Err("Failed to start backend server: " + e), Some(req))
  }

  /** `stop_backend_server`: the handle is taken out of the slot before the kill. */
  function StopBackendServer(w: World, kill: KillOutcome): (r: (World, Result<(), string>))
    ensures r.0.slot == None && r.0.nextId == w.nextId
    ensures w.slot == None ==> r == (w, Ok(()))
    ensures w.slot.Some? && kill == Killed ==> r.1 == Ok(()) && r.0.running == w.running - {w.slot.value}
    ensures w.slot.Some? && kill.KillFailed? ==> r.1.Err? && r.0.running == w.running
    ensures r.0.running <= w.running
  {
    match w.slot
    case None => (w, Ok(()))
    case Some(h) =>
      match kill
      case Killed => (World(None, w.running - {h}, w.nextId), Ok(()))
      case KillFailed(e) => (World(None, w.running, w.nextId), Err("Failed to stop backend server: " + e))
  }

  /** The close-requested handler: take the handle, try to kill it, ignore the outcome. */
  function WindowClose(w: World, kill: KillOutcome): (w': World)
    ensures w'.slot == None && w'.nextId == w.nextId
    ensures w'.running == if w.slot.Some? && kill == Killed then w.running - {w.slot.value} else w.running
  {
    match w.slot
    case None => w
    case Some(h) => World(None, if kill == Killed then w.running - {h} else w.running, w.nextId)
  }

  /** Starting over an occupied slot loses the running child: it can no longer be stopped. */
  lemma StartOverRunningChildOrphansIt(w: World, port: U16, backendPath: string, windows: bool,
                                       existing: set<string>)
    requires Fresh(w) && w.slot.Some? && w.slot.value in w.running
    requires ServerScript(backendPath) in existing
    ensures var w' := StartBackendServer(w, port, backendPath, windows, existing, Spawned).0;
            w.slot.value in w'.running && !NoOrphans(w')
  {
    var w' := StartBackendServer(w, port, backendPath, windows, existing, Spawned).0;
    assert w'.slot == Some(Handle(w.nextId));
    assert w.slot.value != Handle(w.nextId);
  }

  // ---------------------------------------------------------------------
  // Command traces
  // ---------------------------------------------------------------------

  datatype Command =
    | Start(port: U16, backendPath: string, windows: bool, existing: set<string>, spawn: SpawnOutcome)
    | Stop(kill: KillOutcome)
    | Close(kill: KillOutcome)

  function Step(w: World, c: Command): World
  {
    match c
    case Start(p, b, win, ex, sp) => StartBackendServer(w, p, b, win, ex, sp).0
    case Stop(k) => StopBackendServer(w, k).0
    case Close(k) => WindowClose(w, k)
  }

  function Run(w: World, cs: seq<Command>): World
    decreases |cs|
  {
    if cs == [] then w else Run(Step(w, cs[0]), cs[1..])
  }

  /**
   * A command is guarded when a start finds no live child in the slot and a
   * stop or close that finds a child manages to kill it.
   */
  predicate Guarded(w: World, c: Command)
  {
    match c
    case Start(_, _, _, _, _) => w.slot == None || w.slot.value !in w.running
    case Stop(k) => w.slot.Some? ==> k == Killed
    case Close(k) => w.slot.Some? ==> k == Killed
  }

  predicate GuardedRun(w: World, cs: seq<Command>)
    decreases |cs|
  {
    cs == [] || (Guarded(w, cs[0]) && GuardedRun(Step(w, cs[0]), cs[1..]))
  }

  /** Every command keeps handles fresh, and guarded commands lose no child. */
  lemma StepPreserves(w: World, c: Command)
    requires Fresh(w)
    ensures Fresh(Step(w, c))
    ensures NoOrphans(w) && Guarded(w, c) ==> NoOrphans(Step(w, c))
  {
    if NoOrphans(w) && Guarded(w, c) && c.Start? && w.slot.Some? {
      assert w.running == {};
    }
  }

  /** A stop whose kill fails has already emptied the slot: the child is lost. */
  lemma FailedStopOrphansChild(w: World, reason: string)
    requires w.slot.Some? && w.slot.value in w.running
    ensures var w' := StopBackendServer(w, KillFailed(reason)).0;
            w.slot.value in w'.running && !NoOrphans(w')
  {
  }

  /**
   * As long as the backend is only started while no live child is held, no
   * child is ever orphaned, whatever the outcome of each spawn and kill. The
   * launcher does not keep to this: see RetryAfterNotReadyOrphansChild.
   */
  lemma {:induction false} GuardedRunHasNoOrphans(w: World, cs: seq<Command>)
    requires Fresh(w) && NoOrphans(w)
    requires GuardedRun(w, cs)
    ensures Fresh(Run(w, cs)) && NoOrphans(Run(w, cs))
    decreases |cs|
  {
    if cs != [] {
      StepPreserves(w, cs[0]);
      GuardedRunHasNoOrphans(Step(w, cs[0]), cs[1..]);
    }
  }

  /**
   * The launcher's retry: a start whose child spawned but never answered the
   * health poll throws, and the catch starts again while the first child is
   * still held. The second start is not guarded and loses the first child.
   */
  lemma RetryAfterNotReadyOrphansChild(w: World, port: U16, backendPath: string, windows: bool,
                                        existing: set<string>)
    requires Fresh(w) && NoOrphans(w) && w.slot == None
    requires ServerScript(backendPath) in existing
    ensures var cs := [Start(port, backendPath, windows, existing, Spawned),
                       Start(port, backendPath, windows, existing, Spawned)];
            !GuardedRun(w, cs) && Handle(w.nextId) in Run(w, cs).running && !NoOrphans(Run(w, cs))
  {
    var start := Start(port, backendPath, windows, existing, Spawned);
    var cs := [start, start];
    var w1 := Step(w, start);
    assert w1 == Install(w);
    assert !Guarded(w1, start);
    assert cs[1..] == [start];
    StartOverRunningChildOrphansIt(w1, port, backendPath, windows, existing);
    var w2 := Step(w1, start);
    assert Run(w, cs) == Run(w1, [start]) == Run(w2, []) == w2;
  }

  // ---------------------------------------------------------------------
  // Start-up sequence (release builds)
  // ---------------------------------------------------------------------

  datatype SetupInput = SetupInput(
    debugBuild: bool, windows: bool, exeDir: string, appDir: string,
    existing: set<string>, probe: Probe, spawn: SpawnOutcome)

  datatype SetupOutcome =
    | DevModeSkipped
    | NoServerScript(expected: string)
    | ReusedRunning
    | StartedChild(request: SpawnRequest)
    | FrontendOnly(request: SpawnRequest)

  /**
   * The setup hook: debug builds leave the backend to the launcher; release
   * builds locate the backend and runtime, give up without `server.js`, reuse
   * a backend already answering, and otherwise spawn one on port 3001.
   */
  function Setup(w: World, inp: SetupInput): (r: (World, SetupOutcome))
    ensures inp.debugBuild ==> r == (w, DevModeSkipped)
    ensures r.1.StartedChild? <==> r.0 != w
    ensures r.1.StartedChild? ==> r.0 == Install(w) && inp.spawn == Spawned && !AlreadyRunning(inp.probe)
    ensures r.1.StartedChild? || r.1.FrontendOnly? ==>
              var backend := ResolveBackendDir(inp.exeDir, inp.appDir, inp.existing);
              var req := r.1.request;
              req.program == ResolveNode(inp.exeDir, inp.appDir, inp.existing)
              && req.cwd == backend && req.script == ServerScript(backend) && ServerScript(backend) in inp.existing
              && req.env == map["PORT" := "3001", "NODE_ENV" := "production",
                                "TAURI_APP_DATA" := inp.appDir, "DEBUG" := "biome:*"]
    ensures !inp.debugBuild && AlreadyRunning(inp.probe) ==> r.0 == w
    ensures !inp.debugBuild ==>
              var script := ServerScript(ResolveBackendDir(inp.exeDir, inp.appDir, inp.existing));
              (script !in inp.existing ==> r == (w, NoServerScript(script)))
              && (script in inp.existing && AlreadyRunning(inp.probe) ==> r == (w, ReusedRunning))
              && (script in inp.existing && !AlreadyRunning(inp.probe) && inp.spawn == Spawned ==>
                    r.0 == Install(w) && r.1.StartedChild?)
              && (script in inp.existing && !AlreadyRunning(inp.probe) && inp.spawn.SpawnFailed? ==>
                    r.0 == w && r.1.FrontendOnly?)
  {
    if inp.debugBuild then (w, DevModeSkipped)
    else
      var backend := ResolveBackendDir(inp.exeDir, inp.appDir, inp.existing);
      var node := ResolveNode(inp.exeDir, inp.appDir, inp.existing);
      var script := ServerScript(backend);
      if script !in inp.existing then (w, NoServerScript(script))
      else if AlreadyRunning(inp.probe) then (w, ReusedRunning)
      else
        var req := SpawnRequest(node, script, backend,
                                map["PORT" := "3001", "NODE_ENV" := "production",
                                    "TAURI_APP_DATA" := inp.appDir, "DEBUG" := "biome:*"]);
        match inp.spawn
        case Spawned => (Install(w), StartedChild(req))
        case SpawnFailed(_) => (w, FrontendOnly(req))
  }
}

=== FILE: table_view.dfy ===
/**
 * The project table of projet-analyse-image-frontend/src/components/ProjectTableView.js:
 * which projects it lists (the dashboard's search results or the local
 * search, then the status, software, group and output-type filters), the
 * order it lists them in, and the sort and filter controls. Text columns
 * hold the empty string where the database has null; dates are epoch
 * milliseconds, `None` where the column is empty.
 */
module TableView {
  import opened Strings
  import opened Js
  import StatusNames
  import Sorting

  datatype Row = Row(
    name: string,
    description: string,
    userName: string,
    groupName: string,
    software: string,
    status: string,
    outputType: string,
    journal: seq<string>,
    minutes: int,
    lastUpdated: Option<int>,
    startDate: Option<int>,
    creationDate: Option<int>,
    other: map<string, Value>)  // the remaining columns, for a generic sort

  /** The local filter state and the sort settings. */
  datatype View = View(
    searchTerm: string,
    status: string,
    software: string,
    group: string,
    outputType: string,
    sortField: Field,
    asc: bool)

  datatype Field =
    | TimeSpent | LastUpdated | StartDate | CreationDate
    | Status | Name | UserName | GroupName | Software | OutputType
    | Other(column: string)

  // ---------------------------------------------------------------------
  // Search
  // ---------------------------------------------------------------------

  /** The texts the search looks through: five columns, then every journal entry. */
  function SearchFields(r: Row): seq<string>
  {
    [r.name, r.description, r.userName, r.groupName, r.software] + r.journal
  }

  /** `fields.filter(Boolean).some(f => f.toLowerCase().includes(needle))`. */
  predicate AnyContains(fields: seq<string>, needle: string)
    decreases |fields|
  {
    fields != [] && ((fields[0] != "" && Contains(ToLower(fields[0]), needle)) || AnyContains(fields[1..], needle))
  }

  /** Some non-empty field, in lower case, contains the needle. */
  lemma {:induction false} AnyContainsIff(fields: seq<string>, needle: string)
    ensures AnyContains(fields, needle) <==>
            exists i :: 0 <= i < |fields| && fields[i] != "" && Contains(ToLower(fields[i]), needle)
    decreases |fields|
  {
    if fields != [] {
      AnyContainsIff(fields[1..], needle);
      if exists i :: 0 <= i < |fields| && fields[i] != "" && Contains(ToLower(fields[i]), needle) {
        var i :| 0 <= i < |fields| && fields[i] != "" && Contains(ToLower(fields[i]), needle);
        if i > 0 {
          assert fields[1..][i - 1] == fields[i];
        }
      }
    }
  }

  /** A row matches a search term when one of its texts contains it, ignoring case. */
  predicate Matches(term: string, r: Row)
  {
    AnyContains(SearchFields(r), ToLower(term))
  }

  /** A term found in a journal entry finds the project. */
  lemma JournalHitMatches(term: string, r: Row, k: nat)
    requires k < |r.journal| && r.journal[k] != "" && Contains(ToLower(r.journal[k]), ToLower(term))
    ensures Matches(term, r)
  {
    var fs := SearchFields(r);
    assert fs[5 + k] == r.journal[k];
    AnyContainsIff(fs, ToLower(term));
  }

  /** Case does not matter: an upper-case spelling of the term finds the same rows. */
  lemma SearchIgnoresCase(term: string, r: Row)
    ensures Matches(ToLower(term), r) == Matches(term, r)
  {
    ToLowerIdempotent(term);
  }

  // ---------------------------------------------------------------------
  // Filters
  // ---------------------------------------------------------------------

  /** The four column filters; an empty filter lets every row through. */
  predicate PassesColumns(v: View, r: Row)
  {
    (v.status == "" || r.status == v.status)
    && (v.software == "" || r.software == v.software)
    && (v.group == "" || r.groupName == v.group)
    && (v.outputType == "" || r.outputType == v.outputType)
  }

  /** Rows passing the column filters, in order. */
  function KeepColumns(rows: seq<Row>, v: View): (r: seq<Row>)
    ensures |r| <= |rows|
    ensures forall x :: multiset(r)[x] == if PassesColumns(v, x) then multiset(rows)[x] else 0
    decreases |rows|
  {
    if rows == [] then []
    else
      assert rows == [rows[0]] + rows[1..];
      var rest := KeepColumns(rows[1..], v);
      if PassesColumns(v, rows[0]) then [rows[0]] + rest else rest
  }

  /** Rows matching the search term, in order. */
  function KeepMatches(rows: seq<Row>, term: string): (r: seq<Row>)
    ensures |r| <= |rows|
    ensures forall x :: multiset(r)[x] == if Matches(term, x) then multiset(rows)[x] else 0
    decreases |rows|
  {
    if rows == [] then []
    else
      assert rows == [rows[0]] + rows[1..];
      var rest := KeepMatches(rows[1..], term);
      if Matches(term, rows[0]) then [rows[0]] + rest else rest
  }

  /** The rows the filters start from: the dashboard's results when given, else the projects searched. */
  function Base(projects: seq<Row>, v: View, searchResults: Option<seq<Row>>): seq<Row>
  {
    if searchResults.Some? then searchResults.value
    else if v.searchTerm != "" then KeepMatches(projects, v.searchTerm)
    else projects
  }

  /**
   * The rows `filteredProjects` lists before sorting: each occurs as often
   * as in the starting rows when it passes every filter, and not at all
   * otherwise.
   */
  function Visible(projects: seq<Row>, v: View, searchResults: Option<seq<Row>>): (r: seq<Row>)
    ensures searchResults.Some? ==>
              forall x :: multiset(r)[x] == if PassesColumns(v, x) then multiset(searchResults.value)[x] else 0
    ensures searchResults.None? ==>
              forall x :: multiset(r)[x] ==
                if PassesColumns(v, x) && (v.searchTerm == "" || Matches(v.searchTerm, x)) then multiset(projects)[x] else 0
  {
    KeepColumns(Base(projects, v, searchResults), v)
  }

  /** Every listed row passes each active filter, and came from the starting rows. */
  lemma VisibleRowsPass(projects: seq<Row>, v: View, searchResults: Option<seq<Row>>, x: Row)
    requires x in Visible(projects, v, searchResults)
    ensures PassesColumns(v, x)
    ensures searchResults.Some? ==> x in searchResults.value
    ensures searchResults.None? ==> x in projects && (v.searchTerm == "" || Matches(v.searchTerm, x))
  {
    assert multiset(Visible(projects, v, searchResults))[x] > 0;
  }

  /** With search results present, neither the projects nor the search term matter. */
  lemma SearchResultsReplace(p1: seq<Row>, p2: seq<Row>, v: View, term: string, results: seq<Row>)
    ensures Visible(p1, v, Some(results)) == Visible(p2, v.(searchTerm := term), Some(results))
  {
    KeepColumnsIgnoresSearch(results, v, term);
  }

  lemma {:induction false} KeepColumnsIgnoresSearch(rows: seq<Row>, v: View, term: string)
    ensures KeepColumns(rows, v) == KeepColumns(rows, v.(searchTerm := term))
    decreases |rows|
  {
    if rows != [] {
      KeepColumnsIgnoresSearch(rows[1..], v, term);
    }
  }

  // ---------------------------------------------------------------------
  // Sorting
  // ---------------------------------------------------------------------

  /** `new Date(x)` of a filled column, or `new Date(0)`, as milliseconds. */
  function DateKey(d: Option<int>): int
  {
    if d.Some? then d.value else 0
  }

  /** `mapStatusName(status || '')`. */
  function MappedStatus(status: string): (r: string)
    ensures r != ""
    ensures StatusNames.MapStatus(Str(status)) == Str(r)
  {
    var m := StatusNames.Legacy(status);
    if m.Some? then m.value else if status != "" then status else "Preparing"
  }

  /** What the comparator compares for a column: a number of minutes or milliseconds, or lower-case text. */
  function SortKey(f: Field, r: Row): (k: Sorting.Key)
    ensures f in {TimeSpent, LastUpdated, StartDate, CreationDate} <==> k.Num?
  {
    match f
    case TimeSpent => Sorting.Num(r.minutes)
    case LastUpdated => Sorting.Num(DateKey(r.lastUpdated))
    case StartDate => Sorting.Num(DateKey(r.startDate))
    case CreationDate => Sorting.Num(DateKey(r.creationDate))
    case Status => Sorting.Text(ToLower(MappedStatus(r.status)))
    case Name => Sorting.Text(ToLower(r.name))
    case UserName => Sorting.Text(ToLower(r.userName))
    case GroupName => Sorting.Text(ToLower(r.groupName))
    case Software => Sorting.Text(ToLower(r.software))
    case OutputType => Sorting.Text(ToLower(r.outputType))
    case Other(c) => Sorting.Text(ToLower(ToStr(Or(Get(r.other, c), Str("")))))
  }

  /** `filteredProjects`: the visible rows, sorted by the chosen column in the chosen direction. */
  function Table(projects: seq<Row>, v: View, searchResults: Option<seq<Row>>): (r: seq<Row>)
    ensures multiset(r) == multiset(Visible(projects, v, searchResults))
    ensures forall i, j :: 0 <= i < j < |r| ==>
              Sorting.InOrder(v.asc, SortKey(v.sortField, r[i]), SortKey(v.sortField, r[j]))
  {
    Sorting.Sort(Visible(projects, v, searchResults), (x: Row) => SortKey(v.sortField, x), v.asc)
  }

  /** Legacy and current names of a status sort together: 'Finished' and 'Completed' have the same key. */
  lemma LegacyStatusSortsWithCurrent(a: Row, b: Row)
    requires a.status == "Finished" && b.status == "Completed"
    ensures SortKey(Status, a) == SortKey(Status, b)
  {
    assert StatusNames.Legacy(a.status) == Some("Completed");
    assert MappedStatus(a.status) == "Completed";
    assert StatusNames.Legacy(b.status) == None;
    assert MappedStatus(b.status) == "Completed";
  }

  /**
   * The Output column sorts by the same `output_type` the output filter reads,
   * so the rows the filter keeps share one sort key.
   */
  lemma OutputFilterSharesSortKey(v: View, a: Row, b: Row)
    requires v.outputType != "" && PassesColumns(v, a) && PassesColumns(v, b)
    ensures SortKey(OutputType, a) == SortKey(OutputType, b)
  {
  }

  /** Output types that differ apart from case sort apart, as the other text columns do. */
  lemma OutputTypesSortApart(a: Row, b: Row)
    requires ToLower(a.outputType) != ToLower(b.outputType)
    ensures SortKey(OutputType, a) != SortKey(OutputType, b)
  {
  }

  /** Without filters, search or dashboard results, every project is listed. */
  lemma NoFiltersListsAll(projects: seq<Row>, v: View)
    requires v.searchTerm == "" && v.status == "" && v.software == "" && v.group == "" && v.outputType == ""
    ensures multiset(Table(projects, v, None)) == multiset(projects)
  {
    var r := Visible(projects, v, None);
    assert forall x :: multiset(r)[x] == multiset(projects)[x];
  }

  // ---------------------------------------------------------------------
  // Controls
  // ---------------------------------------------------------------------

  /** `handleSort`: choose the column and flip the direction, whichever column was chosen before. */
  function HandleSort(v: View, f: Field): (r: View)
    ensures r.sortField == f && r.asc == !v.asc
    ensures r.(sortField := v.sortField, asc := v.asc) == v
  {
    v.(sortField := f, asc := !v.asc)
  }

  /** Switching to another column also flips the direction: a descending table becomes ascending. */
  lemma SwitchingColumnFlips(v: View, f: Field)
    requires v.sortField != f
    ensures HandleSort(v, f).asc != v.asc
  {
  }

  /** Clicking the same header twice restores the original order. */
  lemma SortTwiceRestores(v: View)
    ensures HandleSort(HandleSort(v, v.sortField), v.sortField) == v
  {
  }

  /** `hasActiveFilters`. */
  predicate HasActiveFilters(v: View, searchResults: Option<seq<Row>>)
  {
    v.searchTerm != "" || v.status != "" || v.software != "" || v.group != "" || v.outputType != ""
    || searchResults.Some?
  }

  /**
   * `resetFilters`: clear the five local filters, and, when the page has
   * installed `window.setTableFilter` (the landing page always does), clear
   * the page's table filters too, which drops the dashboard's search
   * results. The sort settings stay. The result is the view and the search
   * results the table shows afterwards.
   */
  function ResetFilters(v: View, searchResults: Option<seq<Row>>, hooked: bool): (r: (View, Option<seq<Row>>))
    ensures r.0.searchTerm == "" && r.0.status == "" && r.0.software == "" && r.0.group == "" && r.0.outputType == ""
    ensures r.0.sortField == v.sortField && r.0.asc == v.asc
    ensures hooked ==> r.1.None?
    ensures !hooked ==> r.1 == searchResults
  {
    (View("", "", "", "", "", v.sortField, v.asc), if hooked then None else searchResults)
  }

  /** Inside the landing page a reset leaves no filter active, dashboard results included. */
  lemma ResetClearsAllFilters(v: View, searchResults: Option<seq<Row>>)
    ensures var r := ResetFilters(v, searchResults, true);
            !HasActiveFilters(r.0, r.1)
  {
  }

  /** Without the page's hook, filters count as active after a reset exactly while dashboard results remain. */
  lemma UnhookedResetKeepsSearchResults(v: View, searchResults: Option<seq<Row>>)
    ensures var r := ResetFilters(v, searchResults, false);
            HasActiveFilters(r.0, r.1) <==> searchResults.Some?
  {
  }

  /** Inside the landing page every project is listed again after any reset. */
  lemma ResetListsAll(projects: seq<Row>, v: View, searchResults: Option<seq<Row>>)
    ensures var r := ResetFilters(v, searchResults, true);
            multiset(Table(projects, r.0, r.1)) == multiset(projects)
  {
    var r := ResetFilters(v, searchResults, true);
    NoFiltersListsAll(projects, r.0);
  }
}

=== FILE: theme.dfy ===
/**
 * The light/dark switch of projet-analyse-image-frontend/src/contexts/ThemeContext.js:
 * the first choice (saved preference, else the system's), a manual toggle,
 * reactions to the system setting, and the classes put on `<html>` and
 * `<body>`. Local storage is a map; the system preference is a parameter.
 */
module Theme {
  import opened Js

  const ThemeKey: string := "biome_theme"
  const OverrideKey: string := "biome_theme_manual_override"

  const Dark: string := "dark"
  const Day: string := "theme-pandora-day"
  const Night: string := "theme-pandora-night"

  /** The class lists of the document element and the body. */
  datatype Classes = Classes(html: set<string>, body: set<string>)

  datatype ThemeState = ThemeState(isDarkMode: bool, storage: map<string, string>, classes: Classes)

  /** `localStorage.getItem(key)` is truthy: present and not empty. */
  predicate Stored(storage: map<string, string>, key: string)
  {
    key in storage && storage[key] != ""
  }

  /** `theme`: 'dark' or 'light'. */
  function ThemeName(dark: bool): (t: string)
    ensures t == "dark" <==> dark
    ensures t == "light" <==> !dark
  {
    if dark then "dark" else "light"
  }

  /**
   * `applyTheme`: dark mode puts 'dark' on both elements and the night class
   * on the body, without the day class; light mode does the reverse. No
   * other class changes.
   */
  function ApplyTheme(c: Classes, dark: bool): (r: Classes)
    ensures (Dark in r.html) == dark && (Dark in r.body) == dark
    ensures (Night in r.body) == dark && (Day in r.body) == !dark
    ensures forall x :: x != Dark ==> (x in r.html <==> x in c.html)
    ensures forall x :: x != Dark && x != Day && x != Night ==> (x in r.body <==> x in c.body)
  {
    if dark then Classes(c.html + {Dark}, c.body + {Dark, Night} - {Day})
    else Classes(c.html - {Dark}, c.body - {Dark, Night} + {Day})
  }

  /** Only the last application counts. */
  lemma ApplyThemeLastWins(c: Classes, a: bool, b: bool)
    ensures ApplyTheme(ApplyTheme(c, a), b) == ApplyTheme(c, b)
  {
  }

  /** The page shows the mode the state holds, and storage remembers it. */
  predicate Consistent(s: ThemeState)
  {
    s.classes == ApplyTheme(s.classes, s.isDarkMode)
    && ThemeKey in s.storage && s.storage[ThemeKey] == ThemeName(s.isDarkMode)
  }

  /**
   * The first effect: a saved preference decides; without one the system's
   * preference is used and saved.
   */
  function Init(storage: map<string, string>, systemDark: bool, c: Classes): (s: ThemeState)
    ensures Stored(storage, ThemeKey) ==> s.isDarkMode == (storage[ThemeKey] == "dark") && s.storage == storage
    ensures !Stored(storage, ThemeKey) ==> s.isDarkMode == systemDark && s.storage == storage[ThemeKey := ThemeName(systemDark)]
    ensures s.classes == ApplyTheme(c, s.isDarkMode)
  {
    if Stored(storage, ThemeKey) then
      ThemeState(storage[ThemeKey] == "dark", storage, ApplyTheme(c, storage[ThemeKey] == "dark"))
    else
      ThemeState(systemDark, storage[ThemeKey := ThemeName(systemDark)], ApplyTheme(c, systemDark))
  }

  /** A saved value other than 'dark' or 'light' shows light and is left as it is. */
  lemma UnknownSavedThemeIsLight(storage: map<string, string>, systemDark: bool, c: Classes)
    requires ThemeKey in storage && storage[ThemeKey] !in {"", "dark", "light"}
    ensures var s := Init(storage, systemDark, c);
            !s.isDarkMode && !Consistent(s)
  {
  }

  /** `toggleDarkMode`: flip the mode, show and save it, and record the manual override. */
  function Toggle(s: ThemeState): (r: ThemeState)
    ensures r.isDarkMode == !s.isDarkMode
    ensures r.classes == ApplyTheme(s.classes, r.isDarkMode)
    ensures r.storage == s.storage[ThemeKey := ThemeName(r.isDarkMode)][OverrideKey := "true"]
  {
    var dark := !s.isDarkMode;
    ThemeState(dark, s.storage[ThemeKey := ThemeName(dark)][OverrideKey := "true"], ApplyTheme(s.classes, dark))
  }

  /** A change of the system setting: followed and saved unless the user has toggled. */
  function SystemChange(s: ThemeState, matches: bool): (r: ThemeState)
    ensures Stored(s.storage, OverrideKey) ==> r == s
    ensures !Stored(s.storage, OverrideKey) ==>
              r.isDarkMode == matches && r.classes == ApplyTheme(s.classes, matches)
              && r.storage == s.storage[ThemeKey := ThemeName(matches)]
  {
    if Stored(s.storage, OverrideKey) then s
    else ThemeState(matches, s.storage[ThemeKey := ThemeName(matches)], ApplyTheme(s.classes, matches))
  }

  /** The first choice, a toggle and a system change all keep page, state and storage in agreement. */
  lemma InitConsistent(storage: map<string, string>, systemDark: bool, c: Classes)
    requires ThemeKey in storage ==> storage[ThemeKey] in {"", "dark", "light"}
    ensures Consistent(Init(storage, systemDark, c))
  {
  }

  lemma ToggleConsistent(s: ThemeState)
    ensures Consistent(Toggle(s))
  {
  }

  lemma SystemChangeConsistent(s: ThemeState, matches: bool)
    requires Consistent(s)
    ensures Consistent(SystemChange(s, matches))
  {
  }

  /** After a toggle the system setting no longer has any effect. */
  lemma ToggleIgnoresSystem(s: ThemeState, matches: bool)
    ensures SystemChange(Toggle(s), matches) == Toggle(s)
  {
  }

  /** Toggling twice restores the mode and the page, leaving the override recorded. */
  lemma ToggleTwice(s: ThemeState)
    requires Consistent(s)
    ensures var t := Toggle(Toggle(s));
            t.isDarkMode == s.isDarkMode && t.classes == s.classes
            && t.storage == s.storage[OverrideKey := "true"]
  {
    var t := Toggle(Toggle(s));
    assert t.storage[ThemeKey] == s.storage[ThemeKey];
  }
}

=== FILE: time_format.dfy ===
/**
 * `formatTimeSpent` (projet-analyse-image-frontend/src/utils/timeUtils.js, with
 * an identical copy in components/ProjectDetails.js): minutes shown as hours
 * and minutes, and a reader for the text it produces.
 */
module TimeFormat {
  import opened Strings
  import opened Js

  /**
   * `0h` for zero, `<h>h` for a whole number of hours, else `<h>h <m>m`.
   * Hours are `Math.floor(minutes / 60)` and minutes `minutes % 60`, so a
   * negative total shows a negative hour count.
   */
  function FormatTimeSpent(minutes: int): (r: string)
    ensures minutes == 0 ==> r == "0h"
    ensures minutes > 0 && minutes % 60 == 0 ==> r == NatToString(minutes / 60) + "h"
    ensures minutes > 0 && minutes % 60 != 0 ==>
              r == NatToString(minutes / 60) + "h " + NatToString(minutes % 60) + "m"
  {
    if minutes == 0 then "0h"
    else
      var hours := minutes / 60;
      var rem := JsRem(minutes, 60);
      if rem > 0 then IntToString(hours) + "h " + IntToString(rem) + "m"
      else IntToString(hours) + "h"
  }

  /** Read `<h>h` or `<h>h <m>m` back into minutes. */
  function ParseTimeSpent(s: string): Option<nat>
  {
    var k := LeadingDigits(s);
    if k == 0 || k >= |s| || s[k] != 'h' then None
    else AfterHours(DigitsValue(s[..k]), s[k + 1..])
  }

  /** What may follow `<h>h`: nothing, or ` <m>m`. */
  function AfterHours(h: nat, rest: string): Option<nat>
  {
    if rest == [] then Some(60 * h)
    else if rest[0] != ' ' then None
    else
      var t := rest[1..];
      var j := LeadingDigits(t);
      if j == 0 || t[j..] != "m" then None
      else Some(60 * h + DigitsValue(t[..j]))
  }

  /** The displayed remainder lies between 1 and 59 whenever it is shown. */
  lemma RemainderShownInRange(minutes: nat)
    requires minutes % 60 != 0
    ensures 1 <= JsRem(minutes, 60) <= 59
  {
  }

  /** Whole hours are read back. */
  lemma ParseWholeHours(h: nat)
    ensures ParseTimeSpent(NatToString(h) + "h") == Some(60 * h)
  {
    var d := NatToString(h);
    LeadingDigitsOfDigits(d, "h");
    var s := d + "h";
    assert s[..|d|] == d;
    assert s[|d| + 1..] == [];
    NatToStringRoundTrip(h);
  }

  /** Hours and minutes are read back. */
  lemma ParseHoursMinutes(h: nat, m: nat)
    ensures ParseTimeSpent(NatToString(h) + "h " + NatToString(m) + "m") == Some(60 * h + m)
  {
    NatToStringRoundTrip(h);
    NatToStringRoundTrip(m);
    ParseDigits(NatToString(h), NatToString(m), h, m);
  }

  lemma ParseDigits(d: string, e: string, h: nat, m: nat)
    requires d != [] && AllDigits(d) && e != [] && AllDigits(e)
    requires DigitsValue(d) == h && DigitsValue(e) == m
    ensures ParseTimeSpent(d + "h " + e + "m") == Some(60 * h + m)
  {
    ShownRegrouped(d, e);
    ParseSplit(d + "h " + e + "m", d, e, h, m);
  }

  /** The shown text, regrouped as the reader takes it apart. */
  lemma ShownRegrouped(d: string, e: string)
    ensures d + "h " + e + "m" == d + (['h'] + ([' '] + (e + ['m'])))
  {
    var a := d + "h " + e + "m";
    var b := d + (['h'] + ([' '] + (e + ['m'])));
    assert |a| == |b| == |d| + |e| + 3;
    forall k | 0 <= k < |a| ensures a[k] == b[k] {
      if k < |d| {
      } else if k < |d| + 2 {
      } else if k < |d| + 2 + |e| {
        assert a[k] == e[k - |d| - 2] == b[k];
      }
    }
  }

  lemma ParseSplit(s: string, d: string, e: string, h: nat, m: nat)
    requires d != [] && AllDigits(d) && e != [] && AllDigits(e)
    requires DigitsValue(d) == h && DigitsValue(e) == m
    requires s == d + (['h'] + ([' '] + (e + ['m'])))
    ensures ParseTimeSpent(s) == Some(60 * h + m)
  {
    var x := ['h'] + ([' '] + (e + ['m']));
    LeadingDigitsOfDigits(d, x);
    assert s[..|d|] == d;
    assert s[|d| + 1..] == [' '] + (e + ['m']) by {
      assert s[|d|..] == x;
      DropHead('h', [' '] + (e + ['m']));
    }
    MinutesPart(DigitsValue(d), e);
  }

  lemma MinutesPart(h: nat, e: string)
    requires e != [] && AllDigits(e)
    ensures AfterHours(h, [' '] + (e + ['m'])) == Some(60 * h + DigitsValue(e))
  {
    var t := e + ['m'];
    DropHead(' ', t);
    LeadingDigitsOfDigits(e, ['m']);
    assert t[..|e|] == e && t[|e|..] == "m";
  }

  /** Every non-negative duration is read back from its display exactly. */
  lemma FormatParseRoundTrip(minutes: nat)
    ensures ParseTimeSpent(FormatTimeSpent(minutes)) == Some(minutes)
  {
    var h, m := minutes / 60, minutes % 60;
    assert minutes == 60 * h + m;
    if minutes == 0 {
      assert FormatTimeSpent(minutes) == NatToString(0) + "h";
      ParseWholeHours(0);
    } else if m == 0 {
      assert FormatTimeSpent(minutes) == NatToString(h) + "h";
      ParseWholeHours(h);
    } else {
      assert FormatTimeSpent(minutes) == NatToString(h) + "h " + NatToString(m) + "m";
      ParseHoursMinutes(h, m);
    }
  }
}

=== FILE: uploads.dfy ===
/**
 * Saving uploaded resources (`POST /:id/references/upload` in
 * backend/src/routes/projects.js): which files are kept and as what kind, how
 * the stored file name is sanitised, and how it is made unique in the
 * project's `reference` directory. The directory listing is a finite set of
 * names; writing the files and the database rows is left out.
 */
module Uploads {
  import opened Strings
  import opened Js
  import Seqs

  // ---------------------------------------------------------------------
  // Kind
  // ---------------------------------------------------------------------

  datatype Kind = Image | Document

  const ImageMimes: set<string> := {"image/jpeg", "image/png"}
  const DocumentMimes: set<string> :=
    {"application/pdf", "text/plain", "application/msword",
     "application/vnd.openxmlformats-officedocument.wordprocessingml.document"}

  /** An upload is kept as an image, kept as a document, or skipped (`None`). */
  function Classify(mime: string): (k: Option<Kind>)
    ensures k == Some(Image) <==> mime in ImageMimes
    ensures k == Some(Document) <==> mime in DocumentMimes
    ensures k.None? <==> mime !in ImageMimes && mime !in DocumentMimes
  {
    if StartsWith(mime, "image/") && (mime == "image/jpeg" || mime == "image/png") then Some(Image)
    else if mime in DocumentMimes then Some(Document)
    else None
  }

  // ---------------------------------------------------------------------
  // Names
  // ---------------------------------------------------------------------

  /** The characters a stored name may not contain. */
  predicate Forbidden(c: char)
  {
    c == '\\' || c == '/' || c == ':' || c == '*' || c == '?' || c == '"' || c == '<' || c == '>' || c == '|'
  }

  /** Replace every forbidden character by `_`. */
  function Sanitize(s: string): (r: string)
    ensures |r| == |s|
    ensures forall i :: 0 <= i < |s| ==> r[i] == (if Forbidden(s[i]) then '_' else s[i])
    ensures forall i :: 0 <= i < |r| ==> !Forbidden(r[i])
  {
    if s == [] then [] else [if Forbidden(s[0]) then '_' else s[0]] + Sanitize(s[1..])
  }

  /** Sanitising twice changes nothing more. */
  lemma SanitizeIdempotent(s: string)
    ensures Sanitize(Sanitize(s)) == Sanitize(s)
  {
    var r := Sanitize(s);
    assert forall i :: 0 <= i < |r| ==> Sanitize(r)[i] == r[i];
  }

  /** Index just after the last `/` of `s`, or 0. */
  function AfterLastSlash(s: string): (k: nat)
    ensures k <= |s|
    ensures k > 0 ==> s[k - 1] == '/'
    ensures forall i :: k <= i < |s| ==> s[i] != '/'
  {
    if s == [] then 0
    else if s[|s| - 1] == '/' then |s|
    else AfterLastSlash(s[..|s| - 1])
  }

  /** POSIX `path.basename`: trailing slashes dropped, then the part after the last slash. */
  function Basename(p: string): (r: string)
    ensures forall i :: 0 <= i < |r| ==> r[i] != '/'
  {
    var t := TrimEndBy(p, c => c == '/');
    t[AfterLastSlash(t)..]
  }

  /** A name below a directory has that name as its base name. */
  lemma BasenameOfJoin(dir: string, name: string)
    requires name != [] && forall i :: 0 <= i < |name| ==> name[i] != '/'
    ensures Basename(dir + "/" + name) == name
  {
    var p := dir + "/" + name;
    assert TrimEndBy(p, c => c == '/') == p;
    assert p[|dir|] == '/';
    var k := AfterLastSlash(p);
    assert forall i :: |dir| < i < |p| ==> p[i] == name[i - |dir| - 1];
    assert k == |dir| + 1;
    assert p[k..] == name;
  }

  /** Index of the last `.` in `s`, or -1. */
  function LastDot(s: string): (d: int)
    ensures -1 <= d < |s|
    ensures d >= 0 ==> s[d] == '.'
    ensures forall i :: d < i < |s| ==> s[i] != '.'
  {
    if s == [] then -1
    else if s[|s| - 1] == '.' then |s| - 1
    else LastDot(s[..|s| - 1])
  }

  /**
   * POSIX `path.extname` of a name without slashes: from the last dot to the
   * end, except that there is none when there is no dot, when the last dot is
   * the first character (`.bashrc`), or for `..`.
   */
  function Extname(s: string): (r: string)
    ensures r == [] || (r[0] == '.' && |r| <= |s| && r == s[|s| - |r|..] && forall i :: 1 <= i < |r| ==> r[i] != '.')
    ensures r == [] <==> LastDot(s) <= 0 || s == ".."
  {
    var d := LastDot(s);
    if d <= 0 then []
    else if s[0] == '.' && d == |s| - 1 && d == 1 then []
    else s[d..]
  }

  /** The name without its extension (`baseName.slice(0, -ext.length)` when there is one). */
  function Stem(s: string): string
  {
    s[..|s| - |Extname(s)|]
  }

  /** The stem followed by the extension gives back the name. */
  lemma StemExtname(s: string)
    ensures Stem(s) + Extname(s) == s
  {
  }

  /** The k-th alternative name: `stem (k)ext`. */
  function Candidate(stem: string, ext: string, k: nat): string
  {
    stem + " (" + NatToString(k) + ")" + ext
  }

  /** Different counters give different candidates. */
  lemma CandidateInjective(stem: string, ext: string, a: nat, b: nat)
    requires Candidate(stem, ext, a) == Candidate(stem, ext, b)
    ensures a == b
  {
    var da, db := NatToString(a), NatToString(b);
    var n := |stem| + 2;
    var ca, cb := Candidate(stem, ext, a), Candidate(stem, ext, b);
    assert ca[n..] == da + (")" + ext);
    assert cb[n..] == db + (")" + ext);
    var x, y := da + (")" + ext), db + (")" + ext);
    assert x == y;
    assert |da| == |db| by {
      assert x[|da|] == ')' && y[|db|] == ')';
      assert forall i :: 0 <= i < |da| ==> x[i] == da[i] && IsDigit(x[i]);
      assert forall i :: 0 <= i < |db| ==> y[i] == db[i] && IsDigit(y[i]);
    }
    assert da == x[..|da|] == y[..|db|] == db;
    NatToStringInjective(a, b);
  }

  /** The first `n` candidates. */
  function CandidateSet(stem: string, ext: string, n: nat): (r: set<string>)
    ensures |r| == n
    ensures forall j :: 1 <= j <= n ==> Candidate(stem, ext, j) in r
    ensures forall x :: x in r ==> exists j :: 1 <= j <= n && x == Candidate(stem, ext, j)
  {
    if n == 0 then {}
    else
      var prev := CandidateSet(stem, ext, n - 1);
      assert Candidate(stem, ext, n) !in prev by {
        if Candidate(stem, ext, n) in prev {
          var j :| 1 <= j <= n - 1 && Candidate(stem, ext, n) == Candidate(stem, ext, j);
          CandidateInjective(stem, ext, n, j);
        }
      }
      prev + {Candidate(stem, ext, n)}
  }

  /**
   * The stored name for `base` in a directory already holding `taken`: `base`
   * itself when free, else `stem (k)ext` for the least `k >= 1` that is free.
   * `k` is 0 when `base` was free.
   */
  method UniqueName(base: string, taken: set<string>) returns (name: string, k: nat)
    ensures name !in taken
    ensures k == 0 <==> base !in taken
    ensures k == 0 ==> name == base
    ensures k > 0 ==> name == Candidate(Stem(base), Extname(base), k)
                      && forall j :: 1 <= j < k ==> Candidate(Stem(base), Extname(base), j) in taken
    ensures name == Chosen(base, taken)
  {
    if base !in taken {
      return base, 0;
    }
    var stem, ext := Stem(base), Extname(base);
    k := 1;
    while Candidate(stem, ext, k) in taken
      invariant k >= 1
      invariant CandidateSet(stem, ext, k - 1) <= taken
      invariant FirstFree(stem, ext, taken, k) == Chosen(base, taken)
      decreases |taken| - (k - 1)
    {
      var next := CandidateSet(stem, ext, k);
      assert next == CandidateSet(stem, ext, k - 1) + {Candidate(stem, ext, k)};
      assert next <= taken;
      assert |next| <= |taken| by { SubsetCard(next, taken); }
      k := k + 1;
    }
    name := Candidate(stem, ext, k);
  }

  /**
   * The name the copy loop settles on for `base` in a directory holding
   * `dir`: `base` when free, else the first free `stem (k)ext`.
   */
  function Chosen(base: string, dir: set<string>): string
  {
    if base !in dir then base else FirstFree(Stem(base), Extname(base), dir, 1)
  }

  /** The first candidate from the `k`-th on that is not in `dir`, the earlier ones all being taken. */
  function FirstFree(stem: string, ext: string, dir: set<string>, k: nat): string
    requires k >= 1 && CandidateSet(stem, ext, k - 1) <= dir
    decreases |dir| - (k - 1)
  {
    if Candidate(stem, ext, k) !in dir then Candidate(stem, ext, k)
    else
      var next := CandidateSet(stem, ext, k);
      assert next == CandidateSet(stem, ext, k - 1) + {Candidate(stem, ext, k)};
      SubsetCard(next, dir);
      FirstFree(stem, ext, dir, k + 1)
  }

  lemma SubsetCard<T>(a: set<T>, b: set<T>)
    requires a <= b
    ensures |a| <= |b|
  {
    assert b == a + (b - a);
  }

  // ---------------------------------------------------------------------
  // A whole upload
  // ---------------------------------------------------------------------

  /** A received file: its client-side name and MIME type (empty when missing). */
  datatype Upload = Upload(originalName: string, mime: string)

  /** The row recorded for a stored file. */
  datatype Saved = Saved(filename: string, originalName: string, mime: string, kind: Kind)

  /** The sanitised base name a file is stored under before uniquing. */
  function StoredBase(u: Upload): string
  {
    Sanitize(Basename(u.originalName))
  }

  /** The files of the request whose type is accepted, in order. */
  function Accepted(files: seq<Upload>): seq<Upload>
  {
    if files == [] then []
    else (if Classify(files[0].mime).Some? then [files[0]] else []) + Accepted(files[1..])
  }

  /** Number of files of the request that are kept. */
  function Supported(files: seq<Upload>): nat
  {
    if files == [] then 0
    else (if Classify(files[0].mime).Some? then 1 else 0) + Supported(files[1..])
  }

  /** One file: skipped when its type is not accepted, else stored under a free, clean name. */
  method SaveOne(f: Upload, dir: set<string>) returns (row: Option<Saved>)
    ensures row.Some? <==> Classify(f.mime).Some?
    ensures row.Some? ==> row.value.filename !in dir && Some(row.value.kind) == Classify(f.mime)
                          && row.value.originalName == f.originalName && row.value.mime == f.mime
                          && forall c :: c in row.value.filename ==> !Forbidden(c)
    ensures row.Some? ==> row.value.filename == Chosen(StoredBase(f), dir)
  {
    var kind := Classify(f.mime);
    if kind.None? {
      return None;
    }
    var base := StoredBase(f);
    var name, k := UniqueName(base, dir);
    assert forall c :: c in name ==> !Forbidden(c) by {
      if k > 0 {
        StemExtname(base);
        CandidateClean(Stem(base), Extname(base), k);
      }
    }
    row := Some(Saved(name, f.originalName, f.mime, kind.value));
  }

  /**
   * Store the files in order, skipping unsupported types. Each stored file
   * joins the directory, so later files of the same request avoid its name.
   */
  method SaveAll(files: seq<Upload>, taken: set<string>) returns (saved: seq<Saved>, dir: set<string>)
    ensures |saved| == Supported(files)
    ensures dir == taken + Names(saved)
    ensures forall i :: 0 <= i < |saved| ==> saved[i].filename !in taken
    ensures forall i, j :: 0 <= i < j < |saved| ==> saved[i].filename != saved[j].filename
    ensures forall i :: 0 <= i < |saved| ==> Some(saved[i].kind) == Classify(saved[i].mime)
    ensures forall i :: 0 <= i < |saved| ==> forall c :: c in saved[i].filename ==> !Forbidden(c)
    ensures Carries(saved, Accepted(files), taken)
  {
    saved, dir := [], taken;
    var n := 0;
    while n < |files|
      invariant n <= |files|
      invariant |saved| == Supported(files[..n])
      invariant dir == taken + Names(saved)
      invariant Stored(saved, taken)
      invariant Carries(saved, Accepted(files[..n]), taken)
    {
      saved, dir := SaveNext(files, n, saved, dir, taken);
      n := n + 1;
    }
    assert files[..n] == files;
  }

  /** One turn of the copy loop: the `n`-th file is stored, or skipped when its type is not accepted. */
  method SaveNext(files: seq<Upload>, n: nat, saved: seq<Saved>, dir: set<string>, ghost taken: set<string>)
    returns (saved': seq<Saved>, dir': set<string>)
    requires n < |files| && dir == taken + Names(saved)
    requires |saved| == Supported(files[..n]) && Stored(saved, taken) && Carries(saved, Accepted(files[..n]), taken)
    ensures dir' == taken + Names(saved')
    ensures |saved'| == Supported(files[..n + 1]) && Stored(saved', taken) && Carries(saved', Accepted(files[..n + 1]), taken)
  {
    var row := SaveOne(files[n], dir);
    if row.Some? {
      SaveKept(files, n, saved, dir, taken, row.value);
      saved', dir' := saved + [row.value], dir + {row.value.filename};
    } else {
      SaveSkipped(files, n);
      saved', dir' := saved, dir;
    }
  }

  /** Storing the `n`-th file as `row` keeps the rows stored, counted and carried as `SaveAll` wants them. */
  lemma SaveKept(files: seq<Upload>, n: nat, saved: seq<Saved>, dir: set<string>, taken: set<string>, row: Saved)
    requires n < |files| && dir == taken + Names(saved)
    requires |saved| == Supported(files[..n]) && Stored(saved, taken) && Carries(saved, Accepted(files[..n]), taken)
    requires Classify(files[n].mime).Some?
    requires row.filename !in dir && Some(row.kind) == Classify(files[n].mime)
             && row.originalName == files[n].originalName && row.mime == files[n].mime
             && (forall c :: c in row.filename ==> !Forbidden(c))
             && row.filename == Chosen(StoredBase(files[n]), dir)
    ensures |saved + [row]| == Supported(files[..n + 1]) && Stored(saved + [row], taken)
    ensures Carries(saved + [row], Accepted(files[..n + 1]), taken)
    ensures taken + Names(saved + [row]) == dir + {row.filename}
  {
    SupportedSnoc(files, n);
    AcceptedSnoc(files, n);
    var before, after := Accepted(files[..n]), Accepted(files[..n + 1]);
    assert after == before + [files[n]];
    StoredSnoc(saved, taken, row);
    assert RowCarries(row, files[n], taken + Names(saved));
    CarriesSnoc(saved, before, taken, files[n], row);
  }

  /** Skipping the `n`-th file leaves the count and the accepted uploads as they were. */
  lemma SaveSkipped(files: seq<Upload>, n: nat)
    requires n < |files| && Classify(files[n].mime).None?
    ensures Supported(files[..n + 1]) == Supported(files[..n])
    ensures Accepted(files[..n + 1]) == Accepted(files[..n])
  {
    SupportedSnoc(files, n);
    AcceptedSnoc(files, n);
    assert Accepted(files[..n]) + [] == Accepted(files[..n]);
  }

  /** A stored row carries its upload's original name and type, under the name chosen against `dir`. */
  ghost predicate RowCarries(row: Saved, u: Upload, dir: set<string>)
  {
    row.originalName == u.originalName && row.mime == u.mime && row.filename == Chosen(StoredBase(u), dir)
  }

  /**
   * The rows carry the accepted uploads one for one, in order: row `i` has the
   * `i`-th accepted upload's name and type and is stored under the name chosen
   * against the names taken before the request and those of rows `0..i-1`.
   */
  ghost predicate Carries(saved: seq<Saved>, accepted: seq<Upload>, taken: set<string>)
  {
    |saved| == |accepted|
    && forall i :: 0 <= i < |saved| ==> RowCarries(saved[i], accepted[i], taken + Names(saved[..i]))
  }

  lemma CarriesSnoc(saved: seq<Saved>, accepted: seq<Upload>, taken: set<string>, f: Upload, row: Saved)
    requires Carries(saved, accepted, taken)
    requires RowCarries(row, f, taken + Names(saved))
    ensures Carries(saved + [row], accepted + [f], taken)
  {
    var t, a := saved + [row], accepted + [f];
    forall i | 0 <= i < |t| ensures RowCarries(t[i], a[i], taken + Names(t[..i])) {
      assert t[..i] == saved[..i] || i == |saved|;
      if i < |saved| {
        assert t[..i] == saved[..i];
        RowCarriesSame(saved[i], accepted[i], taken + Names(saved[..i]), t[i], a[i], taken + Names(t[..i]));
      } else {
        assert t[..i] == saved;
      }
    }
  }

  lemma RowCarriesSame(row: Saved, u: Upload, dir: set<string>, row': Saved, u': Upload, dir': set<string>)
    requires RowCarries(row, u, dir) && row == row' && u == u' && dir == dir'
    ensures RowCarries(row', u', dir')
  {
  }

  lemma {:induction false} AcceptedSnoc(files: seq<Upload>, n: nat)
    requires n < |files|
    ensures Accepted(files[..n + 1]) == Accepted(files[..n]) + (if Classify(files[n].mime).Some? then [files[n]] else [])
    decreases n
  {
    if n > 0 {
      assert files[..n + 1][1..] == files[1..][..n];
      assert files[..n][1..] == files[1..][..n - 1];
      AcceptedSnoc(files[1..], n - 1);
      Seqs.AppendAssoc(if Classify(files[0].mime).Some? then [files[0]] else [],
                       Accepted(files[1..][..n - 1]),
                       if Classify(files[n].mime).Some? then [files[n]] else []);
    } else {
      assert files[..1][1..] == [];
    }
  }

  /** Rows as `SaveAll` keeps them: new, distinct, accepted and clean names. */
  predicate Stored(saved: seq<Saved>, taken: set<string>)
  {
    (forall i :: 0 <= i < |saved| ==> saved[i].filename !in taken)
    && (forall i, j :: 0 <= i < j < |saved| ==> saved[i].filename != saved[j].filename)
    && (forall i :: 0 <= i < |saved| ==> Some(saved[i].kind) == Classify(saved[i].mime))
    && (forall i :: 0 <= i < |saved| ==> forall c :: c in saved[i].filename ==> !Forbidden(c))
  }

  /** A row stored under a name not yet in the directory keeps the rows as `SaveAll` wants them. */
  lemma StoredSnoc(saved: seq<Saved>, taken: set<string>, row: Saved)
    requires Stored(saved, taken)
    requires row.filename !in taken + Names(saved)
    requires Some(row.kind) == Classify(row.mime)
    requires forall c :: c in row.filename ==> !Forbidden(c)
    ensures Stored(saved + [row], taken)
    ensures Names(saved + [row]) == Names(saved) + {row.filename}
  {
    var t := saved + [row];
    assert t[..|saved|] == saved;
    forall i, j | 0 <= i < j < |t| ensures t[i].filename != t[j].filename {
      if j == |saved| {
        assert t[i] == saved[i];
      }
    }
  }

  /** The names of the stored rows. */
  function Names(rows: seq<Saved>): (r: set<string>)
    ensures forall i :: 0 <= i < |rows| ==> rows[i].filename in r
  {
    if rows == [] then {} else Names(rows[..|rows| - 1]) + {rows[|rows| - 1].filename}
  }

  lemma {:induction false} SupportedSnoc(files: seq<Upload>, n: nat)
    requires n < |files|
    ensures Supported(files[..n + 1]) == Supported(files[..n]) + (if Classify(files[n].mime).Some? then 1 else 0)
    decreases n
  {
    if n > 0 {
      assert files[..n + 1][1..] == files[1..][..n];
      assert files[..n][1..] == files[1..][..n - 1];
      SupportedSnoc(files[1..], n - 1);
    }
  }

  /** Candidates built from a clean stem and extension are clean. */
  lemma CandidateClean(stem: string, ext: string, k: nat)
    requires forall c :: c in stem + ext ==> !Forbidden(c)
    ensures forall c :: c in Candidate(stem, ext, k) ==> !Forbidden(c)
  {
    var d := NatToString(k);
    assert forall c :: c in d ==> IsDigit(c);
    assert Candidate(stem, ext, k) == stem + " (" + d + ")" + ext;
    assert forall c :: c in stem ==> c in stem + ext;
    assert forall c :: c in ext ==> c in stem + ext;
  }
}

=== FILE: user_groups.dfy ===
/**
 * The users and groups screen of
 * projet-analyse-image-frontend/src/components/UserGroupManager.js: the sort
 * headers of its two tables, the order it lists users and groups in, and
 * the checks and clean-up before a user or group is created. Users and
 * groups are plain objects as the server sends them.
 */
module UserGroups {
  import opened Strings
  import opened Js
  import Seqs
  import Sorting

  /** A table's sort settings; both tables open sorted by name, ascending. */
  datatype SortState = SortState(field: string, asc: bool)

  const InitialSort: SortState := SortState("name", true)

  /** `sortUsers` / `sortGroups`: ascending unless the same column was already ascending. */
  function ToggleSort(prev: SortState, field: string): (r: SortState)
    ensures r.field == field
    ensures !r.asc <==> prev.field == field && prev.asc
  {
    SortState(field, !(prev.field == field && prev.asc))
  }

  /** A third click on the same column gives the first click's direction again. */
  lemma ToggleCycles(prev: SortState, field: string)
    ensures var once := ToggleSort(prev, field);
            ToggleSort(ToggleSort(once, field), field) == once
  {
  }

  /** `renderSortArrow`: no arrow unless the column is the sorted one. */
  function SortArrow(column: string, s: SortState): (r: Option<char>)
    ensures r.None? <==> s.field != column
    ensures r.Some? ==> (r.value == '↑' <==> s.asc)
  {
    if s.field != column then None else Some(if s.asc then '↑' else '↓')
  }

  // ---------------------------------------------------------------------
  // Sorted tables
  // ---------------------------------------------------------------------

  /** `value || ''` as text. */
  function TextOr(v: Value): string
  {
    if Truthy(v) then ToStr(v) else ""
  }

  /** The first group whose `id` is the user's `group_id`, in list order. */
  function GroupOf(groups: seq<Object>, groupId: Value): (i: nat)
    ensures i <= |groups|
    ensures i < |groups| ==> Get(groups[i], "id") == groupId
    ensures forall j :: 0 <= j < i ==> Get(groups[j], "id") != groupId
  {
    Seqs.FirstIndexWhere(groups, (g: Object) => Get(g, "id") == groupId)
  }

  /** `groups.find(g => g.id === user.group_id)?.name || ''`. */
  function GroupName(groups: seq<Object>, user: Object): (name: string)
    ensures (forall j :: 0 <= j < |groups| ==> Get(groups[j], "id") != Get(user, "group_id")) ==> name == ""
  {
    var i := GroupOf(groups, Get(user, "group_id"));
    if i < |groups| then TextOr(Get(groups[i], "name")) else ""
  }

  /** What a user is compared by: the group's name for the 'group' column, else the column itself. */
  function UserKey(groups: seq<Object>, field: string, user: Object): Sorting.Key
  {
    Sorting.Text(if field == "group" then GroupName(groups, user) else TextOr(Get(user, field)))
  }

  /** `getSortedUsers`: a sorted copy holding the same users. */
  function SortedUsers(users: seq<Object>, groups: seq<Object>, s: SortState): (r: seq<Object>)
    ensures multiset(r) == multiset(users)
    ensures forall i, j :: 0 <= i < j < |r| ==>
              Sorting.InOrder(s.asc, UserKey(groups, s.field, r[i]), UserKey(groups, s.field, r[j]))
  {
    Sorting.Sort(users, (u: Object) => UserKey(groups, s.field, u), s.asc)
  }

  /** `getSortedGroups`: a sorted copy holding the same groups. */
  function SortedGroups(groups: seq<Object>, s: SortState): (r: seq<Object>)
    ensures multiset(r) == multiset(groups)
    ensures forall i, j :: 0 <= i < j < |r| ==>
              Sorting.InOrder(s.asc, Sorting.Text(TextOr(Get(r[i], s.field))), Sorting.Text(TextOr(Get(r[j], s.field))))
  {
    Sorting.Sort(groups, (g: Object) => Sorting.Text(TextOr(Get(g, s.field))), s.asc)
  }

  /** Sorted by group ascending, users whose group is unknown come before every user with a named group. */
  lemma UngroupedUsersFirst(users: seq<Object>, groups: seq<Object>, i: nat, j: nat)
    requires var r := SortedUsers(users, groups, SortState("group", true));
             i < |r| && j < |r| && GroupName(groups, r[i]) == "" && GroupName(groups, r[j]) != ""
    ensures i < j
  {
    var r := SortedUsers(users, groups, SortState("group", true));
    assert i != j;
    assert !Sorting.InOrder(true, UserKey(groups, "group", r[j]), UserKey(groups, "group", r[i]));
  }

  // ---------------------------------------------------------------------
  // Creating
  // ---------------------------------------------------------------------

  /** The add-user form. */
  datatype UserForm = UserForm(name: string, email: string, groupId: string)

  const UserNameRequired: string := "User name is required"
  const GroupNameRequired: string := "Group name is required"

  /** `email.trim() || null` and `group_id || null`. */
  function OrNull(s: string): Value { if s == "" then Null else Str(s) }

  /**
   * `handleCreateUser`: an empty name is refused inline and nothing is
   * sent; otherwise the request carries the name, the trimmed e-mail or
   * null, and the group id or null.
   */
  function CreateUser(form: UserForm): (r: Result<Object, string>)
    ensures r.Err? <==> form.name == ""
    ensures r.Err? ==> r.error == UserNameRequired
    ensures r.Ok? ==> r.value.Keys == {"name", "email", "group_id"}
    ensures r.Ok? ==> r.value["name"] == Str(form.name)
    ensures r.Ok? ==> (r.value["email"] == Null <==> IsBlank(form.email))
    ensures r.Ok? && !IsBlank(form.email) ==> r.value["email"] == Str(Trim(form.email))
    ensures r.Ok? ==> (r.value["group_id"] == Null <==> form.groupId == "")
  {
    if form.name == "" then Err(UserNameRequired)
    else Ok(map["name" := Str(form.name), "email" := OrNull(Trim(form.email)), "group_id" := OrNull(form.groupId)])
  }

  /** A name of blanks only is not refused: the check looks at the untrimmed name. */
  lemma BlankUserNameAccepted()
    ensures CreateUser(UserForm(" ", "", "")).Ok?
  {
  }

  /** An e-mail made of blanks is stored as null, not as an empty text. */
  lemma BlankEmailIsNull(name: string, groupId: string)
    requires name != ""
    ensures CreateUser(UserForm(name, "  ", groupId)).value["email"] == Null
  {
    assert IsBlank("  ") by {
      assert Trim("  ") == "";
    }
  }

  /** `handleCreateGroup`: an empty name is refused inline; the form is sent as it is. */
  function CreateGroup(name: string, description: string): (r: Result<Object, string>)
    ensures r.Err? <==> name == ""
    ensures r.Err? ==> r.error == GroupNameRequired
    ensures r.Ok? ==> r.value == map["name" := Str(name), "description" := Str(description)]
  {
    if name == "" then Err(GroupNameRequired)
    else Ok(map["name" := Str(name), "description" := Str(description)])
  }
}

=== FILE: wizard.dfy ===
/**
 * The three-step project creation wizard
 * (projet-analyse-image-frontend/src/components/ProjectCreationWizard.js):
 * the suggested folder name `DATE_GROUP_USER_SOFTWARE`, the validation of
 * the first two steps, the payload sent for the draft project, the
 * create-once draft saving and the step machine driven by Next and Back.
 * The backend's answers and today's date are inputs.
 */
module Wizard {
  import opened Strings
  import opened Js
  import Seqs
  import ProjectDetails

  // ---------------------------------------------------------------------
  // Runs of characters
  // ---------------------------------------------------------------------

  /** No two neighbouring characters are both `c`. */
  predicate NoDouble(s: string, c: char)
  {
    forall i :: 0 <= i < |s| - 1 ==> !(s[i] == c && s[i + 1] == c)
  }

  /** The three character runs the folder name collapses: `\s+`, `-+` and `_{2,}`. */
  datatype Class = Spaces | Dashes | Underscores

  predicate InClass(k: Class, c: char)
  {
    match k
    case Spaces => IsSpace(c)
    case Dashes => c == '-'
    case Underscores => c == '_'
  }

  /** What a run becomes; replacing `_{2,}` by `_` is replacing `_+` by `_`. */
  function Rep(k: Class): char
  {
    if k == Underscores then '_' else '-'
  }

  /** The input after its leading run of class characters. */
  function DropRun(s: string, k: Class): (r: string)
    ensures |r| <= |s| && r == s[|s| - |r|..]
    ensures |r| > 0 ==> !InClass(k, r[0])
  {
    if s != [] && InClass(k, s[0]) then DropRun(s[1..], k) else s
  }

  /** `s.replace(/X+/g, rep)`: every maximal run of the class becomes one `Rep(k)`. */
  function Squeeze(s: string, k: Class): (r: string)
    ensures |r| <= |s|
    ensures |r| > 0 <==> |s| > 0
    ensures |s| > 0 ==> r[0] == (if InClass(k, s[0]) then Rep(k) else s[0])
    decreases |s|
  {
    if s == [] then []
    else if InClass(k, s[0]) then [Rep(k)] + Squeeze(DropRun(s[1..], k), k)
    else [s[0]] + Squeeze(s[1..], k)
  }

  /** The text after the first squeezed character, a suffix of the input. */
  function SqueezeTail(s: string, k: Class): (t: string)
    requires s != []
    ensures |t| < |s| && t == s[|s| - |t|..]
    ensures Squeeze(s, k) == [Squeeze(s, k)[0]] + Squeeze(t, k)
  {
    if InClass(k, s[0]) then DropRun(s[1..], k) else s[1..]
  }

  /** What a squeezed text holds: `Rep(k)`, or characters of the input outside the class. */
  lemma {:induction false} SqueezeChars(s: string, k: Class)
    ensures forall i :: 0 <= i < |Squeeze(s, k)| ==>
              Squeeze(s, k)[i] == Rep(k) || (Squeeze(s, k)[i] in s && !InClass(k, Squeeze(s, k)[i]))
    decreases |s|
  {
    if s != [] {
      var t := SqueezeTail(s, k);
      SqueezeChars(t, k);
      var q := Squeeze(t, k);
      var r := Squeeze(s, k);
      forall i | 0 <= i < |r| ensures r[i] == Rep(k) || (r[i] in s && !InClass(k, r[i])) {
        if i > 0 && q[i - 1] != Rep(k) {
          assert r[i] == q[i - 1];
          assert q[i - 1] in t;
          var j :| 0 <= j < |t| && t[j] == q[i - 1];
          assert s[|s| - |t| + j] == t[j];
        }
      }
    }
  }

  /** When the replacement is itself in the class, a squeezed text has no two class characters side by side. */
  lemma {:induction false} SqueezeNoAdjacent(s: string, k: Class)
    requires InClass(k, Rep(k))
    ensures forall i :: 0 <= i < |Squeeze(s, k)| - 1 ==> !(InClass(k, Squeeze(s, k)[i]) && InClass(k, Squeeze(s, k)[i + 1]))
    decreases |s|
  {
    if s != [] {
      var t := SqueezeTail(s, k);
      SqueezeNoAdjacent(t, k);
      var q := Squeeze(t, k);
      var r := Squeeze(s, k);
      forall i | 0 <= i < |r| - 1 ensures !(InClass(k, r[i]) && InClass(k, r[i + 1])) {
        if i > 0 {
          assert r[i] == q[i - 1] && r[i + 1] == q[i];
        } else if InClass(k, s[0]) {
          assert r[1] == q[0];
        }
      }
    }
  }

  /** Every class character of `s` is `Rep(k)` and no two of them stand side by side. */
  predicate SingleRuns(s: string, k: Class)
  {
    && (forall i :: 0 <= i < |s| && InClass(k, s[i]) ==> s[i] == Rep(k))
    && (forall i :: 0 <= i < |s| - 1 ==> !(InClass(k, s[i]) && InClass(k, s[i + 1])))
  }

  lemma SingleRunsTail(s: string, k: Class)
    requires s != [] && SingleRuns(s, k)
    ensures SingleRuns(s[1..], k)
    ensures |s| > 1 && InClass(k, s[0]) ==> !InClass(k, s[1])
  {
    var rest := s[1..];
    forall i | 0 <= i < |rest| && InClass(k, rest[i]) ensures rest[i] == Rep(k) {
      assert rest[i] == s[i + 1];
    }
    forall i | 0 <= i < |rest| - 1 ensures !(InClass(k, rest[i]) && InClass(k, rest[i + 1])) {
      assert rest[i] == s[i + 1] && rest[i + 1] == s[i + 2];
    }
  }

  /** Squeezing a text whose runs are already single copies of the replacement changes nothing. */
  lemma {:induction false} SqueezeSingleRuns(s: string, k: Class)
    requires SingleRuns(s, k)
    ensures Squeeze(s, k) == s
    decreases |s|
  {
    if s != [] {
      var rest := s[1..];
      SingleRunsTail(s, k);
      SqueezeSingleRuns(rest, k);
      if InClass(k, s[0]) {
        assert DropRun(rest, k) == rest;
      }
      assert s == [s[0]] + rest;
    }
  }

  /** A text free of class characters passes through unchanged in front of the rest. */
  lemma {:induction false} SqueezePlainPrefix(a: string, b: string, k: Class)
    requires forall i :: 0 <= i < |a| ==> !InClass(k, a[i])
    ensures Squeeze(a + b, k) == a + Squeeze(b, k)
    decreases |a|
  {
    if a != [] {
      var s := a + b;
      Seqs.TailOfAppend(a, b);
      assert SqueezeTail(s, k) == s[1..];
      assert forall i :: 0 <= i < |a[1..]| ==> !InClass(k, a[1..][i]) by {
        forall i | 0 <= i < |a[1..]| ensures !InClass(k, a[1..][i]) {
          assert a[1..][i] == a[i + 1];
        }
      }
      SqueezePlainPrefix(a[1..], b, k);
      assert Squeeze(s, k) == [a[0]] + (a[1..] + Squeeze(b, k));
      Seqs.AppendAssoc([a[0]], a[1..], Squeeze(b, k));
      Seqs.ConsTail(a);
    } else {
      assert a + b == b;
    }
  }

  /** A single replacement character followed by a plain one stays single. */
  lemma SqueezeSingleSeparator(b: string, k: Class)
    requires InClass(k, Rep(k))
    requires b == [] || !InClass(k, b[0])
    ensures Squeeze([Rep(k)] + b, k) == [Rep(k)] + Squeeze(b, k)
  {
    var s := [Rep(k)] + b;
    assert s[1..] == b;
    assert DropRun(b, k) == b;
  }

  // ---------------------------------------------------------------------
  // Folder-name sanitising
  // ---------------------------------------------------------------------

  /** `[A-Za-z0-9_-]`. */
  predicate SafeChar(c: char)
  {
    ('A' <= c <= 'Z') || ('a' <= c <= 'z') || ('0' <= c <= '9') || c == '_' || c == '-'
  }

  predicate IsEdge(c: char) { c == '-' || c == '_' }

  /** A slice keeps the characters of its text and never creates a doubled character. */
  lemma SliceKeeps(s: string, lo: nat, hi: nat, c: char)
    requires lo <= hi <= |s|
    ensures forall i :: 0 <= i < hi - lo ==> s[lo..hi][i] in s
    ensures NoDouble(s, c) ==> NoDouble(s[lo..hi], c)
  {
    var u := s[lo..hi];
    assert forall i :: 0 <= i < |u| ==> u[i] == s[lo + i];
  }

  /** `.replace(/^[-_]+|[-_]+$/g, '')`: a slice of its input without dashes or underscores at either end. */
  function TrimEdges(s: string): (r: string)
    ensures forall i :: 0 <= i < |r| ==> r[i] in s
    ensures |r| > 0 ==> !IsEdge(r[0]) && !IsEdge(r[|r| - 1])
    ensures NoDouble(s, '-') ==> NoDouble(r, '-')
  {
    var e := TrimEndBy(s, IsEdge);
    var u := TrimStartBy(e, IsEdge);
    assert e == s[..|e|];
    assert u == e[|e| - |u|..];
    assert u == s[|e| - |u|..|e|];
    SliceKeeps(s, |e| - |u|, |e|, '-');
    u
  }

  /**
   * `sanitize(s)`: trimmed, white-space runs turned into one dash, unsafe
   * characters removed, dash runs collapsed and edge dashes or underscores
   * stripped.
   */
  function Sanitize(v: Value): (r: string)
    ensures AllSafe(r)
    ensures NoDouble(r, '-')
    ensures |r| > 0 ==> !IsEdge(r[0]) && !IsEdge(r[|r| - 1])
  {
    var t := SanitizeInput(v);
    CleanIsClean(t);
    Clean(t)
  }

  /** `String(s || '').trim()`. */
  function SanitizeInput(v: Value): string
  {
    Trim(ToStr(Or(v, Str(""))))
  }

  /** The steps of `sanitize` after the trim. */
  function Clean(t: string): string
  {
    TrimEdges(Squeeze(Seqs.Filter(SafeChar, Squeeze(t, Spaces)), Dashes))
  }

  lemma CleanIsClean(t: string)
    ensures var r := Clean(t);
            AllSafe(r) && NoDouble(r, '-') && (|r| > 0 ==> !IsEdge(r[0]) && !IsEdge(r[|r| - 1]))
  {
    var b := Seqs.Filter(SafeChar, Squeeze(t, Spaces));
    var c := Squeeze(b, Dashes);
    FilterSafe(Squeeze(t, Spaces));
    SqueezeSafe(b, Dashes);
    DashesSingle(b);
    TrimEdgesSafe(c);
  }

  /** After the dash runs are collapsed no two dashes are neighbours. */
  lemma DashesSingle(b: string)
    ensures NoDouble(Squeeze(b, Dashes), '-')
  {
    var c := Squeeze(b, Dashes);
    SqueezeNoAdjacent(b, Dashes);
    forall i | 0 <= i < |c| - 1 ensures !(c[i] == '-' && c[i + 1] == '-') {
      assert !(InClass(Dashes, c[i]) && InClass(Dashes, c[i + 1]));
    }
  }

  /** Stripping the edges of a safe text leaves it safe. */
  lemma TrimEdgesSafe(c: string)
    requires AllSafe(c)
    ensures AllSafe(TrimEdges(c))
  {
    var r := TrimEdges(c);
    forall i | 0 <= i < |r| ensures SafeChar(r[i]) {
      var m :| 0 <= m < |c| && c[m] == r[i];
    }
  }

  /** A name that is already clean passes through the sanitiser unchanged. */
  lemma SanitizeKeepsCleanNames(s: string)
    requires forall i :: 0 <= i < |s| ==> SafeChar(s[i])
    requires NoDouble(s, '-')
    requires |s| > 0 ==> !IsEdge(s[0]) && !IsEdge(s[|s| - 1])
    ensures Sanitize(Str(s)) == s
  {
    assert forall i :: 0 <= i < |s| ==> !IsSpace(s[i]);
    assert ToStr(Or(Str(s), Str(""))) == s;
    assert Trim(s) == s by {
      assert TrimEndBy(s, IsSpace) == s;
      assert TrimStartBy(s, IsSpace) == s;
    }
    SqueezeSingleRuns(s, Spaces);
    Seqs.FilterKeepsAll(SafeChar, s);
    SqueezeSingleRuns(s, Dashes);
    assert TrimEndBy(s, IsEdge) == s;
    assert TrimStartBy(s, IsEdge) == s;
  }

  /** Sanitising twice is sanitising once. */
  lemma SanitizeIdempotent(v: Value)
    ensures Sanitize(Str(Sanitize(v))) == Sanitize(v)
  {
    SanitizeKeepsCleanNames(Sanitize(v));
  }

  const MaxPart: nat := 20

  predicate AllSafe(s: string) { forall i :: 0 <= i < |s| ==> SafeChar(s[i]) }

  /** `trunk(s) || fallback` for a sanitised `s`: at most 20 characters, never empty. */
  function Part(s: string, fallback: string): (r: string)
    requires fallback != [] && |fallback| <= MaxPart
    ensures 0 < |r| <= MaxPart
    ensures s == [] ==> r == fallback
    ensures s != [] ==> |r| <= |s| && r == s[..|r|]
    ensures |s| <= MaxPart ==> r == (if s == [] then fallback else s)
    ensures AllSafe(s) && AllSafe(fallback) ==> AllSafe(r)
    ensures r[0] == if s == [] then fallback[0] else s[0]
  {
    var t := if |s| > MaxPart then s[..MaxPart] else s;
    if t == [] then fallback else t
  }

  const UnknownGroup: string := "Unknown-Group"
  const UnknownUser: string := "Unknown-User"
  const UnknownSoftware: string := "Unknown-Software"

  /** A group or user as the selection lists hold it. */
  datatype Entity = Entity(id: Value, name: Value)

  /** `list.find(e => String(e.id) === String(id))?.name || fallback`. */
  function NameOf(list: seq<Entity>, id: Value, fallback: string): (r: Value)
    requires fallback != []
    ensures Truthy(r)
    ensures (forall i :: 0 <= i < |list| ==> ToStr(list[i].id) != ToStr(id)) ==> r == Str(fallback)
    ensures forall i :: 0 <= i < |list| && ToStr(list[i].id) == ToStr(id)
                        && (forall j :: 0 <= j < i ==> ToStr(list[j].id) != ToStr(id)) ==>
              r == Or(list[i].name, Str(fallback))
  {
    var k := Seqs.FirstIndexWhere(list, (e: Entity) => ToStr(e.id) == ToStr(id));
    if k < |list| then Or(list[k].name, Str(fallback)) else Str(fallback)
  }

  /** A calendar day as `getFullYear`, `getMonth() + 1` and `getDate` give it. */
  datatype Date = Date(year: nat, month: nat, day: nat)

  /** `String(n).padStart(2, '0')`. */
  function Pad2(n: nat): (r: string)
    ensures |r| >= 2 && AllDigits(r)
    ensures DigitsValue(r) == n
    ensures n < 100 ==> |r| == 2
  {
    var s := NatToString(n);
    NatToStringRoundTrip(n);
    if |s| < 2 then
      var r := "0" + s;
      assert r[..|r| - 1] == "0" && DigitsValue("0") == 0;
      r
    else s
  }

  /** `YYYY-MM-DD`. */
  function DatePart(d: Date): (r: string)
    ensures forall i :: 0 <= i < |r| ==> (IsDigit(r[i]) || r[i] == '-')
  {
    NatToString(d.year) + "-" + Pad2(d.month) + "-" + Pad2(d.day)
  }

  /**
   * The date part reads back: split on its dashes it gives three digit runs
   * whose values are the year, the month and the day, the last two of two
   * digits each for a real calendar day.
   */
  lemma DatePartReadBack(d: Date)
    ensures var ps := Split(DatePart(d), '-');
            |ps| == 3 && AllDigits(ps[0]) && AllDigits(ps[1]) && AllDigits(ps[2])
            && DigitsValue(ps[0]) == d.year && DigitsValue(ps[1]) == d.month && DigitsValue(ps[2]) == d.day
            && (d.month <= 12 ==> |ps[1]| == 2) && (d.day <= 31 ==> |ps[2]| == 2)
  {
    var parts := [NatToString(d.year), Pad2(d.month), Pad2(d.day)];
    NatToStringRoundTrip(d.year);
    forall p | p in parts ensures '-' !in p {
      assert AllDigits(p);
    }
    JoinCons(parts[1], [parts[2]], "-");
    assert parts[1..] == [parts[1]] + [parts[2]];
    JoinCons(parts[0], parts[1..], "-");
    assert parts == [parts[0]] + parts[1..];
    assert Join(parts, "-") == DatePart(d);
    SplitJoin(parts, '-');
  }

  /** A placeholder part: letters and one dash, so safe and without an edge character in front. */
  predicate GoodFallback(f: string)
  {
    0 < |f| <= MaxPart && AllSafe(f) && !IsEdge(f[0])
  }

  lemma FallbacksGood()
    ensures GoodFallback(UnknownGroup) && GoodFallback(UnknownUser) && GoodFallback(UnknownSoftware)
  {
  }

  /** One part of the folder name: the value sanitised, then cut or replaced by its placeholder. */
  function NamedPart(v: Value, fallback: string): (r: string)
    requires GoodFallback(fallback)
    ensures GoodFallback(r)
    ensures Sanitize(v) == [] ==> r == fallback
    ensures Sanitize(v) != [] ==> |r| <= |Sanitize(v)| && r == Sanitize(v)[..|r|]
  {
    var s := Sanitize(v);
    Part(s, fallback)
  }

  /** The group's part: the name of the group selected by `group_id`, or the group placeholder. */
  function GroupPart(groups: seq<Entity>, form: Object): (r: string)
    ensures GoodFallback(r)
  {
    FallbacksGood();
    NamedPart(NameOf(groups, Get(form, "group_id"), UnknownGroup), UnknownGroup)
  }

  /** The user's part: the name of the user selected by `user_id`, or the user placeholder. */
  function UserPart(users: seq<Entity>, form: Object): (r: string)
    ensures GoodFallback(r)
  {
    FallbacksGood();
    NamedPart(NameOf(users, Get(form, "user_id"), UnknownUser), UnknownUser)
  }

  /** The software's part: the `software` field, or the software placeholder. */
  function SoftwarePart(form: Object): (r: string)
    ensures GoodFallback(r)
  {
    FallbacksGood();
    NamedPart(Or(Get(form, "software"), Str(UnknownSoftware)), UnknownSoftware)
  }

  /** The three name parts of the folder, each sanitised, cut to 20 characters or replaced by its placeholder. */
  function Parts(groups: seq<Entity>, users: seq<Entity>, form: Object): (r: seq<string>)
    ensures |r| == 3
    ensures GoodFallback(r[0]) && GoodFallback(r[1]) && GoodFallback(r[2])
    ensures r[0] == GroupPart(groups, form) && r[1] == UserPart(users, form) && r[2] == SoftwarePart(form)
  {
    [GroupPart(groups, form), UserPart(users, form), SoftwarePart(form)]
  }

  lemma {:induction false} JoinSafe(parts: seq<string>)
    requires forall i :: 0 <= i < |parts| ==> AllSafe(parts[i])
    ensures AllSafe(Join(parts, "_"))
    decreases |parts|
  {
    if |parts| > 1 {
      JoinSafe(parts[1..]);
      ConcatSafe(parts[0] + "_", Join(parts[1..], "_"));
    }
  }

  lemma ConcatSafe(a: string, b: string)
    requires AllSafe(a) && AllSafe(b)
    ensures AllSafe(a + b)
  {
    assert forall i :: 0 <= i < |a + b| ==> (a + b)[i] == (if i < |a| then a[i] else b[i - |a|]);
  }

  /** The collapse of underscore runs leaves a prefix without underscores, and the separator after it, alone. */
  lemma FolderShape(d: string, parts: seq<string>)
    requires forall i :: 0 <= i < |d| ==> d[i] != '_'
    requires |parts| >= 1 && |parts[0]| > 0 && parts[0][0] != '_'
    ensures Squeeze(d + "_" + Join(parts, "_"), Underscores) == d + "_" + Squeeze(Join(parts, "_"), Underscores)
  {
    var j := Join(parts, "_");
    JoinStartsWithFirst(parts, "_");
    assert j[0] == j[..|parts[0]|][0] == parts[0][0];
    SqueezePlainPrefix(d, "_" + j, Underscores);
    SqueezeSingleSeparator(j, Underscores);
    Seqs.AppendAssoc(d, "_", j);
    Seqs.AppendAssoc(d, "_", Squeeze(j, Underscores));
  }

  /** Squeezing runs into a safe replacement keeps a safe text safe. */
  lemma SqueezeSafe(s: string, k: Class)
    requires AllSafe(s) && SafeChar(Rep(k))
    ensures AllSafe(Squeeze(s, k))
  {
    SqueezeChars(s, k);
    var r := Squeeze(s, k);
    forall i | 0 <= i < |r| ensures SafeChar(r[i]) {
      if r[i] != Rep(k) {
        var m :| 0 <= m < |s| && s[m] == r[i];
      }
    }
  }

  /** The kept characters of a filter by `SafeChar` are safe. */
  lemma FilterSafe(a: string)
    ensures AllSafe(Seqs.Filter(SafeChar, a))
  {
    var b := Seqs.Filter(SafeChar, a);
    forall i | 0 <= i < |b| ensures SafeChar(b[i]) {
      assert b[i] in b;
    }
  }

  /** The unsqueezed folder name is safe: the date, an underscore and the safe parts. */
  lemma FullNameSafe(d: string, parts: seq<string>)
    requires forall i :: 0 <= i < |d| ==> (IsDigit(d[i]) || d[i] == '-')
    requires forall i :: 0 <= i < |parts| ==> AllSafe(parts[i])
    ensures AllSafe(d + "_" + Join(parts, "_"))
  {
    JoinSafe(parts);
    assert AllSafe(d + "_") by {
      assert forall i :: 0 <= i < |d| ==> (d + "_")[i] == d[i];
    }
    ConcatSafe(d + "_", Join(parts, "_"));
  }

  lemma GoodPartsSafe(parts: seq<string>)
    requires |parts| == 3 && GoodFallback(parts[0]) && GoodFallback(parts[1]) && GoodFallback(parts[2])
    ensures forall i :: 0 <= i < |parts| ==> AllSafe(parts[i])
    ensures parts[0][0] != '_'
  {
  }

  /** `${date}_${parts.join('_')}` with underscore runs collapsed. */
  function JoinFolder(d: string, parts: seq<string>): (r: string)
    requires forall i :: 0 <= i < |d| ==> (IsDigit(d[i]) || d[i] == '-')
    requires |parts| >= 1 && |parts[0]| > 0 && parts[0][0] != '_'
    requires forall i :: 0 <= i < |parts| ==> AllSafe(parts[i])
    ensures r == d + "_" + Squeeze(Join(parts, "_"), Underscores)
    ensures NoDouble(r, '_')
    ensures AllSafe(r)
  {
    var full := d + "_" + Join(parts, "_");
    FullNameSafe(d, parts);
    FolderShape(d, parts);
    SqueezeSafe(full, Underscores);
    SqueezeNoAdjacent(full, Underscores);
    Squeeze(full, Underscores)
  }

  /**
   * `generateSuggestedPath()`: the date, an underscore and the three parts
   * joined by underscores, with no doubled underscore and only safe characters.
   */
  function SuggestedFolder(date: Date, groups: seq<Entity>, users: seq<Entity>, form: Object): (r: string)
    ensures StartsWith(r, DatePart(date) + "_")
    ensures r[|DatePart(date)| + 1..] == Squeeze(Join(Parts(groups, users, form), "_"), Underscores)
    ensures NoDouble(r, '_')
    ensures AllSafe(r)
  {
    var parts := Parts(groups, users, form);
    GoodPartsSafe(parts);
    JoinFolder(DatePart(date), parts)
  }

  /** A placeholder is itself a clean name: no doubled dash, no edge character at the end. */
  predicate CleanFallback(f: string)
  {
    GoodFallback(f) && NoDouble(f, '-') && !IsEdge(f[|f| - 1])
  }

  lemma FallbacksClean()
    ensures CleanFallback(UnknownGroup) && CleanFallback(UnknownUser) && CleanFallback(UnknownSoftware)
  {
    FallbacksGood();
  }

  /** A clean placeholder given as the value comes back as itself. */
  lemma PlaceholderPart(f: string)
    requires CleanFallback(f)
    ensures NamedPart(Str(f), f) == f
  {
    SanitizeKeepsCleanNames(f);
  }

  /** Nothing to look up: the folder falls back to the three placeholders. */
  lemma EmptySelectionsParts()
    ensures Parts([], [], map[]) == [UnknownGroup, UnknownUser, UnknownSoftware]
  {
    FallbacksClean();
    var none: Object := map[];
    assert NameOf([], Get(none, "group_id"), UnknownGroup) == Str(UnknownGroup);
    assert NameOf([], Get(none, "user_id"), UnknownUser) == Str(UnknownUser);
    assert Or(Get(none, "software"), Str(UnknownSoftware)) == Str(UnknownSoftware);
    PlaceholderPart(UnknownGroup);
    PlaceholderPart(UnknownUser);
    PlaceholderPart(UnknownSoftware);
  }

  // ---------------------------------------------------------------------
  // Validation
  // ---------------------------------------------------------------------

  const TypeError: string := "TypeError"

  /** `!v || v.trim() === ''`; `trim` on a truthy non-string throws. */
  function Blank(v: Value): (r: Result<bool, string>)
    ensures r == Ok(false) <==> v.Str? && !IsBlank(v.s)
    ensures r.Err? <==> Truthy(v) && !v.Str?
  {
    if !Truthy(v) then Ok(true)
    else if v.Str? then Ok(IsBlank(v.s))
    else Err(TypeError)
  }

  const Placeholder: Value := Str("New Project")

  function Flag(bad: bool, key: string): (r: seq<string>)
    ensures |r| == if bad then 1 else 0
  {
    if bad then [key] else []
  }

  /** The keys of `errors` after `validateStep1`, in insertion order, or the exception. */
  function Step1Errors(form: Object): (r: Result<seq<string>, string>)
    ensures r == Ok([]) <==>
              (Blank(Get(form, "name")) == Ok(false) && Get(form, "name") != Placeholder
               && Blank(Get(form, "description")) == Ok(false)
               && Blank(Get(form, "software")) == Ok(false)
               && Truthy(Get(form, "group_id")) && Truthy(Get(form, "user_id")))
  {
    var name, description, software := Blank(Get(form, "name")), Blank(Get(form, "description")), Blank(Get(form, "software"));
    if name.Err? then Err(name.error)
    else if description.Err? then Err(description.error)
    else if software.Err? then Err(software.error)
    else
      var keys := Flag(name.value || Get(form, "name") == Placeholder, "name")
                  + Flag(description.value, "description")
                  + Flag(software.value, "analysis_software")
                  + Flag(!Truthy(Get(form, "group_id")), "group_id")
                  + Flag(!Truthy(Get(form, "user_id")), "user_id");
      assert keys == [] <==> |keys| == 0;
      Ok(keys)
  }

  predicate Step1Valid(form: Object) { Step1Errors(form) == Ok([]) }

  /** `validateStep2`: a parent folder must be chosen. */
  function Step2Errors(form: Object): (r: Result<seq<string>, string>)
    ensures r == Ok([]) <==> Blank(Get(form, "project_path")) == Ok(false)
    ensures r.Ok? && r.value != [] ==> r.value == ["project_path"]
  {
    match Blank(Get(form, "project_path"))
    case Err(e) => Err(e)
    case Ok(b) => Ok(if b then ["project_path"] else [])
  }

  predicate Step2Valid(form: Object) { Step2Errors(form) == Ok([]) }

  lemma AllFlags()
    ensures Flag(true, "name") + Flag(true, "description") + Flag(true, "analysis_software")
            + Flag(true, "group_id") + Flag(true, "user_id")
            == ["name", "description", "analysis_software", "group_id", "user_id"]
  {
  }

  /** Placeholder name, empty texts and no ids: every field is reported, in the order the checks run. */
  lemma UntouchedFormFlagsAll(form: Object)
    requires Get(form, "name") == Placeholder
    requires Get(form, "description") == Str("") && Get(form, "software") == Str("")
    requires Get(form, "group_id") == Str("") && Get(form, "user_id") == Str("")
    ensures Step1Errors(form) == Ok(["name", "description", "analysis_software", "group_id", "user_id"])
  {
    AllFlags();
    assert Blank(Get(form, "name")).Ok? && Blank(Str("")) == Ok(true);
    assert Step1Errors(form) == Ok(Flag(true, "name") + Flag(true, "description") + Flag(true, "analysis_software")
                                   + Flag(true, "group_id") + Flag(true, "user_id"));
  }

  /** The wizard's initial form fails every check of the first step, the name because it is the placeholder. */
  lemma InitialFormFailsStep1()
    ensures Step1Errors(InitialForm) == Ok(["name", "description", "analysis_software", "group_id", "user_id"])
  {
    assert Get(InitialForm, "name") == Placeholder;
    assert Get(InitialForm, "description") == Str("");
    assert Get(InitialForm, "software") == Str("");
    assert Get(InitialForm, "group_id") == Str("");
    assert Get(InitialForm, "user_id") == Str("");
    UntouchedFormFlagsAll(InitialForm);
  }

  /** The fields of a form as the project details panel checks them. */
  function AsInfo(form: Object): ProjectDetails.Info
  {
    ProjectDetails.Info(Get(form, "name"), Get(form, "description"), Get(form, "software"),
                        Get(form, "group_id"), Get(form, "group_name"), Get(form, "user_id"), Get(form, "user_name"))
  }

  /**
   * A form that passes the first step has enough information for a folder,
   * provided the chosen ids are not white space only (step 1 only asks them
   * to be truthy, the details panel trims them).
   */
  lemma Step1GivesAdequateInfo(form: Object)
    requires Step1Valid(form)
    requires !IsBlank(ToStr(Get(form, "group_id"))) && !IsBlank(ToStr(Get(form, "user_id")))
    ensures ProjectDetails.HasAdequateInfo(Some(AsInfo(form)))
  {
  }

  /** A white-space group id passes the first step although the details panel rejects it as a group. */
  lemma BlankIdPassesStep1(form: Object)
    requires Step1Valid(form) && Get(form, "group_id") == Str(" ")
    ensures !ProjectDetails.NonBlank(Get(form, "group_id"))
  {
    assert AllIn(" ", IsSpace);
  }

  // ---------------------------------------------------------------------
  // Payload and draft
  // ---------------------------------------------------------------------

  const InitialForm: Object := map[
    "name" := Str("New Project"), "description" := Str(""), "software" := Str(""),
    "output_type" := Str(""), "sample_type" := Str("[]"), "image_types" := Str("[]"),
    "analysis_goal" := Str("[]"), "project_path" := Str(""), "group_id" := Str(""),
    "user_id" := Str(""), "expected_hours" := Num(8), "status" := Str("Intake")]

  const NullDefaulted: set<string> := {"software", "output_type", "project_path", "readme_last_updated",
    "user_id", "image_types", "sample_type", "objective_magnification", "analysis_goal"}

  const PayloadKeys: set<string> := NullDefaulted + {"name", "description", "status", "time_spent_minutes",
    "folder_created", "start_date"}

  /** The value `buildPayload` gives one key of the payload. */
  function PayloadValue(data: Object, k: string, today: string): Value
  {
    if k == "time_spent_minutes" then Num(0)
    else if k == "status" then Or(Get(data, k), Str("Intake"))
    else if k == "folder_created" then Or(Get(data, k), Bool(false))
    else if k == "start_date" then Or(Get(data, k), Str(today))
    else if k in NullDefaulted then Or(Get(data, k), Null)
    else Get(data, k)
  }

  /** `buildPayload(data)`; `today` is the ISO date of the clock. */
  function BuildPayload(data: Object, today: string): (p: Object)
    ensures p.Keys == PayloadKeys
    ensures forall k :: k in PayloadKeys && Truthy(Get(data, k)) && k != "time_spent_minutes" ==> p[k] == Get(data, k)
    ensures forall k :: k in NullDefaulted && !Truthy(Get(data, k)) ==> p[k] == Null
  {
    var p := map k | k in PayloadKeys :: PayloadValue(data, k, today);
    assert forall k :: k in PayloadKeys && Truthy(Get(data, k)) && k != "time_spent_minutes" ==> p[k] == Get(data, k) by {
      forall k | k in PayloadKeys && Truthy(Get(data, k)) && k != "time_spent_minutes" ensures p[k] == Get(data, k) {
        PayloadValueTruthy(data, k, today);
      }
    }
    assert forall k :: k in NullDefaulted && !Truthy(Get(data, k)) ==> p[k] == Null by {
      forall k | k in NullDefaulted && !Truthy(Get(data, k)) ensures p[k] == Null {
        PayloadValueFalsy(data, k, today);
      }
    }
    p
  }

  /** A truthy value is forwarded as it is, except the minutes, which always start at 0. */
  lemma PayloadValueTruthy(data: Object, k: string, today: string)
    requires Truthy(Get(data, k)) && k != "time_spent_minutes"
    ensures PayloadValue(data, k, today) == Get(data, k)
  {
  }

  /** A falsy nullable value is sent as null. */
  lemma PayloadValueFalsy(data: Object, k: string, today: string)
    requires k in NullDefaulted && !Truthy(Get(data, k))
    ensures PayloadValue(data, k, today) == Null
  {
    assert k != "time_spent_minutes" && k != "status" && k != "folder_created" && k != "start_date";
  }

  /** The fixed and defaulted fields: no time spent, the name and description as given, status Intake when unset. */
  lemma PayloadDefaults(data: Object, today: string)
    ensures var p := BuildPayload(data, today);
            p["time_spent_minutes"] == Num(0)
            && p["name"] == Get(data, "name") && p["description"] == Get(data, "description")
            && p["status"] == Or(Get(data, "status"), Str("Intake"))
            && p["start_date"] == Or(Get(data, "start_date"), Str(today))
            && p["folder_created"] == Or(Get(data, "folder_created"), Bool(false))
  {
  }

  /** The initial form becomes a draft in status Intake with no software. */
  lemma InitialPayload(today: string)
    ensures BuildPayload(InitialForm, today)["status"] == Str("Intake")
    ensures BuildPayload(InitialForm, today)["software"] == Null
  {
    assert Get(InitialForm, "status") == Str("Intake");
    assert Get(InitialForm, "software") == Str("");
    PayloadDefaults(InitialForm, today);
  }

  /** The request `saveDraft` sends. */
  datatype Call = Create(payload: Object) | Update(id: nat, payload: Object)

  /** The backend's answer to one save: the id of the row it returns, or a failure. */
  datatype Reply = Saved(id: nat) | Failed

  datatype Saving = Saving(call: Call, draft: Option<nat>)

  /**
   * `saveDraft(data)`, given the payload `buildPayload(data)`: create when
   * there is no draft yet, else update it; a successful answer becomes the
   * draft, a failure leaves it as it was.
   */
  function SaveDraft(draft: Option<nat>, payload: Object, reply: Reply): (r: Saving)
    ensures draft.Some? ==> r.call == Update(draft.value, payload)
    ensures draft.None? ==> r.call == Create(payload)
    ensures reply.Failed? ==> r.draft == draft
    ensures reply.Saved? ==> r.draft == Some(reply.id)
  {
    var call := if draft.Some? then Update(draft.value, payload) else Create(payload);
    Saving(call, if reply.Saved? then Some(reply.id) else draft)
  }

  /** Saves of the same form in a row: the calls issued and the final draft. */
  function SaveAll(draft: Option<nat>, payload: Object, replies: seq<Reply>): (r: (seq<Call>, Option<nat>))
    ensures |r.0| == |replies|
    ensures draft.Some? && (forall i :: 0 <= i < |replies| ==> replies[i] == Saved(draft.value)) ==>
              forall i :: 0 <= i < |r.0| ==> r.0[i].Update? && r.0[i].id == draft.value
    decreases |replies|
  {
    if replies == [] then ([], draft)
    else
      var s := SaveDraft(draft, payload, replies[0]);
      var rest := SaveAll(s.draft, payload, replies[1..]);
      assert forall i :: 1 <= i < |replies| ==> replies[1..][i - 1] == replies[i];
      ([s.call] + rest.0, rest.1)
  }

  /** The k-th call of a run of saves: the first save's call, then the calls of the remaining saves. */
  lemma SaveAllAt(draft: Option<nat>, payload: Object, replies: seq<Reply>, k: nat)
    requires k < |replies|
    ensures var s := SaveDraft(draft, payload, replies[0]);
            SaveAll(draft, payload, replies).0[k] ==
              if k == 0 then s.call else SaveAll(s.draft, payload, replies[1..]).0[k - 1]
  {
  }

  /** Once a create has succeeded, every later save is an update. */
  lemma {:induction false} CreateAtMostOnce(draft: Option<nat>, payload: Object, replies: seq<Reply>, i: nat, j: nat)
    requires i < j < |replies|
    requires SaveAll(draft, payload, replies).0[i].Create? && replies[i].Saved?
    ensures SaveAll(draft, payload, replies).0[j].Update?
    decreases |replies|
  {
    var s := SaveDraft(draft, payload, replies[0]);
    SaveAllAt(draft, payload, replies, i);
    SaveAllAt(draft, payload, replies, j);
    if i == 0 {
      LaterCallsUpdate(s.draft, payload, replies[1..], j - 1);
    } else {
      assert replies[1..][i - 1] == replies[i];
      CreateAtMostOnce(s.draft, payload, replies[1..], i - 1, j - 1);
    }
  }

  lemma {:induction false} LaterCallsUpdate(draft: Option<nat>, payload: Object, replies: seq<Reply>, j: nat)
    requires draft.Some? && j < |replies|
    ensures SaveAll(draft, payload, replies).0[j].Update?
    decreases |replies|
  {
    var s := SaveDraft(draft, payload, replies[0]);
    SaveAllAt(draft, payload, replies, j);
    if j > 0 {
      LaterCallsUpdate(s.draft, payload, replies[1..], j - 1);
    }
  }

  // ---------------------------------------------------------------------
  // Step machine
  // ---------------------------------------------------------------------

  datatype State = State(step: nat, form: Object, draft: Option<nat>)

  /** Editing a field, Next (with the backend's answer to the draft save) and Back. */
  datatype Event = Edit(field: string, value: Value) | Next(reply: Reply) | Back

  const Start: State := State(1, InitialForm, None)

  predicate Valid(s: State)
  {
    1 <= s.step <= 3 && (s.step >= 2 ==> s.draft.Some?)
  }

  /**
   * One event: `handleInputChange`, `handleNextStep` (shown below step 3;
   * a throwing validation leaves the state) and the Back button (shown above
   * step 1).
   */
  function Step(s: State, e: Event, today: string): (r: State)
    requires Valid(s)
    ensures Valid(r)
    ensures r.step == s.step + 1 ==>
              (e.Next? && (s.step == 1 ==> Step1Valid(s.form) && e.reply.Saved?) && (s.step == 2 ==> Step2Valid(s.form)))
    ensures r.step < s.step ==> e == Back && r.step == s.step - 1
    ensures r.step == s.step || r.step == s.step + 1 || r.step == s.step - 1
    ensures e.Edit? ==> r == s.(form := s.form[e.field := e.value])
    ensures e == Back && s.step > 1 ==> r == s.(step := s.step - 1)
    ensures e == Back && s.step == 1 ==> r == s
    ensures e.Next? && s.step == 1 && Step1Valid(s.form) && e.reply.Saved? ==>
              r == State(2, s.form, Some(e.reply.id))
    ensures e.Next? && s.step == 1 && Step1Valid(s.form) && e.reply.Failed? ==> r == s
    ensures e.Next? && s.step == 1 && !Step1Valid(s.form) ==> r == s
    ensures e.Next? && s.step == 2 && Step2Valid(s.form) ==> r == s.(step := 3)
    ensures e.Next? && s.step == 2 && !Step2Valid(s.form) ==> r == s
    ensures e.Next? && s.step == 3 ==> r == s
  {
    match e
    case Edit(f, v) => s.(form := s.form[f := v])
    case Back => if s.step > 1 then s.(step := s.step - 1) else s
    case Next(reply) =>
      if s.step == 1 then
        if Step1Valid(s.form) then
          var saved := SaveDraft(s.draft, BuildPayload(s.form, today), reply);
          if reply.Saved? then State(2, s.form, saved.draft) else s.(draft := saved.draft)
        else s
      else if s.step == 2 then
        if Step2Valid(s.form) then s.(step := 3) else s
      else s
  }

  function Run(s: State, es: seq<Event>, today: string): (r: State)
    requires Valid(s)
    ensures Valid(r)
    decreases |es|
  {
    if es == [] then s else Run(Step(s, es[0], today), es[1..], today)
  }

  /** Once a draft exists no later event loses it, so every later save updates that draft. */
  lemma {:induction false} DraftKept(s: State, es: seq<Event>, today: string)
    requires Valid(s) && s.draft.Some?
    ensures Run(s, es, today).draft.Some?
    decreases |es|
  {
    if es != [] {
      DraftKept(Step(s, es[0], today), es[1..], today);
    }
  }

  /** From the start, no sequence of Back presses leaves step 1. */
  lemma {:induction false} BackAtStartStays(n: nat, today: string)
    ensures Run(Start, seq(n, _ => Back), today) == Start
    decreases n
  {
    if n > 0 {
      assert seq(n, _ => Back)[1..] == seq(n - 1, _ => Back);
      BackAtStartStays(n - 1, today);
    }
  }
}
